=== FILE: README.md ===
# Quiz-corpus pipeline in Dafny

This project models the core of a quiz-corpus pipeline. Noisy text extracted from a
PDF or an HTML export is cut into chunks. Each chunk is sent to an external corrector
(Gemini). The corrected chunks are merged into one corpus file, and that file is then
validated and deduplicated. The corpus grammar is simple:
- records are separated by a blank line (`"\n\n"`);
- the first line of a record is the question;
- option lines start with `A.`–`E.`;
- the answer follows `;;`.

Everything is modelled as pure functions over `seq<string>`, plus two loop methods:
the chunk window walk (`SplitChunks.SplitLines`, `SplitChunks.FindEnd`).

| file | module | models |
|---|---|---|
| text.dfy | `Text` | string primitives: ASCII case mapping, `strip`, whitespace collapsing, `find`, `split`/`join` with their round trip, zero-padded numbers |
| files.dfy | `Files` | directory listings as `Missing` or a sequence of named entries, lexicographic name order, sorting, name filters, the blank-line merge all merge tools share |
| cards.dfy | `Cards` | the flashcard layout both extractors write, and reading it back |
| answer_checker.dfy | `AnswerChecker` | the placeholder dictionary, `is_multi_answer`, the `check_answer_issues` chain |
| answer_examples.dfy | `AnswerExamples` | concrete `is_multi_answer` verdicts |
| answer_parser.dfy | `AnswerParser` | the answer checker's `parse_qa_file` |
| answer_report.dfy | `AnswerReport` | the issue routing and counts of `generate_report` |
| placeholder_fix.dfy | `PlaceholderFix` | `fix_placeholder_options` |
| duplicate_checker.dfy | `DuplicateChecker` | `clean_text`, the duplicate checker's own parser, exact and near-duplicate grouping, answer consistency, the report, `create_cleaned_file` |
| split_chunks.dfy | `SplitChunks` | `split_raw_text_data` windows and cut points, chunk names, `merge_chunks` |
| manual_merge.dfy | `ManualMerge` | the stand-alone `merge_corrected_chunks` with its fallback |
| gemini_corrector.dfy | `GeminiCorrector` | the prompt, the retry loop, the per-chunk counters and pacing, the corrector's merge |
| workflow.dfy | `Workflow` | step gating of `run_full_workflow`, the success conditions of steps 3–6, the choice in `step7_finalize` |
| retrieve_pdf.dfy | `RetrievePdf` | the PDF extractor's `clean_text`, line grouping, option assembly, `format_qa_pairs` |
| retrieve_html.dfy | `RetrieveHtml` | the HTML extractor's `clean_text`, paragraph grouping, answer lookup, `format_qa_pairs` |

Outside effects are parameters:
- The Gemini service is an oracle from (call number, chunk) to a reply. A reply is a text (possibly empty) or a raised error.
- Sleeps are events in a trace.
- A directory is either missing or a listing of (name, content) entries.
- Which files exist is a set of names.
- The similarity ratio is an uninterpreted function into the reals.
- The fallback confirmation of the merge tool is the user's reply string.

## Model

| member | source | states |
|---|---|---|
| AnswerChecker.DefaultWellShaped | src/utils/answer_checker.py:11-28 | every pattern of the built-in placeholder dictionary is lower-case, has no edge whitespace and is at least three characters long, which the other placeholder facts rely on |
| AnswerChecker.PlaceholderAnswerIffOption | src/utils/answer_checker.py:190-232 | the answer test and the option test of the placeholder dictionary give the same verdict on every text: stripping before the search never matters |
| AnswerChecker.ShortTextNoPlaceholder | src/utils/answer_checker.py:200-210 | a text shorter than three characters once lower-cased and stripped is never a placeholder |
| AnswerChecker.Letters | src/utils/answer_checker.py:524 | the extracted letters are option letters, and there are no more of them than characters |
| AnswerChecker.LettersAppend | src/utils/answer_checker.py:524 | letter extraction distributes over concatenation, so letters keep their order |
| AnswerChecker.LettersCountTwo | src/utils/answer_checker.py:524-528 | two option letters at different positions give at least two extracted letters, so the length guard does not reject them |
| AnswerChecker.FromFirst | src/utils/answer_checker.py:539 | the suffix from the first occurrence of the character: a suffix that starts with it, with no earlier occurrence before it |
| AnswerChecker.FromFirstIsFind | src/utils/answer_checker.py:539 | that suffix is the slice from the position `find` reports |
| AnswerChecker.FirstLetterAtStart | src/utils/answer_checker.py:532-537 | the first extracted letter is found at position 0 exactly when the upper-cased answer opens with an option letter |
| AnswerChecker.MultiAnswerIff | src/utils/answer_checker.py:520-554 | an answer is a multi-answer exactly when the letter-pair pattern occurs and the explanation exemption does not apply; the letter-count guard adds nothing |
| AnswerChecker.MultiAnswerHasLetters | src/utils/answer_checker.py:138-142 | a multi-answer always yields at least two letters, so the "No valid answers found in multi-answer" branch cannot be reached |
| AnswerChecker.OptionInitialsMembership | src/utils/answer_checker.py:134 | a character is an option initial exactly when some non-empty option starts with it |
| AnswerChecker.MultiMismatchesIff | src/utils/answer_checker.py:144-148 | a multi-answer letter is reported as naming no option exactly when it is one of the answer's letters and no option starts with it |
| AnswerChecker.MultiMismatches | src/utils/answer_checker.py:144-148 | one issue per multi-answer letter that names no option, each naming that letter, never more issues than letters |
| AnswerChecker.AnswerIssues | src/utils/answer_checker.py:119-170 | the answer chain reports at most one issue except for a multi-answer, and reports "Missing answer" exactly for an absent or blank answer |
| AnswerChecker.LetterIssues | src/utils/answer_checker.py:177-181 | an option gets "doesn't start with letter" exactly when it lacks an `A.`–`E.` prefix, and the issue names that option and its position |
| AnswerChecker.PlaceholderIssues | src/utils/answer_checker.py:184-186 | an option gets "has placeholder" exactly when the dictionary matches it, and the issue names that option and its position |
| AnswerChecker.MissingAnswerIff | src/utils/answer_checker.py:119-120 | "Missing answer" is reported exactly when the answer is absent or blank |
| AnswerChecker.MissingAnswerSingleIssue | src/utils/answer_checker.py:119-170 | a missing or blank answer gives exactly one answer issue, first in the list; everything after it is about the options |
| AnswerChecker.OptionIssueSource | src/utils/answer_checker.py:101-188 | an issue about the options is reported exactly when one of the three option checks reports it; the answer chain never does |
| AnswerChecker.TooFewOptionsIff | src/utils/answer_checker.py:173-174 | the count issue appears exactly when fewer than four options were parsed, with that count, whatever the answer |
| AnswerChecker.OptionWithoutLetterIff | src/utils/answer_checker.py:177-181 | "doesn't start with letter" is reported for option `i` exactly when it lacks the `A.`–`E.` prefix |
| AnswerChecker.PlaceholderOptionIff | src/utils/answer_checker.py:184-186 | "has placeholder" is reported for option `i` exactly when the dictionary matches it |
| AnswerChecker.SingleCharacterVerdict | src/utils/answer_checker.py:131-135 | a one-character answer is an invalid format exactly when its upper case is not `A`–`E`, is a mismatch exactly when it is but starts no option, and has no other answer issue |
| AnswerExamples.MultiExampleTwoLetters | src/utils/answer_checker.py:548-552 | `A B` is a multi-answer |
| AnswerExamples.MultiExampleExplained | src/utils/answer_checker.py:535-546 | `A (foo) B (bar)` is not a multi-answer, because membership is tested by letter value after the first `(` |
| AnswerExamples.MultiExampleSingle | src/utils/answer_checker.py:527-528 | `B` alone is not a multi-answer: one letter fails the letter-count guard |
| AnswerParser.OptionPartKeepsLetter | src/utils/answer_checker.py:67-71 | the part of an option line before its first `;;`, once stripped, still starts with the option prefix |
| AnswerParser.ScanLine | src/utils/answer_checker.py:65-79 | one line adds an option exactly when it is an option line, and the options collected before it are kept unchanged |
| AnswerParser.ScanBody | src/utils/answer_checker.py:65-79 | every collected option starts with `A.`–`E.`, and the recorded answer line lies inside the block |
| AnswerParser.ScanOptions | src/utils/answer_checker.py:65-75 | the scan collects exactly the option texts of the option lines, in order |
| AnswerParser.LastInline | src/utils/answer_checker.py:67-73 | the position of the last option line carrying `;;`, or none when no option line carries it |
| AnswerParser.FirstSeparate | src/utils/answer_checker.py:76-79 | the position of the first non-option line carrying `;;`, or none when no such line exists |
| AnswerParser.ScanAnswerSource | src/utils/answer_checker.py:65-79 | the answer and its line come from the last option line with `;;` when there is one (each such line overwrites), else from the first separate `;;` line, else the answer stays unset |
| AnswerParser.ParseBlock | src/utils/answer_checker.py:55-93 | a record's question is the block's stripped first line, its options are exactly the option lines after it, its answer is the one the line scan settles on, and its issues are those the answer check reports for these options and answer |
| AnswerParser.KeptFrom | src/utils/answer_checker.py:50-57 | only kept blocks are listed, in ascending position |
| AnswerParser.KeptFromComplete | src/utils/answer_checker.py:50-57 | every kept block is listed |
| AnswerParser.ParseQaFile | src/utils/answer_checker.py:44-99 | each record is the parse of a kept block of the blank-line split, numbered by that block's position, with indices strictly increasing (so gaps are possible) |
| AnswerParser.ParseQaFileRecords | src/utils/answer_checker.py:48-57 | a block gets a record exactly when it is non-blank and has at least five lines |
| AnswerParser.ParsedOptionsHaveLetters | src/utils/answer_checker.py:177-181 | a parsed record never carries "doesn't start with letter", because the same prefix test gates both |
| AnswerReport.CategoriseIsFirstMatch | src/utils/answer_checker.py:266-286 | the if/elif routing of an issue text is the first match in the ordered marker table |
| AnswerReport.Bucket | src/utils/answer_checker.py:266-286 | a category's list holds only records of the input |
| AnswerReport.BucketMembership | src/utils/answer_checker.py:266-286 | a record is in a category's list exactly when it is a record of the input with an issue routed to that category |
| AnswerReport.CountsCover | src/utils/answer_checker.py:266-286 | the per-category counts of an issue list add up to its length |
| AnswerReport.RoutingConserves | src/utils/answer_checker.py:266-286 | routing neither loses nor duplicates an issue: the category lists together hold one entry per issue |
| AnswerReport.RoutedRecordListed | src/utils/answer_checker.py:266-286 | a record with an issue appears in the list of that issue's category |
| AnswerReport.ListedHasIssues | src/utils/answer_checker.py:266-289 | a non-empty category list means that some record has an issue |
| AnswerReport.WithIssuesExtremes | src/utils/answer_checker.py:289-290 | no record counts as having issues exactly when every record is clean, and every record counts exactly when none is clean |
| AnswerReport.BreakdownOf | src/utils/answer_checker.py:298-331 | a category's entry counts its whole list and samples its first entries, at most ten, each a record of the input with an issue routed to that category |
| AnswerReport.GenerateReport | src/utils/answer_checker.py:248-332 | no records gives the error result; otherwise the total is the record count, records with and without issues add up to it, and every category gets its breakdown |
| AnswerReport.BreakdownCountsIssues | src/utils/answer_checker.py:266-331 | the breakdown counts add up to the number of issues, not the number of records: a record counts once per issue |
| AnswerReport.MissingAnswerRouted | src/utils/answer_checker.py:266-270 | the missing-answer issue lands among the missing answers |
| AnswerReport.QuestionMarkRouted | src/utils/answer_checker.py:269-272 | the question-mark issue lands among the question-mark answers |
| AnswerReport.TooFewOptionsRouted | src/utils/answer_checker.py:281-284 | the count issue lands among the malformed options, for every count |
| AnswerReport.RoutedMalformed | src/utils/answer_checker.py:269-284 | a text with "options found" and none of the earlier markers is a malformed-options issue |
| AnswerReport.LongAnswerMisrouted | src/utils/answer_checker.py:266-270 | a long answer that itself starts with "Missing answer" is counted among the missing answers, because routing matches substrings of the rendered issue |
| PlaceholderFix.FixedLines | src/utils/answer_checker.py:460-498 | the first line is kept untested, followed by one line per surviving body line |
| PlaceholderFix.FixBlock | src/utils/answer_checker.py:451-458 | a blank segment writes nothing, and a segment with fewer than five lines is written unchanged with nothing removed |
| PlaceholderFix.KeptPlusRemoved | src/utils/answer_checker.py:465-487 | every body line is either kept or counted as removed |
| PlaceholderFix.KeptAppend | src/utils/answer_checker.py:465-487 | keeping distributes over concatenation, so kept lines stay in order |
| PlaceholderFix.KeptMembership | src/utils/answer_checker.py:465-487 | a line survives exactly when it is not a placeholder line, and survivors are verbatim body lines |
| PlaceholderFix.AnswerKept | src/utils/answer_checker.py:489-494 | when an answer was seen and some line survives, the fixed block still carries a `;;` answer |
| PlaceholderFix.FixedLinesShape | src/utils/answer_checker.py:489-498 | every surviving line is written verbatim except exactly one case: the last survivor gets `;;answer` when an answer was seen, it is not empty, and no survivor holds the mark |
| PlaceholderFix.FixPairsMeaning | src/utils/answer_checker.py:451-498 | the fixed segments are the non-blank segments, each fixed on its own and kept in order, and `fixed_count` is the number of lines the long segments lose |
| PlaceholderFix.FixPlaceholderOptionsMeaning | src/utils/answer_checker.py:443-498 | the output is the fixed non-blank segments of the stripped content joined by blank lines, and the count is the lines they lose |
| DuplicateChecker.KeepWordOrSpaceChars | src/utils/duplicate_checker.py:33 | exactly the word and whitespace characters of the input survive |
| DuplicateChecker.CleanText | src/utils/duplicate_checker.py:30-36 | a normalised text holds only lower-case word characters and spaces |
| DuplicateChecker.CleanTextFixes | src/utils/duplicate_checker.py:30-36 | normalisation leaves a text already in normal form unchanged |
| DuplicateChecker.CleanTextNotIdempotent | src/utils/duplicate_checker.py:30-36 | normalisation is not idempotent: `a . b` becomes `a  b`, which a second pass changes to `a b` |
| DuplicateChecker.DupParseBlock | src/utils/duplicate_checker.py:72-108 | a record keeps the block's position and stripped text, has a question, at least four options and a non-empty answer |
| DuplicateChecker.DupKeptFrom | src/utils/duplicate_checker.py:72-99 | only blocks this parser keeps are listed, in ascending position |
| DuplicateChecker.DupKeptFromComplete | src/utils/duplicate_checker.py:72-99 | every block this parser keeps is listed |
| DuplicateChecker.DupParseQaFile | src/utils/duplicate_checker.py:63-113 | each record is the parse of a kept block of the blank-line split, numbered by that block's position, in order |
| DuplicateChecker.DupParseQaFileRecords | src/utils/duplicate_checker.py:72-99 | a block gets a record exactly when it has a question and at least four options |
| DuplicateChecker.DupRecordAgreesWithQaRecord | src/utils/duplicate_checker.py:81-105 | a block this parser keeps is also kept by the answer checker's parser, with the same question, options and text, and `?` where that one has no answer |
| DuplicateChecker.Positions | src/utils/duplicate_checker.py:179-183 | only positions holding the key are listed, ascending |
| DuplicateChecker.PositionsComplete | src/utils/duplicate_checker.py:179-183 | every position holding the key is listed |
| DuplicateChecker.FirstOccurrences | src/utils/duplicate_checker.py:184-192 | only first occurrences of their key are listed, ascending, which is the dictionary's insertion order |
| DuplicateChecker.FirstOccurrencesComplete | src/utils/duplicate_checker.py:184-192 | every first occurrence is listed |
| DuplicateChecker.FirstOccurrencesCover | src/utils/duplicate_checker.py:184-192 | every key has its first occurrence listed |
| DuplicateChecker.FirstOccurrencesDistinct | src/utils/duplicate_checker.py:184-192 | the listed keys are pairwise different |
| DuplicateChecker.ExactGroupsOf | src/utils/duplicate_checker.py:173-195 | each group has at least two members, which are all the positions of its key, and its id is 1 because the id list is never appended to |
| DuplicateChecker.ExactGroupShape | src/utils/duplicate_checker.py:173-195 | each exact group has id 1 and at least two records, all with its normalised question, in input order |
| DuplicateChecker.ExactGroupMembership | src/utils/duplicate_checker.py:173-195 | a record is in an exact group exactly when another record has the same normalised question |
| DuplicateChecker.ExactGroupsDisjoint | src/utils/duplicate_checker.py:173-195 | no two exact groups share a normalised question |
| DuplicateChecker.Gather | src/utils/duplicate_checker.py:135-143 | the inner loop takes only later unprocessed positions at least `threshold` similar to the seed, in order |
| DuplicateChecker.GatherComplete | src/utils/duplicate_checker.py:135-143 | the inner loop takes a later unprocessed position exactly when it is at least `threshold` similar to the seed (inclusive) |
| DuplicateChecker.Seeded | src/utils/duplicate_checker.py:132-159 | a candidate group starts with its seed and carries the given id; with a partner it has the shape of an emitted group |
| DuplicateChecker.SeededComplete | src/utils/duplicate_checker.py:132-159 | the seed takes every later unprocessed position at least `threshold` similar to it, and no other |
| DuplicateChecker.ClusterFrom | src/utils/duplicate_checker.py:128-159 | emitted groups have at least two members and are numbered consecutively after the groups already emitted |
| DuplicateChecker.ClusterShape | src/utils/duplicate_checker.py:128-159 | every emitted group is seeded by its earliest member, and each other member is similar enough to the seed, with that similarity recorded |
| DuplicateChecker.FindSimilarQuestions | src/utils/duplicate_checker.py:115-161 | the near-duplicate groups are numbered 1, 2, 3, ... in emission order |
| DuplicateChecker.SimilarGroupShape | src/utils/duplicate_checker.py:128-159 | each near-duplicate group is seeded by its earliest record, holds only records similar enough to the seed, and lists the seed-versus-member scores in member order |
| DuplicateChecker.ClusterDisjoint | src/utils/duplicate_checker.py:128-143 | groups emitted later share no record with earlier ones |
| DuplicateChecker.ClusterMaximal | src/utils/duplicate_checker.py:128-143 | a later record left out of a group and of every group before it is less than `threshold` similar to that group's seed |
| DuplicateChecker.SimilarGroupsProperties | src/utils/duplicate_checker.py:128-159 | near-duplicate groups are pairwise disjoint, and greedy against the seed: a later record in no group up to this one is below the threshold against its seed |
| DuplicateChecker.GroupAnswersMembers | src/utils/duplicate_checker.py:210-211 | a group's distinct answers are exactly the answers its members carry |
| DuplicateChecker.CheckAnswerConsistency | src/utils/duplicate_checker.py:207-220 | only groups with more than one distinct answer are flagged, each with those answers |
| DuplicateChecker.ConsistencyComplete | src/utils/duplicate_checker.py:209-220 | every group with more than one distinct answer is flagged |
| DuplicateChecker.InconsistentIffDisagree | src/utils/duplicate_checker.py:210-213 | a group has more than one distinct answer exactly when two of its records disagree |
| DuplicateChecker.GenerateDupReport | src/utils/duplicate_checker.py:236-272 | no records gives the error result; otherwise the report holds the record count, the threshold it was given, both groupings and the affected counts of each, and its answer inconsistencies are exactly the consistency check of the near-duplicate groups (at most one per group) |
| DuplicateChecker.SimilarAffectedBounds | src/utils/duplicate_checker.py:265 | the near-duplicate affected count is at least twice the number of groups |
| DuplicateChecker.CleanedRecords | src/utils/duplicate_checker.py:364-381 | without exact-duplicate removal every record is kept; with it, no more records than were parsed |
| DuplicateChecker.CleanedKeepsFirsts | src/utils/duplicate_checker.py:366-375 | after removal the kept questions are pairwise different once normalised, and every normalised question of the input is still present |
| DuplicateChecker.CleanedInOrder | src/utils/duplicate_checker.py:371-375 | the kept records are the first occurrences, in input order |
| DuplicateChecker.ClassSizesTotal | src/utils/duplicate_checker.py:176-195 | every record belongs to exactly one normalised-question class |
| DuplicateChecker.CleanupRemovesExactExtras | src/utils/duplicate_checker.py:366-379 | the removed count is the exact-duplicate affected count minus the number of exact groups |
| DuplicateChecker.CleanedFileReadsBack | src/utils/duplicate_checker.py:384-389 | the cleaned file splits on blank lines into exactly the kept records' texts (and is empty when none is kept); blocks that fail the parse are gone |
| SplitChunks.LinesPerQuestion | src/utils/split_chunks.py:35-37 | the floor of the total lines over ten times the chunk size, but at least 8 |
| SplitChunks.LinesPerChunk | src/utils/split_chunks.py:35-38 | a chunk holds at least eight lines per question; ten questions' worth of lines plus ten chunk sizes exceed the total; and above the minimum, ten chunks' worth does not exceed it |
| SplitChunks.LastBreak | src/utils/split_chunks.py:59-71 | the largest good break between the bounds, or none when there is none |
| SplitChunks.WindowEnd | src/utils/split_chunks.py:49-71 | a window holds at least one line and at most one more than the nominal length; the last window reaches the end; otherwise the end is the nominal one when no break is found, or just after the last break |
| SplitChunks.Windows | src/utils/split_chunks.py:48-79 | the windows are non-empty, consecutive, start where asked and end at the last line |
| SplitChunks.WindowsPartition | src/utils/split_chunks.py:48-79 | the windows' lines, laid end to end, are exactly the lines, each once and in order |
| SplitChunks.ChunksOf | src/utils/split_chunks.py:73-77 | no more chunks than windows, each already stripped |
| SplitChunks.ChunksOfMembers | src/utils/split_chunks.py:73-77 | a chunk is emitted exactly for the windows whose stripped text is not empty |
| SplitChunks.SplitLines | src/utils/split_chunks.py:45-79 | the loop emits the chunks of the windows |
| SplitChunks.FindEnd | src/utils/split_chunks.py:49-71 | the loop body's end index is the window end |
| SplitChunks.SplitRawTextData | src/utils/split_chunks.py:24-79 | blank content gives no chunks, a zero chunk size fails, and otherwise the line and chunk sizes follow the formulas and every chunk is stripped |
| SplitChunks.SplitChunksTileInput | src/utils/split_chunks.py:31-79 | the chunks come from windows that tile all the input lines, each at most one line longer than the nominal chunk |
| SplitChunks.ChunkName | src/utils/split_chunks.py:86 | the name passes the `raw_chunk_*.txt` filter, has a digit as eleventh character, and has 17 characters below 999 |
| SplitChunks.SummaryNameShape | src/utils/split_chunks.py:150-155 | the summary's name also passes the `raw_chunk_*.txt` filter |
| SplitChunks.ChunkNamesOrdered | src/utils/split_chunks.py:86 | chunk names sort in chunk order |
| SplitChunks.ChunkBeforeSummary | src/utils/split_chunks.py:85-100 | every chunk name sorts before the summary's |
| SplitChunks.SplitFilesSorted | src/utils/split_chunks.py:85-100 | the files a split writes are already in name order, with distinct names |
| SplitChunks.SplitDirAppends | src/utils/split_chunks.py:17-123 | a split into a missing directory, or one without `raw_chunk_*.txt` files, leaves the earlier entries, followed by the chunk files in order and then the summary (for at most 999 chunks) |
| SplitChunks.SplitFilesNamed | src/utils/split_chunks.py:150-155 | every file a split writes passes the merge filter, and only the summary fails the chunk-file filter |
| SplitChunks.MergeChunks | src/utils/split_chunks.py:135-179 | a missing directory is reported as missing; an existing one without any `raw_chunk_*.txt` file as having no chunk files; otherwise at least one file is merged |
| SplitChunks.MergeChunkFiles | src/utils/split_chunks.py:135-179 | the corrected merge reports a missing directory as missing, an existing one without any chunk file other than the summary as having no chunk files, and otherwise merges at least one file |
| SplitChunks.MergesAgreeWithoutSummary | src/utils/split_chunks.py:150-155 | in a directory without the summary file the two chunk filters select the same files, so both merges give the same outcome |
| SplitChunks.MergeChunksOfSplit | src/utils/split_chunks.py:150-171 | merging next to a split's files joins the chunks and the stripped summary |
| SplitChunks.MergeAfterSplitRoundTrip | src/utils/split_chunks.py:24-171 | splitting into a fresh directory, then merging the chunk files, gives back the chunks joined by blank lines |
| SplitChunks.MergeAfterSplitAddsSummary | src/utils/split_chunks.py:150-171 | as written, the merge after a split also takes in the summary, so it never gives back only the chunks |
| GeminiCorrector.CorrectionPrompt | src/utils/gemini_corrector.py:29-62 | the prompt is the fixed head, the chunk, then the fixed tail |
| GeminiCorrector.PromptEmbedsChunk | src/utils/gemini_corrector.py:29-62 | the chunk stands verbatim between the head and the tail |
| GeminiCorrector.PromptInjective | src/utils/gemini_corrector.py:29-62 | different chunks give different prompts |
| GeminiCorrector.Attempts | src/utils/gemini_corrector.py:77-96 | the remaining attempts make at most the remaining calls, and their trace is the trace of those calls |
| GeminiCorrector.AttemptsOutcome | src/utils/gemini_corrector.py:77-96 | a correction succeeds exactly when some remaining attempt gets a non-empty text; it then returns the first such text stripped, after failed calls only; otherwise it makes every remaining call |
| GeminiCorrector.CorrectChunk | src/utils/gemini_corrector.py:64-96 | a correction makes at most `max_retries` calls |
| GeminiCorrector.AttemptsNumbered | src/utils/gemini_corrector.py:77-79 | the calls of one correction are numbered consecutively |
| GeminiCorrector.AttemptsRetryPauses | src/utils/gemini_corrector.py:88-94 | a 5-second pause follows exactly a call that raised with attempts left; an empty reply is retried without a pause |
| GeminiCorrector.RunTally | src/utils/gemini_corrector.py:151-196 | processed is successful plus failed, one failed name per failure, one written file per success, and processed counts every non-blank chunk file |
| GeminiCorrector.ProcessChunksDirectory | src/utils/gemini_corrector.py:98-216 | a missing directory or one without input chunk files gives no results; otherwise the tally is consistent and the tally file is written |
| GeminiCorrector.RunCallNumbers | src/utils/gemini_corrector.py:154-196 | every call of a run has its own consecutive number |
| GeminiCorrector.HandlePaces | src/utils/gemini_corrector.py:187-190 | one iteration pauses exactly for a file sent to the service that is not the last in the list |
| GeminiCorrector.RunPaces | src/utils/gemini_corrector.py:187-190 | a run pauses once per file sent to the service except the last file of the list |
| GeminiCorrector.RunRetries | src/utils/gemini_corrector.py:88-94 | in a whole run every retry pause follows a call that raised |
| GeminiCorrector.MergeCorrectedChunks | src/utils/gemini_corrector.py:218-283 | a missing directory and a directory without corrected chunk files are told apart, and a merge takes at least one file |
| GeminiCorrector.CorrectedNameOfInput | src/utils/gemini_corrector.py:242-246 | every output name `corrected_<input>` passes the merge's filter |
| GeminiCorrector.SummaryFileNotMerged | src/utils/gemini_corrector.py:242-246 | the tally file is never merged |
| GeminiCorrector.RunWrites | src/utils/gemini_corrector.py:154-196 | a run writes only corrected chunk files, in input order, with stripped non-empty texts |
| GeminiCorrector.ProcessThenMerge | src/utils/gemini_corrector.py:98-279 | correcting a directory and then merging its output gives exactly the successful corrections, joined by blank lines |
| GeminiCorrector.HandleFailed | src/utils/gemini_corrector.py:180-196 | one iteration adds at most its own file's name to the failed list |
| GeminiCorrector.RunFailedOrder | src/utils/gemini_corrector.py:180-196 | the failed names are listed in processing order, each at most once |
| ManualMerge.Chosen | src/utils/manual_merge.py:15-63 | the primary selection when it is not empty; else the fallback when it is not empty and the reply accepts it; else nothing |
| ManualMerge.MergeCorrectedChunks | src/utils/manual_merge.py:4-96 | a missing directory refuses; the tool writes exactly when a primary file exists or an accepted fallback file exists, and then merges at least one file |
| ManualMerge.PrimaryMerge | src/utils/manual_merge.py:15-25 | with a primary file present the merge is the sorted primary files' stripped non-empty contents, whatever the reply |
| ManualMerge.FallbackMerge | src/utils/manual_merge.py:40-59 | an accepted fallback merges every fallback file in name order |
| ManualMerge.PrimaryExcludesSummary | src/utils/manual_merge.py:23 | without the fallback no merged name mentions `summary` |
| ManualMerge.SummaryOnlyByFallback | src/utils/manual_merge.py:15-44 | a corrected chunk file mentioning `summary` fails the primary filter but passes the fallback |
| ManualMerge.AgreesWithCorrectorMerge | src/utils/manual_merge.py:15-24 | when no corrected chunk file mentions `summary`, this tool writes the same text from the same files as the corrector's merge, whatever the reply |
| ManualMerge.ManualPairCount | src/utils/manual_merge.py:84-86 | the reported pair count is the sum of the merged files' pair counts |
| ManualMerge.BlankFilesStillWritten | src/utils/manual_merge.py:69-92 | the tool writes even when every merged file is blank, and the text is empty exactly then |
| ManualMerge.ManualMergeIgnoresListingOrder | src/utils/manual_merge.py:15-59 | the outcome does not depend on the order of the directory listing |
| Files.SortByName | src/utils/manual_merge.py:25 | sorting gives a name-ordered permutation of the listing |
| Files.SortIgnoresListingOrder | src/utils/manual_merge.py:25 | with distinct names, sorting gives one result whatever the listing order |
| Files.Select | src/utils/manual_merge.py:15-24 | an entry is selected exactly when it is listed and its name passes the filter |
| Files.MergeSelected | src/utils/gemini_corrector.py:248-279 | a missing directory, a directory with no selected file and a merge are told apart; a merge takes at least one file |
| Files.MergeSelectedIgnoresListingOrder | src/utils/gemini_corrector.py:248-267 | a filter-and-merge does not depend on the listing order |
| Files.JoinPairCount | src/utils/split_chunks.py:163-171 | merging neither joins nor splits records: the merged text's pair count is the sum of the parts' pair counts |
| Files.MergeContentsEmptyIff | src/utils/manual_merge.py:69-80 | the merged text is empty exactly when every merged file is blank |
| Cards.CardSplit | src/retrieve_pdf.py:117-126 | a card whose fields hold no line break splits on line breaks into the question, the option lines and the answer line |
| Cards.CardIsJoin | src/retrieve_pdf.py:117-126 | a card is its question line and option lines joined by line breaks, with the answer tail on the last line |
| Cards.CardNoBlankLine | src/retrieve_pdf.py:117-126 | a card with non-empty option lines and no line break in any field holds no empty line |
| Cards.CardsSplit | src/retrieve_pdf.py:117-126 | cards without empty lines, joined by a blank line, split back into the same cards |
| Workflow.Candidates | src/main.py:386-391 | four versions of the merged file, the plain name last |
| Workflow.FirstExisting | src/main.py:393-397 | the first existing candidate from the given one on, with none before it |
| Workflow.Finalize | src/main.py:371-416 | the result is the first existing candidate in preference order, and empty exactly when none exists |
| Workflow.Step5 | src/main.py:243-304 | step 5 writes nothing but `fixed_placeholder_options_<name>` |
| Workflow.CheckAnswers | src/main.py:271-298 | the decision writes nothing but the fixed file |
| Workflow.Step6 | src/main.py:306-369 | step 6 writes nothing but `cleaned_<name>` |
| Workflow.CheckDuplicates | src/main.py:347-365 | the decision writes nothing but the cleaned file |
| Workflow.Step5Writes | src/main.py:243-304 | step 5 fails exactly when no record parses, and writes the auto-fixed text exactly when some record has a placeholder option |
| Workflow.CheckAnswersWrites | src/main.py:271-298 | the decision fails exactly on no records and writes the fixed text exactly when the placeholder-option list is not empty |
| Workflow.Step6Writes | src/main.py:306-369 | step 6 fails exactly when no record parses, and writes the cleaned text exactly when there is an exact-duplicate group |
| Workflow.CheckDuplicatesWrites | src/main.py:347-365 | the decision fails exactly on no records and writes the cleaned text exactly when there is an exact group; near-duplicates only warn |
| Workflow.Gating | src/main.py:418-477 | the run returns a path exactly when every step succeeds in order, and that path is one of the merged file's versions |
| Workflow.CandidatesDistinct | src/main.py:386-391 | the four versions have four different names |
| Workflow.NeverFirstPreference | src/main.py:350-356 | a run never returns `cleaned_fixed_placeholder_options_<name>` unless it was on disk already, because step 6 reads the unfixed file |
| Workflow.FreshRunChoice | src/main.py:386-416 | starting from none of the versions, a full run returns the cleaned file if step 6 wrote one, else the fixed file if step 5 wrote one, else the merged file |
| Workflow.Step3MeansMergeable | src/main.py:171-194 | step 3 succeeds exactly when an API key is given, the chunk directory exists and the corrected directory then holds a corrected chunk file to merge |
| Workflow.SplitFilesAllCorrected | src/utils/gemini_corrector.py:123-129 | every file a split writes, the summary included, passes the corrector's input filter, and the name of each one's corrected copy passes the corrected merge's filter: step 3 sends the summary to the service and merges its correction |
| RetrievePdf.CleanTextAsWritten | src/retrieve_pdf.py:12-28 | empty text stays empty; the result has single plain spaces, none at either end, and none of the listed characters |
| RetrievePdf.WordsIgnored | src/retrieve_pdf.py:19-23 | in a text without a backslash the words to remove change nothing |
| RetrievePdf.NameTagSurvives | src/retrieve_pdf.py:19-23 | removing the name tag from the text that is exactly the name tag leaves it, where a real word boundary would remove it |
| RetrievePdf.PageLines | src/retrieve_pdf.py:41 | the page lines are non-empty and stripped, never more than the raw lines |
| RetrievePdf.PageLinesOne | src/retrieve_pdf.py:41 | a single raw line gives its stripped text, or nothing when it is blank |
| RetrievePdf.PageLinesConcat | src/retrieve_pdf.py:41 | lines are taken one by one and in order: the lines of two runs are those of the first then those of the second |
| RetrievePdf.PageLinesIdempotent | src/retrieve_pdf.py:41 | taking page lines twice changes nothing |
| RetrievePdf.AnswerLineNotNoise | src/retrieve_pdf.py:45-64 | an answer line is never noise, so every answer line closes a block |
| RetrievePdf.Group | src/retrieve_pdf.py:59-71 | no block is empty |
| RetrievePdf.GroupKeepsLines | src/retrieve_pdf.py:59-71 | grouping loses only the noise and reorders nothing: the blocks laid end to end are the open block followed by the non-noise lines |
| RetrievePdf.GroupShape | src/retrieve_pdf.py:59-71 | no block holds an answer line before its last line, and every block but the last ends with an answer line |
| RetrievePdf.FirstOptionStart | src/retrieve_pdf.py:75-82 | the first option start from the given line on, or none when there is none |
| RetrievePdf.HeadOption | src/retrieve_pdf.py:89-95 | a label line starts its option as its own letter, a full stop, a space and the stripped text after the label |
| RetrievePdf.DropDotsSpaces | src/retrieve_pdf.py:92 | the longest leading run of full stops and whitespace is dropped and the rest kept unchanged |
| RetrievePdf.AssembleOptionsGroups | src/retrieve_pdf.py:86-102 | one option per label line, in order: its head option, then a space and each following stripped line up to the next label line, the whole stripped; lines before the first label are dropped and no option is filtered out |
| RetrievePdf.AssembleLetters | src/retrieve_pdf.py:86-102 | every assembled option is rendered as `X. text`, and their letters are those of the open option and the label lines, in order |
| RetrievePdf.BlockAnswer | src/retrieve_pdf.py:103-105 | the answer is present exactly when the last line is a substring of `ABCDE` |
| RetrievePdf.AnswerIsLastLine | src/retrieve_pdf.py:103-105 | a kept answer is the last line unchanged |
| RetrievePdf.BlockRecord | src/retrieve_pdf.py:73-108 | a block gives a record exactly when an option line starts before its last line |
| RetrievePdf.BlockContents | src/retrieve_pdf.py:73-108 | the record's question comes from the lines before the first option; its options are the label-line groups from the first option up to the last line, with their texts, and the first has the option start's letter; an answer line becomes the answer |
| RetrievePdf.ExtractPdfConcat | src/retrieve_pdf.py:39-109 | blocks never cross a page: extracting two runs of pages gives the records of each, one after the other |
| RetrievePdf.FormatReadBack | src/retrieve_pdf.py:112-126 | the formatted text splits back into one card per record, and each card into the question, the options and the answer after the separator |
| RetrievePdf.ExtractThenFormat | src/retrieve_pdf.py:39-126 | whatever the extractor produces from lines without line breaks can be read back from the text it writes |
| RetrieveHtml.CleanText | retrieve.py:18-39 | empty text stays empty; the result has single plain spaces, none at either end, none of the listed characters, and no other character the input lacked |
| RetrieveHtml.CleanTextOneLine | retrieve.py:37 | a cleaned text holds no line break |
| RetrieveHtml.WholeWordAtHeadRemoved | retrieve.py:22-29 | a whole word at the head of the text, followed by its end or a non-word character, is removed |
| RetrieveHtml.WholeWordInTextRemoved | retrieve.py:24-29 | a word standing whole in the middle of a text, at its first occurrence in any letter case, is removed and the text before it kept |
| RetrieveHtml.RemoveWordsInTurn | retrieve.py:22-29 | the words are removed one after the other, each from what the earlier ones left |
| RetrieveHtml.SoleWordRemoved | retrieve.py:18-39 | a text that is exactly the word to remove cleans to nothing |
| RetrieveHtml.AbsentWordKept | retrieve.py:22-29 | a text with no occurrence of the word in any letter case is left as it is |
| RetrieveHtml.DropOptionLabel | retrieve.py:104 | a leading option letter, an optional dot after it and the whitespace after that are dropped, leaving a suffix of the text that does not start with whitespace; a text without a leading option letter is kept whole |
| RetrieveHtml.Classify | retrieve.py:71-106 | a paragraph is skipped exactly when it is blank, cleans to nothing, or holds neither the name tag nor an option label; it starts a question exactly when it holds the name tag and survives cleaning, with the cleaned text; otherwise it is an option whose letter is its first character and whose text is the cleaned text without its label |
| RetrieveHtml.ParasConcat | retrieve.py:71-106 | each paragraph is classified on its own text: two runs classify as each run, one after the other |
| RetrieveHtml.ParasWellClassified | retrieve.py:71-106 | a question paragraph carries a non-empty cleaned text, and an option paragraph an option letter `A`–`E` |
| RetrieveHtml.GroupParas | retrieve.py:85-112 | every emitted block has a non-empty question and at least one option |
| RetrieveHtml.GroupKeepsOptions | retrieve.py:85-112 | the options of the emitted blocks are exactly the option paragraphs after the first question paragraph, in order |
| RetrieveHtml.GroupQuestions | retrieve.py:86-112 | at most one block per question paragraph, each taking its question from one of them |
| RetrieveHtml.FirstMark | retrieve.py:127-129 | the answer is the letter at some mark with no mark before it, that is the leftmost match of `\b([A-E])[.)]`; there is none exactly when the text has no mark |
| RetrieveHtml.MarkedIn | retrieve.py:123-143 | the answer is always an option letter, and there is none exactly when no text has a mark |
| RetrieveHtml.MarkedInFirst | retrieve.py:123-143 | the answer is the leftmost mark of some text, and every earlier text has no mark |
| RetrieveHtml.MarkedAnswer | retrieve.py:118-143 | a mark in a marked-answer span wins over the other marked elements; when no span holds a mark, the answer is the first mark among the stripped element texts; the answer is always an option letter, and there is none exactly when no span and no stripped element holds a mark |
| RetrieveHtml.ExtractedAnswers | retrieve.py:42-160 | one record per emitted block, each with a question and options; every record gets the document's one marked answer, or else its first option's letter |
| RetrieveHtml.Relabel | retrieve.py:176-180 | each option keeps its text unchanged behind a new label `X. `, where X is the letter of its position counted from `A`, whatever letter it had before |
| RetrieveHtml.FormatReadBack | retrieve.py:163-189 | the formatted text splits back into one card per record, and each card into the question, the options relabelled by position and the answer |
| RetrieveHtml.ExtractThenFormat | retrieve.py:42-189 | whatever the extractor produces can be read back from the text it writes, because cleaned texts hold no line break |

## Left out

- Input and output: files, `print`, progress output and the JSON reports (`save_report`, `print_summary`, the `render` parameter of the corrector's tally file).
- Write failures and other exceptions: every file write succeeds. An unreadable chunk file is modelled as a set of names.
- The Gemini SDK (`genai.configure`, the model name, the API key) and real sleeps. The service is an oracle; sleeps are trace events.
- `difflib.SequenceMatcher.ratio` is floating-point library code. It is an uninterpreted function into the reals, and the threshold is a parameter.
- `int(lines_per_chunk * 0.8)` is written as `(lines_per_chunk * 4) / 5`. This can differ from the float product only by rounding.
- Unicode: `\w`, `\s`, `\d`, `lower()` and `upper()` act on an ASCII-like alphabet. Letters at or above U+00C0 count as word characters, case mapping touches ASCII letters only, and `\d` matches only `0`-`9`, where Python's `\d` on text also matches every other Unicode decimal digit. This affects the numbered-question breaks of split_chunks.py and the date and page-number noise lines of retrieve_pdf.py.
- `splitlines()` and newline translation on reading: lines are split on `"\n"` only.
- PDF and HTML libraries (`fitz`, `pypdf`, BeautifulSoup): the extractors take page lines or paragraph texts as input. The same holds for step 1 of the workflow, whose success is a boolean.
- Step 2 of the workflow is a boolean. `split_raw_text_data` itself is modelled in `SplitChunks`.
- The report files that steps 5 and 6 write next to their other output.
- `fix_missing_answers`, every `main()`, interactive prompts, `batch_process.py`, `workflow_runner.py`, the Qt UI and worker threads.
- `extract_qa_pairs_from_pdf` never calls its module's `clean_text`, so nothing of the PDF extraction depends on it.
- SplitChunks.SplitRawTextData: a negative `chunk_size` makes the source loop forever. The chunk size is a `nat`.
- SplitChunks.ChunkNamesOrdered: proved only below 999 chunks. Beyond that the four-digit names no longer sort in chunk order.
- GeminiCorrector.ProcessChunksDirectory: the delay is a `nat`. A negative `delay_seconds` would make `time.sleep` raise inside the `try` after the file was counted, so the file would be counted as failed and processed a second time. The only caller, the workflow, passes 2.
- RetrieveHtml.Relabel: requires fewer than `0xD800 - 65` options, because Dafny's `char` excludes the surrogate range that `chr(65 + i)` would reach.

## Findings

| source | as written | input that shows it | evidently intended | confidence | as-written member | corrected member |
|---|---|---|---|---|---|---|
| src/utils/split_chunks.py:150-155 | `merge_chunks` takes every `raw_chunk_*.txt` file, and the summary file `raw_chunk_summary.txt` matches that filter | any successful split followed by `merge_chunks` on its output directory: the merged text ends with the summary's text. The corrector's input filter (src/utils/gemini_corrector.py:123-129) takes `raw_chunk_*.txt` files as well, so in the workflow the summary is also sent to the service as if it were a chunk, and its corrected copy passes the corrected merge's filter (Workflow.SplitFilesAllCorrected) | merge only the numbered chunk files, so that splitting then merging gives back the chunks | not executed | SplitChunks.MergeChunks, SplitChunks.MergeAfterSplitAddsSummary | SplitChunks.MergeChunkFiles, SplitChunks.MergeAfterSplitRoundTrip |
| src/retrieve_pdf.py:19-23 | the word pattern is built from `r"\\b"`, which matches a literal backslash followed by `b`, so words are removed only between such pairs | text `NHUNG HOÀNG` with words `["NHUNG HOÀNG"]`: the text is returned unchanged | a word boundary `r"\b"`, as in the HTML extractor's `clean_text`, which removes the word | not executed | RetrievePdf.CleanTextAsWritten, RetrievePdf.WordsIgnored, RetrievePdf.NameTagSurvives | RetrieveHtml.CleanText, RetrieveHtml.SoleWordRemoved |

=== FILE: answer_checker.dfy ===
/** The answer checker: it parses the merged corpus into records, classifies
    the problems of each record's answer and options, builds the issue report
    and rewrites the corpus without placeholder option lines.

    A corpus is a sequence of blocks separated by blank lines; a block is a
    question line followed by option lines `A.`-`E.`, and the answer is
    introduced by `;;`, either at the end of an option line or on a line of its
    own. */
module AnswerChecker {
  import opened Text
  import opened Files

  const AnswerMark := ";;"

  /** `line.startswith(("A.", "B.", "C.", "D.", "E."))`. */
  predicate IsOptionLine(line: string) {
    |line| >= 2 && IsOptionLetter(line[0]) && line[1] == '.'
  }

  // ---------------------------------------------------------------------------
  // Placeholder dictionary
  // ---------------------------------------------------------------------------

  /** The checker's configuration: its placeholder dictionary. */
  datatype Checker = Checker(placeholders: seq<string>)

  /** The dictionary the checker is built with: literal lower-case texts. */
  const PlaceholderPatterns: seq<string> := [
    "(missing option)", "(missing)", "(placeholder)", "(todo)", "(fix)",
    "(check)", "(unknown)", "(tbd)", "(to be determined)", "missing option",
    "placeholder", "todo", "fix", "check answer", "unknown", "tbd"
  ]

  const DefaultChecker := Checker(PlaceholderPatterns)

  /** Every pattern is at least three characters long and has no whitespace at
      either end, as every pattern of the default dictionary is. */
  predicate WellShaped(ck: Checker) {
    forall k :: 0 <= k < |ck.placeholders| ==> PatternShape(ck.placeholders[k], 3)
  }

  /** Some pattern of `patterns` occurs in `s`, trying them in order. */
  predicate MentionsAny(s: string, patterns: seq<string>)
    decreases |patterns|
  {
    |patterns| > 0 && (Contains(s, patterns[0]) || MentionsAny(s, patterns[1..]))
  }

  /** `is_placeholder_answer`: a non-empty answer whose lower-cased, stripped
      text contains a placeholder pattern. */
  predicate IsPlaceholderAnswer(ck: Checker, answer: string) {
    answer != [] && MentionsAny(Strip(Lower(answer)), ck.placeholders)
  }

  /** `has_placeholder_option`: the same test without stripping. */
  predicate HasPlaceholderOption(ck: Checker, option: string) {
    option != [] && MentionsAny(Lower(option), ck.placeholders)
  }

  /** A pattern that is at least `n` characters long and has no whitespace at
      either end. */
  predicate PatternShape(p: string, n: nat) {
    |p| >= n && n > 0 && !IsSpace(p[0]) && !IsSpace(p[|p| - 1])
  }

  lemma DefaultWellShaped()
    ensures WellShaped(DefaultChecker)
  {
  }

  lemma {:induction false} MentionsAnyStripped(s: string, patterns: seq<string>, n: nat)
    requires forall k :: 0 <= k < |patterns| ==> PatternShape(patterns[k], n)
    ensures MentionsAny(Strip(s), patterns) <==> MentionsAny(s, patterns)
    decreases |patterns|
  {
    if |patterns| > 0 {
      ContainsStripped(s, patterns[0]);
      MentionsAnyStripped(s, patterns[1..], n);
    }
  }

  lemma {:induction false} MentionsAnyLength(s: string, patterns: seq<string>, n: nat)
    requires forall k :: 0 <= k < |patterns| ==> PatternShape(patterns[k], n)
    requires MentionsAny(s, patterns)
    ensures |s| >= n
    decreases |patterns|
  {
    if Contains(s, patterns[0]) {
      assert PatternShape(patterns[0], n);
    } else {
      MentionsAnyLength(s, patterns[1..], n);
    }
  }

  /** Stripping never matters to the dictionary: the answer test and the
      option test agree on every text. */
  lemma PlaceholderAnswerIffOption(ck: Checker, text: string)
    requires WellShaped(ck)
    ensures IsPlaceholderAnswer(ck, text) <==> HasPlaceholderOption(ck, text)
  {
    MentionsAnyStripped(Lower(text), ck.placeholders, 3);
  }

  /** A placeholder needs at least three characters of text. */
  lemma ShortTextNoPlaceholder(ck: Checker, text: string)
    requires WellShaped(ck)
    requires |Strip(Lower(text))| < 3
    ensures !IsPlaceholderAnswer(ck, text)
  {
    if IsPlaceholderAnswer(ck, text) {
      MentionsAnyLength(Strip(Lower(text)), ck.placeholders, 3);
    }
  }

  // ---------------------------------------------------------------------------
  // Multi-answer heuristic
  // ---------------------------------------------------------------------------

  /** `re.findall(r"([A-E])", u)`: the option letters of `u`, in order. */
  function Letters(u: string): (r: string)
    ensures |r| <= |u|
    ensures forall i :: 0 <= i < |r| ==> IsOptionLetter(r[i])
  {
    if |u| == 0 then []
    else if IsOptionLetter(u[0]) then [u[0]] + Letters(u[1..])
    else Letters(u[1..])
  }

  /** The text between the two letters of `([A-E])\s*(?:\([^)]*\))?\s*([A-E])`:
      whitespace, optionally around one parenthetical holding no `)`. */
  predicate LetterGap(g: string) {
    var t := Strip(g);
    t == [] || (|t| >= 2 && t[0] == '(' && t[|t| - 1] == ')' && ')' !in t[1..|t| - 1])
  }

  /** The pattern matches with its two letters at positions `i` and `k`. */
  predicate LetterPairAt(u: string, i: int, k: int) {
    0 <= i < k < |u| && IsOptionLetter(u[i]) && IsOptionLetter(u[k]) && LetterGap(u[i + 1..k])
  }

  /** `re.search(r"([A-E])\s*(?:\([^)]*\))?\s*([A-E])", u)` succeeds. */
  predicate LetterPairPattern(u: string) {
    exists i, k :: 0 <= i < |u| && 0 <= k < |u| && LetterPairAt(u, i, k)
  }

  predicate AllIn(xs: string, s: string) {
    forall i :: 0 <= i < |xs| ==> xs[i] in s
  }

  /** `s[s.find(c):]` for a character `c` of `s`: the suffix from its first
      occurrence. */
  function FromFirst(s: string, c: char): (r: string)
    ensures |r| <= |s| && r == s[|s| - |r|..]
    ensures c in s ==> |r| > 0 && r[0] == c && c !in s[..|s| - |r|]
  {
    if |s| == 0 then []
    else if s[0] == c then s
    else
      var r := FromFirst(s[1..], c);
      assert s[1..][..|s| - 1 - |r|] == s[1..|s| - |r|];
      r
  }

  /** The single-answer-with-explanation exemption: the first letter opens the
      answer, there is a `(`, and every later letter value also occurs from the
      first `(` onwards (membership by value, not by position). */
  predicate ExplanationOnly(answer: string) {
    var u := Upper(answer);
    var letters := Letters(u);
    |letters| > 0 && IsOptionLetter(u[0]) && '(' in answer
    && AllIn(letters[1..], Upper(FromFirst(answer, '(')))
  }

  /** `answer_upper.find(letters[0]) == 0` holds exactly when the upper-cased
      answer opens with an option letter. */
  lemma FirstLetterAtStart(u: string)
    requires |Letters(u)| > 0
    ensures IndexOf(u, [Letters(u)[0]]) == Some(0) <==> IsOptionLetter(u[0])
  {
    if IsOptionLetter(u[0]) {
      assert Letters(u)[0] == u[0];
      assert OccursAt(u, [u[0]], 0);
    } else {
      assert Letters(u) == Letters(u[1..]);
    }
  }

  /** `FromFirst` is `s[s.find(c):]`. */
  lemma FromFirstIsFind(s: string, c: char)
    requires c in s
    ensures IndexOf(s, [c]).Some? && FromFirst(s, c) == s[IndexOf(s, [c]).value..]
  {
    var r := FromFirst(s, c);
    var k := |s| - |r|;
    assert s[k] == r[0];
    OccursAtOne(s, c, k);
    var jv := IndexOf(s, [c]).value;
    OccursAtOne(s, c, jv);
  }

  /** A one-character text occurs exactly where that character stands. */
  lemma OccursAtOne(s: string, c: char, k: int)
    ensures OccursAt(s, [c], k) <==> 0 <= k < |s| && s[k] == c
  {
    if 0 <= k < |s| {
      assert s[k..k + 1] == [s[k]];
    }
  }

  /** `is_multi_answer`. */
  predicate IsMultiAnswer(answer: string) {
    var letters := Letters(Upper(answer));
    if answer == [] || |letters| <= 1 then false
    else if ExplanationOnly(answer) then false
    else LetterPairPattern(Upper(answer))
  }

  /** The letter-count guard is implied by the pattern: the heuristic is exactly
      "the pattern occurs and the explanation exemption does not apply". */
  lemma MultiAnswerIff(answer: string)
    ensures IsMultiAnswer(answer) <==> LetterPairPattern(Upper(answer)) && !ExplanationOnly(answer)
  {
    var u := Upper(answer);
    if LetterPairPattern(u) {
      var i, k :| 0 <= i < |u| && 0 <= k < |u| && LetterPairAt(u, i, k);
      LettersCountTwo(u, i, k);
    }
  }

  /** Two option letters at distinct positions give two extracted letters. */
  lemma {:induction false} LettersCountTwo(u: string, i: nat, k: nat)
    requires i < k < |u| && IsOptionLetter(u[i]) && IsOptionLetter(u[k])
    ensures |Letters(u)| >= 2
    decreases |u|
  {
    if i > 0 {
      LettersCountTwo(u[1..], i - 1, k - 1);
    } else {
      LettersNonEmpty(u[1..], k - 1);
    }
  }

  /** An option letter anywhere gives at least one extracted letter. */
  lemma {:induction false} LettersNonEmpty(u: string, k: nat)
    requires k < |u| && IsOptionLetter(u[k])
    ensures |Letters(u)| >= 1
    decreases |u|
  {
    if k > 0 && !IsOptionLetter(u[0]) {
      LettersNonEmpty(u[1..], k - 1);
    }
  }

  /** A multi-answer always has at least two letters, so the source's
      "No valid answers found in multi-answer" branch is unreachable. */
  lemma MultiAnswerHasLetters(answer: string)
    requires IsMultiAnswer(answer)
    ensures |Letters(Upper(answer))| >= 2
  {
  }

  /** `findall` distributes over concatenation. */
  lemma {:induction false} LettersAppend(a: string, b: string)
    ensures Letters(a + b) == Letters(a) + Letters(b)
    decreases |a|
  {
    if |a| > 0 {
      assert (a + b)[1..] == a[1..] + b;
      LettersAppend(a[1..], b);
    } else {
      assert a + b == b;
    }
  }

  // ---------------------------------------------------------------------------
  // Issues
  // ---------------------------------------------------------------------------

  /** One problem found in a record; `Render` gives the report's message text. */
  datatype Issue =
    | MissingAnswer
    | QuestionMarkAnswer
    | PlaceholderAnswer(answer: string)
    | InvalidAnswerFormat(answer: string)
    | AnswerNotAnOption(answer: string)
    | NoMultiAnswerLetters(answer: string)
    | MultiAnswerNotAnOption(letter: char)
    | ExplainedAnswerNotAnOption(letter: char)
    | ExplainedAnswerNoOption(answer: string)
    | LongAnswer(answer: string)
    | AnswerNoOptionStart(answer: string)
    | TooFewOptions(count: nat)
    | OptionWithoutLetter(position: nat, option: string)
    | PlaceholderOption(position: nat, option: string)
  {
    /** The issues about the options rather than the answer. */
    predicate IsOptionIssue() {
      TooFewOptions? || OptionWithoutLetter? || PlaceholderOption?
    }
  }

  /** No issue of the list is about the options. */
  predicate AnswerOnly(issues: seq<Issue>) {
    |issues| == 0 || (!issues[0].IsOptionIssue() && AnswerOnly(issues[1..]))
  }

  lemma {:induction false} AnswerOnlyAt(issues: seq<Issue>, i: nat)
    requires AnswerOnly(issues) && i < |issues|
    ensures !issues[i].IsOptionIssue()
    decreases i
  {
    if i > 0 {
      AnswerOnlyAt(issues[1..], i - 1);
    }
  }

  /** `chr(n)`; a code point that is not a scalar value renders as U+FFFD. */
  function CodePoint(n: nat): char {
    if n < 0xD800 || (0xE000 <= n < 0x11_0000) then n as char else '�'
  }

  function Quoted(s: string): string {
    "'" + s + "'"
  }

  /** The message text of an issue, as the checker formats it. */
  function Render(issue: Issue): string {
    match issue
    case MissingAnswer => "Missing answer"
    case QuestionMarkAnswer => "Answer is question mark"
    case PlaceholderAnswer(a) => "Placeholder answer: " + Quoted(a)
    case InvalidAnswerFormat(a) => "Invalid answer format: " + Quoted(a)
    case AnswerNotAnOption(a) => "Answer " + Quoted(a) + " doesn't match available options"
    case NoMultiAnswerLetters(a) => "No valid answers found in multi-answer: " + Quoted(a)
    case MultiAnswerNotAnOption(l) => "Multi-answer " + Quoted([l]) + " doesn't match available options"
    case ExplainedAnswerNotAnOption(l) => "Answer " + Quoted([l]) + " doesn't match available options"
    case ExplainedAnswerNoOption(a) => "Answer with explanation doesn't start with valid option: " + Quoted(a)
    case LongAnswer(a) => "Unusually long answer: '" + Take(a, 20) + "...'"
    case AnswerNoOptionStart(a) => "Answer doesn't start with valid option: " + Quoted(a)
    case TooFewOptions(n) => "Only " + NatToString(n) + " options found, expected at least 4"
    case OptionWithoutLetter(i, o) =>
      "Option " + NatToString(i + 1) + " doesn't start with letter: '" + Take(o, 30) + "...'"
    case PlaceholderOption(i, o) => "Option " + [CodePoint(65 + i)] + " has placeholder: " + Quoted(o)
  }

  /** `[opt[0] for opt in options if opt]`. */
  function OptionInitials(options: seq<string>): (r: string)
    ensures |r| <= |options|
  {
    if |options| == 0 then []
    else
      var rest := OptionInitials(options[1..]);
      if options[0] != [] then [options[0][0]] + rest else rest
  }

  /** A character is an option initial exactly when some non-empty option
      starts with it. */
  lemma {:induction false} OptionInitialsMembership(options: seq<string>, c: char)
    ensures c in OptionInitials(options) <==>
      exists i :: 0 <= i < |options| && options[i] != [] && options[i][0] == c
    decreases |options|
  {
    if |options| > 0 {
      OptionInitialsMembership(options[1..], c);
      if exists i :: 1 <= i < |options| && options[i] != [] && options[i][0] == c {
        var i :| 1 <= i < |options| && options[i] != [] && options[i][0] == c;
        assert options[1..][i - 1] == options[i];
      }
      if exists i :: 0 <= i < |options[1..]| && options[1..][i] != [] && options[1..][i][0] == c {
        var i :| 0 <= i < |options[1..]| && options[1..][i] != [] && options[1..][i][0] == c;
        assert options[i + 1] == options[1..][i];
      }
    }
  }

  /** The multi-answer letters that name no option, one issue per occurrence. */
  function MultiMismatches(letters: string, initials: string): (r: seq<Issue>)
    ensures forall i :: 0 <= i < |r| ==> r[i].MultiAnswerNotAnOption? && r[i].letter !in initials
    ensures |r| <= |letters|
    ensures AnswerOnly(r)
  {
    if |letters| == 0 then []
    else
      var rest := MultiMismatches(letters[1..], initials);
      if letters[0] !in initials then [MultiAnswerNotAnOption(letters[0])] + rest else rest
  }

  /** A multi-answer letter gets an issue exactly when it names no option. */
  lemma {:induction false} MultiMismatchesIff(letters: string, initials: string, c: char)
    ensures MultiAnswerNotAnOption(c) in MultiMismatches(letters, initials) <==> c in letters && c !in initials
    decreases |letters|
  {
    if |letters| > 0 {
      MultiMismatchesIff(letters[1..], initials, c);
      assert letters == [letters[0]] + letters[1..];
    }
  }

  /** Which branch of the answer chain an answer falls into, with what that
      branch looks at. */
  datatype AnswerForm =
    | Absent
    | QuestionMark
    | Placeholder(text: string)
    | SingleCharacter(text: string, upper: char)
    | MultiLetter(text: string, letters: string)
    | Explained(text: string, upper: char)
    | Unusual(text: string, long: bool, upper: char)

  /** The `if/elif` chain of `check_answer_issues`, in its order: missing or
      blank, exactly `?`, placeholder, one character, multi-answer, parenthetical
      explanation, anything else. */
  function FormOf(ck: Checker, answer: Option<string>): AnswerForm {
    if answer.None? || Strip(answer.value) == [] then Absent
    else
      var a := answer.value;
      if Strip(a) == "?" then QuestionMark
      else if IsPlaceholderAnswer(ck, a) then Placeholder(a)
      else if |Strip(a)| == 1 then SingleCharacter(a, UpperChar(Strip(a)[0]))
      else if IsMultiAnswer(a) then MultiLetter(a, Letters(Upper(a)))
      else if '(' in a && ')' in a then Explained(a, UpperChar(a[0]))
      else Unusual(a, |Strip(a)| > 10, UpperChar(a[0]))
  }

  /** The answer issues of `check_answer_issues`: at most one, except that a
      multi-answer gets one per letter naming no option. */
  function AnswerIssues(ck: Checker, answer: Option<string>, options: seq<string>): (r: seq<Issue>)
    ensures AnswerOnly(r)
    ensures |r| <= 1 || FormOf(ck, answer).MultiLetter?
    ensures MissingAnswer in r <==> FormOf(ck, answer).Absent?
  {
    var initials := OptionInitials(options);
    match FormOf(ck, answer)
    case Absent => [MissingAnswer]
    case QuestionMark => [QuestionMarkAnswer]
    case Placeholder(a) => [PlaceholderAnswer(a)]
    case SingleCharacter(a, c) =>
      if !IsOptionLetter(c) then [InvalidAnswerFormat(a)]
      else if c !in initials then [AnswerNotAnOption(a)]
      else []
    case MultiLetter(a, letters) =>
      if letters == [] then [NoMultiAnswerLetters(a)] else MultiMismatches(letters, initials)
    case Explained(a, c) =>
      if !IsOptionLetter(c) then [ExplainedAnswerNoOption(a)]
      else if c !in initials then [ExplainedAnswerNotAnOption(c)]
      else []
    case Unusual(a, long, c) =>
      if long then [LongAnswer(a)]
      else if !IsOptionLetter(c) then [AnswerNoOptionStart(a)]
      else []
  }

  /** The option-count check. */
  function CountIssues(options: seq<string>): seq<Issue> {
    if |options| < 4 then [TooFewOptions(|options|)] else []
  }

  /** One issue per option that does not start with `A.`-`E.`, in order. */
  function LetterIssues(options: seq<string>): (r: seq<Issue>)
    ensures forall x :: x in r ==>
      x.OptionWithoutLetter? && x.position < |options| && x.option == options[x.position]
      && !IsOptionLine(x.option)
    ensures forall i :: 0 <= i < |options| && !IsOptionLine(options[i]) ==>
      OptionWithoutLetter(i, options[i]) in r
  {
    if |options| == 0 then []
    else
      var n := |options| - 1;
      var rest := LetterIssues(options[..n]);
      assert forall i :: 0 <= i < n ==> options[..n][i] == options[i];
      rest + (if IsOptionLine(options[n]) then [] else [OptionWithoutLetter(n, options[n])])
  }

  /** One issue per option carrying a placeholder, in order. */
  function PlaceholderIssues(ck: Checker, options: seq<string>): (r: seq<Issue>)
    ensures forall x :: x in r ==>
      x.PlaceholderOption? && x.position < |options| && x.option == options[x.position]
      && HasPlaceholderOption(ck, x.option)
    ensures forall i :: 0 <= i < |options| && HasPlaceholderOption(ck, options[i]) ==>
      PlaceholderOption(i, options[i]) in r
  {
    if |options| == 0 then []
    else
      var n := |options| - 1;
      var rest := PlaceholderIssues(ck, options[..n]);
      assert forall i :: 0 <= i < n ==> options[..n][i] == options[i];
      rest + (if HasPlaceholderOption(ck, options[n]) then [PlaceholderOption(n, options[n])] else [])
  }

  /** The option checks of `check_answer_issues`, which do not look at the
      answer: the count check, then the letter check, then the placeholder
      check. */
  function OptionIssues(ck: Checker, options: seq<string>): (r: seq<Issue>)
    ensures forall i :: 0 <= i < |r| ==> r[i].IsOptionIssue()
  {
    CountIssues(options) + LetterIssues(options) + PlaceholderIssues(ck, options)
  }

  /** `check_answer_issues`: the answer chain, then the option checks. */
  function CheckAnswerIssues(ck: Checker, options: seq<string>, answer: Option<string>): seq<Issue> {
    AnswerIssues(ck, answer, options) + OptionIssues(ck, options)
  }

  /** "Missing answer" is reported exactly for an absent or blank answer. */
  lemma MissingAnswerIff(ck: Checker, options: seq<string>, answer: Option<string>)
    ensures MissingAnswer in CheckAnswerIssues(ck, options, answer) <==>
      answer.None? || Strip(answer.value) == []
  {
    InConcat(MissingAnswer, AnswerIssues(ck, answer, options), OptionIssues(ck, options));
    NotOptionIssue(ck, options, MissingAnswer);
  }

  lemma NotOptionIssue(ck: Checker, options: seq<string>, x: Issue)
    requires !x.IsOptionIssue()
    ensures x !in OptionIssues(ck, options)
  {
  }

  /** An issue about the options is reported exactly when one of the three
      option checks reports it: the answer chain never does. */
  lemma OptionIssueSource(ck: Checker, options: seq<string>, answer: Option<string>, x: Issue)
    requires x.IsOptionIssue()
    ensures x in CheckAnswerIssues(ck, options, answer) <==>
      x in CountIssues(options) || x in LetterIssues(options) || x in PlaceholderIssues(ck, options)
  {
    var a := AnswerIssues(ck, answer, options);
    var c := CountIssues(options);
    var l := LetterIssues(options);
    var p := PlaceholderIssues(ck, options);
    InConcat(x, a, c + l + p);
    InConcat(x, c + l, p);
    InConcat(x, c, l);
    if x in a {
      var i :| 0 <= i < |a| && a[i] == x;
      AnswerOnlyAt(a, i);
    }
  }

  lemma InConcat(x: Issue, a: seq<Issue>, b: seq<Issue>)
    ensures x in a + b <==> x in a || x in b
  {
  }

  /** The count issue appears exactly when fewer than four options were
      parsed, and it carries that count, whatever the answer. */
  lemma TooFewOptionsIff(ck: Checker, options: seq<string>, answer: Option<string>, n: nat)
    ensures TooFewOptions(n) in CheckAnswerIssues(ck, options, answer) <==>
      |options| < 4 && n == |options|
  {
    OptionIssueSource(ck, options, answer, TooFewOptions(n));
  }

  /** "doesn't start with letter" is reported for option `i` exactly when it
      does not start with `A.`-`E.`. */
  lemma OptionWithoutLetterIff(ck: Checker, options: seq<string>, answer: Option<string>, i: nat)
    requires i < |options|
    ensures OptionWithoutLetter(i, options[i]) in CheckAnswerIssues(ck, options, answer) <==>
      !IsOptionLine(options[i])
  {
    OptionIssueSource(ck, options, answer, OptionWithoutLetter(i, options[i]));
  }

  /** "has placeholder" is reported for option `i` exactly when the
      dictionary matches it. */
  lemma PlaceholderOptionIff(ck: Checker, options: seq<string>, answer: Option<string>, i: nat)
    requires i < |options|
    ensures PlaceholderOption(i, options[i]) in CheckAnswerIssues(ck, options, answer) <==>
      HasPlaceholderOption(ck, options[i])
  {
    OptionIssueSource(ck, options, answer, PlaceholderOption(i, options[i]));
  }

  /** A missing or blank answer yields exactly one answer issue, first in the list. */
  lemma MissingAnswerSingleIssue(ck: Checker, options: seq<string>, answer: Option<string>)
    requires answer.None? || Strip(answer.value) == []
    ensures CheckAnswerIssues(ck, options, answer)[0] == MissingAnswer
    ensures forall i :: 0 < i < |CheckAnswerIssues(ck, options, answer)| ==>
      CheckAnswerIssues(ck, options, answer)[i].IsOptionIssue()
  {
  }

  /** The verdict on a single-character answer: "invalid format" when its
      upper-case form is no option letter, "no such option" when it is one but
      no option starts with it, and no answer issue otherwise. */
  lemma SingleCharacterVerdict(ck: Checker, options: seq<string>, a: string)
    requires WellShaped(ck)
    requires |Strip(a)| == 1 && Strip(a) != "?"
    ensures var c := UpperChar(Strip(a)[0]);
      var r := CheckAnswerIssues(ck, options, Some(a));
      && (InvalidAnswerFormat(a) in r <==> !IsOptionLetter(c))
      && (AnswerNotAnOption(a) in r <==> IsOptionLetter(c) && c !in OptionInitials(options))
      && (forall x :: x in r && !x.IsOptionIssue() ==> x == InvalidAnswerFormat(a) || x == AnswerNotAnOption(a))
  {
    assert |Strip(Lower(a))| < 3 by {
      StripLowerLength(a);
    }
    ShortTextNoPlaceholder(ck, a);
    var c := UpperChar(Strip(a)[0]);
    assert FormOf(ck, Some(a)) == SingleCharacter(a, c);
    var ai := AnswerIssues(ck, Some(a), options);
    assert ai == if !IsOptionLetter(c) then [InvalidAnswerFormat(a)]
      else if c !in OptionInitials(options) then [AnswerNotAnOption(a)] else [];
    SingleAnswerIssues(ck, options, a, ai);
  }

  lemma SingleAnswerIssues(ck: Checker, options: seq<string>, a: string, ai: seq<Issue>)
    requires ai == AnswerIssues(ck, Some(a), options)
    requires ai == [] || ai == [InvalidAnswerFormat(a)] || ai == [AnswerNotAnOption(a)]
    ensures var r := CheckAnswerIssues(ck, options, Some(a));
      && (InvalidAnswerFormat(a) in r <==> InvalidAnswerFormat(a) in ai)
      && (AnswerNotAnOption(a) in r <==> AnswerNotAnOption(a) in ai)
      && (forall x :: x in r && !x.IsOptionIssue() ==> x in ai)
  {
    var o := OptionIssues(ck, options);
    NotOptionIssue(ck, options, InvalidAnswerFormat(a));
    NotOptionIssue(ck, options, AnswerNotAnOption(a));
    InConcat(InvalidAnswerFormat(a), ai, o);
    InConcat(AnswerNotAnOption(a), ai, o);
    forall x | x in ai + o && !x.IsOptionIssue() ensures x in ai {
      InConcat(x, ai, o);
      NotOptionIssue(ck, options, x);
    }
  }

  /** Lower-casing does not change where the whitespace is. */
  lemma StripLowerLength(a: string)
    ensures |Strip(Lower(a))| == |Strip(a)|
  {
    assert forall i :: 0 <= i < |a| ==> (IsSpace(Lower(a)[i]) <==> IsSpace(a[i]));
    StripSameSpaces(a, Lower(a));
  }

  /** Texts with whitespace at the same positions strip to the same length. */
  lemma StripSameSpaces(a: string, b: string)
    requires |a| == |b|
    requires forall i :: 0 <= i < |a| ==> (IsSpace(b[i]) <==> IsSpace(a[i]))
    ensures |Strip(b)| == |Strip(a)|
  {
    var lo := StripIsInfix(a);
    var lo2 := StripIsInfix(b);
    var n := |Strip(a)|;
    var m := |Strip(b)|;
    if n > 0 {
      assert !IsSpace(a[lo]) && !IsSpace(a[lo + n - 1]);
    }
    if m > 0 {
      assert !IsSpace(b[lo2]) && !IsSpace(b[lo2 + m - 1]);
    }
    if n > 0 && m > 0 {
      assert lo == lo2;
      assert lo + n == lo2 + m;
    }
  }
}

=== FILE: answer_examples.dfy ===
/** Worked examples of the answer checker's heuristics. */
module AnswerExamples {
  import opened Text
  import opened AnswerChecker

  /** Two letters separated by a space form a multi-answer. */
  lemma MultiExampleTwoLetters()
    ensures IsMultiAnswer("A B")
  {
    var ab := Upper("A B");
    assert ab == "A B";
    assert Letters(ab) == "AB";
    assert Strip(ab[1..2]) == [];
    assert LetterPairAt(ab, 0, 2);
  }

  /** Membership by value: the later `B` and `A` both reappear after the first
      `(`, so this is treated as one answer with an explanation. */
  lemma MultiExampleExplained()
    ensures !IsMultiAnswer("A (foo) B (bar)")
  {
    UpperExplained();
    LettersExplained();
    ExplanationPart();
    ExplanationLetters();
  }

  lemma UpperExplained()
    ensures Upper("A (foo) B (bar)") == "A (FOO) B (BAR)"
  {
  }

  lemma ExplanationPart()
    ensures FromFirst("A (foo) B (bar)", '(') == "(foo) B (bar)"
  {
    var a := "A (foo) B (bar)";
    var e := "(foo) B (bar)";
    assert a[2..] == e;
    assert a[1..][1..] == e;
  }

  lemma ExplanationLetters()
    ensures AllIn("BBA", Upper("(foo) B (bar)"))
  {
    var t := Upper("(foo) B (bar)");
    assert t[6] == 'B' && t[10] == 'A';
  }

  lemma LettersExplained()
    ensures Letters("A (FOO) B (BAR)") == "ABBA"
  {
    LettersOfHead();
    LettersOfTail();
    assert "A (FOO) " + "B (BAR)" == "A (FOO) B (BAR)";
    assert "A" + "BBA" == "ABBA";
    LettersOfJoin("A (FOO) ", "B (BAR)", "A (FOO) B (BAR)", "A", "BBA", "ABBA");
  }

  lemma LettersOfJoin(x: string, y: string, xy: string, lx: string, ly: string, l: string)
    requires x + y == xy && Letters(x) == lx && Letters(y) == ly && lx + ly == l
    ensures Letters(xy) == l
  {
    LettersAppend(x, y);
  }

  lemma LettersOfHead()
    ensures Letters("A (FOO) ") == "A"
  {
  }

  lemma LettersOfTail()
    ensures Letters("B (BAR)") == "BBA"
  {
  }

  /** One letter is never a multi-answer. */
  lemma MultiExampleSingle()
    ensures !IsMultiAnswer("B")
  {
    assert Upper("B") == "B";
    assert Letters("B") == "B";
  }
}

=== FILE: answer_parser.dfy ===
/** The answer checker's corpus parser.

    The stripped corpus is split on blank lines into blocks. A block that is
    blank or has fewer than five lines is skipped; otherwise its first line is
    the question and every later line is scanned once: a line starting with
    `A.`-`E.` is an option (and, when it holds `;;`, also carries the answer),
    and any other line holding `;;` supplies the answer if none is known yet. */
module AnswerParser {
  import opened Text
  import opened Files
  import opened AnswerChecker

  /** What the scan of a block's body has collected so far. */
  datatype Scan = Scan(options: seq<string>, answer: Option<string>, answerLine: Option<nat>)

  /** The option text an option line contributes: the part before the first
      `;;`, stripped, or the whole (already stripped) line. */
  function OptionText(line: string): (r: string)
    requires IsOptionLine(line)
    ensures IsOptionLine(r)
  {
    if Contains(line, AnswerMark) then
      var parts := SplitMarked(line);
      OptionPartKeepsLetter(line);
      Strip(parts[0])
    else line
  }

  /** `line.split(";;")` of a line that holds the mark: at least two parts. */
  function SplitMarked(line: string): (r: seq<string>)
    requires Contains(line, AnswerMark)
    ensures |r| >= 2
  {
    SplitWhenContains(line, AnswerMark);
    Split(line, AnswerMark)
  }

  /** The answer an option line carries: `parts[1].strip()`. */
  function InlineAnswer(line: string): string
    requires Contains(line, AnswerMark)
  {
    Strip(SplitMarked(line)[1])
  }

  /** The answer a separate answer line carries: `line.replace(";;", "").strip()`. */
  function SeparateAnswer(line: string): string {
    Strip(Replace(line, AnswerMark, ""))
  }

  /** The text before the first `;;` of an option line still starts with the
      option prefix, and keeps it through `strip()`. */
  lemma OptionPartKeepsLetter(line: string)
    requires IsOptionLine(line) && Contains(line, AnswerMark)
    ensures IsOptionLine(Strip(SplitMarked(line)[0]))
  {
    var p := SplitMarked(line)[0];
    assert line[0] != ';' && line[1] != ';';
    SplitHeadStart(line, AnswerMark, 2);
    assert StartsWith(p, line[..2]);
    assert p[0] == line[0] && p[1] == line[1];
    StripKeepsPrefix(p, p[..2]);
    TrimRightPrefix(p);
  }

  /** One step of the scan over the line at position `idx` of the block. */
  function ScanLine(st: Scan, idx: nat, raw: string): (r: Scan)
    ensures |r.options| == |st.options| + (if IsOptionLine(Strip(raw)) then 1 else 0)
    ensures r.options[..|st.options|] == st.options
  {
    var line := Strip(raw);
    if IsOptionLine(line) then
      if Contains(line, AnswerMark) then
        Scan(st.options + [OptionText(line)], Some(InlineAnswer(line)), Some(idx))
      else
        Scan(st.options + [line], st.answer, st.answerLine)
    else if Contains(line, AnswerMark) && st.answer.None? then
      Scan(st.options, Some(SeparateAnswer(line)), Some(idx))
    else st
  }

  /** The scan of `lines[1:]`; `body[j]` is line `j + 1` of the block. */
  function ScanBody(body: seq<string>): (r: Scan)
    ensures forall i :: 0 <= i < |r.options| ==> IsOptionLine(r.options[i])
    ensures r.answerLine.Some? ==> 1 <= r.answerLine.value <= |body|
  {
    if |body| == 0 then Scan([], None, None)
    else
      var n := |body| - 1;
      var st := ScanBody(body[..n]);
      var r := ScanLine(st, n + 1, body[n]);
      assert forall i :: 0 <= i < |st.options| ==> r.options[i] == st.options[i];
      r
  }

  // ---------------------------------------------------------------------------
  // Reference definitions of what the scan collects
  // ---------------------------------------------------------------------------

  /** The option texts of the body's option lines, in order. */
  function OptionsOf(body: seq<string>): seq<string> {
    if |body| == 0 then []
    else
      var n := |body| - 1;
      var line := Strip(body[n]);
      OptionsOf(body[..n]) + (if IsOptionLine(line) then [OptionText(line)] else [])
  }

  /** A stripped option line that carries the answer mark. */
  predicate InlineAnswerLine(raw: string) {
    IsOptionLine(Strip(raw)) && Contains(Strip(raw), AnswerMark)
  }

  /** A stripped non-option line that carries the answer mark. */
  predicate SeparateAnswerLine(raw: string) {
    !IsOptionLine(Strip(raw)) && Contains(Strip(raw), AnswerMark)
  }

  /** The scan collects exactly the options of the option lines, in order. */
  lemma {:induction false} ScanOptions(body: seq<string>)
    ensures ScanBody(body).options == OptionsOf(body)
  {
    if |body| > 0 {
      ScanOptions(body[..|body| - 1]);
    }
  }

  /** The position of the last option line carrying `;;`, if any. */
  function LastInline(body: seq<string>): (r: Option<nat>)
    ensures r.Some? ==> r.value < |body| && InlineAnswerLine(body[r.value])
    ensures r.Some? ==> forall k :: r.value < k < |body| ==> !InlineAnswerLine(body[k])
    ensures r.None? ==> forall k :: 0 <= k < |body| ==> !InlineAnswerLine(body[k])
  {
    if |body| == 0 then None
    else
      var n := |body| - 1;
      if InlineAnswerLine(body[n]) then Some(n)
      else
        var r := LastInline(body[..n]);
        assert forall k :: 0 <= k < n ==> body[..n][k] == body[k];
        r
  }

  /** The position of the first separate line carrying `;;`, if any. */
  function FirstSeparate(body: seq<string>): (r: Option<nat>)
    ensures r.Some? ==> r.value < |body| && SeparateAnswerLine(body[r.value])
    ensures r.Some? ==> forall k :: 0 <= k < r.value ==> !SeparateAnswerLine(body[k])
    ensures r.None? ==> forall k :: 0 <= k < |body| ==> !SeparateAnswerLine(body[k])
  {
    if |body| == 0 then None
    else
      var n := |body| - 1;
      var r := FirstSeparate(body[..n]);
      assert forall k :: 0 <= k < n ==> body[..n][k] == body[k];
      if r.Some? then r
      else if SeparateAnswerLine(body[n]) then Some(n)
      else None
  }

  /** Which line the answer comes from: the last option line carrying `;;`
      when there is one (each such line overwrites the answer), and otherwise
      the first separate `;;` line (a separate line only fills an empty slot);
      with neither, the answer stays unset. */
  predicate AnswerFrom(body: seq<string>, r: Scan) {
    match LastInline(body)
    case Some(j) => r.answerLine == Some(j + 1) && r.answer == Some(InlineAnswer(Strip(body[j])))
    case None =>
      match FirstSeparate(body)
      case Some(j) => r.answerLine == Some(j + 1) && r.answer == Some(SeparateAnswer(Strip(body[j])))
      case None => r.answer.None? && r.answerLine.None?
  }

  /** The scan takes its answer from the line `AnswerFrom` names. */
  lemma {:induction false} ScanAnswerSource(body: seq<string>)
    ensures AnswerFrom(body, ScanBody(body))
    decreases |body|
  {
    if |body| > 0 {
      var n := |body| - 1;
      ScanAnswerSource(body[..n]);
      assert body[..n] + [body[n]] == body;
      ScanAnswerStep(body[..n], body[n]);
    }
  }

  lemma ScanAnswerStep(pre: seq<string>, raw: string)
    requires AnswerFrom(pre, ScanBody(pre))
    ensures AnswerFrom(pre + [raw], ScanBody(pre + [raw]))
  {
    var body := pre + [raw];
    var n := |pre|;
    assert body[..n] == pre && body[n] == raw;
    var st := ScanBody(pre);
    assert ScanBody(body) == ScanLine(st, n + 1, raw);
    if !InlineAnswerLine(raw) {
      assert LastInline(body) == LastInline(pre);
      if LastInline(pre).None? {
        var f := FirstSeparate(pre);
        assert FirstSeparate(body) == (if f.Some? then f else if SeparateAnswerLine(raw) then Some(n) else None);
        if f.Some? {
          assert pre[f.value] == body[f.value];
        }
      } else {
        var j := LastInline(pre).value;
        assert pre[j] == body[j];
      }
    }
  }

  // ---------------------------------------------------------------------------
  // Records
  // ---------------------------------------------------------------------------

  /** One parsed block: its position in the split, its parts and its issues. */
  datatype QaRecord = QaRecord(
    index: nat,
    question: string,
    options: seq<string>,
    answer: Option<string>,
    answerLine: Option<nat>,
    fullText: string,
    issues: seq<Issue>)

  /** A block the parser keeps: not blank, and at least five lines once stripped. */
  predicate KeptBlock(block: string) {
    Strip(block) != [] && |Split(Strip(block), "\n")| >= 5
  }

  /** The record of block `i`: the stripped first line is the question, the
      options are the texts of the option lines in order, the answer comes
      from the line `AnswerFrom` names, and the issues are those the checker
      finds in these options and this answer. */
  function ParseBlock(ck: Checker, i: nat, block: string): (r: QaRecord)
    requires KeptBlock(block)
    ensures var lines := Split(Strip(block), "\n");
      && r.question == Strip(lines[0])
      && r.options == OptionsOf(lines[1..])
      && AnswerFrom(lines[1..], Scan(r.options, r.answer, r.answerLine))
    ensures r.index == i && r.fullText == Strip(block)
    ensures r.issues == CheckAnswerIssues(ck, r.options, r.answer)
  {
    var pair := Strip(block);
    var lines := Split(pair, "\n");
    var scan := ScanBody(lines[1..]);
    ScanOptions(lines[1..]);
    ScanAnswerSource(lines[1..]);
    QaRecord(i, Strip(lines[0]), scan.options, scan.answer, scan.answerLine, pair,
      CheckAnswerIssues(ck, scan.options, scan.answer))
  }

  /** The positions of the kept blocks among `blocks[from..]`, ascending. */
  function KeptFrom(blocks: seq<string>, from: nat): (r: seq<nat>)
    requires from <= |blocks|
    ensures forall k :: 0 <= k < |r| ==> from <= r[k] < |blocks| && KeptBlock(blocks[r[k]])
    ensures forall k, m :: 0 <= k < m < |r| ==> r[k] < r[m]
    decreases |blocks| - from
  {
    if from == |blocks| then []
    else
      var rest := KeptFrom(blocks, from + 1);
      if KeptBlock(blocks[from]) then [from] + rest else rest
  }

  /** Every kept block at or after `from` is listed. */
  lemma {:induction false} KeptFromComplete(blocks: seq<string>, from: nat, i: nat)
    requires from <= i < |blocks| && KeptBlock(blocks[i])
    ensures i in KeptFrom(blocks, from)
    decreases i - from
  {
    if i > from {
      KeptFromComplete(blocks, from + 1, i);
    }
  }

  /** `parse_qa_file` on the file's content: one record per kept block, in
      order, numbered by the block's position in the split. */
  function ParseQaFile(ck: Checker, content: string): (r: seq<QaRecord>)
    ensures var blocks := Split(Strip(content), BlankLine);
      forall k :: 0 <= k < |r| ==>
        && r[k].index < |blocks| && KeptBlock(blocks[r[k].index])
        && r[k] == ParseBlock(ck, r[k].index, blocks[r[k].index])
    ensures forall k, m :: 0 <= k < m < |r| ==> r[k].index < r[m].index
  {
    var blocks := Split(Strip(content), BlankLine);
    var idx := KeptFrom(blocks, 0);
    seq(|idx|, k requires 0 <= k < |idx| => ParseBlock(ck, idx[k], blocks[idx[k]]))
  }

  /** A block is recorded exactly when it is kept. */
  lemma ParseQaFileRecords(ck: Checker, content: string, i: nat)
    requires i < |Split(Strip(content), BlankLine)|
    ensures (exists k :: 0 <= k < |ParseQaFile(ck, content)| && ParseQaFile(ck, content)[k].index == i)
        <==> KeptBlock(Split(Strip(content), BlankLine)[i])
  {
    var blocks := Split(Strip(content), BlankLine);
    if KeptBlock(blocks[i]) {
      KeptFromComplete(blocks, 0, i);
      var idx := KeptFrom(blocks, 0);
      var k :| 0 <= k < |idx| && idx[k] == i;
      assert ParseQaFile(ck, content)[k].index == i;
    }
  }

  /** Options produced by the parser always start with `A.`-`E.`, so the
      "doesn't start with letter" issue never fires on a parsed record. */
  lemma ParsedOptionsHaveLetters(ck: Checker, content: string, k: nat, i: nat)
    requires k < |ParseQaFile(ck, content)|
    requires i < |ParseQaFile(ck, content)[k].options|
    ensures var r := ParseQaFile(ck, content)[k];
      OptionWithoutLetter(i, r.options[i]) !in r.issues
  {
    var r := ParseQaFile(ck, content)[k];
    OptionWithoutLetterIff(ck, r.options, r.answer, i);
  }
}

=== FILE: answer_report.dfy ===
/** The answer checker's report: every rendered issue of every record is
    routed to one of eight categories by the first marker text it contains,
    each category lists the records once per routed issue, and shows at most
    ten of them. */
module AnswerReport {
  import opened Text
  import opened AnswerChecker
  import opened AnswerParser

  datatype Category =
    | MissingAnswers
    | QuestionMarkAnswers
    | PlaceholderAnswers
    | PlaceholderOptions
    | InvalidFormats
    | MultiAnswers
    | MalformedOptions
    | OtherIssues

  /** The categories in the order the report tests and lists them. */
  const Categories: seq<Category> := [
    MissingAnswers, QuestionMarkAnswers, PlaceholderAnswers, PlaceholderOptions,
    InvalidFormats, MultiAnswers, MalformedOptions, OtherIssues
  ]

  /** The marker texts of a category; `OtherIssues` has none and takes
      whatever no earlier category claimed. */
  function Markers(c: Category): seq<string> {
    match c
    case MissingAnswers => ["Missing answer"]
    case QuestionMarkAnswers => ["question mark"]
    case PlaceholderAnswers => ["Placeholder answer"]
    case PlaceholderOptions => ["has placeholder"]
    case InvalidFormats => ["Invalid answer format"]
    case MultiAnswers => ["Multi-answer", "multi-answer"]
    case MalformedOptions => ["options found", "doesn't start with letter"]
    case OtherIssues => []
  }

  /** The category of one issue text: the first one, in report order, one of
      whose markers the text contains. */
  function Categorise(text: string): Category {
    if Contains(text, "Missing answer") then MissingAnswers
    else if Contains(text, "question mark") then QuestionMarkAnswers
    else if Contains(text, "Placeholder answer") then PlaceholderAnswers
    else if Contains(text, "has placeholder") then PlaceholderOptions
    else if Contains(text, "Invalid answer format") then InvalidFormats
    else if Contains(text, "Multi-answer") || Contains(text, "multi-answer") then MultiAnswers
    else if Contains(text, "options found") || Contains(text, "doesn't start with letter") then MalformedOptions
    else OtherIssues
  }

  /** The reference reading of the routing: walk the categories in order and
      take the first whose marker list the text mentions. */
  function FirstMatching(text: string, i: nat): Category
    decreases |Categories| - i
  {
    if i >= |Categories| then OtherIssues
    else if MentionsAny(text, Markers(Categories[i])) then Categories[i]
    else FirstMatching(text, i + 1)
  }

  /** The if/elif routing agrees with the first-match walk over the ordered
      marker table. */
  lemma CategoriseIsFirstMatch(text: string)
    ensures Categorise(text) == FirstMatching(text, 0)
  {
    MentionsMarkers(text, MissingAnswers);
    MentionsMarkers(text, QuestionMarkAnswers);
    MentionsMarkers(text, PlaceholderAnswers);
    MentionsMarkers(text, PlaceholderOptions);
    MentionsMarkers(text, InvalidFormats);
    MentionsMarkers(text, MultiAnswers);
    MentionsMarkers(text, MalformedOptions);
    MentionsMarkers(text, OtherIssues);
    assert FirstMatching(text, 8) == OtherIssues;
    assert FirstMatching(text, 7) == OtherIssues;
    assert FirstMatching(text, 6) == if MarkerHit(text, MalformedOptions) then MalformedOptions else OtherIssues;
    assert FirstMatching(text, 5) == if MarkerHit(text, MultiAnswers) then MultiAnswers else FirstMatching(text, 6);
    assert FirstMatching(text, 4) == if MarkerHit(text, InvalidFormats) then InvalidFormats else FirstMatching(text, 5);
    assert FirstMatching(text, 3) == if MarkerHit(text, PlaceholderOptions) then PlaceholderOptions else FirstMatching(text, 4);
    assert FirstMatching(text, 2) == if MarkerHit(text, PlaceholderAnswers) then PlaceholderAnswers else FirstMatching(text, 3);
    assert FirstMatching(text, 1) == if MarkerHit(text, QuestionMarkAnswers) then QuestionMarkAnswers else FirstMatching(text, 2);
    assert FirstMatching(text, 0) == if MarkerHit(text, MissingAnswers) then MissingAnswers else FirstMatching(text, 1);
  }

  /** The test the if/elif chain applies for category `c`. */
  predicate MarkerHit(text: string, c: Category) {
    match c
    case MissingAnswers => Contains(text, "Missing answer")
    case QuestionMarkAnswers => Contains(text, "question mark")
    case PlaceholderAnswers => Contains(text, "Placeholder answer")
    case PlaceholderOptions => Contains(text, "has placeholder")
    case InvalidFormats => Contains(text, "Invalid answer format")
    case MultiAnswers => Contains(text, "Multi-answer") || Contains(text, "multi-answer")
    case MalformedOptions => Contains(text, "options found") || Contains(text, "doesn't start with letter")
    case OtherIssues => false
  }

  lemma MentionsMarkers(text: string, c: Category)
    ensures MentionsAny(text, Markers(c)) <==> MarkerHit(text, c)
  {
    match c
    case MultiAnswers => MentionsPair(text, "Multi-answer", "multi-answer");
    case MalformedOptions => MentionsPair(text, "options found", "doesn't start with letter");
    case OtherIssues =>
    case _ => MentionsSingle(text, Markers(c)[0]);
  }

  lemma MentionsSingle(text: string, a: string)
    ensures MentionsAny(text, [a]) <==> Contains(text, a)
  {
    assert [a][1..] == [];
  }

  lemma MentionsPair(text: string, a: string, b: string)
    ensures MentionsAny(text, [a, b]) <==> Contains(text, a) || Contains(text, b)
  {
    assert [a, b][1..] == [b];
    MentionsSingle(text, b);
  }

  // ---------------------------------------------------------------------------
  // Routing records into categories
  // ---------------------------------------------------------------------------

  /** The category each issue of the list is routed to. */
  function Routes(issues: seq<Issue>): (r: seq<Category>)
    ensures |r| == |issues|
    ensures forall i :: 0 <= i < |issues| ==> r[i] == Categorise(Render(issues[i]))
  {
    seq(|issues|, i requires 0 <= i < |issues| => Categorise(Render(issues[i])))
  }

  /** How many entries of a route list are `c`. */
  function CountIn(routes: seq<Category>, c: Category): (n: nat)
    ensures n <= |routes|
  {
    if |routes| == 0 then 0
    else (if routes[0] == c then 1 else 0) + CountIn(routes[1..], c)
  }

  /** The record list of category `c`: each record once per issue of it that
      is routed to `c`, records in order. */
  function Bucket(records: seq<QaRecord>, c: Category): (r: seq<QaRecord>)
    ensures forall k :: 0 <= k < |r| ==> r[k] in records
  {
    if |records| == 0 then []
    else
      var rest := Bucket(records[1..], c);
      assert forall k :: 0 <= k < |rest| ==> rest[k] in records;
      seq(CountIn(Routes(records[0].issues), c), _ => records[0]) + rest
  }

  function TotalIssues(records: seq<QaRecord>): nat {
    if |records| == 0 then 0 else |records[0].issues| + TotalIssues(records[1..])
  }

  /** The sizes of all eight category lists. */
  function BucketSizes(records: seq<QaRecord>): nat {
    |Bucket(records, MissingAnswers)| + |Bucket(records, QuestionMarkAnswers)|
    + |Bucket(records, PlaceholderAnswers)| + |Bucket(records, PlaceholderOptions)|
    + |Bucket(records, InvalidFormats)| + |Bucket(records, MultiAnswers)|
    + |Bucket(records, MalformedOptions)| + |Bucket(records, OtherIssues)|
  }

  /** The per-category counts of one issue list add up to its length. */
  lemma {:induction false} CountsCover(routes: seq<Category>)
    ensures CountIn(routes, MissingAnswers) + CountIn(routes, QuestionMarkAnswers)
      + CountIn(routes, PlaceholderAnswers) + CountIn(routes, PlaceholderOptions)
      + CountIn(routes, InvalidFormats) + CountIn(routes, MultiAnswers)
      + CountIn(routes, MalformedOptions) + CountIn(routes, OtherIssues) == |routes|
  {
    if |routes| > 0 {
      CountsCover(routes[1..]);
    }
  }

  /** Routing neither loses nor duplicates an issue: the category lists hold
      exactly as many entries as there are issues. */
  lemma {:induction false} RoutingConserves(records: seq<QaRecord>)
    ensures BucketSizes(records) == TotalIssues(records)
  {
    if |records| > 0 {
      RoutingConserves(records[1..]);
      CountsCover(Routes(records[0].issues));
    }
  }

  /** A record with an issue appears in the list of that issue's category. */
  lemma {:induction false} RoutedRecordListed(records: seq<QaRecord>, k: nat, i: nat)
    requires k < |records| && i < |records[k].issues|
    ensures records[k] in Bucket(records, Categorise(Render(records[k].issues[i])))
  {
    var c := Categorise(Render(records[k].issues[i]));
    if k == 0 {
      CountInPositive(Routes(records[0].issues), i, c);
      assert Bucket(records, c)[0] == records[0];
    } else {
      RoutedRecordListed(records[1..], k - 1, i);
      assert records[1..][k - 1] == records[k];
    }
  }

  /** Only records with issues are listed: a non-empty category list means
      some record has an issue. */
  lemma {:induction false} ListedHasIssues(records: seq<QaRecord>, c: Category)
    requires |Bucket(records, c)| > 0
    ensures WithIssues(records) > 0
  {
    if CountIn(Routes(records[0].issues), c) == 0 {
      ListedHasIssues(records[1..], c);
    }
  }

  lemma {:induction false} CountInPositive(routes: seq<Category>, i: nat, c: Category)
    requires i < |routes| && routes[i] == c
    ensures CountIn(routes, c) > 0
  {
    if i > 0 {
      CountInPositive(routes[1..], i - 1, c);
    }
  }

  lemma {:induction false} CountInMember(routes: seq<Category>, c: Category)
    ensures CountIn(routes, c) > 0 <==> c in routes
  {
    if |routes| > 0 {
      CountInMember(routes[1..], c);
      assert routes == [routes[0]] + routes[1..];
    }
  }

  /** A category's list holds exactly the records that have an issue routed
      to that category. */
  lemma {:induction false} BucketMembership(records: seq<QaRecord>, c: Category, x: QaRecord)
    ensures x in Bucket(records, c) <==> x in records && c in Routes(x.issues)
  {
    if |records| > 0 {
      BucketMembership(records[1..], c, x);
      var n := CountIn(Routes(records[0].issues), c);
      CountInMember(Routes(records[0].issues), c);
      var head := seq(n, _ => records[0]);
      InRepeated(n, records[0], x);
      assert Bucket(records, c) == head + Bucket(records[1..], c);
      assert x in Bucket(records, c) <==> x in head || x in Bucket(records[1..], c);
      assert records == [records[0]] + records[1..];
      assert x in records <==> x == records[0] || x in records[1..];
    }
  }

  lemma InRepeated(n: nat, y: QaRecord, x: QaRecord)
    ensures x in seq(n, _ => y) <==> n > 0 && x == y
  {
    if n > 0 {
      assert seq(n, _ => y)[0] == y;
    }
  }

  // ---------------------------------------------------------------------------
  // The report
  // ---------------------------------------------------------------------------

  /** One category of the breakdown: the full count and the first ten entries. */
  datatype Breakdown = Breakdown(category: Category, count: nat, samples: seq<QaRecord>)

  datatype Report =
    | NoRecords
    | Summary(total: nat, withoutIssues: nat, withIssues: nat, breakdown: seq<Breakdown>)

  /** The number of records with at least one issue. */
  function WithIssues(records: seq<QaRecord>): (n: nat)
    ensures n <= |records|
  {
    if |records| == 0 then 0
    else (if records[0].issues != [] then 1 else 0) + WithIssues(records[1..])
  }

  /** No record is counted as having issues exactly when every record is
      clean, and every record is counted exactly when none is. */
  lemma {:induction false} WithIssuesExtremes(records: seq<QaRecord>)
    ensures WithIssues(records) == 0 <==> forall k :: 0 <= k < |records| ==> records[k].issues == []
    ensures WithIssues(records) == |records| <==> forall k :: 0 <= k < |records| ==> records[k].issues != []
  {
    if |records| > 0 {
      WithIssuesExtremes(records[1..]);
      assert forall k :: 1 <= k < |records| ==> records[k] == records[1..][k - 1];
    }
  }

  /** A category's entry: its count and its first ten records. */
  function BreakdownOf(records: seq<QaRecord>, c: Category): (b: Breakdown)
    ensures b.category == c && b.count == |Bucket(records, c)|
    ensures |b.samples| == if b.count < 10 then b.count else 10
    ensures b.samples == Bucket(records, c)[..|b.samples|]
    ensures forall k :: 0 <= k < |b.samples| ==> b.samples[k] in records && c in Routes(b.samples[k].issues)
  {
    var all := Bucket(records, c);
    forall k | 0 <= k < |all| ensures all[k] in records && c in Routes(all[k].issues) {
      BucketMembership(records, c, all[k]);
    }
    Breakdown(c, |all|, if |all| <= 10 then all else all[..10])
  }

  /** `generate_report` on the parsed records. */
  function GenerateReport(records: seq<QaRecord>): (r: Report)
    ensures r.NoRecords? <==> |records| == 0
    ensures r.Summary? ==> r.total == |records| && r.withIssues + r.withoutIssues == r.total
    ensures r.Summary? ==> |r.breakdown| == |Categories|
    ensures r.Summary? ==>
      forall k :: 0 <= k < |Categories| ==> r.breakdown[k] == BreakdownOf(records, Categories[k])
  {
    if |records| == 0 then NoRecords
    else
      var w := WithIssues(records);
      Summary(|records|, |records| - w, w,
        seq(|Categories|, k requires 0 <= k < |Categories| => BreakdownOf(records, Categories[k])))
  }

  /** The breakdown's counts add up to the number of issues, not to the
      number of records: a record with several issues counts once per issue. */
  lemma BreakdownCountsIssues(records: seq<QaRecord>)
    ensures BreakdownOf(records, MissingAnswers).count + BreakdownOf(records, QuestionMarkAnswers).count
      + BreakdownOf(records, PlaceholderAnswers).count + BreakdownOf(records, PlaceholderOptions).count
      + BreakdownOf(records, InvalidFormats).count + BreakdownOf(records, MultiAnswers).count
      + BreakdownOf(records, MalformedOptions).count + BreakdownOf(records, OtherIssues).count
      == TotalIssues(records)
  {
    RoutingConserves(records);
  }

  // ---------------------------------------------------------------------------
  // Routing of particular issues
  // ---------------------------------------------------------------------------

  lemma MissingAnswerRouted()
    ensures Categorise(Render(MissingAnswer)) == MissingAnswers
  {
    assert OccursAt("Missing answer", "Missing answer", 0);
  }

  lemma QuestionMarkRouted()
    ensures Categorise(Render(QuestionMarkAnswer)) == QuestionMarkAnswers
  {
    var t := Render(QuestionMarkAnswer);
    QuestionMarkText();
    MissingCharNotContained(t, "Missing answer", 0);
    ContainsAt(t, "question mark", 10);
  }

  lemma QuestionMarkText()
    ensures OccursAt("Answer is question mark", "question mark", 10)
    ensures 'M' !in "Answer is question mark"
  {
  }

  /** The count issue reaches the malformed-options list for every count. */
  lemma TooFewOptionsRouted(n: nat)
    ensures Categorise(Render(TooFewOptions(n))) == MalformedOptions
  {
    var t := "Only " + NatToString(n) + " options found, expected at least 4";
    assert Render(TooFewOptions(n)) == t;
    CountTextMarkers(n, t);
    CountTextFound(n, t);
    RoutedMalformed(t);
  }

  /** A text holding "options found" and no earlier marker is a malformed-options issue. */
  lemma RoutedMalformed(t: string)
    requires !Contains(t, "Missing answer") && !Contains(t, "question mark")
    requires !Contains(t, "Placeholder answer") && !Contains(t, "has placeholder")
    requires !Contains(t, "Invalid answer format")
    requires !Contains(t, "Multi-answer") && !Contains(t, "multi-answer")
    requires Contains(t, "options found")
    ensures Categorise(t) == MalformedOptions
  {
  }

  lemma CountTextMarkers(n: nat, t: string)
    requires t == "Only " + NatToString(n) + " options found, expected at least 4"
    ensures !Contains(t, "Missing answer") && !Contains(t, "question mark")
    ensures !Contains(t, "Placeholder answer") && !Contains(t, "has placeholder")
    ensures !Contains(t, "Invalid answer format")
    ensures !Contains(t, "Multi-answer") && !Contains(t, "multi-answer")
  {
    NoMarkerLetters("Only ", NatToString(n), " options found, expected at least 4");
    MissingCharNotContained(t, "Missing answer", 0);
    MissingCharNotContained(t, "question mark", 0);
    MissingCharNotContained(t, "Placeholder answer", 0);
    MissingCharNotContained(t, "has placeholder", 0);
    MissingCharNotContained(t, "Invalid answer format", 0);
    MissingCharNotContained(t, "Multi-answer", 0);
    MissingCharNotContained(t, "multi-answer", 0);
  }

  lemma CountTextFound(n: nat, t: string)
    requires t == "Only " + NatToString(n) + " options found, expected at least 4"
    ensures Contains(t, "options found")
  {
    var tail := " options found, expected at least 4";
    FoundInCountTail();
    ContainsAt(tail, "options found", 1);
    ContainsConcatRight("Only " + NatToString(n), tail, "options found");
  }

  lemma FoundInCountTail()
    ensures OccursAt(" options found, expected at least 4", "options found", 1)
  {
    assert " " + "options found" + ", expected at least 4" == " options found, expected at least 4";
    OccursInMiddle(" ", "options found", ", expected at least 4");
  }

  /** None of the leading letters of the earlier markers occurs in the count
      issue's text. */
  lemma NoMarkerLetters(head: string, d: string, tail: string)
    requires head == "Only " && tail == " options found, expected at least 4"
    requires forall i :: 0 <= i < |d| ==> IsDigit(d[i])
    ensures var t := head + d + tail;
      'M' !in t && 'q' !in t && 'P' !in t && 'h' !in t && 'I' !in t && 'm' !in t
  {
    forall c | c in "MqPhIm" ensures c !in head + d + tail {
      assert c !in d by {
        assert !IsDigit(c);
      }
      assert c !in head;
      assert c !in tail by {
        assert forall i :: 0 <= i < |tail| ==> tail[i] != c;
      }
    }
  }

  /** Routing looks at the rendered text, so an answer that happens to
      contain a marker text sends its record to the wrong list: a long answer
      starting with "Missing answer" is listed among the missing answers. */
  lemma LongAnswerMisrouted(a: string)
    requires |a| >= 14 && a[..14] == "Missing answer"
    ensures Categorise(Render(LongAnswer(a))) == MissingAnswers
  {
    var head := "Unusually long answer: '";
    var shown := Take(a, 20);
    assert shown[..14] == a[..14];
    assert Contains(shown, "Missing answer") by {
      assert OccursAt(shown, "Missing answer", 0);
    }
    ContainsConcatRight(head, shown, "Missing answer");
    ContainsConcatLeft(head + shown, "...'", "Missing answer");
  }
}

=== FILE: cards.dfy ===
/** The flashcard text both extractors write (`format_qa_pairs`): a card is
    the question, one line per option, then the question/answer separator and
    the answer; cards are joined by the card separator. This module holds the
    card layout and the facts that let a reader take the text apart again. */
module Cards {
  import opened Text
  import opened Files

  /** `"\n" + line` for every option line, in order. */
  function OptionBlock(lines: seq<string>): string
  {
    if |lines| == 0 then "" else "\n" + lines[0] + OptionBlock(lines[1..])
  }

  /** One card: the question, its option lines, and `tail`, which is the
      question/answer separator followed by the rendered answer. */
  function Card(question: string, lines: seq<string>, tail: string): string
  {
    question + OptionBlock(lines) + tail
  }

  /** The lines a card consists of: the question, each option line, with the
      tail attached to the last of them. */
  function CardLines(question: string, lines: seq<string>, tail: string): (r: seq<string>)
    ensures |r| == |lines| + 1
  {
    if |lines| == 0 then [question + tail]
    else [question] + lines[..|lines| - 1] + [lines[|lines| - 1] + tail]
  }

  // ---------------------------------------------------------------------------
  // Reading a card back
  // ---------------------------------------------------------------------------

  /** A card is its lines joined by line breaks. */
  lemma {:induction false} CardIsJoin(question: string, lines: seq<string>, tail: string)
    ensures Card(question, lines, tail) == Join(CardLines(question, lines, tail), "\n")
    decreases |lines|
  {
    if |lines| > 0 {
      var rest := lines[1..];
      CardIsJoin(lines[0], rest, tail);
      CardCons(question, lines, tail);
      JoinCons(question, CardLines(lines[0], rest, tail), "\n");
    }
  }

  /** A card with an option line is its question line followed by the card
      that option line starts. */
  lemma CardCons(question: string, lines: seq<string>, tail: string)
    requires |lines| > 0
    ensures Card(question, lines, tail) == question + "\n" + Card(lines[0], lines[1..], tail)
    ensures CardLines(question, lines, tail) == [question] + CardLines(lines[0], lines[1..], tail)
  {
    var rest := lines[1..];
    assert OptionBlock(lines) == "\n" + lines[0] + OptionBlock(rest);
    if |rest| > 0 {
      assert lines[..|lines| - 1] == [lines[0]] + rest[..|rest| - 1];
    }
  }

  /** When no field holds a line break, splitting a card on line breaks gives
      back the question, the option lines and the answer line. */
  lemma CardSplit(question: string, lines: seq<string>, tail: string)
    requires '\n' !in question && '\n' !in tail
    requires forall i :: 0 <= i < |lines| ==> '\n' !in lines[i]
    ensures Split(Card(question, lines, tail), "\n") == CardLines(question, lines, tail)
  {
    CardIsJoin(question, lines, tail);
    var parts := CardLines(question, lines, tail);
    forall i | 0 <= i < |parts| ensures Isolated(parts[i], "\n") {
      assert '\n' !in parts[i];
      IsolatedChar(parts[i], '\n');
    }
    SplitOfJoin(parts, "\n");
  }

  lemma AppendLineNoBlank(a: string, x: string)
    requires NoBlankLine(a) && |x| > 0 && '\n' !in x
    ensures NoBlankLine(a + "\n" + x)
  {
    var s := a + "\n" + x;
    assert s[|s| - 1] == x[|x| - 1];
    forall i | 0 <= i < |s| - 1 ensures !(s[i] == '\n' && s[i + 1] == '\n') {
      if i > |a| {
        assert s[i] == x[i - |a| - 1];
      } else if i == |a| {
        assert s[i + 1] == x[0];
      } else if i == |a| - 1 {
        assert s[i] == a[|a| - 1];
      } else {
        assert s[i] == a[i] && s[i + 1] == a[i + 1];
      }
    }
  }

  /** Lines without line breaks, all but the first non-empty, join into a
      text without an empty line. */
  lemma {:induction false} JoinLinesNoBlank(parts: seq<string>)
    requires |parts| > 0
    requires forall i :: 0 <= i < |parts| ==> '\n' !in parts[i]
    requires forall i :: 0 < i < |parts| ==> parts[i] != []
    ensures NoBlankLine(Join(parts, "\n"))
    decreases |parts|
  {
    if |parts| == 1 {
      assert '\n' !in parts[0];
    } else {
      var init := parts[..|parts| - 1];
      var x := parts[|parts| - 1];
      JoinLinesNoBlank(init);
      JoinSnoc(init, x, "\n");
      assert init + [x] == parts;
      AppendLineNoBlank(Join(init, "\n"), x);
    }
  }

  /** A card with non-empty option lines and no line break in any field has
      no empty line, so a blank-line card separator finds its end. */
  lemma CardNoBlankLine(question: string, lines: seq<string>, tail: string)
    requires '\n' !in question && '\n' !in tail
    requires forall i :: 0 <= i < |lines| ==> '\n' !in lines[i] && lines[i] != []
    ensures NoBlankLine(Card(question, lines, tail))
  {
    CardIsJoin(question, lines, tail);
    var parts := CardLines(question, lines, tail);
    forall i | 0 <= i < |parts| ensures '\n' !in parts[i] && (i > 0 ==> parts[i] != []) {
      if i > 0 && i < |lines| {
        assert parts[i] == lines[i - 1];
      }
    }
    JoinLinesNoBlank(parts);
  }

  /** Cards without empty lines, joined by a blank line, split back into the
      same cards. */
  lemma CardsSplit(cards: seq<string>)
    requires |cards| > 0
    requires forall k :: 0 <= k < |cards| ==> NoBlankLine(cards[k])
    ensures Split(Join(cards, BlankLine), BlankLine) == cards
  {
    forall k | 0 <= k < |cards| ensures Isolated(cards[k], BlankLine) {
      NoBlankLineIsolated(cards[k]);
    }
    SplitOfJoin(cards, BlankLine);
  }
}

=== FILE: duplicate_checker.dfy ===
/** The duplicate checker: question normalisation, its own corpus parser,
    exact grouping by normalised question, greedy near-duplicate clustering
    against each group's seed, answer-consistency flagging, the report counts
    and the first-occurrence clean-up. */
module DuplicateChecker {
  import opened Text
  import opened Files
  import opened AnswerParser

  // ---------------------------------------------------------------------------
  // Normalisation
  // ---------------------------------------------------------------------------

  /** `re.sub(r"[^\w\s]", "", s)`: only word and whitespace characters stay. */
  function KeepWordOrSpace(s: string): (r: string)
    ensures |r| <= |s|
  {
    if |s| == 0 then ""
    else (if IsWordChar(s[0]) || IsSpace(s[0]) then [s[0]] else []) + KeepWordOrSpace(s[1..])
  }

  /** Exactly the word and whitespace characters of the input survive. */
  lemma {:induction false} KeepWordOrSpaceChars(s: string)
    ensures forall c :: c in KeepWordOrSpace(s) <==> c in s && (IsWordChar(c) || IsSpace(c))
    decreases |s|
  {
    if |s| > 0 {
      KeepWordOrSpaceChars(s[1..]);
      assert s == [s[0]] + s[1..];
    }
  }

  /** A character `clean_text` can produce: a lower-case word character or a
      plain space. */
  predicate CleanChar(c: char) {
    (IsWordChar(c) && !IsUpperAscii(c)) || c == ' '
  }

  /** `clean_text`: strip, collapse whitespace runs to one space, delete
      punctuation, lower-case. */
  function CleanText(text: string): (r: string)
    ensures forall i :: 0 <= i < |r| ==> CleanChar(r[i])
  {
    var c := CollapseSpaces(Strip(text));
    var k := KeepWordOrSpace(c);
    KeepWordOrSpaceChars(c);
    assert forall x :: x in c && IsSpace(x) ==> x == ' ';
    Lower(k)
  }

  /** The strings `clean_text` leaves unchanged: clean characters, no outer
      space and no two spaces in a row. */
  predicate CleanForm(s: string) {
    && (forall i :: 0 <= i < |s| ==> CleanChar(s[i]))
    && (s == [] || (s[0] != ' ' && s[|s| - 1] != ' '))
    && (forall i :: 0 <= i < |s| - 1 ==> !(s[i] == ' ' && s[i + 1] == ' '))
  }

  lemma {:induction false} CollapseNoop(s: string)
    requires forall i :: 0 <= i < |s| ==> CleanChar(s[i])
    requires forall i :: 0 <= i < |s| - 1 ==> !(s[i] == ' ' && s[i + 1] == ' ')
    ensures CollapseSpaces(s) == s
    decreases |s|
  {
    if |s| > 0 {
      CollapseNoop(s[1..]);
      if IsSpace(s[0]) {
        assert TrimLeft(s) == s[1..] by {
          if |s| > 1 {
            assert !IsSpace(s[1]);
          }
        }
      }
    }
  }

  lemma {:induction false} KeepNoop(s: string)
    requires forall i :: 0 <= i < |s| ==> CleanChar(s[i])
    ensures KeepWordOrSpace(s) == s
    decreases |s|
  {
    if |s| > 0 {
      KeepNoop(s[1..]);
    }
  }

  /** `clean_text` is the identity on its normal form. */
  lemma CleanTextFixes(s: string)
    requires CleanForm(s)
    ensures CleanText(s) == s
  {
    StripNoop(s);
    CollapseNoop(s);
    KeepNoop(s);
    LowerNoop(s);
    assert CleanText(s) == Lower(KeepWordOrSpace(CollapseSpaces(Strip(s))));
  }

  lemma LowerNoop(s: string)
    requires forall i :: 0 <= i < |s| ==> CleanChar(s[i])
    ensures Lower(s) == s
  {
    assert forall i :: 0 <= i < |s| ==> Lower(s)[i] == s[i];
  }

  /** Text made of `a`, `b` and spaces is already lower-case. */
  lemma AbClean(s: string)
    requires forall i :: 0 <= i < |s| ==> s[i] in "ab "
    ensures Lower(s) == s
  {
    assert CleanChar('a') && CleanChar('b') && CleanChar(' ');
    LowerNoop(s);
  }

  /** `clean_text` is not idempotent: deleting the dot of `a . b` leaves two
      spaces, which only a second pass collapses. */
  lemma CleanTextNotIdempotent()
    ensures CleanText("a . b") == "a  b"
    ensures CleanText("a  b") == "a b"
  {
    CleanDotted();
    CleanDouble();
  }

  lemma CleanDotted()
    ensures CleanText("a . b") == "a  b"
  {
    StripNoop("a . b");
    CollapseDotted();
    KeepDotted();
    AbClean("a  b");
    assert CleanText("a . b") == Lower(KeepWordOrSpace(CollapseSpaces(Strip("a . b"))));
  }

  lemma CleanDouble()
    ensures CleanText("a  b") == "a b"
  {
    StripNoop("a  b");
    CollapseDouble();
    KeepNoop("a b");
    AbClean("a b");
    assert CleanText("a  b") == Lower(KeepWordOrSpace(CollapseSpaces(Strip("a  b"))));
  }

  lemma CollapseDotted()
    ensures CollapseSpaces("a . b") == "a . b"
  {
    assert TrimLeft(" b") == "b";
    assert CollapseSpaces(" b") == " b";
    assert CollapseSpaces(". b") == ". b";
    assert TrimLeft(" . b") == ". b";
  }

  lemma KeepDotted()
    ensures KeepWordOrSpace("a . b") == "a  b"
  {
    assert KeepWordOrSpace(" b") == " b";
    assert KeepWordOrSpace(". b") == " b";
  }

  lemma CollapseDouble()
    ensures CollapseSpaces("a  b") == "a b"
  {
    assert TrimLeft(" b") == "b";
    assert TrimLeft("  b") == "b";
  }

  // ---------------------------------------------------------------------------
  // The duplicate checker's own parser
  // ---------------------------------------------------------------------------

  /** A record of the duplicate checker: the answer is never missing. */
  datatype DupRecord = DupRecord(index: nat, question: string, options: seq<string>, answer: string, fullText: string)

  /** `answer or "?"`: a missing or empty answer is stored as `?`. */
  function AnswerOrUnknown(answer: Option<string>): (r: string)
    ensures r != []
    ensures answer.Some? && answer.value != [] ==> r == answer.value
    ensures (answer.None? || answer.value == []) ==> r == "?"
  {
    if answer.Some? && answer.value != [] then answer.value else "?"
  }

  /** A block this parser keeps: at least five lines, a non-empty question and
      at least four options. */
  predicate DupKeptBlock(block: string) {
    KeptBlock(block)
    && var lines := Split(Strip(block), "\n");
    Strip(lines[0]) != [] && |ScanBody(lines[1..]).options| >= 4
  }

  function DupParseBlock(i: nat, block: string): (r: DupRecord)
    requires DupKeptBlock(block)
    ensures r.index == i && r.fullText == Strip(block)
    ensures r.question != [] && |r.options| >= 4 && r.answer != []
  {
    var pair := Strip(block);
    var lines := Split(pair, "\n");
    var scan := ScanBody(lines[1..]);
    DupRecord(i, Strip(lines[0]), scan.options, AnswerOrUnknown(scan.answer), pair)
  }

  /** The positions of the blocks this parser keeps among `blocks[from..]`. */
  function DupKeptFrom(blocks: seq<string>, from: nat): (r: seq<nat>)
    requires from <= |blocks|
    ensures forall k :: 0 <= k < |r| ==> from <= r[k] < |blocks| && DupKeptBlock(blocks[r[k]])
    ensures forall k, m :: 0 <= k < m < |r| ==> r[k] < r[m]
    decreases |blocks| - from
  {
    if from == |blocks| then []
    else
      var rest := DupKeptFrom(blocks, from + 1);
      if DupKeptBlock(blocks[from]) then [from] + rest else rest
  }

  lemma {:induction false} DupKeptFromComplete(blocks: seq<string>, from: nat, i: nat)
    requires from <= i < |blocks| && DupKeptBlock(blocks[i])
    ensures i in DupKeptFrom(blocks, from)
    decreases i - from
  {
    if i > from {
      DupKeptFromComplete(blocks, from + 1, i);
    }
  }

  /** The duplicate checker's `parse_qa_file` on the file's content. */
  function DupParseQaFile(content: string): (r: seq<DupRecord>)
    ensures var blocks := Split(Strip(content), BlankLine);
      forall k :: 0 <= k < |r| ==>
        && r[k].index < |blocks| && DupKeptBlock(blocks[r[k].index])
        && r[k] == DupParseBlock(r[k].index, blocks[r[k].index])
    ensures forall k, m :: 0 <= k < m < |r| ==> r[k].index < r[m].index
  {
    var blocks := Split(Strip(content), BlankLine);
    var idx := DupKeptFrom(blocks, 0);
    seq(|idx|, k requires 0 <= k < |idx| => DupParseBlock(idx[k], blocks[idx[k]]))
  }

  /** A block is recorded exactly when it has a question and four options. */
  lemma DupParseQaFileRecords(content: string, i: nat)
    requires i < |Split(Strip(content), BlankLine)|
    ensures (exists k :: 0 <= k < |DupParseQaFile(content)| && DupParseQaFile(content)[k].index == i)
        <==> DupKeptBlock(Split(Strip(content), BlankLine)[i])
  {
    var blocks := Split(Strip(content), BlankLine);
    if DupKeptBlock(blocks[i]) {
      DupKeptFromComplete(blocks, 0, i);
      var idx := DupKeptFrom(blocks, 0);
      var k :| 0 <= k < |idx| && idx[k] == i;
      assert DupParseQaFile(content)[k].index == i;
    }
  }

  /** The two parsers scan a block the same way: every block this parser
      keeps is kept by the answer checker's parser too, with the same
      question, options and text, and the answer differs only where the
      answer checker has none or an empty one. */
  lemma DupRecordAgreesWithQaRecord(ck: AnswerChecker.Checker, i: nat, block: string)
    requires DupKeptBlock(block)
    ensures KeptBlock(block)
    ensures var d := DupParseBlock(i, block);
      var q := ParseBlock(ck, i, block);
      && d.question == q.question && d.options == q.options && d.fullText == q.fullText
      && d.answer == AnswerOrUnknown(q.answer)
  {
  }

  // ---------------------------------------------------------------------------
  // Exact duplicates
  // ---------------------------------------------------------------------------

  /** The normalised question of every record. */
  function Keys(records: seq<DupRecord>): (r: seq<string>)
    ensures |r| == |records|
    ensures forall i :: 0 <= i < |r| ==> r[i] == CleanText(records[i].question)
  {
    seq(|records|, i requires 0 <= i < |records| => CleanText(records[i].question))
  }

  /** The positions holding `key`, ascending. */
  function Positions(keys: seq<string>, key: string): (r: seq<nat>)
    ensures forall k :: 0 <= k < |r| ==> r[k] < |keys| && keys[r[k]] == key
    ensures forall k, m :: 0 <= k < m < |r| ==> r[k] < r[m]
  {
    if |keys| == 0 then []
    else
      var n := |keys| - 1;
      var pre := Positions(keys[..n], key);
      assert forall i :: 0 <= i < n ==> keys[..n][i] == keys[i];
      pre + (if keys[n] == key then [n] else [])
  }

  /** Every position holding `key` is listed. */
  lemma {:induction false} PositionsComplete(keys: seq<string>, key: string, i: nat)
    requires i < |keys| && keys[i] == key
    ensures i in Positions(keys, key)
    decreases |keys|
  {
    var n := |keys| - 1;
    if i < n {
      assert keys[..n][i] == keys[i];
      PositionsComplete(keys[..n], key, i);
    }
  }

  /** Position `i` holds the first occurrence of its key. */
  predicate IsFirst(keys: seq<string>, i: nat)
    requires i < |keys|
  {
    forall j :: 0 <= j < i ==> keys[j] != keys[i]
  }

  /** The positions that hold the first occurrence of their key, ascending:
      the insertion order of the source's `seen_questions` dictionary. */
  function FirstOccurrences(keys: seq<string>): (r: seq<nat>)
    ensures |r| <= |keys|
    ensures forall k :: 0 <= k < |r| ==> r[k] < |keys| && IsFirst(keys, r[k])
    ensures forall k, m :: 0 <= k < m < |r| ==> r[k] < r[m]
  {
    if |keys| == 0 then []
    else
      var n := |keys| - 1;
      var pre := FirstOccurrences(keys[..n]);
      assert forall i :: 0 <= i < n ==> (IsFirst(keys[..n], i) <==> IsFirst(keys, i));
      pre + (if IsFirst(keys, n) then [n] else [])
  }

  /** Every first occurrence is listed. */
  lemma {:induction false} FirstOccurrencesComplete(keys: seq<string>, i: nat)
    requires i < |keys| && IsFirst(keys, i)
    ensures i in FirstOccurrences(keys)
    decreases |keys|
  {
    var n := |keys| - 1;
    if i < n {
      assert IsFirst(keys[..n], i);
      FirstOccurrencesComplete(keys[..n], i);
    }
  }

  /** Every key has its first occurrence listed. */
  lemma FirstOccurrencesCover(keys: seq<string>, i: nat)
    requires i < |keys|
    ensures exists k :: 0 <= k < |FirstOccurrences(keys)| && keys[FirstOccurrences(keys)[k]] == keys[i]
  {
    var r := FirstOccurrences(keys);
    FirstIndex(keys, i);
    var j :| 0 <= j <= i && keys[j] == keys[i] && IsFirst(keys, j);
    FirstOccurrencesComplete(keys, j);
    var k :| 0 <= k < |r| && r[k] == j;
  }

  lemma {:induction false} FirstIndex(keys: seq<string>, i: nat)
    requires i < |keys|
    ensures exists j :: 0 <= j <= i && keys[j] == keys[i] && IsFirst(keys, j)
    decreases i
  {
    if !IsFirst(keys, i) {
      var j :| 0 <= j < i && keys[j] == keys[i];
      FirstIndex(keys, j);
    }
  }

  /** The listed keys are pairwise different. */
  lemma FirstOccurrencesDistinct(keys: seq<string>, k: nat, m: nat)
    requires k < m < |FirstOccurrences(keys)|
    ensures keys[FirstOccurrences(keys)[k]] != keys[FirstOccurrences(keys)[m]]
  {
  }

  /** One exact-duplicate group: `group_id`, the normalised question and the
      positions of its records; `count` is `|members|`. */
  datatype ExactGroup = ExactGroup(groupId: nat, cleanQuestion: string, members: seq<nat>)

  /** The groups of the classes whose first occurrences are `firsts`, keeping
      only classes with more than one record. The id is `len(exact_groups) + 1`
      with a list that is never appended to, hence always 1. */
  function ExactGroupsOf(keys: seq<string>, firsts: seq<nat>): (r: seq<ExactGroup>)
    requires forall k :: 0 <= k < |firsts| ==> firsts[k] < |keys|
    ensures forall k :: 0 <= k < |r| ==>
      && r[k].groupId == 1
      && |r[k].members| >= 2
      && r[k].members == Positions(keys, r[k].cleanQuestion)
  {
    if |firsts| == 0 then []
    else
      var key := keys[firsts[0]];
      var ps := Positions(keys, key);
      var rest := ExactGroupsOf(keys, firsts[1..]);
      if |ps| > 1 then [ExactGroup(1, key, ps)] + rest else rest
  }

  /** Each group belongs to one of the listed first occurrences. */
  lemma {:induction false} ExactGroupsOfKey(keys: seq<string>, firsts: seq<nat>, k: nat) returns (m: nat)
    requires forall a :: 0 <= a < |firsts| ==> firsts[a] < |keys|
    requires k < |ExactGroupsOf(keys, firsts)|
    ensures m < |firsts| && keys[firsts[m]] == ExactGroupsOf(keys, firsts)[k].cleanQuestion
    decreases |firsts|
  {
    var key := keys[firsts[0]];
    var ps := Positions(keys, key);
    var rest := ExactGroupsOf(keys, firsts[1..]);
    assert ExactGroupsOf(keys, firsts) == if |ps| > 1 then [ExactGroup(1, key, ps)] + rest else rest;
    if |ps| > 1 && k == 0 {
      m := 0;
    } else {
      var k' := if |ps| > 1 then k - 1 else k;
      assert ExactGroupsOf(keys, firsts)[k] == rest[k'];
      var m' := ExactGroupsOfKey(keys, firsts[1..], k');
      m := m' + 1;
    }
  }

  /** Every listed class with at least two records has its group. */
  lemma {:induction false} ExactGroupsOfComplete(keys: seq<string>, firsts: seq<nat>, m: nat) returns (k: nat)
    requires forall a :: 0 <= a < |firsts| ==> firsts[a] < |keys|
    requires m < |firsts| && |Positions(keys, keys[firsts[m]])| >= 2
    ensures k < |ExactGroupsOf(keys, firsts)| && ExactGroupsOf(keys, firsts)[k].cleanQuestion == keys[firsts[m]]
    decreases |firsts|
  {
    var key := keys[firsts[0]];
    var inc := if |Positions(keys, key)| > 1 then 1 else 0;
    if m == 0 {
      k := 0;
    } else {
      var k' := ExactGroupsOfComplete(keys, firsts[1..], m - 1);
      k := k' + inc;
    }
  }

  /** `find_exact_duplicates`. */
  function FindExactDuplicates(records: seq<DupRecord>): (r: seq<ExactGroup>)
  {
    var keys := Keys(records);
    ExactGroupsOf(keys, FirstOccurrences(keys))
  }

  /** Each exact group holds records of one normalised question, at least
      two of them, in input order, and its id is 1. */
  lemma ExactGroupShape(records: seq<DupRecord>, k: nat)
    requires k < |FindExactDuplicates(records)|
    ensures var g := FindExactDuplicates(records)[k];
      && g.groupId == 1 && |g.members| >= 2
      && (forall m :: 0 <= m < |g.members| ==>
            && g.members[m] < |records|
            && CleanText(records[g.members[m]].question) == g.cleanQuestion)
      && (forall m, n :: 0 <= m < n < |g.members| ==> g.members[m] < g.members[n])
  {
  }

  /** Some other record has the same normalised question. */
  predicate HasTwin(records: seq<DupRecord>, i: nat)
    requires i < |records|
  {
    exists j :: 0 <= j < |records| && j != i && CleanText(records[j].question) == CleanText(records[i].question)
  }

  /** The exact groups are exactly the normalised-question classes with at
      least two records: a record is in some group iff another record has
      the same normalised question. */
  lemma ExactGroupMembership(records: seq<DupRecord>, i: nat)
    requires i < |records|
    ensures (exists k :: 0 <= k < |FindExactDuplicates(records)| && i in FindExactDuplicates(records)[k].members)
        <==> HasTwin(records, i)
  {
    var r := FindExactDuplicates(records);
    if exists k :: 0 <= k < |r| && i in r[k].members {
      var k :| 0 <= k < |r| && i in r[k].members;
      GroupedHasTwin(records, i, k);
    }
    if HasTwin(records, i) {
      var k := TwinGrouped(records, i);
    }
  }

  lemma GroupedHasTwin(records: seq<DupRecord>, i: nat, k: nat)
    requires i < |records| && k < |FindExactDuplicates(records)|
    requires i in FindExactDuplicates(records)[k].members
    ensures HasTwin(records, i)
  {
    var keys := Keys(records);
    var ms := FindExactDuplicates(records)[k].members;
    var j := if ms[0] == i then ms[1] else ms[0];
    assert j != i && keys[j] == keys[i];
  }

  lemma TwinGrouped(records: seq<DupRecord>, i: nat) returns (k: nat)
    requires i < |records| && HasTwin(records, i)
    ensures k < |FindExactDuplicates(records)| && i in FindExactDuplicates(records)[k].members
  {
    var keys := Keys(records);
    var firsts := FirstOccurrences(keys);
    var j :| 0 <= j < |records| && j != i && keys[j] == keys[i];
    PositionsComplete(keys, keys[i], i);
    PositionsComplete(keys, keys[i], j);
    var ps := Positions(keys, keys[i]);
    var a :| 0 <= a < |ps| && ps[a] == i;
    var b :| 0 <= b < |ps| && ps[b] == j;
    assert a != b;
    FirstOccurrencesCover(keys, i);
    var m :| 0 <= m < |firsts| && keys[firsts[m]] == keys[i];
    k := ExactGroupsOfComplete(keys, firsts, m);
  }

  /** No two exact groups share a normalised question, so none share a record. */
  lemma ExactGroupsDisjoint(records: seq<DupRecord>, k: nat, m: nat)
    requires k < m < |FindExactDuplicates(records)|
    ensures FindExactDuplicates(records)[k].cleanQuestion != FindExactDuplicates(records)[m].cleanQuestion
  {
    var keys := Keys(records);
    ExactGroupsKeysDistinct(keys, FirstOccurrences(keys), k, m);
  }

  lemma {:induction false} ExactGroupsKeysDistinct(keys: seq<string>, firsts: seq<nat>, k: nat, m: nat)
    requires forall a :: 0 <= a < |firsts| ==> firsts[a] < |keys|
    requires forall a, b :: 0 <= a < b < |firsts| ==> keys[firsts[a]] != keys[firsts[b]]
    requires k < m < |ExactGroupsOf(keys, firsts)|
    ensures ExactGroupsOf(keys, firsts)[k].cleanQuestion != ExactGroupsOf(keys, firsts)[m].cleanQuestion
    decreases |firsts|
  {
    var tail := firsts[1..];
    var head := ExactGroupsCons(keys, firsts);
    var rest := ExactGroupsOf(keys, tail);
    if |head| == 1 {
      if k == 0 {
        var b := ExactGroupsOfKey(keys, tail, m - 1);
        assert keys[tail[b]] != keys[firsts[0]];
      } else {
        ExactGroupsKeysDistinct(keys, tail, k - 1, m - 1);
      }
    } else {
      ExactGroupsKeysDistinct(keys, tail, k, m);
    }
    DistinctShift(ExactGroupsOf(keys, firsts), head, rest, k, m);
  }

  /** Two positions of `head + rest` hold different questions when the
      positions they come from do. */
  lemma DistinctShift(r: seq<ExactGroup>, head: seq<ExactGroup>, rest: seq<ExactGroup>, k: nat, m: nat)
    requires r == head + rest && |head| <= 1 && k < m < |r|
    requires |head| == 1 && k == 0 ==> head[0].cleanQuestion != rest[m - 1].cleanQuestion
    requires |head| == 1 && k > 0 ==> rest[k - 1].cleanQuestion != rest[m - 1].cleanQuestion
    requires |head| == 0 ==> rest[k].cleanQuestion != rest[m].cleanQuestion
    ensures r[k].cleanQuestion != r[m].cleanQuestion
  {
    if |head| == 1 {
      assert r[m] == rest[m - 1];
      if k > 0 {
        assert r[k] == rest[k - 1];
      }
    }
  }

  /** The class of the first listed key is grouped or not, then the rest
      are grouped. */
  lemma ExactGroupsCons(keys: seq<string>, firsts: seq<nat>) returns (head: seq<ExactGroup>)
    requires forall a :: 0 <= a < |firsts| ==> firsts[a] < |keys|
    requires forall a, b :: 0 <= a < b < |firsts| ==> keys[firsts[a]] != keys[firsts[b]]
    requires |firsts| > 0
    ensures var tail := firsts[1..];
      && (forall a :: 0 <= a < |tail| ==> tail[a] < |keys| && keys[tail[a]] != keys[firsts[0]])
      && (forall a, b :: 0 <= a < b < |tail| ==> keys[tail[a]] != keys[tail[b]])
      && ExactGroupsOf(keys, firsts) == head + ExactGroupsOf(keys, tail)
    ensures |head| <= 1 && (|head| == 1 ==> head[0].cleanQuestion == keys[firsts[0]])
  {
    assert forall a :: 0 <= a < |firsts| - 1 ==> firsts[1..][a] == firsts[a + 1];
    var ps := Positions(keys, keys[firsts[0]]);
    head := if |ps| > 1 then [ExactGroup(1, keys[firsts[0]], ps)] else [];
  }

  // ---------------------------------------------------------------------------
  // Near duplicates
  // ---------------------------------------------------------------------------

  /** `calculate_similarity`: a ratio (`SequenceMatcher.ratio`, left abstract)
      of the two normalised texts. */
  function Similarity(ratio: (string, string) -> real, a: string, b: string): real {
    ratio(CleanText(a), CleanText(b))
  }

  /** The inner loop of the clustering: the unprocessed positions after `j`
      whose question is at least `threshold` similar to the seed's. */
  function Gather(score: (string, string) -> real, threshold: real, qs: seq<string>, seed: nat, j: nat, processed: set<nat>)
    : (r: seq<nat>)
    requires seed < |qs| && j <= |qs|
    ensures forall k :: 0 <= k < |r| ==>
      && j <= r[k] < |qs| && r[k] !in processed
      && score(qs[seed], qs[r[k]]) >= threshold
    ensures forall k, m :: 0 <= k < m < |r| ==> r[k] < r[m]
    decreases |qs| - j
  {
    if j == |qs| then []
    else
      var rest := Gather(score, threshold, qs, seed, j + 1, processed);
      if j !in processed && score(qs[seed], qs[j]) >= threshold then [j] + rest else rest
  }

  /** The inner loop misses no unprocessed position that is similar enough. */
  lemma {:induction false} GatherComplete(score: (string, string) -> real, threshold: real, qs: seq<string>,
                                          seed: nat, j: nat, processed: set<nat>, x: nat)
    requires seed < |qs| && j <= x < |qs| && x !in processed
    ensures x in Gather(score, threshold, qs, seed, j, processed)
        <==> score(qs[seed], qs[x]) >= threshold
    decreases x - j
  {
    if j < x {
      GatherComplete(score, threshold, qs, seed, j + 1, processed, x);
    }
  }

  /** One near-duplicate group: `group_id`, the positions of its records
      (seed first) and the seed-versus-member similarities; `count` is
      `|members|`. */
  datatype SimilarGroup = SimilarGroup(groupId: nat, members: seq<nat>, similarities: seq<real>)

  /** A group the clustering can emit from position `from` on: at least two
      ascending members, all unprocessed, each later member at least
      `threshold` similar to the seed, and one similarity per later member. */
  predicate GroupShape(score: (string, string) -> real, threshold: real, qs: seq<string>,
                       from: nat, processed: set<nat>, g: SimilarGroup)
  {
    && |g.members| >= 2
    && from <= g.members[0]
    && (forall k :: 0 <= k < |g.members| ==> g.members[k] < |qs| && g.members[k] !in processed)
    && (forall k, m :: 0 <= k < m < |g.members| ==> g.members[k] < g.members[m])
    && |g.similarities| == |g.members| - 1
    && (forall k :: 0 <= k < |g.similarities| ==>
          && g.similarities[k] == score(qs[g.members[0]], qs[g.members[k + 1]])
          && g.similarities[k] >= threshold)
  }

  /** A group shape holds for any earlier start and smaller processed set. */
  lemma GroupShapeWeaken(score: (string, string) -> real, threshold: real, qs: seq<string>,
                         from: nat, processed: set<nat>, from': nat, processed': set<nat>, g: SimilarGroup)
    requires GroupShape(score, threshold, qs, from', processed', g)
    requires from <= from' && processed <= processed'
    ensures GroupShape(score, threshold, qs, from, processed, g)
  {
  }

  /** The candidate group seeded at `i`: the seed, then what the inner loop
      gathers, with the seed-versus-member similarities. */
  function Seeded(score: (string, string) -> real, threshold: real, qs: seq<string>,
                  i: nat, processed: set<nat>, id: nat): (g: SimilarGroup)
    requires i < |qs| && i !in processed
    ensures g.groupId == id && |g.members| >= 1 && g.members[0] == i
    ensures |g.members| >= 2 ==> GroupShape(score, threshold, qs, i, processed, g)
  {
    var more := Gather(score, threshold, qs, i, i + 1, processed);
    var ms := [i] + more;
    assert forall k :: 1 <= k < |ms| ==> ms[k] == more[k - 1];
    var sims := seq(|more|, k requires 0 <= k < |more| => score(qs[i], qs[more[k]]));
    var g := SimilarGroup(id, ms, sims);
    assert |g.members| >= 2 ==> GroupShape(score, threshold, qs, i, processed, g) by {
      if |g.members| >= 2 {
        assert forall k :: 0 <= k < |g.members| ==> g.members[k] < |qs| && g.members[k] !in processed;
        assert forall k, m :: 0 <= k < m < |g.members| ==> g.members[k] < g.members[m];
        assert forall k :: 0 <= k < |g.similarities| ==>
          && g.similarities[k] == score(qs[g.members[0]], qs[g.members[k + 1]])
          && g.similarities[k] >= threshold;
      }
    }
    g
  }

  /** The seeded group takes every later unprocessed position whose question
      is at least `threshold` similar to the seed's, and no other. */
  lemma SeededComplete(score: (string, string) -> real, threshold: real, qs: seq<string>,
                       i: nat, processed: set<nat>, id: nat, x: nat)
    requires i < x < |qs| && i !in processed && x !in processed
    ensures x in Seeded(score, threshold, qs, i, processed, id).members
        <==> score(qs[i], qs[x]) >= threshold
  {
    GatherComplete(score, threshold, qs, i, i + 1, processed, x);
  }

  /** The positions processed once group `g` has been seeded. */
  function Taken(processed: set<nat>, g: SimilarGroup): (r: set<nat>)
    ensures forall x :: x in r <==> x in processed || x in g.members
  {
    processed + set x | x in g.members
  }

  /** The outer loop of `find_similar_questions` from position `i` on, with
      `processed` the positions already taken and `emitted` the number of
      groups emitted so far. */
  function ClusterFrom(score: (string, string) -> real, threshold: real, qs: seq<string>,
                       i: nat, processed: set<nat>, emitted: nat): (r: seq<SimilarGroup>)
    requires i <= |qs|
    ensures forall k :: 0 <= k < |r| ==> |r[k].members| >= 2 && r[k].groupId == emitted + k + 1
    decreases |qs| - i
  {
    if i == |qs| then []
    else if i in processed then ClusterFrom(score, threshold, qs, i + 1, processed, emitted)
    else
      var g := Seeded(score, threshold, qs, i, processed, emitted + 1);
      var big := |g.members| > 1;
      var rest := ClusterFrom(score, threshold, qs, i + 1, Taken(processed, g), if big then emitted + 1 else emitted);
      if big then [g] + rest else rest
  }

  /** Every emitted group has the shape of a group emitted from `i` on. */
  lemma {:induction false} ClusterShape(score: (string, string) -> real, threshold: real, qs: seq<string>,
                                        i: nat, processed: set<nat>, emitted: nat, k: nat)
    requires i <= |qs| && k < |ClusterFrom(score, threshold, qs, i, processed, emitted)|
    ensures GroupShape(score, threshold, qs, i, processed, ClusterFrom(score, threshold, qs, i, processed, emitted)[k])
    decreases |qs| - i
  {
    if i < |qs| {
      var r := ClusterFrom(score, threshold, qs, i, processed, emitted);
      if i in processed {
        var rest := ClusterFrom(score, threshold, qs, i + 1, processed, emitted);
        assert r == rest;
        ClusterShape(score, threshold, qs, i + 1, processed, emitted, k);
        GroupShapeWeaken(score, threshold, qs, i, processed, i + 1, processed, rest[k]);
      } else {
        var g := Seeded(score, threshold, qs, i, processed, emitted + 1);
        var taken := Taken(processed, g);
        if |g.members| > 1 {
          ClusterHead(score, threshold, qs, i, processed, emitted);
          if k > 0 {
            var rest := ClusterFrom(score, threshold, qs, i + 1, taken, emitted + 1);
            assert r[k] == rest[k - 1];
            ClusterShape(score, threshold, qs, i + 1, taken, emitted + 1, k - 1);
            GroupShapeWeaken(score, threshold, qs, i, processed, i + 1, taken, rest[k - 1]);
          }
        } else {
          var rest := ClusterFrom(score, threshold, qs, i + 1, taken, emitted);
          assert r == rest;
          ClusterShape(score, threshold, qs, i + 1, taken, emitted, k);
          GroupShapeWeaken(score, threshold, qs, i, processed, i + 1, taken, rest[k]);
        }
      }
    }
  }

  /** `calculate_similarity` as a function value. */
  function SimilarityOf(ratio: (string, string) -> real): (string, string) -> real {
    (a: string, b: string) => Similarity(ratio, a, b)
  }

  /** `find_similar_questions` over the records' questions: groups of at
      least two ascending positions, seeded by their first, each later member
      at least `threshold` similar to the seed, numbered 1, 2, 3, ... */
  function FindSimilarQuestions(ratio: (string, string) -> real, threshold: real, qs: seq<string>)
    : (r: seq<SimilarGroup>)
    ensures forall k :: 0 <= k < |r| ==> r[k].groupId == k + 1
  {
    ClusterFrom(SimilarityOf(ratio), threshold, qs, 0, {}, 0)
  }

  /** Each similar group has at least two ascending positions, is seeded by
      its first, and each later member is at least `threshold` similar to the
      seed, with that similarity recorded. */
  lemma SimilarGroupShape(ratio: (string, string) -> real, threshold: real, qs: seq<string>, k: nat)
    requires k < |FindSimilarQuestions(ratio, threshold, qs)|
    ensures GroupShape(SimilarityOf(ratio), threshold, qs, 0, {}, FindSimilarQuestions(ratio, threshold, qs)[k])
  {
    ClusterShape(SimilarityOf(ratio), threshold, qs, 0, {}, 0, k);
  }

  /** Groups emitted later share no position with earlier ones. */
  lemma {:induction false} ClusterDisjoint(score: (string, string) -> real, threshold: real, qs: seq<string>,
                                           i: nat, processed: set<nat>, emitted: nat, k: nat, m: nat)
    requires i <= |qs|
    requires k < m < |ClusterFrom(score, threshold, qs, i, processed, emitted)|
    ensures var r := ClusterFrom(score, threshold, qs, i, processed, emitted);
      forall x :: x in r[k].members ==> x !in r[m].members
    decreases |qs| - i, 1
  {
    if i in processed {
      ClusterDisjoint(score, threshold, qs, i + 1, processed, emitted, k, m);
    } else if |Seeded(score, threshold, qs, i, processed, emitted + 1).members| > 1 {
      if k == 0 {
        DisjointFromHead(score, threshold, qs, i, processed, emitted, m);
      } else {
        DisjointAfterGroup(score, threshold, qs, i, processed, emitted, k, m);
      }
    } else {
      DisjointAfterSingleton(score, threshold, qs, i, processed, emitted, k, m);
    }
  }

  lemma {:induction false} DisjointAfterSingleton(score: (string, string) -> real, threshold: real, qs: seq<string>,
                                                  i: nat, processed: set<nat>, emitted: nat, k: nat, m: nat)
    requires i < |qs| && i !in processed
    requires |Seeded(score, threshold, qs, i, processed, emitted + 1).members| <= 1
    requires k < m < |ClusterFrom(score, threshold, qs, i, processed, emitted)|
    ensures var r := ClusterFrom(score, threshold, qs, i, processed, emitted);
      forall x :: x in r[k].members ==> x !in r[m].members
    decreases |qs| - i, 0
  {
    var g := Seeded(score, threshold, qs, i, processed, emitted + 1);
    var taken := Taken(processed, g);
    assert ClusterFrom(score, threshold, qs, i, processed, emitted) == ClusterFrom(score, threshold, qs, i + 1, taken, emitted);
    ClusterDisjoint(score, threshold, qs, i + 1, taken, emitted, k, m);
  }

  /** A later group avoids the group seeded at `i`, whose members are
      processed by then. */
  lemma DisjointFromHead(score: (string, string) -> real, threshold: real, qs: seq<string>,
                         i: nat, processed: set<nat>, emitted: nat, m: nat)
    requires i < |qs| && i !in processed
    requires |Seeded(score, threshold, qs, i, processed, emitted + 1).members| > 1
    requires 0 < m < |ClusterFrom(score, threshold, qs, i, processed, emitted)|
    ensures var r := ClusterFrom(score, threshold, qs, i, processed, emitted);
      forall x :: x in r[0].members ==> x !in r[m].members
  {
    var g := Seeded(score, threshold, qs, i, processed, emitted + 1);
    var taken := Taken(processed, g);
    var rest := ClusterFrom(score, threshold, qs, i + 1, taken, emitted + 1);
    ClusterHead(score, threshold, qs, i, processed, emitted);
    ClusterShape(score, threshold, qs, i + 1, taken, emitted + 1, m - 1);
  }

  lemma {:induction false} DisjointAfterGroup(score: (string, string) -> real, threshold: real, qs: seq<string>,
                                              i: nat, processed: set<nat>, emitted: nat, k: nat, m: nat)
    requires i < |qs| && i !in processed
    requires |Seeded(score, threshold, qs, i, processed, emitted + 1).members| > 1
    requires 0 < k < m < |ClusterFrom(score, threshold, qs, i, processed, emitted)|
    ensures var r := ClusterFrom(score, threshold, qs, i, processed, emitted);
      forall x :: x in r[k].members ==> x !in r[m].members
    decreases |qs| - i, 0
  {
    var g := Seeded(score, threshold, qs, i, processed, emitted + 1);
    var taken := Taken(processed, g);
    var rest := ClusterFrom(score, threshold, qs, i + 1, taken, emitted + 1);
    ClusterHead(score, threshold, qs, i, processed, emitted);
    ClusterDisjoint(score, threshold, qs, i + 1, taken, emitted + 1, k - 1, m - 1);
    DisjointShift(ClusterFrom(score, threshold, qs, i, processed, emitted), g, rest, k, m, k - 1, m - 1);
  }

  lemma DisjointShift(r: seq<SimilarGroup>, g: SimilarGroup, rest: seq<SimilarGroup>, k: nat, m: nat, k0: nat, m0: nat)
    requires r == [g] + rest && k == k0 + 1 && m == m0 + 1 && k0 < m0 < |rest|
    requires forall x :: x in rest[k0].members ==> x !in rest[m0].members
    ensures forall x :: x in r[k].members ==> x !in r[m].members
  {
    assert r[k] == rest[k0] && r[m] == rest[m0];
  }

  /** The clustering is greedy against the seed: a position after a group's
      seed that neither this group nor an earlier one took, and that was not
      already processed, is less than `threshold` similar to the seed. */
  lemma {:induction false} ClusterMaximal(score: (string, string) -> real, threshold: real, qs: seq<string>,
                                          i: nat, processed: set<nat>, emitted: nat, k: nat, x: nat)
    requires i <= |qs|
    requires k < |ClusterFrom(score, threshold, qs, i, processed, emitted)|
    requires x < |qs| && x !in processed
    requires var r := ClusterFrom(score, threshold, qs, i, processed, emitted);
      && r[k].members[0] < x
      && forall m :: 0 <= m <= k ==> x !in r[m].members
    ensures var r := ClusterFrom(score, threshold, qs, i, processed, emitted);
      score(qs[r[k].members[0]], qs[x]) < threshold
    decreases |qs| - i, 1
  {
    if i in processed {
      ClusterMaximal(score, threshold, qs, i + 1, processed, emitted, k, x);
    } else if |Seeded(score, threshold, qs, i, processed, emitted + 1).members| > 1 {
      if k == 0 {
        SeededComplete(score, threshold, qs, i, processed, emitted + 1, x);
      } else {
        MaximalAfterGroup(score, threshold, qs, i, processed, emitted, k, x);
      }
    } else {
      MaximalAfterSingleton(score, threshold, qs, i, processed, emitted, k, x);
    }
  }

  /** The step of `ClusterMaximal` past a group seeded at `i`. */
  lemma {:induction false} MaximalAfterGroup(score: (string, string) -> real, threshold: real, qs: seq<string>,
                                             i: nat, processed: set<nat>, emitted: nat, k: nat, x: nat)
    requires i < |qs| && i !in processed
    requires |Seeded(score, threshold, qs, i, processed, emitted + 1).members| > 1
    requires 0 < k < |ClusterFrom(score, threshold, qs, i, processed, emitted)|
    requires x < |qs| && x !in processed
    requires var r := ClusterFrom(score, threshold, qs, i, processed, emitted);
      && r[k].members[0] < x
      && forall m :: 0 <= m <= k ==> x !in r[m].members
    ensures var r := ClusterFrom(score, threshold, qs, i, processed, emitted);
      score(qs[r[k].members[0]], qs[x]) < threshold
    decreases |qs| - i, 0
  {
    var g := Seeded(score, threshold, qs, i, processed, emitted + 1);
    var taken := Taken(processed, g);
    var rest := ClusterFrom(score, threshold, qs, i + 1, taken, emitted + 1);
    ClusterHead(score, threshold, qs, i, processed, emitted);
    MaximalShift(ClusterFrom(score, threshold, qs, i, processed, emitted), g, rest, k, x, processed, taken);
    ClusterMaximal(score, threshold, qs, i + 1, taken, emitted + 1, k - 1, x);
  }

  lemma MaximalShift(r: seq<SimilarGroup>, g: SimilarGroup, rest: seq<SimilarGroup>, k: nat, x: nat,
                     processed: set<nat>, taken: set<nat>)
    requires r == [g] + rest && 0 < k <= |rest|
    requires forall m :: 0 <= m <= k ==> x !in r[m].members
    requires taken == Taken(processed, g) && x !in processed
    ensures x !in taken && rest[k - 1] == r[k]
    ensures forall m :: 0 <= m <= k - 1 ==> x !in rest[m].members
  {
    assert r[0] == g;
    forall m | 0 <= m <= k - 1 ensures x !in rest[m].members {
      assert rest[m] == r[m + 1];
    }
  }

  /** A seed that found a partner is emitted first, and the loop goes on
      with its members processed. */
  lemma ClusterHead(score: (string, string) -> real, threshold: real, qs: seq<string>,
                    i: nat, processed: set<nat>, emitted: nat)
    requires i < |qs| && i !in processed
    requires |Seeded(score, threshold, qs, i, processed, emitted + 1).members| > 1
    ensures var g := Seeded(score, threshold, qs, i, processed, emitted + 1);
      ClusterFrom(score, threshold, qs, i, processed, emitted)
        == [g] + ClusterFrom(score, threshold, qs, i + 1, Taken(processed, g), emitted + 1)
  {
  }

  /** The step of `ClusterMaximal` past a seed that found no partner. */
  lemma {:induction false} MaximalAfterSingleton(score: (string, string) -> real, threshold: real, qs: seq<string>,
                                                 i: nat, processed: set<nat>, emitted: nat, k: nat, x: nat)
    requires i < |qs| && i !in processed
    requires |Seeded(score, threshold, qs, i, processed, emitted + 1).members| <= 1
    requires k < |ClusterFrom(score, threshold, qs, i, processed, emitted)|
    requires x < |qs| && x !in processed
    requires var r := ClusterFrom(score, threshold, qs, i, processed, emitted);
      && r[k].members[0] < x
      && forall m :: 0 <= m <= k ==> x !in r[m].members
    ensures var r := ClusterFrom(score, threshold, qs, i, processed, emitted);
      score(qs[r[k].members[0]], qs[x]) < threshold
    decreases |qs| - i, 0
  {
    var r := ClusterFrom(score, threshold, qs, i, processed, emitted);
    var g := Seeded(score, threshold, qs, i, processed, emitted + 1);
    var taken := Taken(processed, g);
    var rest := ClusterFrom(score, threshold, qs, i + 1, taken, emitted);
    assert r == rest;
    ClusterShape(score, threshold, qs, i + 1, taken, emitted, k);
    assert g.members == [i];
    ClusterMaximal(score, threshold, qs, i + 1, taken, emitted, k, x);
  }

  /** `find_similar_questions`: pairwise-disjoint groups, each seeded by its
      earliest record, and greedy against the seed. */
  lemma SimilarGroupsProperties(ratio: (string, string) -> real, threshold: real, qs: seq<string>, k: nat, m: nat, x: nat)
    requires k < |FindSimilarQuestions(ratio, threshold, qs)| && x < |qs|
    ensures var r := FindSimilarQuestions(ratio, threshold, qs);
      && (k < m < |r| ==> forall y :: y in r[k].members ==> y !in r[m].members)
      && ((r[k].members[0] < x && forall n :: 0 <= n <= k ==> x !in r[n].members) ==>
            Similarity(ratio, qs[r[k].members[0]], qs[x]) < threshold)
  {
    var r := FindSimilarQuestions(ratio, threshold, qs);
    if k < m < |r| {
      ClusterDisjoint(SimilarityOf(ratio), threshold, qs, 0, {}, 0, k, m);
    }
    if r[k].members[0] < x && (forall n :: 0 <= n <= k ==> x !in r[n].members) {
      ClusterMaximal(SimilarityOf(ratio), threshold, qs, 0, {}, 0, k, x);
    }
  }

  // ---------------------------------------------------------------------------
  // Answer consistency
  // ---------------------------------------------------------------------------

  /** The groups range over `records`. */
  predicate GroupsWithin(records: seq<DupRecord>, groups: seq<SimilarGroup>) {
    forall k, m :: 0 <= k < |groups| && 0 <= m < |groups[k].members| ==> groups[k].members[m] < |records|
  }

  /** The distinct answers of a group's records: `set(answers)`. */
  function GroupAnswers(records: seq<DupRecord>, members: seq<nat>): (r: set<string>)
    requires forall m :: 0 <= m < |members| ==> members[m] < |records|
  {
    set m | 0 <= m < |members| :: records[members[m]].answer
  }

  /** The distinct answers are exactly the answers some member carries. */
  lemma GroupAnswersMembers(records: seq<DupRecord>, members: seq<nat>)
    requires forall m :: 0 <= m < |members| ==> members[m] < |records|
    ensures forall a :: a in GroupAnswers(records, members) <==>
      exists m :: 0 <= m < |members| && records[members[m]].answer == a
  {
  }

  /** A flagged group and its `different_answers`. */
  datatype Inconsistency = Inconsistency(group: SimilarGroup, differentAnswers: set<string>)

  /** `check_answer_consistency`: the groups whose records carry more than
      one distinct answer, in order. */
  function CheckAnswerConsistency(records: seq<DupRecord>, groups: seq<SimilarGroup>): (r: seq<Inconsistency>)
    requires GroupsWithin(records, groups)
    ensures |r| <= |groups|
    ensures forall k :: 0 <= k < |r| ==>
      && r[k].group in groups
      && r[k].differentAnswers == GroupAnswers(records, r[k].group.members)
      && |r[k].differentAnswers| > 1
  {
    if |groups| == 0 then []
    else
      var answers := GroupAnswers(records, groups[0].members);
      var rest := CheckAnswerConsistency(records, groups[1..]);
      if |answers| > 1 then [Inconsistency(groups[0], answers)] + rest else rest
  }

  /** Every group with more than one distinct answer is flagged, and the
      flagged groups keep their order. */
  lemma {:induction false} ConsistencyComplete(records: seq<DupRecord>, groups: seq<SimilarGroup>, k: nat) returns (m: nat)
    requires GroupsWithin(records, groups)
    requires k < |groups| && |GroupAnswers(records, groups[k].members)| > 1
    ensures m < |CheckAnswerConsistency(records, groups)|
    ensures CheckAnswerConsistency(records, groups)[m].group == groups[k]
    decreases |groups|
  {
    var head := ConsistencyCons(records, groups);
    var rest := CheckAnswerConsistency(records, groups[1..]);
    if k == 0 {
      m := 0;
      assert (head + rest)[0] == head[0];
    } else {
      assert groups[1..][k - 1] == groups[k];
      var m' := ConsistencyComplete(records, groups[1..], k - 1);
      m := m' + |head|;
      ShiftIndex(head, rest, m');
    }
  }

  lemma ShiftIndex<T>(head: seq<T>, rest: seq<T>, m: nat)
    requires m < |rest|
    ensures |head| + m < |head + rest| && (head + rest)[|head| + m] == rest[m]
  {
  }

  /** The first group is flagged or not, then the rest are checked. */
  lemma ConsistencyCons(records: seq<DupRecord>, groups: seq<SimilarGroup>) returns (head: seq<Inconsistency>)
    requires GroupsWithin(records, groups) && |groups| > 0
    ensures GroupsWithin(records, groups[1..])
    ensures CheckAnswerConsistency(records, groups) == head + CheckAnswerConsistency(records, groups[1..])
    ensures |head| <= 1
    ensures |head| == 1 <==> |GroupAnswers(records, groups[0].members)| > 1
    ensures |head| == 1 ==> head[0].group == groups[0]
  {
    assert forall k :: 0 <= k < |groups| - 1 ==> groups[1..][k] == groups[k + 1];
    var answers := GroupAnswers(records, groups[0].members);
    head := if |answers| > 1 then [Inconsistency(groups[0], answers)] else [];
  }

  /** A group has more than one distinct answer exactly when two of its
      records disagree. */
  lemma InconsistentIffDisagree(records: seq<DupRecord>, members: seq<nat>)
    requires forall m :: 0 <= m < |members| ==> members[m] < |records|
    ensures |GroupAnswers(records, members)| > 1 <==>
      exists a, b :: 0 <= a < |members| && 0 <= b < |members|
        && records[members[a]].answer != records[members[b]].answer
  {
    if |GroupAnswers(records, members)| > 1 {
      var a, b := TwoAnswers(records, members);
    }
    if exists a, b :: 0 <= a < |members| && 0 <= b < |members| && records[members[a]].answer != records[members[b]].answer {
      var a, b :| 0 <= a < |members| && 0 <= b < |members| && records[members[a]].answer != records[members[b]].answer;
      DisagreeingAnswers(records, members, a, b);
    }
  }

  lemma TwoAnswers(records: seq<DupRecord>, members: seq<nat>) returns (a: nat, b: nat)
    requires forall m :: 0 <= m < |members| ==> members[m] < |records|
    requires |GroupAnswers(records, members)| > 1
    ensures a < |members| && b < |members| && records[members[a]].answer != records[members[b]].answer
  {
    var s := GroupAnswers(records, members);
    GroupAnswersMembers(records, members);
    var x :| x in s;
    var y :| y in s - {x} by {
      assert |s - {x}| == |s| - 1;
    }
    a :| 0 <= a < |members| && records[members[a]].answer == x;
    b :| 0 <= b < |members| && records[members[b]].answer == y;
  }

  lemma DisagreeingAnswers(records: seq<DupRecord>, members: seq<nat>, a: nat, b: nat)
    requires forall m :: 0 <= m < |members| ==> members[m] < |records|
    requires a < |members| && b < |members| && records[members[a]].answer != records[members[b]].answer
    ensures |GroupAnswers(records, members)| > 1
  {
    var s := GroupAnswers(records, members);
    GroupAnswersMembers(records, members);
    var x, y := records[members[a]].answer, records[members[b]].answer;
    assert {x, y} <= s;
    assert |{x, y}| == 2;
    SubsetCard({x, y}, s);
  }

  lemma SubsetCard(a: set<string>, b: set<string>)
    requires a <= b
    ensures |a| <= |b|
  {
    assert b == a + (b - a);
  }

  // ---------------------------------------------------------------------------
  // Report
  // ---------------------------------------------------------------------------

  /** `sum(group["count"] for group in groups)`. */
  function ExactAffected(groups: seq<ExactGroup>): nat {
    if |groups| == 0 then 0 else |groups[0].members| + ExactAffected(groups[1..])
  }

  function SimilarAffected(groups: seq<SimilarGroup>): nat {
    if |groups| == 0 then 0 else |groups[0].members| + SimilarAffected(groups[1..])
  }

  datatype DupReport =
    | NoPairs
    | DupSummary(
        totalQuestions: nat,
        threshold: real,
        exactGroups: seq<ExactGroup>,
        exactAffected: nat,
        similarGroups: seq<SimilarGroup>,
        similarAffected: nat,
        inconsistencies: seq<Inconsistency>)

  /** `generate_report` on the parsed records. */
  function GenerateDupReport(ratio: (string, string) -> real, threshold: real, records: seq<DupRecord>): (r: DupReport)
    ensures r.NoPairs? <==> |records| == 0
    ensures r.DupSummary? ==>
      && r.totalQuestions == |records|
      && r.exactGroups == FindExactDuplicates(records)
      && r.similarGroups == FindSimilarQuestions(ratio, threshold, Questions(records))
      && r.exactAffected == ExactAffected(r.exactGroups)
      && r.similarAffected == SimilarAffected(r.similarGroups)
      && r.threshold == threshold
      && GroupsWithin(records, r.similarGroups)
      && r.inconsistencies == CheckAnswerConsistency(records, r.similarGroups)
      && |r.inconsistencies| <= |r.similarGroups|
  {
    if |records| == 0 then NoPairs
    else
      var exact := FindExactDuplicates(records);
      var similar := FindSimilarQuestions(ratio, threshold, Questions(records));
      SimilarWithin(ratio, threshold, records);
      DupSummary(|records|, threshold, exact, ExactAffected(exact), similar, SimilarAffected(similar),
        CheckAnswerConsistency(records, similar))
  }

  /** The similar groups range over the records. */
  lemma SimilarWithin(ratio: (string, string) -> real, threshold: real, records: seq<DupRecord>)
    ensures GroupsWithin(records, FindSimilarQuestions(ratio, threshold, Questions(records)))
  {
    var groups := FindSimilarQuestions(ratio, threshold, Questions(records));
    forall k, m | 0 <= k < |groups| && 0 <= m < |groups[k].members|
      ensures groups[k].members[m] < |records|
    {
      SimilarGroupShape(ratio, threshold, Questions(records), k);
    }
  }

  function Questions(records: seq<DupRecord>): (r: seq<string>)
    ensures |r| == |records|
    ensures forall i :: 0 <= i < |r| ==> r[i] == records[i].question
  {
    seq(|records|, i requires 0 <= i < |records| => records[i].question)
  }

  /** Each near-duplicate group holds at least two records, so the affected
      count is at least twice the group count. */
  lemma {:induction false} SimilarAffectedBounds(groups: seq<SimilarGroup>)
    requires forall k :: 0 <= k < |groups| ==> |groups[k].members| >= 2
    ensures SimilarAffected(groups) >= 2 * |groups|
  {
    if |groups| > 0 {
      SimilarAffectedBounds(groups[1..]);
    }
  }

  // ---------------------------------------------------------------------------
  // Clean-up
  // ---------------------------------------------------------------------------

  /** The records `create_cleaned_file` writes: with `removeExact`, the first
      record of every normalised question, in input order; otherwise all. */
  function CleanedRecords(records: seq<DupRecord>, removeExact: bool): (r: seq<DupRecord>)
    ensures |r| <= |records|
    ensures !removeExact ==> r == records
  {
    if !removeExact then records
    else
      var firsts := FirstOccurrences(Keys(records));
      seq(|firsts|, k requires 0 <= k < |firsts| => records[firsts[k]])
  }

  /** The text written: the kept records' `full_text`s separated by a blank
      line, and the number of records removed. */
  function CreateCleanedFile(content: string, removeExact: bool): (r: (string, nat))
  {
    var records := DupParseQaFile(content);
    var cleaned := CleanedRecords(records, removeExact);
    (Join(FullTexts(cleaned), BlankLine), |records| - |cleaned|)
  }

  function FullTexts(records: seq<DupRecord>): (r: seq<string>)
    ensures |r| == |records|
    ensures forall k :: 0 <= k < |r| ==> r[k] == records[k].fullText
  {
    seq(|records|, k requires 0 <= k < |records| => records[k].fullText)
  }

  /** The cleaned file reads back, split on blank lines, as the full texts of
      the kept records, one piece per record, and is empty when nothing is
      kept; the count reported removed is the number of extra records the
      exact groups hold. */
  lemma CleanedFileReadsBack(content: string, removeExact: bool)
    ensures var cleaned := CleanedRecords(DupParseQaFile(content), removeExact);
      var text := CreateCleanedFile(content, removeExact).0;
      && (|cleaned| == 0 ==> text == [])
      && (|cleaned| > 0 ==> Split(text, BlankLine) == FullTexts(cleaned))
    ensures removeExact ==>
      var groups := FindExactDuplicates(DupParseQaFile(content));
      CreateCleanedFile(content, true).1 == ExactAffected(groups) - |groups|
  {
    var records := DupParseQaFile(content);
    var cleaned := CleanedRecords(records, removeExact);
    var parts := FullTexts(cleaned);
    if |cleaned| > 0 {
      var blocks := Split(Strip(content), BlankLine);
      forall k | 0 <= k < |parts| ensures Isolated(parts[k], BlankLine) {
        var j := if removeExact then FirstOccurrences(Keys(records))[k] else k;
        assert cleaned[k] == records[j];
        StrippedPieceNoBlankLine(Strip(content), records[j].index);
        NoBlankLineIsolated(parts[k]);
      }
      SplitOfJoin(parts, BlankLine);
    }
    CleanupRemovesExactExtras(records);
  }

  /** The clean-up keeps one record per normalised question: the kept records
      have pairwise different normalised questions, and every record's
      normalised question is kept by its first occurrence. */
  lemma CleanedKeepsFirsts(records: seq<DupRecord>, i: nat)
    requires i < |records|
    ensures var r := CleanedRecords(records, true);
      && (forall k, m :: 0 <= k < m < |r| ==> CleanText(r[k].question) != CleanText(r[m].question))
      && (exists k :: 0 <= k < |r| && CleanText(r[k].question) == CleanText(records[i].question))
  {
    var keys := Keys(records);
    var firsts := FirstOccurrences(keys);
    var r := CleanedRecords(records, true);
    forall k, m | 0 <= k < m < |r|
      ensures CleanText(r[k].question) != CleanText(r[m].question)
    {
      FirstOccurrencesDistinct(keys, k, m);
    }
    FirstOccurrencesCover(keys, i);
    var k :| 0 <= k < |firsts| && keys[firsts[k]] == keys[i];
    assert CleanText(r[k].question) == keys[firsts[k]];
  }

  /** The clean-up keeps records in input order. */
  lemma CleanedInOrder(records: seq<DupRecord>, k: nat, m: nat)
    requires k < m < |CleanedRecords(records, true)|
    ensures CleanedRecords(records, true)[k] == records[FirstOccurrences(Keys(records))[k]]
    ensures FirstOccurrences(Keys(records))[k] < FirstOccurrences(Keys(records))[m]
  {
  }

  // ---------------------------------------------------------------------------
  // The clean-up removes what the exact-duplicate report counts
  // ---------------------------------------------------------------------------

  /** The sizes of the classes of the listed positions, summed. */
  function ClassSizes(keys: seq<string>, ps: seq<nat>): nat
    requires forall k :: 0 <= k < |ps| ==> ps[k] < |keys|
  {
    if |ps| == 0 then 0 else |Positions(keys, keys[ps[0]])| + ClassSizes(keys, ps[1..])
  }

  /** How many listed positions hold `x`. */
  function CountKey(keys: seq<string>, ps: seq<nat>, x: string): nat
    requires forall k :: 0 <= k < |ps| ==> ps[k] < |keys|
  {
    if |ps| == 0 then 0 else (if keys[ps[0]] == x then 1 else 0) + CountKey(keys, ps[1..], x)
  }

  lemma {:induction false} ClassSizesSnoc(keys: seq<string>, ps: seq<nat>, p: nat)
    requires forall k :: 0 <= k < |ps| ==> ps[k] < |keys|
    requires p < |keys|
    ensures ClassSizes(keys, ps + [p]) == ClassSizes(keys, ps) + |Positions(keys, keys[p])|
    decreases |ps|
  {
    if |ps| > 0 {
      assert (ps + [p])[1..] == ps[1..] + [p];
      ClassSizesSnoc(keys, ps[1..], p);
    } else {
      assert ps + [p] == [p];
    }
  }

  /** Appending a key grows the class of that key by one position. */
  lemma {:induction false} ClassSizesExtend(pre: seq<string>, last: string, ps: seq<nat>)
    requires forall k :: 0 <= k < |ps| ==> ps[k] < |pre|
    ensures ClassSizes(pre + [last], ps) == ClassSizes(pre, ps) + CountKey(pre, ps, last)
    decreases |ps|
  {
    if |ps| > 0 {
      var keys := pre + [last];
      assert keys[..|pre|] == pre;
      assert keys[ps[0]] == pre[ps[0]];
      ClassSizesExtend(pre, last, ps[1..]);
    }
  }

  /** Over positions with pairwise different keys, a key is counted once if
      it is held and not at all otherwise. */
  lemma {:induction false} CountKeyDistinct(keys: seq<string>, ps: seq<nat>, x: string)
    requires forall k :: 0 <= k < |ps| ==> ps[k] < |keys|
    requires forall k, m :: 0 <= k < m < |ps| ==> keys[ps[k]] != keys[ps[m]]
    ensures CountKey(keys, ps, x) == if exists k :: 0 <= k < |ps| && keys[ps[k]] == x then 1 else 0
    decreases |ps|
  {
    if |ps| > 0 {
      var tail := ps[1..];
      assert forall k :: 0 <= k < |tail| ==> tail[k] == ps[k + 1];
      CountKeyDistinct(keys, tail, x);
      if keys[ps[0]] == x {
        assert !exists k :: 0 <= k < |tail| && keys[tail[k]] == x;
      } else if exists k :: 0 <= k < |ps| && keys[ps[k]] == x {
        var k :| 0 <= k < |ps| && keys[ps[k]] == x;
        assert keys[tail[k - 1]] == x;
      }
    }
  }

  /** Every position belongs to exactly one class: the class sizes of the
      first occurrences add up to the number of positions. */
  lemma {:induction false} ClassSizesTotal(keys: seq<string>)
    ensures ClassSizes(keys, FirstOccurrences(keys)) == |keys|
    decreases |keys|
  {
    if |keys| > 0 {
      ClassSizesTotal(keys[..|keys| - 1]);
      ClassSizesLast(keys);
    }
  }

  lemma ClassSizesLast(keys: seq<string>)
    requires |keys| > 0
    ensures var pre := keys[..|keys| - 1];
      ClassSizes(keys, FirstOccurrences(keys)) == ClassSizes(pre, FirstOccurrences(pre)) + 1
  {
    var n := |keys| - 1;
    assert keys[..n] + [keys[n]] == keys;
    ClassSizesStep(keys[..n], keys[n]);
  }

  /** One more position adds one to the class sizes. */
  lemma ClassSizesStep(pre: seq<string>, last: string)
    ensures ClassSizes(pre + [last], FirstOccurrences(pre + [last])) == ClassSizes(pre, FirstOccurrences(pre)) + 1
  {
    if j :| 0 <= j < |pre| && pre[j] == last {
      StepOldKey(pre, last, j);
    } else {
      StepNewKey(pre, last);
    }
  }

  lemma StepNewKey(pre: seq<string>, last: string)
    requires forall j :: 0 <= j < |pre| ==> pre[j] != last
    ensures ClassSizes(pre + [last], FirstOccurrences(pre + [last])) == ClassSizes(pre, FirstOccurrences(pre)) + 1
  {
    var keys := pre + [last];
    var n := |pre|;
    var fs := FirstOccurrences(pre);
    FirstOccurrencesNew(pre, last);
    calc {
      ClassSizes(keys, fs + [n]);
    == { NewKeyClass(pre, last); }
      ClassSizes(keys, fs) + 1;
    == { ClassSizesExtend(pre, last, fs); CountKeyAbsent(pre, fs, last); }
      ClassSizes(pre, fs) + 1;
    }
  }

  lemma StepOldKey(pre: seq<string>, last: string, j: nat)
    requires j < |pre| && pre[j] == last
    ensures ClassSizes(pre + [last], FirstOccurrences(pre + [last])) == ClassSizes(pre, FirstOccurrences(pre)) + 1
  {
    var keys := pre + [last];
    var n := |pre|;
    assert keys[..n] == pre;
    var fs := FirstOccurrences(pre);
    ClassSizesExtend(pre, last, fs);
    OldKeyCounted(pre, last, j);
    FirstOccurrencesOld(pre, last, j);
  }

  /** A new key is first held at the new position. */
  lemma FirstOccurrencesNew(pre: seq<string>, last: string)
    requires forall j :: 0 <= j < |pre| ==> pre[j] != last
    ensures FirstOccurrences(pre + [last]) == FirstOccurrences(pre) + [|pre|]
  {
    var keys := pre + [last];
    assert keys[..|pre|] == pre;
    assert IsFirst(keys, |pre|);
  }

  /** A key held before adds no first occurrence. */
  lemma FirstOccurrencesOld(pre: seq<string>, last: string, j: nat)
    requires j < |pre| && pre[j] == last
    ensures FirstOccurrences(pre + [last]) == FirstOccurrences(pre)
  {
    var keys := pre + [last];
    assert keys[..|pre|] == pre;
    assert keys[j] == keys[|pre|];
  }

  /** The listed first occurrences hold pairwise different keys. */
  lemma FirstKeysDistinct(keys: seq<string>)
    ensures var fs := FirstOccurrences(keys);
      forall k, m :: 0 <= k < m < |fs| ==> keys[fs[k]] != keys[fs[m]]
  {
    var fs := FirstOccurrences(keys);
    forall k, m | 0 <= k < m < |fs|
      ensures keys[fs[k]] != keys[fs[m]]
    {
      FirstOccurrencesDistinct(keys, k, m);
    }
  }

  /** A key held before is counted once among the first occurrences. */
  lemma OldKeyCounted(pre: seq<string>, last: string, j: nat)
    requires j < |pre| && pre[j] == last
    ensures CountKey(pre, FirstOccurrences(pre), last) == 1
  {
    var fs := FirstOccurrences(pre);
    FirstKeysDistinct(pre);
    CountKeyDistinct(pre, fs, last);
    FirstOccurrencesCover(pre, j);
  }

  /** Not held before, the key's class is the new position alone. */
  lemma NewKeyClass(pre: seq<string>, last: string)
    requires forall j :: 0 <= j < |pre| ==> pre[j] != last
    ensures var keys := pre + [last];
      var fs := FirstOccurrences(pre);
      ClassSizes(keys, fs + [|pre|]) == ClassSizes(keys, fs) + 1
  {
    var keys := pre + [last];
    var fs := FirstOccurrences(pre);
    ClassSizesSnoc(keys, fs, |pre|);
    PositionsNew(pre, last);
  }

  /** A key not held before is held by the new position alone. */
  lemma PositionsNew(pre: seq<string>, last: string)
    requires forall j :: 0 <= j < |pre| ==> pre[j] != last
    ensures Positions(pre + [last], last) == [|pre|]
  {
    var keys := pre + [last];
    assert keys[..|pre|] == pre;
    PositionsAbsent(pre, last);
    assert Positions(keys, last) == Positions(keys[..|pre|], last) + [|pre|];
  }

  lemma {:induction false} CountKeyAbsent(keys: seq<string>, ps: seq<nat>, x: string)
    requires forall k :: 0 <= k < |ps| ==> ps[k] < |keys| && keys[ps[k]] != x
    ensures CountKey(keys, ps, x) == 0
    decreases |ps|
  {
    if |ps| > 0 {
      CountKeyAbsent(keys, ps[1..], x);
    }
  }

  lemma PositionsAbsent(keys: seq<string>, x: string)
    requires forall j :: 0 <= j < |keys| ==> keys[j] != x
    ensures Positions(keys, x) == []
  {
  }

  /** Dropping the classes of size one does not change the number of extra
      records per class. */
  lemma {:induction false} ExactAffectedOf(keys: seq<string>, fs: seq<nat>)
    requires forall k :: 0 <= k < |fs| ==> fs[k] < |keys|
    ensures ExactAffected(ExactGroupsOf(keys, fs)) + |fs| == ClassSizes(keys, fs) + |ExactGroupsOf(keys, fs)|
    decreases |fs|
  {
    if |fs| > 0 {
      ExactAffectedOf(keys, fs[1..]);
      PositionsComplete(keys, keys[fs[0]], fs[0]);
    }
  }

  /** The clean-up removes exactly the records the exact-duplicate report
      counts beyond the first of each group: `parsed - kept` equals the
      affected questions minus the number of groups. */
  lemma CleanupRemovesExactExtras(records: seq<DupRecord>)
    ensures |records| - |CleanedRecords(records, true)|
        == ExactAffected(FindExactDuplicates(records)) - |FindExactDuplicates(records)|
  {
    var keys := Keys(records);
    ClassSizesTotal(keys);
    ExactAffectedOf(keys, FirstOccurrences(keys));
  }
}

=== FILE: files.dfy ===
/** Directories as listings of named text files, the lexicographic order in
    which the pipeline processes them, and the blank-line merge of their
    contents that every merge step performs. */
module Files {
  import opened Text

  datatype FileEntry = FileEntry(name: string, content: string)

  /** A directory that may not exist. `os.listdir` returns the entries in no
      particular order; every consumer sorts them by name first. */
  datatype Dir = Missing | Present(entries: seq<FileEntry>)

  /** The names in a listing. */
  function EntryNames(s: seq<FileEntry>): (r: set<string>)
    ensures forall e :: e in s ==> e.name in r
  {
    set e | e in s :: e.name
  }

  /** Blank-line separator between records and between merged chunks. */
  const BlankLine: string := "\n\n"

  /** A text with no empty line inside it and no line break at its end. */
  predicate NoBlankLine(s: string) {
    && (forall i :: 0 <= i < |s| - 1 ==> !(s[i] == '\n' && s[i + 1] == '\n'))
    && (|s| > 0 ==> s[|s| - 1] != '\n')
  }

  /** Such a text followed by a blank line holds the blank line only at its
      end, so a blank-line split finds where it ends. */
  lemma NoBlankLineIsolated(s: string)
    requires NoBlankLine(s)
    ensures Isolated(s, BlankLine)
  {
    var t := s + BlankLine;
    forall k | 0 <= k < |s| ensures !OccursAt(t, BlankLine, k) {
      if k < |s| - 1 {
        assert t[k + 1] == s[k + 1] && t[k] == s[k];
      } else {
        assert t[k] == s[k];
      }
    }
  }

  /** A stripped piece of a blank-line split has no empty line: the piece
      holds no blank line, and stripping leaves no line break at the end. */
  lemma StrippedPieceNoBlankLine(s: string, i: nat)
    requires i < |Split(s, BlankLine)|
    ensures NoBlankLine(Strip(Split(s, BlankLine)[i]))
  {
    var p := Split(s, BlankLine)[i];
    var t := Strip(p);
    var lo := StripIsInfix(p);
    SplitPiecesFree(s, BlankLine);
    forall j | 0 <= j < |t| - 1 ensures !(t[j] == '\n' && t[j + 1] == '\n') {
      assert t[j] == p[lo + j] && t[j + 1] == p[lo + j + 1];
      assert !OccursAt(p, BlankLine, lo + j);
      assert p[lo + j..lo + j + 2] == [p[lo + j], p[lo + j + 1]];
    }
  }

  // ---------------------------------------------------------------------------
  // Lexicographic order (Python's `<` on `str`)
  // ---------------------------------------------------------------------------

  predicate LexLess(a: string, b: string)
    decreases |a|
  {
    if |a| == 0 then |b| > 0
    else if |b| == 0 then false
    else if a[0] != b[0] then a[0] < b[0]
    else LexLess(a[1..], b[1..])
  }

  predicate LexLe(a: string, b: string) {
    a == b || LexLess(a, b)
  }

  lemma {:induction false} LexLessIrreflexive(a: string)
    ensures !LexLess(a, a)
    decreases |a|
  {
    if |a| > 0 {
      LexLessIrreflexive(a[1..]);
    }
  }

  lemma {:induction false} LexLessAsymmetric(a: string, b: string)
    ensures !(LexLess(a, b) && LexLess(b, a))
    decreases |a|
  {
    if |a| > 0 && |b| > 0 && a[0] == b[0] {
      LexLessAsymmetric(a[1..], b[1..]);
    }
  }

  lemma {:induction false} LexLessTransitive(a: string, b: string, c: string)
    requires LexLess(a, b) && LexLess(b, c)
    ensures LexLess(a, c)
    decreases |a|
  {
    if |a| > 0 && a[0] == b[0] && b[0] == c[0] {
      LexLessTransitive(a[1..], b[1..], c[1..]);
    }
  }

  lemma {:induction false} LexLessTotal(a: string, b: string)
    ensures a == b || LexLess(a, b) || LexLess(b, a)
    decreases |a|
  {
    if |a| > 0 && |b| > 0 && a[0] == b[0] {
      LexLessTotal(a[1..], b[1..]);
      if a[1..] == b[1..] {
        assert a == [a[0]] + a[1..] && b == [b[0]] + b[1..];
      }
    }
  }

  lemma LexLeTransitive(a: string, b: string, c: string)
    requires LexLe(a, b) && LexLe(b, c)
    ensures LexLe(a, c)
  {
    if a != b && b != c {
      LexLessTransitive(a, b, c);
    }
  }

  lemma LexLeAntisymmetric(a: string, b: string)
    requires LexLe(a, b) && LexLe(b, a)
    ensures a == b
  {
    LexLessAsymmetric(a, b);
  }

  /** A common prefix keeps the order. */
  lemma {:induction false} LexLessPrefix(p: string, x: string, y: string)
    requires LexLess(x, y)
    ensures LexLess(p + x, p + y)
    decreases |p|
  {
    if |p| > 0 {
      assert (p + x)[1..] == p[1..] + x;
      assert (p + y)[1..] == p[1..] + y;
      assert (p + x)[0] == p[0] == (p + y)[0];
      LexLessPrefix(p[1..], x, y);
    } else {
      assert p + x == x && p + y == y;
    }
  }

  // ---------------------------------------------------------------------------
  // Sorting a listing by name (`list.sort()` on the file names)
  // ---------------------------------------------------------------------------

  ghost predicate SortedByName(s: seq<FileEntry>) {
    forall i, j :: 0 <= i < j < |s| ==> LexLe(s[i].name, s[j].name)
  }

  /** No entry twice and no two entries with the same name: what a real
      directory listing guarantees. Stated on the multiset, so it does not
      depend on the listing order. */
  ghost predicate UniqueNames(m: multiset<FileEntry>) {
    && (forall x | x in m :: m[x] == 1)
    && (forall x, y | x in m && y in m && x.name == y.name :: x == y)
  }

  function Insert(e: FileEntry, s: seq<FileEntry>): (r: seq<FileEntry>)
    requires SortedByName(s)
    ensures SortedByName(r)
    ensures multiset(r) == multiset(s) + multiset{e}
    ensures |r| == |s| + 1
  {
    if |s| == 0 then [e]
    else if LexLe(e.name, s[0].name) then
      assert forall j :: 0 <= j < |s| ==> LexLe(e.name, s[j].name) by {
        forall j | 0 <= j < |s| ensures LexLe(e.name, s[j].name) {
          LexLeTransitive(e.name, s[0].name, s[j].name);
        }
      }
      [e] + s
    else
      var t := Insert(e, s[1..]);
      assert LexLe(s[0].name, e.name) by { LexLessTotal(e.name, s[0].name); }
      BoundKept(s[0].name, s[1..], e, t);
      assert s == [s[0]] + s[1..];
      [s[0]] + t
  }

  /** A lower bound of every name in `s` and of `e` is a lower bound of
      every name in a permutation of `s` with `e` added. */
  lemma BoundKept(x: string, s: seq<FileEntry>, e: FileEntry, t: seq<FileEntry>)
    requires multiset(t) == multiset(s) + multiset{e}
    requires LexLe(x, e.name)
    requires forall j :: 0 <= j < |s| ==> LexLe(x, s[j].name)
    ensures forall j :: 0 <= j < |t| ==> LexLe(x, t[j].name)
  {
    forall j | 0 <= j < |t| ensures LexLe(x, t[j].name) {
      assert t[j] in multiset(t);
      if t[j] != e {
        assert t[j] in multiset(s);
        var k :| 0 <= k < |s| && s[k] == t[j];
      }
    }
  }

  /** The listing in ascending name order: a sorted permutation. */
  function SortByName(s: seq<FileEntry>): (r: seq<FileEntry>)
    ensures SortedByName(r)
    ensures multiset(r) == multiset(s)
    ensures |r| == |s|
  {
    if |s| == 0 then []
    else
      assert s == [s[0]] + s[1..];
      Insert(s[0], SortByName(s[1..]))
  }

  /** The first entries of two sorted listings with the same unique-named
      entries coincide. */
  lemma SortedHeadsEqual(a: seq<FileEntry>, b: seq<FileEntry>)
    requires SortedByName(a) && SortedByName(b)
    requires multiset(a) == multiset(b)
    requires UniqueNames(multiset(a))
    requires |a| > 0
    ensures |b| > 0 && a[0] == b[0]
  {
    assert a[0] in multiset(b);
    var j :| 0 <= j < |b| && b[j] == a[0];
    assert b[0] in multiset(a);
    var i :| 0 <= i < |a| && a[i] == b[0];
    assert LexLe(a[0].name, a[i].name);
    assert LexLe(b[0].name, b[j].name);
    LexLeAntisymmetric(a[0].name, b[0].name);
  }

  lemma SortedTail(a: seq<FileEntry>)
    requires SortedByName(a) && |a| > 0
    ensures SortedByName(a[1..])
  {
    forall i, j | 0 <= i < j < |a| - 1
      ensures LexLe(a[1..][i].name, a[1..][j].name)
    {
      assert a[1..][i] == a[i + 1] && a[1..][j] == a[j + 1];
    }
  }

  lemma UniqueNamesSub(m: multiset<FileEntry>, n: multiset<FileEntry>)
    requires m <= n && UniqueNames(n)
    ensures UniqueNames(m)
  {
  }

  /** Two sorted listings with the same entries and distinct names coincide:
      the processing order depends on the names only, never on the order in
      which the directory happened to list them. */
  lemma {:induction false} SortedUnique(a: seq<FileEntry>, b: seq<FileEntry>)
    requires SortedByName(a) && SortedByName(b)
    requires multiset(a) == multiset(b)
    requires UniqueNames(multiset(a))
    ensures a == b
    decreases |a|
  {
    SameLength(a, b);
    if |a| > 0 {
      SortedHeadsEqual(a, b);
      TailsPermute(a, b);
      UniqueNamesSub(multiset(a[1..]), multiset(a));
      SortedTail(a);
      SortedTail(b);
      SortedUnique(a[1..], b[1..]);
      HeadTailEqual(a, b);
    }
  }

  lemma SameLength(a: seq<FileEntry>, b: seq<FileEntry>)
    requires multiset(a) == multiset(b)
    ensures |a| == |b|
  {
    assert |a| == |multiset(a)| == |b|;
  }

  lemma HeadTailEqual(a: seq<FileEntry>, b: seq<FileEntry>)
    requires |a| > 0 && |b| > 0 && a[0] == b[0] && a[1..] == b[1..]
    ensures a == b
  {
    assert a == [a[0]] + a[1..] && b == [b[0]] + b[1..];
  }

  /** Two listings of the same entries with the same head list the same
      entries after it. */
  lemma TailsPermute(a: seq<FileEntry>, b: seq<FileEntry>)
    requires multiset(a) == multiset(b) && |a| > 0 && |b| > 0 && a[0] == b[0]
    ensures multiset(a[1..]) == multiset(b[1..]) && multiset(a[1..]) <= multiset(a)
  {
    assert a == [a[0]] + a[1..] && b == [b[0]] + b[1..];
    assert multiset(a) == multiset{a[0]} + multiset(a[1..]);
    assert multiset(b) == multiset{b[0]} + multiset(b[1..]);
    assert multiset(a[1..]) == multiset(a) - multiset{a[0]};
    assert multiset(b[1..]) == multiset(b) - multiset{b[0]};
  }

  /** Sorting is insensitive to the listing order. */
  lemma SortIgnoresListingOrder(a: seq<FileEntry>, b: seq<FileEntry>)
    requires multiset(a) == multiset(b)
    requires UniqueNames(multiset(a))
    ensures SortByName(a) == SortByName(b)
  {
    SortedUnique(SortByName(a), SortByName(b));
  }

  // ---------------------------------------------------------------------------
  // Selecting and merging
  // ---------------------------------------------------------------------------

  /** The entries whose names pass `keep`, in listing order. */
  function Select(s: seq<FileEntry>, keep: string -> bool): (r: seq<FileEntry>)
    ensures forall e :: e in r <==> e in s && keep(e.name)
    ensures multiset(r) <= multiset(s)
  {
    if |s| == 0 then []
    else
      assert s == [s[0]] + s[1..];
      (if keep(s[0].name) then [s[0]] else []) + Select(s[1..], keep)
  }

  /** A non-empty text without outer whitespace (a fixed point of `strip()`). */
  predicate Trimmed(x: string) {
    x != [] && !IsSpace(x[0]) && !IsSpace(x[|x| - 1])
  }

  /** The stripped, non-empty contents, in order. */
  function StrippedContents(s: seq<FileEntry>): (r: seq<string>)
    ensures |r| <= |s|
    ensures forall i :: 0 <= i < |r| ==> Trimmed(r[i])
  {
    if |s| == 0 then []
    else
      var c := Strip(s[0].content);
      var rest := StrippedContents(s[1..]);
      if c != [] then [c] + rest else rest
  }

  /** `"\n\n".join(non-empty stripped contents)`, the merge every merge step writes. */
  function MergeContents(s: seq<FileEntry>): string {
    Join(StrippedContents(s), BlankLine)
  }

  /** The non-empty stripped segments of a text split on blank lines: the
      "Q&A pairs" the merge steps and the workflow report. */
  function Pairs(text: string): (r: seq<string>)
  {
    NonBlank(Split(text, BlankLine))
  }

  function NonBlank(parts: seq<string>): (r: seq<string>)
    ensures |r| <= |parts|
  {
    if |parts| == 0 then []
    else KeepIfNonBlank(parts[0]) + NonBlank(parts[1..])
  }

  function KeepIfNonBlank(p: string): (r: seq<string>)
  {
    if Strip(p) != [] then [Strip(p)] else []
  }

  lemma {:induction false} NonBlankConcat(a: seq<string>, b: seq<string>)
    ensures NonBlank(a + b) == NonBlank(a) + NonBlank(b)
    decreases |a|
  {
    if |a| > 0 {
      assert (a + b)[0] == a[0];
      assert (a + b)[1..] == a[1..] + b;
      NonBlankConcat(a[1..], b);
      assert NonBlank(a + b) == KeepIfNonBlank(a[0]) + (NonBlank(a[1..]) + NonBlank(b));
    } else {
      assert a + b == b;
    }
  }

  /** Splitting on a blank line across a join point: when the left part does
      not end in a newline, no separator straddles the join. */
  lemma {:induction false} SplitAcrossBlankLine(a: string, b: string)
    requires a == [] || a[|a| - 1] != '\n'
    ensures Split(a + BlankLine + b, BlankLine) == Split(a, BlankLine) + Split(b, BlankLine)
    decreases |a|
  {
    var s := a + BlankLine + b;
    if |a| == 0 {
      assert s == BlankLine + b;
      assert s[..2] == BlankLine && s[2..] == b;
    } else if |a| >= 2 && a[..2] == BlankLine {
      assert s[..2] == BlankLine;
      assert s[2..] == a[2..] + BlankLine + b;
      SplitAcrossBlankLine(a[2..], b);
    } else {
      SplitAcrossBlankLine(a[1..], b);
      SplitAcrossBlankLineStep(a, b);
    }
  }

  /** The step of `SplitAcrossBlankLine` when `a` does not start with a
      blank line: its first character joins the first piece. */
  lemma SplitAcrossBlankLineStep(a: string, b: string)
    requires |a| > 0 && a[|a| - 1] != '\n'
    requires !(|a| >= 2 && a[..2] == BlankLine)
    requires Split(a[1..] + BlankLine + b, BlankLine) == Split(a[1..], BlankLine) + Split(b, BlankLine)
    ensures Split(a + BlankLine + b, BlankLine) == Split(a, BlankLine) + Split(b, BlankLine)
  {
    var s := a + BlankLine + b;
    assert !StartsWith(s, BlankLine) by {
      if |a| == 1 {
        assert s[1] == '\n' && s[0] == a[0];
      } else {
        assert s[..2] == a[..2];
      }
    }
    assert s[1..] == a[1..] + BlankLine + b;
    SplitFirstChar(s, BlankLine);
    SplitFirstChar(a, BlankLine);
    HeadJoins(a[0], Split(a[1..], BlankLine), Split(b, BlankLine));
  }

  lemma HeadJoins(c: char, p: seq<string>, q: seq<string>)
    requires |p| > 0
    ensures [[c] + (p + q)[0]] + (p + q)[1..] == ([[c] + p[0]] + p[1..]) + q
  {
    assert (p + q)[0] == p[0];
    assert (p + q)[1..] == p[1..] + q;
  }


  function SumPairs(texts: seq<string>): nat {
    if |texts| == 0 then 0 else |Pairs(texts[0])| + SumPairs(texts[1..])
  }

  /** Merging never merges or loses records: the pair count of the merged
      text is the sum of the pair counts of the merged contents. */
  lemma {:induction false} JoinPairCount(texts: seq<string>)
    requires forall i :: 0 <= i < |texts| ==> Trimmed(texts[i])
    ensures |Pairs(Join(texts, BlankLine))| == SumPairs(texts)
    decreases |texts|
  {
    if |texts| == 0 {
      assert Split("", BlankLine) == [""];
    } else if |texts| == 1 {
    } else {
      var a := texts[0];
      assert !IsSpace(a[|a| - 1]);
      JoinPairCount(texts[1..]);
      SplitAcrossBlankLine(a, Join(texts[1..], BlankLine));
      NonBlankConcat(Split(a, BlankLine), Split(Join(texts[1..], BlankLine), BlankLine));
    }
  }

  lemma MergePairCount(s: seq<FileEntry>)
    ensures |Pairs(MergeContents(s))| == SumPairs(StrippedContents(s))
  {
    JoinPairCount(StrippedContents(s));
  }
  /** What a merge of selected files produces. */
  datatype MergeOutcome =
    | DirMissing
    | NoChunkFiles
    | Merged(text: string, fileCount: nat)

  /** A merge over the files a name filter selects: the stripped non-empty
      contents in name order, joined by a blank line. */
  function MergeSelected(d: Dir, keep: string -> bool): (r: MergeOutcome)
    ensures r.DirMissing? <==> d.Missing?
    ensures r.NoChunkFiles? <==> d.Present? && forall e :: e in d.entries ==> !keep(e.name)
    ensures r.Merged? ==> r.fileCount > 0
  {
    match d
    case Missing => DirMissing
    case Present(entries) =>
      var files := SortByName(Select(entries, keep));
      if |files| == 0 then
        assert forall e :: e in entries ==> !keep(e.name);
        NoChunkFiles
      else
        assert files[0] in multiset(Select(entries, keep));
        Merged(MergeContents(files), |files|)
  }

  /** A merge whose sorted selection is known. */
  lemma MergeSelectedOf(entries: seq<FileEntry>, keep: string -> bool, files: seq<FileEntry>)
    requires SortByName(Select(entries, keep)) == files && |files| > 0
    ensures MergeSelected(Present(entries), keep) == Merged(MergeContents(files), |files|)
  {
  }

  /** Some entry of the listing passes `keep`. */
  predicate AnyNamed(s: seq<FileEntry>, keep: string -> bool) {
    exists i :: 0 <= i < |s| && keep(s[i].name)
  }

  /** `AnyNamed` over indices agrees with the membership form. */
  lemma AnyNamedIff(s: seq<FileEntry>, keep: string -> bool)
    ensures AnyNamed(s, keep) <==> exists e :: e in s && keep(e.name)
  {
    if exists e :: e in s && keep(e.name) {
      var e :| e in s && keep(e.name);
      var i :| 0 <= i < |s| && s[i] == e;
    }
  }

  lemma SelectEmptyIff(s: seq<FileEntry>, keep: string -> bool)
    ensures Select(s, keep) == [] <==> !AnyNamed(s, keep)
  {
    if AnyNamed(s, keep) {
      var i :| 0 <= i < |s| && keep(s[i].name);
      assert s[i] in Select(s, keep);
    }
  }

  /** How often an entry is selected: as often as it is listed, when its
      name passes. */
  lemma {:induction false} SelectCount(s: seq<FileEntry>, keep: string -> bool, x: FileEntry)
    ensures multiset(Select(s, keep))[x] == if keep(x.name) then multiset(s)[x] else 0
    decreases |s|
  {
    if |s| > 0 {
      SelectCount(s[1..], keep, x);
      var h := if keep(s[0].name) then [s[0]] else [];
      assert Select(s, keep) == h + Select(s[1..], keep);
      assert s == [s[0]] + s[1..];
      assert multiset(s) == multiset{s[0]} + multiset(s[1..]);
      assert multiset(Select(s, keep)) == multiset(h) + multiset(Select(s[1..], keep));
    }
  }

  /** Selecting from two listings of the same entries selects the same entries. */
  lemma SelectPermutes(a: seq<FileEntry>, b: seq<FileEntry>, keep: string -> bool)
    requires multiset(a) == multiset(b)
    ensures multiset(Select(a, keep)) == multiset(Select(b, keep))
  {
    forall x
      ensures multiset(Select(a, keep))[x] == multiset(Select(b, keep))[x]
    {
      SelectCount(a, keep, x);
      SelectCount(b, keep, x);
    }
  }

  /** Two filters that agree on every listed name select the same entries. */
  lemma {:induction false} SelectAgree(s: seq<FileEntry>, k1: string -> bool, k2: string -> bool)
    requires forall i :: 0 <= i < |s| ==> k1(s[i].name) == k2(s[i].name)
    ensures Select(s, k1) == Select(s, k2)
    decreases |s|
  {
    if |s| > 0 {
      assert k1(s[0].name) == k2(s[0].name);
      assert forall i :: 0 <= i < |s[1..]| ==> s[1..][i] == s[i + 1];
      SelectAgree(s[1..], k1, k2);
    }
  }

  /** The sorted selection of a directory listing does not depend on the
      order in which the directory lists its files. */
  lemma SortedSelectionIgnoresListingOrder(a: seq<FileEntry>, b: seq<FileEntry>, keep: string -> bool)
    requires multiset(a) == multiset(b)
    requires UniqueNames(multiset(a))
    ensures SortByName(Select(a, keep)) == SortByName(Select(b, keep))
  {
    SelectPermutes(a, b, keep);
    UniqueNamesSub(multiset(Select(a, keep)), multiset(a));
    SortIgnoresListingOrder(Select(a, keep), Select(b, keep));
  }

  /** A merge does not depend on the listing order. */
  lemma MergeSelectedIgnoresListingOrder(a: seq<FileEntry>, b: seq<FileEntry>, keep: string -> bool)
    requires multiset(a) == multiset(b)
    requires UniqueNames(multiset(a))
    ensures MergeSelected(Present(a), keep) == MergeSelected(Present(b), keep)
  {
    SortedSelectionIgnoresListingOrder(a, b, keep);
  }

  /** Every file of the listing is empty after stripping. */
  predicate AllBlank(s: seq<FileEntry>) {
    forall i :: 0 <= i < |s| ==> Strip(s[i].content) == []
  }

  /** The merged text is empty exactly when every merged file is blank. */
  lemma {:induction false} MergeContentsEmptyIff(s: seq<FileEntry>)
    ensures MergeContents(s) == [] <==> AllBlank(s)
    decreases |s|
  {
    var parts := StrippedContents(s);
    if |parts| > 1 {
      assert Join(parts, BlankLine) == parts[0] + BlankLine + Join(parts[1..], BlankLine);
    }
    assert MergeContents(s) == [] <==> parts == [];
    if |s| > 0 {
      MergeContentsEmptyIff(s[1..]);
      assert forall i :: 0 <= i < |s[1..]| ==> s[1..][i] == s[i + 1];
      if Strip(s[0].content) == [] {
        assert parts == StrippedContents(s[1..]);
        if |parts| > 1 {
          assert Join(parts, BlankLine) == parts[0] + BlankLine + Join(parts[1..], BlankLine);
        }
      }
    }
  }

  // ---------------------------------------------------------------------------
  // Writing files
  // ---------------------------------------------------------------------------

  /** `open(path, "w").write(content)`: an existing file of that name is
      overwritten in place, otherwise a new entry appears. */
  function WriteEntry(s: seq<FileEntry>, e: FileEntry): (r: seq<FileEntry>)
    ensures e in r
    ensures (forall i :: 0 <= i < |s| ==> s[i].name != e.name) ==> r == s + [e]
  {
    if |s| == 0 then [e]
    else if s[0].name == e.name then [e] + s[1..]
    else
      assert s == [s[0]] + s[1..];
      [s[0]] + WriteEntry(s[1..], e)
  }

  /** Writing keeps every other file and adds nothing but `e`. */
  lemma {:induction false} WriteEntryMembers(s: seq<FileEntry>, e: FileEntry)
    ensures forall x :: x in WriteEntry(s, e) ==> x == e || x in s
    ensures forall x :: x in s && x.name != e.name ==> x in WriteEntry(s, e)
    decreases |s|
  {
    if |s| > 0 && s[0].name != e.name {
      WriteEntryMembers(s[1..], e);
      assert s == [s[0]] + s[1..];
    }
  }

  /** Writing a file into a directory, which `os.makedirs` has created when
      it was missing. */
  function WriteFile(d: Dir, e: FileEntry): (r: Dir)
    ensures r.Present? && e in r.entries
  {
    match d
    case Missing => Present([e])
    case Present(s) => Present(WriteEntry(s, e))
  }

  /** Writing several files one after the other. */
  function WriteAll(d: Dir, files: seq<FileEntry>): (r: Dir)
    ensures d.Present? || |files| > 0 ==> r.Present?
    decreases |files|
  {
    if |files| == 0 then d
    else WriteAll(WriteFile(d, files[0]), files[1..])
  }

  /** Names that are pairwise distinct within a listing. */
  predicate DistinctNames(s: seq<FileEntry>) {
    forall i, j :: 0 <= i < j < |s| ==> s[i].name != s[j].name
  }

  /** Writing files whose names are new and distinct appends them in order. */
  lemma {:induction false} WriteAllFresh(s: seq<FileEntry>, files: seq<FileEntry>)
    requires DistinctNames(files)
    requires forall i, k :: 0 <= i < |s| && 0 <= k < |files| ==> s[i].name != files[k].name
    ensures WriteAll(Present(s), files) == Present(s + files)
    decreases |files|
  {
    if |files| > 0 {
      var t := s + [files[0]];
      assert forall i :: 0 <= i < |s| ==> s[i].name != files[0].name;
      assert WriteEntry(s, files[0]) == t;
      assert WriteAll(Present(s), files) == WriteAll(Present(t), files[1..]);
      forall i, k | 0 <= i < |t| && 0 <= k < |files[1..]|
        ensures t[i].name != files[1..][k].name
      {
        assert files[1..][k] == files[k + 1];
        if i < |s| {
          assert t[i] == s[i];
        } else {
          assert t[i] == files[0];
        }
      }
      WriteAllFresh(t, files[1..]);
      SnocThenRest(s, files);
    }
  }

  lemma SnocThenRest(s: seq<FileEntry>, files: seq<FileEntry>)
    requires |files| > 0
    ensures (s + [files[0]]) + files[1..] == s + files
  {
    assert files == [files[0]] + files[1..];
  }

  /** Selecting distributes over concatenation. */
  lemma {:induction false} SelectConcat(a: seq<FileEntry>, b: seq<FileEntry>, keep: string -> bool)
    ensures Select(a + b, keep) == Select(a, keep) + Select(b, keep)
    decreases |a|
  {
    if |a| == 0 {
      assert a + b == b;
    } else {
      assert (a + b)[0] == a[0];
      assert (a + b)[1..] == a[1..] + b;
      SelectConcat(a[1..], b, keep);
    }
  }

  /** Selecting keeps a listing whose names all pass. */
  lemma {:induction false} SelectAll(s: seq<FileEntry>, keep: string -> bool)
    requires forall k :: 0 <= k < |s| ==> keep(s[k].name)
    ensures Select(s, keep) == s
    decreases |s|
  {
    if |s| > 0 {
      SelectAll(s[1..], keep);
    }
  }

  /** Selecting drops a listing none of whose names pass. */
  lemma {:induction false} SelectNone(s: seq<FileEntry>, keep: string -> bool)
    requires forall x :: x in s ==> !keep(x.name)
    ensures Select(s, keep) == []
    decreases |s|
  {
    if |s| > 0 {
      assert s[0] in s;
      SelectNone(s[1..], keep);
    }
  }

  /** A sorted listing with distinct names is its own sort. */
  lemma SortSorted(s: seq<FileEntry>)
    requires SortedByName(s) && DistinctNames(s)
    ensures SortByName(s) == s
  {
    var m := multiset(s);
    forall x | x in m
      ensures m[x] == 1
    {
      var i :| 0 <= i < |s| && s[i] == x;
      CountOnce(s, i);
    }
    forall x, y | x in m && y in m && x.name == y.name
      ensures x == y
    {
      var i :| 0 <= i < |s| && s[i] == x;
      var j :| 0 <= j < |s| && s[j] == y;
      assert i == j;
    }
    SortedUnique(SortByName(s), s);
  }

  /** In a listing with distinct names each entry occurs once. */
  lemma {:induction false} CountOnce(s: seq<FileEntry>, i: nat)
    requires DistinctNames(s) && i < |s|
    ensures multiset(s)[s[i]] == 1
    decreases |s|
  {
    assert s == [s[0]] + s[1..];
    assert multiset(s) == multiset{s[0]} + multiset(s[1..]);
    if i == 0 {
      assert s[0] !in s[1..];
    } else {
      assert s[1..][i - 1] == s[i];
      CountOnce(s[1..], i - 1);
      assert s[0] != s[i];
    }
  }

  /** Contents that are already stripped and non-empty pass through the
      merge unchanged. */
  lemma {:induction false} StrippedTrimmed(s: seq<FileEntry>)
    requires forall k :: 0 <= k < |s| ==> Trimmed(s[k].content)
    ensures StrippedContents(s) == seq(|s|, k requires 0 <= k < |s| => s[k].content)
    decreases |s|
  {
    if |s| > 0 {
      StripNoop(s[0].content);
      StrippedTrimmed(s[1..]);
    }
  }
  /** Merging one more file adds its stripped content when that is not empty. */
  lemma {:induction false} StrippedSnoc(s: seq<FileEntry>, e: FileEntry)
    ensures StrippedContents(s + [e])
      == StrippedContents(s) + (if Strip(e.content) != [] then [Strip(e.content)] else [])
    decreases |s|
  {
    if |s| == 0 {
      assert [e][1..] == [];
    } else {
      assert (s + [e])[1..] == s[1..] + [e];
      StrippedSnoc(s[1..], e);
    }
  }

  /** Writing a file the filter rejects leaves the selection unchanged. */
  lemma {:induction false} SelectWriteOther(s: seq<FileEntry>, e: FileEntry, keep: string -> bool)
    requires !keep(e.name)
    ensures Select(WriteEntry(s, e), keep) == Select(s, keep)
    decreases |s|
  {
    if |s| == 0 {
      assert Select([e], keep) == [] + Select([], keep);
    } else if s[0].name == e.name {
      assert ([e] + s[1..])[1..] == s[1..];
    } else {
      var w := [s[0]] + WriteEntry(s[1..], e);
      assert w[1..] == WriteEntry(s[1..], e);
      SelectWriteOther(s[1..], e, keep);
    }
  }

  /** An entry listed at two positions is counted at least twice. */
  lemma TwiceListed(s: seq<FileEntry>, i: nat, j: nat)
    requires i < j < |s| && s[i] == s[j]
    ensures multiset(s)[s[i]] >= 2
  {
    assert s == s[..j] + [s[j]] + s[j + 1..];
    assert s[..j][i] == s[i];
    assert multiset(s) == multiset(s[..j]) + multiset{s[j]} + multiset(s[j + 1..]);
  }

  /** A listing whose entries are unique as a multiset has distinct names. */
  lemma UniqueDistinct(s: seq<FileEntry>)
    requires UniqueNames(multiset(s))
    ensures DistinctNames(s)
  {
    forall i, j | 0 <= i < j < |s|
      ensures s[i].name != s[j].name
    {
      if s[i].name == s[j].name {
        assert s[i] in multiset(s) && s[j] in multiset(s);
        TwiceListed(s, i, j);
        assert false;
      }
    }
  }

  /** Names in strictly ascending order. */
  ghost predicate StrictlySorted(s: seq<FileEntry>) {
    forall i, j :: 0 <= i < j < |s| ==> LexLess(s[i].name, s[j].name)
  }

  lemma StrictlySortedIff(s: seq<FileEntry>)
    ensures StrictlySorted(s) <==> SortedByName(s) && DistinctNames(s)
  {
    if StrictlySorted(s) {
      forall i, j | 0 <= i < j < |s|
        ensures s[i].name != s[j].name
      {
        LexLessIrreflexive(s[i].name);
      }
    }
  }
}

=== FILE: gemini_corrector.dfy ===
/** The Gemini correction step: every chunk file of a directory is sent to
    the Gemini service inside a fixed correction prompt, with a bounded number
    of attempts; each answer is written as a `corrected_<name>` file, the
    outcome is tallied, and the corrected files can be merged into one corpus.

    Neither the service nor the clock is modelled. The service is an oracle
    giving the reply to each call, and each `time.sleep` is an event of the
    run's trace. */
module GeminiCorrector {
  import opened Text
  import opened Files

  // ---------------------------------------------------------------------------
  // The correction prompt
  // ---------------------------------------------------------------------------

  /** Line `i` of the instructions in front of the chunk. The template opens
      with a line break, so line 0 is empty, and it ends with one, so the
      last line is empty too. */
  function PromptLine(i: int): string {
    if i == 0 then @""
    else if i == 1 then @"Please correct and format the following Vietnamese quiz data. Each question should follow this exact format:"
    else if i == 2 then @""
    else if i == 3 then @"Question text here?"
    else if i == 4 then @"A. Option A"
    else if i == 5 then @"B. Option B  "
    else if i == 6 then @"C. Option C"
    else if i == 7 then @"D. Option D;;CORRECT_ANSWER"
    else if i == 8 then @""
    else if i == 9 then @"Rules for correction:"
    else if i == 10 then @"1. Fix any formatting issues (missing separators, malformed options)"
    else if i == 11 then @"2. Ensure each question has exactly 4 options or more (A, B, C, D, E, ...)"
    else if i == 12 then @"3. Ensure each question has a correct answer marked with ;;"
    else if i == 13 then @"4. Remove any duplicate content or metadata"
    else if i == 14 then @"5. Fix any obvious OCR errors in Vietnamese text"
    else if i == 15 then @"6. Ensure proper spacing and line breaks"
    else if i == 16 then @"7. Keep the original meaning and content intact"
    else if i == 17 then @"8. If a question is missing an answer, mark it as ;;? for manual review"
    else if i == 18 then @"9. Remove any text that appears to be navigation, headers, or footers"
    else if i == 19 then @"10. Each Q&A pair should be separated by double newlines"
    else if i == 20 then @"11. If an answer has additional context or explanation, format it as: ;;ANSWER (explanation)"
    else if i == 21 then @"12. For example: ;;A (Vì đây là nguyên lý cơ bản) or ;;C (Theo quan điểm của Marx)"
    else if i == 22 then @""
    else if i == 23 then @"Answer format examples:"
    else if i == 24 then @"- Simple answer: ;;A"
    else if i == 25 then @"- Answer with explanation: ;;B (Đây là định nghĩa chuẩn theo triết học Mác-Lênin)"
    else if i == 26 then @"- Answer with reference: ;;D (Theo Ph.Ăngghen trong ""Biện chứng của tự nhiên"")"
    else if i == 27 then @""
    else if i == 28 then @"Original content:"
    else if i == 29 then @""
    else ""
  }

  const PromptLineCount: nat := 30

  /** The instructions in front of the chunk: the lines above, each but the
      last followed by a line break. */
  function PromptHead(): string {
    Join(seq(PromptLineCount, i => PromptLine(i)), "\n")
  }

  /** The closing instruction after the chunk. */
  const PromptTail: string := "\n\nPlease return only the corrected quiz data in the specified format, nothing else.\n"

  /** `create_correction_prompt(chunk_content)`: the chunk between the fixed
      instructions. */
  function CorrectionPrompt(chunk: string): (r: string)
    ensures StartsWith(r, PromptHead()) && EndsWith(r, PromptTail)
    ensures |r| == |PromptHead()| + |chunk| + |PromptTail|
  {
    var r := PromptHead() + chunk + PromptTail;
    assert r[..|PromptHead()|] == PromptHead();
    assert r[|r| - |PromptTail|..] == PromptTail;
    r
  }

  /** The chunk stands verbatim between the fixed head and tail. */
  lemma PromptEmbedsChunk(chunk: string)
    ensures var p := CorrectionPrompt(chunk);
      p[|PromptHead()|..|p| - |PromptTail|] == chunk
  {
    var p := CorrectionPrompt(chunk);
    assert p == PromptHead() + chunk + PromptTail;
    assert p[|PromptHead()|..|p| - |PromptTail|] == (PromptHead() + chunk + PromptTail)[|PromptHead()|..|PromptHead()| + |chunk|];
  }

  /** Different chunks give different prompts, so a service that answers
      prompts can equally be read as a service that answers chunks. */
  lemma PromptInjective(a: string, b: string)
    requires CorrectionPrompt(a) == CorrectionPrompt(b)
    ensures a == b
  {
    PromptEmbedsChunk(a);
    PromptEmbedsChunk(b);
  }

  // ---------------------------------------------------------------------------
  // The service and the retry loop of `correct_chunk`
  // ---------------------------------------------------------------------------

  /** What one `generate_content` call gives: a response whose `.text` is the
      given string, possibly empty, or a raised exception (which also covers
      a response whose `.text` cannot be read). */
  datatype Reply = Answered(text: string) | Raised

  /** The service: the reply to the call with a given number, counted over the
      whole run from 0, whose prompt is `CorrectionPrompt(chunk)` for the
      given chunk (by `PromptInjective` the chunk determines the prompt and
      the prompt the chunk). */
  type Service = (nat, string) -> Reply

  /** `if response.text:` holds: the reply ends the attempts. */
  predicate Succeeds(r: Reply) {
    r.Answered? && r.text != []
  }

  /** What a run does, in order: a call to the service with its number and
      the chunk its prompt embeds, a pause before the next attempt, or a
      pause between two files. */
  datatype Event =
    | Call(number: nat, chunk: string)
    | RetryWait(seconds: nat)
    | PaceWait(seconds: nat)

  /** The pause after a raised call, in seconds. */
  const RetryPause: nat := 5

  /** The `max_retries` default, which `process_chunks_directory` uses. */
  const MaxRetries: nat := 3

  /** The reply to attempt `j` of a retry loop whose first call is number
      `first`. */
  function ReplyAt(service: Service, chunk: string, first: nat, j: nat): Reply {
    service(first + j, chunk)
  }

  /** The events of attempt `j`: the call, then the pause when the call raised
      and attempts remain. */
  function AttemptEvents(service: Service, chunk: string, first: nat, j: nat, maxRetries: nat): seq<Event> {
    [Call(first + j, chunk)]
      + (if ReplyAt(service, chunk, first, j).Raised? && j + 1 < maxRetries then [RetryWait(RetryPause)] else [])
  }

  /** The events of attempts `lo` up to `hi`, in order. */
  function AttemptsTrace(service: Service, chunk: string, first: nat, lo: nat, hi: nat, maxRetries: nat): seq<Event>
    decreases hi - lo
  {
    if lo >= hi then []
    else AttemptEvents(service, chunk, first, lo, maxRetries) + AttemptsTrace(service, chunk, first, lo + 1, hi, maxRetries)
  }

  /** What a retry loop gives: the stripped text or `None`, the number of
      calls made, and the events. */
  datatype Correction = Correction(result: Option<string>, calls: nat, trace: seq<Event>)

  /** The retry loop from attempt `j` on. */
  function Attempts(service: Service, chunk: string, first: nat, j: nat, maxRetries: nat): (r: Correction)
    requires j <= maxRetries
    ensures r.calls <= maxRetries - j
    ensures r.trace == AttemptsTrace(service, chunk, first, j, j + r.calls, maxRetries)
    decreases maxRetries - j
  {
    if j == maxRetries then Correction(None, 0, [])
    else
      var reply := ReplyAt(service, chunk, first, j);
      var events := AttemptEvents(service, chunk, first, j, maxRetries);
      if Succeeds(reply) then
        Correction(Some(Strip(reply.text)), 1, events)
      else
        var rest := Attempts(service, chunk, first, j + 1, maxRetries);
        Correction(rest.result, rest.calls + 1, events + rest.trace)
  }

  /** The retry loop gives a text exactly when some remaining attempt
      succeeds: then it stops at the first success and gives that reply's
      stripped text; otherwise it makes every remaining attempt. */
  lemma AttemptsOutcome(service: Service, chunk: string, first: nat, j: nat, maxRetries: nat)
    requires j <= maxRetries
    ensures var r := Attempts(service, chunk, first, j, maxRetries);
      && (r.result.Some? <==> exists m :: j <= m < maxRetries && Succeeds(ReplyAt(service, chunk, first, m)))
      && (r.result.Some? ==>
        && r.calls > 0
        && Succeeds(ReplyAt(service, chunk, first, j + r.calls - 1))
        && r.result.value == Strip(ReplyAt(service, chunk, first, j + r.calls - 1).text)
        && forall m :: j <= m < j + r.calls - 1 ==> !Succeeds(ReplyAt(service, chunk, first, m)))
      && (r.result.None? ==> r.calls == maxRetries - j)
  {
    AttemptsFinds(service, chunk, first, j, maxRetries);
    AttemptsStops(service, chunk, first, j, maxRetries);
    AttemptsExhausts(service, chunk, first, j, maxRetries);
  }

  lemma {:induction false} AttemptsFinds(service: Service, chunk: string, first: nat, j: nat, maxRetries: nat)
    requires j <= maxRetries
    ensures Attempts(service, chunk, first, j, maxRetries).result.Some? <==>
      exists m :: j <= m < maxRetries && Succeeds(ReplyAt(service, chunk, first, m))
    decreases maxRetries - j
  {
    if j < maxRetries && !Succeeds(ReplyAt(service, chunk, first, j)) {
      AttemptsFinds(service, chunk, first, j + 1, maxRetries);
      if exists m :: j <= m < maxRetries && Succeeds(ReplyAt(service, chunk, first, m)) {
        var m :| j <= m < maxRetries && Succeeds(ReplyAt(service, chunk, first, m));
        assert j + 1 <= m;
      }
    }
  }

  lemma {:induction false} AttemptsStops(service: Service, chunk: string, first: nat, j: nat, maxRetries: nat)
    requires j <= maxRetries
    ensures var r := Attempts(service, chunk, first, j, maxRetries);
      r.result.Some? ==>
        && r.calls > 0
        && Succeeds(ReplyAt(service, chunk, first, j + r.calls - 1))
        && r.result.value == Strip(ReplyAt(service, chunk, first, j + r.calls - 1).text)
        && forall m :: j <= m < j + r.calls - 1 ==> !Succeeds(ReplyAt(service, chunk, first, m))
    decreases maxRetries - j
  {
    if j < maxRetries && !Succeeds(ReplyAt(service, chunk, first, j)) {
      AttemptsStops(service, chunk, first, j + 1, maxRetries);
      var rest := Attempts(service, chunk, first, j + 1, maxRetries);
      var r := Attempts(service, chunk, first, j, maxRetries);
      assert r.result == rest.result && r.calls == rest.calls + 1;
      assert j + r.calls - 1 == (j + 1) + rest.calls - 1;
    }
  }

  lemma {:induction false} AttemptsExhausts(service: Service, chunk: string, first: nat, j: nat, maxRetries: nat)
    requires j <= maxRetries
    ensures var r := Attempts(service, chunk, first, j, maxRetries);
      r.result.None? ==> r.calls == maxRetries - j
    decreases maxRetries - j
  {
    if j < maxRetries && !Succeeds(ReplyAt(service, chunk, first, j)) {
      AttemptsExhausts(service, chunk, first, j + 1, maxRetries);
    }
  }

  /** `correct_chunk(chunk_content, max_retries)`, its first call being number
      `first` of the run. */
  function CorrectChunk(service: Service, first: nat, chunk: string, maxRetries: nat): (r: Correction)
    ensures r.calls <= maxRetries
  {
    Attempts(service, chunk, first, 0, maxRetries)
  }

  // ---------------------------------------------------------------------------
  // Traces
  // ---------------------------------------------------------------------------

  /** The calls of `trace` carry the numbers `from`, `from + 1`, ..., up to
      but excluding `to`, in this order. */
  predicate Numbered(trace: seq<Event>, from: nat, to: nat)
    decreases |trace|
  {
    if |trace| == 0 then from == to
    else if trace[0].Call? then trace[0].number == from && Numbered(trace[1..], from + 1, to)
    else Numbered(trace[1..], from, to)
  }

  /** The number of pauses between files in a trace. */
  function PaceCount(trace: seq<Event>): (r: nat)
    ensures r <= |trace|
  {
    if |trace| == 0 then 0
    else (if trace[0].PaceWait? then 1 else 0) + PaceCount(trace[1..])
  }

  lemma {:induction false} NumberedConcat(a: seq<Event>, b: seq<Event>, x: nat, y: nat, z: nat)
    requires Numbered(a, x, y) && Numbered(b, y, z)
    ensures Numbered(a + b, x, z)
    decreases |a|
  {
    if |a| == 0 {
      assert a + b == b;
    } else {
      assert (a + b)[0] == a[0];
      assert (a + b)[1..] == a[1..] + b;
      NumberedConcat(a[1..], b, if a[0].Call? then x + 1 else x, y, z);
    }
  }

  lemma {:induction false} PaceCountConcat(a: seq<Event>, b: seq<Event>)
    ensures PaceCount(a + b) == PaceCount(a) + PaceCount(b)
    decreases |a|
  {
    if |a| == 0 {
      assert a + b == b;
    } else {
      assert (a + b)[0] == a[0];
      assert (a + b)[1..] == a[1..] + b;
      PaceCountConcat(a[1..], b);
    }
  }

  /** The attempts of one correction are numbered consecutively from the
      first call's number. */
  lemma {:induction false} AttemptsNumbered(service: Service, chunk: string, first: nat, lo: nat, hi: nat, maxRetries: nat)
    requires lo <= hi
    ensures Numbered(AttemptsTrace(service, chunk, first, lo, hi, maxRetries), first + lo, first + hi)
    decreases hi - lo
  {
    if lo < hi {
      var e := AttemptEvents(service, chunk, first, lo, maxRetries);
      var rest := AttemptsTrace(service, chunk, first, lo + 1, hi, maxRetries);
      assert Numbered(e, first + lo, first + lo + 1) by {
        assert e[0] == Call(first + lo, chunk);
        assert |e| == 2 ==> e[1].RetryWait? && e[1..][1..] == [];
      }
      AttemptsNumbered(service, chunk, first, lo + 1, hi, maxRetries);
      NumberedConcat(e, rest, first + lo, first + lo + 1, first + hi);
    }
  }

  /** The attempts of one correction hold no pause between files. */
  lemma {:induction false} AttemptsUnpaced(service: Service, chunk: string, first: nat, lo: nat, hi: nat, maxRetries: nat)
    ensures PaceCount(AttemptsTrace(service, chunk, first, lo, hi, maxRetries)) == 0
    decreases hi - lo
  {
    if lo < hi {
      var e := AttemptEvents(service, chunk, first, lo, maxRetries);
      PaceCountConcat(e, AttemptsTrace(service, chunk, first, lo + 1, hi, maxRetries));
      assert PaceCount(e) == 0 by {
        assert |e| == 2 ==> e[1].RetryWait? && e[1..][1..] == [];
      }
      AttemptsUnpaced(service, chunk, first, lo + 1, hi, maxRetries);
    }
  }

  /** Event `j` is a five-second retry pause right after a call that raised. */
  predicate WaitFollowsRaised(service: Service, trace: seq<Event>, j: int) {
    && 0 < j < |trace|
    && trace[j] == RetryWait(RetryPause)
    && trace[j - 1].Call?
    && service(trace[j - 1].number, trace[j - 1].chunk).Raised?
  }

  /** Every retry pause lasts five seconds and comes right after a call that
      raised: an empty answer is retried at once. */
  ghost predicate RetriesFollowRaised(service: Service, trace: seq<Event>) {
    forall j :: 0 <= j < |trace| && trace[j].RetryWait? ==> WaitFollowsRaised(service, trace, j)
  }

  lemma RetriesFollowRaisedConcat(service: Service, a: seq<Event>, b: seq<Event>)
    requires RetriesFollowRaised(service, a) && RetriesFollowRaised(service, b)
    ensures RetriesFollowRaised(service, a + b)
  {
    var t := a + b;
    assert |b| > 0 ==> t[|a|] == b[0] && !b[0].RetryWait?;
    forall j | 0 <= j < |t| && t[j].RetryWait?
      ensures WaitFollowsRaised(service, t, j)
    {
      if j < |a| {
        assert t[j] == a[j];
        assert WaitFollowsRaised(service, a, j);
        assert t[j - 1] == a[j - 1];
      } else if j == |a| {
        assert false;
      } else {
        assert t[j] == b[j - |a|];
        assert WaitFollowsRaised(service, b, j - |a|);
        assert t[j - 1] == b[j - 1 - |a|];
      }
    }
  }

  /** Event `i` is a call that raised while attempts remain. */
  predicate RaisedWithAttemptsLeft(service: Service, first: nat, maxRetries: nat, trace: seq<Event>, i: int) {
    && 0 <= i < |trace| && trace[i].Call?
    && service(trace[i].number, trace[i].chunk).Raised?
    && trace[i].number + 1 < first + maxRetries
  }

  /** Every call that raised while attempts remain is followed by a retry
      pause. */
  ghost predicate RaisedCallsWait(service: Service, first: nat, maxRetries: nat, trace: seq<Event>) {
    forall i :: RaisedWithAttemptsLeft(service, first, maxRetries, trace, i) ==>
      i + 1 < |trace| && trace[i + 1] == RetryWait(RetryPause)
  }

  /** The retry pauses of a correction are exactly those after a raised call
      with attempts left. */
  lemma {:induction false} AttemptsRetryPauses(service: Service, chunk: string, first: nat, lo: nat, hi: nat, maxRetries: nat)
    ensures var t := AttemptsTrace(service, chunk, first, lo, hi, maxRetries);
      RetriesFollowRaised(service, t) && RaisedCallsWait(service, first, maxRetries, t)
    decreases hi - lo
  {
    if lo < hi {
      var e := AttemptEvents(service, chunk, first, lo, maxRetries);
      var rest := AttemptsTrace(service, chunk, first, lo + 1, hi, maxRetries);
      AttemptsRetryPauses(service, chunk, first, lo + 1, hi, maxRetries);
      assert RetriesFollowRaised(service, e);
      RetriesFollowRaisedConcat(service, e, rest);
      var t := e + rest;
      forall i | RaisedWithAttemptsLeft(service, first, maxRetries, t, i)
        ensures i + 1 < |t| && t[i + 1] == RetryWait(RetryPause)
      {
        if i >= |e| {
          assert t[i] == rest[i - |e|];
          assert RaisedWithAttemptsLeft(service, first, maxRetries, rest, i - |e|);
          assert t[i + 1] == rest[i + 1 - |e|];
        } else {
          assert i == 0 && t[0] == Call(first + lo, chunk);
          assert |e| == 2 && t[1] == e[1];
        }
      }
    }
  }

  // ---------------------------------------------------------------------------
  // `process_chunks_directory`
  // ---------------------------------------------------------------------------

  /** The input filter: `quiz_chunk_*.txt` or `raw_chunk_*.txt`. */
  predicate InputChunkName(name: string) {
    (StartsWith(name, "quiz_chunk_") || StartsWith(name, "raw_chunk_")) && EndsWith(name, ".txt")
  }

  /** The prefix of an output file's name. */
  const CorrectedPrefix: string := "corrected_"

  /** The file the tally is saved to, in the output directory. */
  const SummaryFile: string := "correction_summary.json"

  /** The `results` dictionary. */
  datatype Tally = Tally(processed: nat, successful: nat, failed: nat, failedFiles: seq<string>)

  /** The state of the loop over the chunk files: the tally, the number of
      service calls so far, the output directory's entries, the corrected
      files written so far in order, and the events. */
  datatype Run = Run(tally: Tally, calls: nat, output: seq<FileEntry>, written: seq<FileEntry>, trace: seq<Event>)

  /** A file the loop counts as processed: one whose reading raises (its name
      is in `unreadable`) or whose stripped content is not empty. */
  predicate Attempted(unreadable: set<string>, f: FileEntry) {
    f.name in unreadable || Strip(f.content) != []
  }

  /** A file whose content goes to the service. */
  predicate Sent(unreadable: set<string>, f: FileEntry) {
    f.name !in unreadable && Strip(f.content) != []
  }

  /** How many of the first `n` files are processed. */
  function AttemptedCount(unreadable: set<string>, files: seq<FileEntry>, n: nat): nat
    requires n <= |files|
  {
    if n == 0 then 0
    else AttemptedCount(unreadable, files, n - 1) + (if Attempted(unreadable, files[n - 1]) then 1 else 0)
  }

  /** How many of the first `n` files are sent and are not the last file:
      the pauses between files. */
  function PacedCount(unreadable: set<string>, files: seq<FileEntry>, n: nat): nat
    requires n <= |files|
  {
    if n == 0 then 0
    else PacedCount(unreadable, files, n - 1) + (if Sent(unreadable, files[n - 1]) && n < |files| then 1 else 0)
  }

  /** One iteration, for the file at index `k` of the sorted listing. A read
      that raises counts as a failure without a pause; a blank file is
      skipped without being counted; otherwise the stripped content is
      corrected, a non-empty correction is written as `corrected_<name>`, and
      a pause follows unless this is the last file. */
  function Handle(service: Service, delay: nat, unreadable: set<string>, files: seq<FileEntry>, k: nat, st: Run): (r: Run)
    requires k < |files|
  {
    var f := files[k];
    var tl := st.tally;
    if f.name in unreadable then
      st.(tally := Tally(tl.processed + 1, tl.successful, tl.failed + 1, tl.failedFiles + [f.name]))
    else if Strip(f.content) == [] then st
    else
      var c := CorrectChunk(service, st.calls, Strip(f.content), MaxRetries);
      var pace := PaceAfter(files, k, delay);
      var trace := st.trace + c.trace + pace;
      if c.result.Some? && c.result.value != [] then
        var e := FileEntry(CorrectedPrefix + f.name, c.result.value);
        Run(Tally(tl.processed + 1, tl.successful + 1, tl.failed, tl.failedFiles),
            st.calls + c.calls, WriteEntry(st.output, e), st.written + [e], trace)
      else
        Run(Tally(tl.processed + 1, tl.successful, tl.failed + 1, tl.failedFiles + [f.name]),
            st.calls + c.calls, st.output, st.written, trace)
  }

  /** The loop over the first `n` files, into an output directory holding
      `out`. */
  function HandleUpTo(service: Service, delay: nat, unreadable: set<string>, files: seq<FileEntry>, n: nat, out: seq<FileEntry>): Run
    requires n <= |files|
  {
    if n == 0 then Run(Tally(0, 0, 0, []), 0, out, [], [])
    else Handle(service, delay, unreadable, files, n - 1, HandleUpTo(service, delay, unreadable, files, n - 1, out))
  }

  /** The tally adds up: every processed file either succeeded or failed,
      each failure is listed by name, each success wrote one file, and the
      number processed does not depend on the service at all. */
  /** Induction over the loop: a property of the state before the first
      file that every iteration carries from `k` files to `k + 1` holds after
      any number of files. */
  lemma {:induction false} RunInduction(service: Service, delay: nat, unreadable: set<string>, files: seq<FileEntry>,
                                        n: nat, out: seq<FileEntry>, p: (nat, Run) -> bool)
    requires n <= |files|
    requires p(0, Run(Tally(0, 0, 0, []), 0, out, [], []))
    requires forall k: nat, st: Run :: k < |files| && p(k, st) ==> p(k + 1, Handle(service, delay, unreadable, files, k, st))
    ensures p(n, HandleUpTo(service, delay, unreadable, files, n, out))
  {
    if n > 0 {
      RunInduction(service, delay, unreadable, files, n - 1, out, p);
    }
  }

  lemma RunTally(service: Service, delay: nat, unreadable: set<string>, files: seq<FileEntry>, n: nat, out: seq<FileEntry>)
    requires n <= |files|
    ensures var r := HandleUpTo(service, delay, unreadable, files, n, out);
      && r.tally.processed == r.tally.successful + r.tally.failed
      && |r.tally.failedFiles| == r.tally.failed
      && r.tally.successful == |r.written|
      && r.tally.processed == AttemptedCount(unreadable, files, n)
  {
    var p := (k: nat, r: Run) =>
      && k <= |files|
      && r.tally.processed == r.tally.successful + r.tally.failed
      && |r.tally.failedFiles| == r.tally.failed
      && r.tally.successful == |r.written|
      && r.tally.processed == AttemptedCount(unreadable, files, k);
    assert AttemptedCount(unreadable, files, 0) == 0;
    forall k: nat, st: Run | k < |files| && p(k, st)
      ensures p(k + 1, Handle(service, delay, unreadable, files, k, st))
    {
    }
    RunInduction(service, delay, unreadable, files, n, out, p);
  }

  /** What `process_chunks_directory` returns: `{}`, or the tally. */
  datatype Results = NoResults | Finished(tally: Tally)

  /** The results, the output directory afterwards, the number of service
      calls and the events. */
  datatype Processing = Processing(results: Results, output: Dir, calls: nat, trace: seq<Event>)

  /** `process_chunks_directory(input_dir, output_dir, delay_seconds)`. The
      files whose reading raises are named by `unreadable`, and `render` is
      the JSON text `json.dump` gives for a tally. */
  function ProcessChunksDirectory(input: Dir, output: Dir, service: Service, delay: nat,
                                  unreadable: set<string>, render: Tally -> string): (r: Processing)
    ensures r.results.NoResults? <==> input.Missing? || !AnyNamed(input.entries, InputChunkName)
    ensures input.Missing? ==> r.output == output && r.calls == 0 && r.trace == []
    ensures input.Present? ==> r.output.Present?
    ensures r.results.Finished? ==>
      var tl := r.results.tally;
      && tl.processed == tl.successful + tl.failed
      && |tl.failedFiles| == tl.failed
      && SummaryFile in EntryNames(r.output.entries)
  {
    match input
    case Missing => Processing(NoResults, output, 0, [])
    case Present(entries) =>
      var out := if output.Missing? then [] else output.entries;
      SelectEmptyIff(entries, InputChunkName);
      var files := SortByName(Select(entries, InputChunkName));
      if |files| == 0 then Processing(NoResults, Present(out), 0, [])
      else
        var run := HandleUpTo(service, delay, unreadable, files, |files|, out);
        RunTally(service, delay, unreadable, files, |files|, out);
        var summary := FileEntry(SummaryFile, render(run.tally));
        assert SummaryFile in EntryNames(WriteEntry(run.output, summary)) by {
          assert summary in WriteEntry(run.output, summary);
        }
        Processing(Finished(run.tally), Present(WriteEntry(run.output, summary)), run.calls, run.trace)
  }

  // ---------------------------------------------------------------------------
  // Properties of the loop
  // ---------------------------------------------------------------------------

  /** The pause that follows the file at index `k`. */
  function PaceAfter(files: seq<FileEntry>, k: nat, delay: nat): seq<Event> {
    if k + 1 < |files| then [PaceWait(delay)] else []
  }

  lemma PaceWithoutCalls(files: seq<FileEntry>, k: nat, delay: nat, x: nat)
    ensures Numbered(PaceAfter(files, k, delay), x, x)
  {
    assert k + 1 < |files| ==> PaceAfter(files, k, delay)[1..] == [];
  }

  /** The calls and events one iteration adds: those of the correction and
      the pause for a file sent to the service, nothing for any other. */
  lemma HandleEvents(service: Service, delay: nat, unreadable: set<string>, files: seq<FileEntry>, k: nat, st: Run)
    requires k < |files|
    ensures var r := Handle(service, delay, unreadable, files, k, st);
      var c := CorrectChunk(service, st.calls, Strip(files[k].content), MaxRetries);
      if Sent(unreadable, files[k]) then
        r.calls == st.calls + c.calls && r.trace == st.trace + c.trace + PaceAfter(files, k, delay)
      else
        r.calls == st.calls && r.trace == st.trace
  {
  }

  /** One iteration continues the numbering of the calls. */
  lemma HandleCallNumbers(service: Service, delay: nat, unreadable: set<string>, files: seq<FileEntry>, k: nat, st: Run)
    requires k < |files|
    requires Numbered(st.trace, 0, st.calls)
    ensures var r := Handle(service, delay, unreadable, files, k, st);
      Numbered(r.trace, 0, r.calls)
  {
    HandleEvents(service, delay, unreadable, files, k, st);
    if Sent(unreadable, files[k]) {
      PaceWithoutCalls(files, k, delay, st.calls + CorrectChunk(service, st.calls, Strip(files[k].content), MaxRetries).calls);
      CorrectionNumbered(service, st.trace, st.calls, Strip(files[k].content), PaceAfter(files, k, delay));
    }
  }

  /** Appending a correction whose calls continue the numbering, and a pause,
      keeps the calls numbered consecutively. */
  lemma CorrectionNumbered(service: Service, trace: seq<Event>, calls: nat, chunk: string, pace: seq<Event>)
    requires Numbered(trace, 0, calls)
    requires var c := CorrectChunk(service, calls, chunk, MaxRetries);
      Numbered(pace, calls + c.calls, calls + c.calls)
    ensures var c := CorrectChunk(service, calls, chunk, MaxRetries);
      Numbered(trace + c.trace + pace, 0, calls + c.calls)
  {
    var c := CorrectChunk(service, calls, chunk, MaxRetries);
    AttemptsNumbered(service, chunk, calls, 0, c.calls, MaxRetries);
    NumberedConcat(trace, c.trace, 0, calls, calls + c.calls);
    NumberedConcat(trace + c.trace, pace, 0, calls + c.calls, calls + c.calls);
  }

  /** The service calls of a run are numbered 0, 1, 2, ... in the order they
      are made, so each call has its own number and the oracle answers every
      call separately. */
  lemma RunCallNumbers(service: Service, delay: nat, unreadable: set<string>, files: seq<FileEntry>, n: nat, out: seq<FileEntry>)
    requires n <= |files|
    ensures var r := HandleUpTo(service, delay, unreadable, files, n, out);
      Numbered(r.trace, 0, r.calls)
  {
    var p := (k: nat, r: Run) => Numbered(r.trace, 0, r.calls);
    forall k: nat, st: Run | k < |files| && p(k, st)
      ensures p(k + 1, Handle(service, delay, unreadable, files, k, st))
    {
      HandleCallNumbers(service, delay, unreadable, files, k, st);
    }
    RunInduction(service, delay, unreadable, files, n, out, p);
  }

  /** One iteration adds a pause exactly for a file sent to the service that
      is not the last. */
  lemma HandlePaces(service: Service, delay: nat, unreadable: set<string>, files: seq<FileEntry>, k: nat, st: Run)
    requires k < |files|
    ensures var r := Handle(service, delay, unreadable, files, k, st);
      PaceCount(r.trace) == PaceCount(st.trace) + (if Sent(unreadable, files[k]) && k + 1 < |files| then 1 else 0)
  {
    var f := files[k];
    HandleEvents(service, delay, unreadable, files, k, st);
    if Sent(unreadable, f) {
      var c := CorrectChunk(service, st.calls, Strip(f.content), MaxRetries);
      var pace := PaceAfter(files, k, delay);
      AttemptsUnpaced(service, Strip(f.content), st.calls, 0, c.calls, MaxRetries);
      PaceCountConcat(st.trace, c.trace);
      PaceCountConcat(st.trace + c.trace, pace);
    }
  }

  /** A run pauses between files once for every file sent to the service
      except the last file of the listing. */
  lemma RunPaces(service: Service, delay: nat, unreadable: set<string>, files: seq<FileEntry>, n: nat, out: seq<FileEntry>)
    requires n <= |files|
    ensures var r := HandleUpTo(service, delay, unreadable, files, n, out);
      PaceCount(r.trace) == PacedCount(unreadable, files, n)
  {
    var p := (k: nat, r: Run) => k <= |files| && PaceCount(r.trace) == PacedCount(unreadable, files, k);
    assert PaceCount([]) == 0 == PacedCount(unreadable, files, 0);
    forall k: nat, st: Run | k < |files| && p(k, st)
      ensures p(k + 1, Handle(service, delay, unreadable, files, k, st))
    {
      HandlePaces(service, delay, unreadable, files, k, st);
    }
    RunInduction(service, delay, unreadable, files, n, out, p);
  }

  /** One iteration adds retry pauses only after calls that raised. */
  lemma HandleRetries(service: Service, delay: nat, unreadable: set<string>, files: seq<FileEntry>, k: nat, st: Run)
    requires k < |files|
    requires RetriesFollowRaised(service, st.trace)
    ensures RetriesFollowRaised(service, Handle(service, delay, unreadable, files, k, st).trace)
  {
    var f := files[k];
    HandleEvents(service, delay, unreadable, files, k, st);
    if Sent(unreadable, f) {
      var c := CorrectChunk(service, st.calls, Strip(f.content), MaxRetries);
      var pace := PaceAfter(files, k, delay);
      AttemptsRetryPauses(service, Strip(f.content), st.calls, 0, c.calls, MaxRetries);
      RetriesFollowRaisedConcat(service, st.trace, c.trace);
      RetriesFollowRaisedConcat(service, st.trace + c.trace, pace);
    }
  }

  /** In a whole run, too, every retry pause lasts five seconds and follows a
      call that raised. */
  lemma RunRetries(service: Service, delay: nat, unreadable: set<string>, files: seq<FileEntry>, n: nat, out: seq<FileEntry>)
    requires n <= |files|
    ensures RetriesFollowRaised(service, HandleUpTo(service, delay, unreadable, files, n, out).trace)
  {
    var p := (k: nat, r: Run) => RetriesFollowRaised(service, r.trace);
    var init := Run(Tally(0, 0, 0, []), 0, out, [], []);
    assert RetriesFollowRaised(service, init.trace);
    assert p(0, init);
    forall k: nat, st: Run | k < |files| && p(k, st)
      ensures p(k + 1, Handle(service, delay, unreadable, files, k, st))
    {
      HandleRetries(service, delay, unreadable, files, k, st);
    }
    RunInduction(service, delay, unreadable, files, n, out, p);
  }

  // ---------------------------------------------------------------------------
  // `merge_corrected_chunks`
  // ---------------------------------------------------------------------------

  /** The filter of the merge: `corrected_quiz_chunk_*.txt` or
      `corrected_raw_chunk_*.txt`. */
  predicate CorrectedChunkName(name: string) {
    (StartsWith(name, CorrectedQuizPrefix) || StartsWith(name, CorrectedRawPrefix)) && EndsWith(name, ".txt")
  }

  const CorrectedQuizPrefix: string := "corrected_quiz_chunk_"
  const CorrectedRawPrefix: string := "corrected_raw_chunk_"

  /** `merge_corrected_chunks(corrected_dir, output_file)`: `False` for a
      missing directory or one without corrected chunk files, otherwise the
      merged text is written and the result is `True`. */
  function MergeCorrectedChunks(d: Dir): (r: MergeOutcome)
    ensures r.DirMissing? <==> d.Missing?
    ensures r.NoChunkFiles? <==> d.Present? && !AnyNamed(d.entries, CorrectedChunkName)
    ensures r.Merged? ==> r.fileCount > 0
  {
    if d.Present? then
      AnyNamedIff(d.entries, CorrectedChunkName);
      MergeSelected(d, CorrectedChunkName)
    else MergeSelected(d, CorrectedChunkName)
  }

  /** Every input chunk file's output name passes the merge's filter. */
  lemma CorrectedNameOfInput(name: string)
    requires InputChunkName(name)
    ensures CorrectedChunkName(CorrectedPrefix + name)
  {
    var c := CorrectedPrefix + name;
    assert c[|c| - 4..] == name[|name| - 4..];
    if StartsWith(name, "quiz_chunk_") {
      assert c[..21] == CorrectedPrefix + name[..11];
    } else {
      assert c[..20] == CorrectedPrefix + name[..10];
    }
  }

  /** The tally file is never merged. */
  lemma SummaryFileNotMerged()
    ensures !CorrectedChunkName(SummaryFile)
  {
    assert SummaryFile[7] != CorrectedQuizPrefix[7];
  }

  /** What one iteration writes: for a file sent to the service whose
      correction is a non-empty text, that text, already stripped, as
      `corrected_<name>`; nothing otherwise. */
  lemma HandleWrites(service: Service, delay: nat, unreadable: set<string>, files: seq<FileEntry>, k: nat, st: Run)
    requires k < |files|
    ensures var r := Handle(service, delay, unreadable, files, k, st);
      var c := CorrectChunk(service, st.calls, Strip(files[k].content), MaxRetries);
      if Sent(unreadable, files[k]) && c.result.Some? && c.result.value != [] then
        var e := FileEntry(CorrectedPrefix + files[k].name, c.result.value);
        r.written == st.written + [e] && r.output == WriteEntry(st.output, e) && Trimmed(c.result.value)
      else
        r.written == st.written && r.output == st.output
  {
    AttemptsOutcome(service, Strip(files[k].content), st.calls, 0, MaxRetries);
  }

  /** What the loop has written so far, given the files still to come: the
      output directory is what it held before plus the written files, in
      writing order; every written name passes the merge's filter and every
      written text is stripped and non-empty; the names ascend strictly and
      stay below the name the next file would be written under. */
  ghost predicate WrittenShape(files: seq<FileEntry>, k: nat, out: seq<FileEntry>, r: Run) {
    && r.output == out + r.written
    && (forall i :: 0 <= i < |r.written| ==> CorrectedChunkName(r.written[i].name) && Trimmed(r.written[i].content))
    && StrictlySorted(r.written)
    && (k < |files| ==> forall i :: 0 <= i < |r.written| ==> LexLess(r.written[i].name, CorrectedPrefix + files[k].name))
  }

  /** The listing the loop runs over: chunk files in strictly ascending name
      order, written into a directory holding no corrected chunk file yet. */
  ghost predicate LoopInput(files: seq<FileEntry>, out: seq<FileEntry>) {
    && StrictlySorted(files)
    && (forall k :: 0 <= k < |files| ==> InputChunkName(files[k].name))
    && (forall x :: x in out ==> !CorrectedChunkName(x.name))
  }

  /** Writing a corrected chunk whose name is above every name written so far
      appends it: no earlier file has that name. */
  lemma AppendFresh(out: seq<FileEntry>, written: seq<FileEntry>, e: FileEntry)
    requires forall x :: x in out ==> !CorrectedChunkName(x.name)
    requires CorrectedChunkName(e.name)
    requires forall i :: 0 <= i < |written| ==> LexLess(written[i].name, e.name)
    ensures WriteEntry(out + written, e) == out + written + [e]
  {
    var s := out + written;
    forall i | 0 <= i < |s|
      ensures s[i].name != e.name
    {
      if i < |out| {
        assert s[i] in out;
      } else {
        assert s[i] == written[i - |out|];
        LexLessIrreflexive(e.name);
      }
    }
  }

  /** An entry above every entry of a strictly ascending listing extends it. */
  lemma AscendingSnoc(written: seq<FileEntry>, e: FileEntry)
    requires StrictlySorted(written)
    requires forall i :: 0 <= i < |written| ==> LexLess(written[i].name, e.name)
    ensures StrictlySorted(written + [e])
  {
    var w := written + [e];
    forall i, j | 0 <= i < j < |w|
      ensures LexLess(w[i].name, w[j].name)
    {
      assert w[i] == written[i];
      if j < |written| {
        assert w[j] == written[j];
      }
    }
  }

  /** Raising the bound keeps every name below it. */
  lemma BoundRaised(written: seq<FileEntry>, a: string, b: string)
    requires forall i :: 0 <= i < |written| ==> LexLess(written[i].name, a)
    requires LexLess(a, b)
    ensures forall i :: 0 <= i < |written| ==> LexLess(written[i].name, b)
  {
    forall i | 0 <= i < |written|
      ensures LexLess(written[i].name, b)
    {
      LexLessTransitive(written[i].name, a, b);
    }
  }

  /** One iteration keeps the shape of what has been written. */
  lemma WritesStep(service: Service, delay: nat, unreadable: set<string>, files: seq<FileEntry>, k: nat, out: seq<FileEntry>, st: Run)
    requires k < |files| && LoopInput(files, out)
    requires WrittenShape(files, k, out, st)
    ensures WrittenShape(files, k + 1, out, Handle(service, delay, unreadable, files, k, st))
  {
    HandleWrites(service, delay, unreadable, files, k, st);
    ShapeKept(files, k, out, st, Handle(service, delay, unreadable, files, k, st));
  }

  /** The shape survives an iteration that writes nothing, or that writes
      one stripped text under the corrected name of the file at `k`. */
  lemma ShapeKept(files: seq<FileEntry>, k: nat, out: seq<FileEntry>, st: Run, r: Run)
    requires k < |files| && LoopInput(files, out)
    requires WrittenShape(files, k, out, st)
    requires || (r.written == st.written && r.output == st.output)
             || (&& |r.written| == |st.written| + 1
                 && r.written == st.written + [r.written[|st.written|]]
                 && r.written[|st.written|].name == CorrectedPrefix + files[k].name
                 && Trimmed(r.written[|st.written|].content)
                 && r.output == WriteEntry(st.output, r.written[|st.written|]))
    ensures WrittenShape(files, k + 1, out, r)
  {
    var name := CorrectedPrefix + files[k].name;
    var w := r.written;
    if w != st.written {
      var e := w[|st.written|];
      CorrectedNameOfInput(files[k].name);
      AppendFresh(out, st.written, e);
      AscendingSnoc(st.written, e);
      forall i | 0 <= i < |w|
        ensures CorrectedChunkName(w[i].name) && Trimmed(w[i].content)
      {
        if i < |st.written| {
          assert w[i] == st.written[i];
        }
      }
    }
    if k + 1 < |files| {
      var next := CorrectedPrefix + files[k + 1].name;
      LexLessPrefix(CorrectedPrefix, files[k].name, files[k + 1].name);
      BoundRaised(st.written, name, next);
      if w != st.written {
        forall i | 0 <= i < |w|
          ensures LexLess(w[i].name, next)
        {
          if i < |st.written| {
            assert w[i] == st.written[i];
          }
        }
      }
    }
  }

  /** Over the whole loop: the output directory gains exactly the written
      files, whose names ascend strictly and pass the merge's filter and
      whose texts are stripped and non-empty. */
  lemma RunWrites(service: Service, delay: nat, unreadable: set<string>, files: seq<FileEntry>, n: nat, out: seq<FileEntry>)
    requires n <= |files| && LoopInput(files, out)
    ensures WrittenShape(files, n, out, HandleUpTo(service, delay, unreadable, files, n, out))
  {
    var p := (k: nat, r: Run) => WrittenShape(files, k, out, r);
    var init := Run(Tally(0, 0, 0, []), 0, out, [], []);
    assert out + [] == out;
    assert p(0, init);
    forall k: nat, st: Run | k < |files| && p(k, st)
      ensures p(k + 1, Handle(service, delay, unreadable, files, k, st))
    {
      WritesStep(service, delay, unreadable, files, k, out, st);
    }
    RunInduction(service, delay, unreadable, files, n, out, p);
  }

  /** The texts of a listing, in order. */
  function Contents(s: seq<FileEntry>): (r: seq<string>)
    ensures |r| == |s| && forall i :: 0 <= i < |s| ==> r[i] == s[i].content
  {
    seq(|s|, i requires 0 <= i < |s| => s[i].content)
  }

  /** Processing followed by the merge: for a directory listing with unique
      names and some chunk file, written into an output directory that holds
      no corrected chunk file yet, the merge takes exactly the files the loop
      wrote, in the order the chunks were processed, and joins their
      corrected texts with blank lines; it finds nothing to merge exactly
      when no chunk was corrected. The tally's success count is the number
      of merged files. */
  lemma ProcessThenMerge(entries: seq<FileEntry>, output: Dir, service: Service, delay: nat,
                         unreadable: set<string>, render: Tally -> string)
    requires UniqueNames(multiset(entries))
    requires AnyNamed(entries, InputChunkName)
    requires output.Present? ==> forall x :: x in output.entries ==> !CorrectedChunkName(x.name)
    ensures var p := ProcessChunksDirectory(Present(entries), output, service, delay, unreadable, render);
      var files := SortByName(Select(entries, InputChunkName));
      var out := if output.Missing? then [] else output.entries;
      var w := HandleUpTo(service, delay, unreadable, files, |files|, out).written;
      && p.results.Finished?
      && p.results.tally.successful == |w|
      && MergeCorrectedChunks(p.output) == (if w == [] then NoChunkFiles else Merged(Join(Contents(w), BlankLine), |w|))
  {
    var files := SortByName(Select(entries, InputChunkName));
    var out := if output.Missing? then [] else output.entries;
    var run := HandleUpTo(service, delay, unreadable, files, |files|, out);
    SortedInput(entries, out);
    RunWrites(service, delay, unreadable, files, |files|, out);
    RunTally(service, delay, unreadable, files, |files|, out);
    SelectEmptyIff(entries, InputChunkName);
    SummaryFileNotMerged();
    MergeOfWritten(out, run.written, FileEntry(SummaryFile, render(run.tally)));
  }

  /** The chunk files of a listing with unique names, sorted, are a valid
      loop input. */
  lemma SortedInput(entries: seq<FileEntry>, out: seq<FileEntry>)
    requires UniqueNames(multiset(entries))
    requires forall x :: x in out ==> !CorrectedChunkName(x.name)
    ensures LoopInput(SortByName(Select(entries, InputChunkName)), out)
  {
    var files := SortByName(Select(entries, InputChunkName));
    UniqueNamesSub(multiset(files), multiset(entries));
    UniqueDistinct(files);
    StrictlySortedIff(files);
    forall k | 0 <= k < |files|
      ensures InputChunkName(files[k].name)
    {
      assert files[k] in multiset(files);
    }
  }

  /** Merging a directory that holds the earlier files, the written corrected
      chunks and the tally file takes exactly the written chunks. */
  lemma MergeOfWritten(out: seq<FileEntry>, w: seq<FileEntry>, summary: FileEntry)
    requires forall x :: x in out ==> !CorrectedChunkName(x.name)
    requires forall i :: 0 <= i < |w| ==> CorrectedChunkName(w[i].name) && Trimmed(w[i].content)
    requires StrictlySorted(w)
    requires !CorrectedChunkName(summary.name)
    ensures MergeCorrectedChunks(Present(WriteEntry(out + w, summary)))
      == if w == [] then NoChunkFiles else Merged(Join(Contents(w), BlankLine), |w|)
  {
    var d := WriteEntry(out + w, summary);
    SelectWriteOther(out + w, summary, CorrectedChunkName);
    SelectConcat(out, w, CorrectedChunkName);
    SelectNone(out, CorrectedChunkName);
    SelectAll(w, CorrectedChunkName);
    assert Select(d, CorrectedChunkName) == w;
    StrictlySortedIff(w);
    SortSorted(w);
    SelectEmptyIff(d, CorrectedChunkName);
    if w != [] {
      MergeSelectedOf(d, CorrectedChunkName, w);
      StrippedTrimmed(w);
      assert StrippedContents(w) == Contents(w);
    }
  }

  /** One iteration lists at most the name of its own file as failed. */
  lemma HandleFailed(service: Service, delay: nat, unreadable: set<string>, files: seq<FileEntry>, k: nat, st: Run)
    requires k < |files|
    ensures var ff := Handle(service, delay, unreadable, files, k, st).tally.failedFiles;
      ff == st.tally.failedFiles || ff == st.tally.failedFiles + [files[k].name]
  {
  }

  /** The failed names so far: names of files already handled, strictly
      ascending, and below the name of the next file. */
  ghost predicate FailedShape(files: seq<FileEntry>, k: nat, ff: seq<string>)
    requires k <= |files|
  {
    && (forall i :: 0 <= i < |ff| ==> ff[i] in EntryNames(files[..k]))
    && (forall i, j :: 0 <= i < j < |ff| ==> LexLess(ff[i], ff[j]))
    && (k < |files| ==> forall i :: 0 <= i < |ff| ==> LexLess(ff[i], files[k].name))
  }

  lemma FailedKept(files: seq<FileEntry>, k: nat, ff: seq<string>, ff': seq<string>)
    requires k < |files| && StrictlySorted(files)
    requires FailedShape(files, k, ff)
    requires ff' == ff || ff' == ff + [files[k].name]
    ensures FailedShape(files, k + 1, ff')
  {
    var name := files[k].name;
    assert files[..k + 1] == files[..k] + [files[k]];
    forall i | 0 <= i < |ff'|
      ensures ff'[i] in EntryNames(files[..k + 1])
    {
      if i < |ff| {
        assert ff'[i] == ff[i];
        var e :| e in files[..k] && e.name == ff[i];
        assert e in files[..k + 1];
      } else {
        assert files[k] in files[..k + 1];
      }
    }
    forall i, j | 0 <= i < j < |ff'|
      ensures LexLess(ff'[i], ff'[j])
    {
      assert ff'[i] == ff[i];
      if j < |ff| {
        assert ff'[j] == ff[j];
      }
    }
    if k + 1 < |files| {
      forall i | 0 <= i < |ff'|
        ensures LexLess(ff'[i], files[k + 1].name)
      {
        if i < |ff| {
          assert ff'[i] == ff[i];
          LexLessTransitive(ff[i], name, files[k + 1].name);
        }
      }
    }
  }

  /** `failed_files` lists names of handled files in processing order: for
      files in ascending name order, each name at most once and ascending. */
  lemma RunFailedOrder(service: Service, delay: nat, unreadable: set<string>, files: seq<FileEntry>, n: nat, out: seq<FileEntry>)
    requires n <= |files| && StrictlySorted(files)
    ensures FailedShape(files, n, HandleUpTo(service, delay, unreadable, files, n, out).tally.failedFiles)
  {
    var p := (k: nat, r: Run) => k <= |files| && FailedShape(files, k, r.tally.failedFiles);
    var init := Run(Tally(0, 0, 0, []), 0, out, [], []);
    assert p(0, init);
    forall k: nat, st: Run | k < |files| && p(k, st)
      ensures p(k + 1, Handle(service, delay, unreadable, files, k, st))
    {
      HandleFailed(service, delay, unreadable, files, k, st);
      FailedKept(files, k, st.tally.failedFiles, Handle(service, delay, unreadable, files, k, st).tally.failedFiles);
    }
    RunInduction(service, delay, unreadable, files, n, out, p);
  }
}

=== FILE: manual_merge.dfy ===
/** `merge_corrected_chunks` of the stand-alone merge tool: the corrected
    chunk files of a directory are merged into one corpus file. When no file
    has a corrected-chunk name, a looser selection is offered to the user and
    merged only when the user accepts it. */
module ManualMerge {
  import opened Text
  import opened Files
  import GeminiCorrector

  /** The primary filter: the corrector's merge filter, `corrected_quiz_chunk_*.txt`
      or `corrected_raw_chunk_*.txt`, without `summary` in any letter case. */
  predicate PrimaryName(name: string) {
    GeminiCorrector.CorrectedChunkName(name) && !Contains(Lower(name), "summary")
  }

  /** The fallback filter: `.txt` names mentioning `corrected` or `chunk` in
      any letter case. It has no summary exclusion. */
  predicate FallbackName(name: string) {
    EndsWith(name, ".txt") && (Contains(Lower(name), "corrected") || Contains(Lower(name), "chunk"))
  }

  /** The user's reply accepts the fallback: `reply.strip().lower() == "y"`. */
  predicate Confirms(reply: string) {
    Lower(Strip(reply)) == "y"
  }

  /** How the tool ends: `False` without writing, or `True` after writing the
      merged text, with the number of merged files and the number of Q&A
      pairs it reports. */
  datatype ManualOutcome =
    | Refused
    | Wrote(text: string, fileCount: nat, pairCount: nat)

  /** The files taken, in listing order: the primary selection when it is not
      empty; otherwise the fallback selection when it is not empty and the
      reply accepts it; otherwise none. The user is asked only in the second
      case, so the reply matters only there. */
  function Chosen(entries: seq<FileEntry>, reply: string): (r: seq<FileEntry>)
    ensures AnyNamed(entries, PrimaryName) ==> r == Select(entries, PrimaryName)
    ensures !AnyNamed(entries, PrimaryName) && AnyNamed(entries, FallbackName) && Confirms(reply)
      ==> r == Select(entries, FallbackName)
    ensures r == [] <==>
      !AnyNamed(entries, PrimaryName) && (!AnyNamed(entries, FallbackName) || !Confirms(reply))
  {
    SelectEmptyIff(entries, PrimaryName);
    SelectEmptyIff(entries, FallbackName);
    var primary := Select(entries, PrimaryName);
    if |primary| > 0 then primary
    else
      var similar := Select(entries, FallbackName);
      if |similar| > 0 && Confirms(reply) then similar else []
  }

  /** `merge_corrected_chunks(corrected_dir, output_file)` with the user's
      reply to the fallback question. */
  function MergeCorrectedChunks(d: Dir, reply: string): (r: ManualOutcome)
    ensures d.Missing? ==> r.Refused?
    ensures r.Wrote? <==>
      d.Present? && (AnyNamed(d.entries, PrimaryName) || (AnyNamed(d.entries, FallbackName) && Confirms(reply)))
    ensures r.Wrote? ==> r.fileCount > 0
  {
    match d
    case Missing => Refused
    case Present(entries) =>
      var files := SortByName(Chosen(entries, reply));
      if |files| == 0 then Refused
      else
        var text := MergeContents(files);
        Wrote(text, |files|, |Pairs(text)|)
  }

  // ---------------------------------------------------------------------------
  // Properties
  // ---------------------------------------------------------------------------

  /** With a corrected-chunk file present, the merge is the stripped
      non-empty contents of exactly those files, in name order, whatever the
      reply. */
  lemma PrimaryMerge(entries: seq<FileEntry>, reply: string)
    requires AnyNamed(entries, PrimaryName)
    ensures var files := SortByName(Select(entries, PrimaryName));
      MergeCorrectedChunks(Present(entries), reply) == Wrote(MergeContents(files), |files|, |Pairs(MergeContents(files))|)
    ensures forall other :: MergeCorrectedChunks(Present(entries), reply) == MergeCorrectedChunks(Present(entries), other)
  {
    SelectEmptyIff(entries, PrimaryName);
  }

  /** Without one, an accepted fallback merges every fallback file, summary
      files included. */
  lemma FallbackMerge(entries: seq<FileEntry>, reply: string)
    requires !AnyNamed(entries, PrimaryName) && AnyNamed(entries, FallbackName) && Confirms(reply)
    ensures var files := SortByName(Select(entries, FallbackName));
      MergeCorrectedChunks(Present(entries), reply) == Wrote(MergeContents(files), |files|, |Pairs(MergeContents(files))|)
  {
    SelectEmptyIff(entries, FallbackName);
  }

  /** A merged file never has `summary` in its name unless the fallback was
      accepted. */
  lemma PrimaryExcludesSummary(entries: seq<FileEntry>, reply: string)
    requires AnyNamed(entries, PrimaryName)
    ensures forall e :: e in SortByName(Chosen(entries, reply)) ==> !Contains(Lower(e.name), "summary")
  {
    var files := SortByName(Chosen(entries, reply));
    forall e | e in files
      ensures !Contains(Lower(e.name), "summary")
    {
      assert e in multiset(files);
      assert e in Select(entries, PrimaryName);
    }
  }

  /** A corrected chunk file whose name mentions `summary` is refused by the
      primary filter and taken by the fallback. */
  lemma SummaryOnlyByFallback(name: string)
    requires GeminiCorrector.CorrectedChunkName(name) && Contains(Lower(name), "summary")
    ensures !PrimaryName(name) && FallbackName(name)
  {
    var low := Lower(name);
    CorrectedStart(name);
    forall i | 0 <= i < 9 ensures low[i] == "corrected"[i] {
      assert name[i] == name[..9][i];
    }
    assert low[..9] == "corrected";
    ContainsAt(low, "corrected", 0);
  }

  /** Both corrected-chunk prefixes start with `corrected`, in lower case. */
  lemma CorrectedStart(name: string)
    requires GeminiCorrector.CorrectedChunkName(name)
    ensures |name| >= 9 && name[..9] == "corrected"
    ensures forall i :: 0 <= i < 9 ==> !IsUpperAscii(name[i])
  {
    var p := if StartsWith(name, GeminiCorrector.CorrectedQuizPrefix)
      then GeminiCorrector.CorrectedQuizPrefix else GeminiCorrector.CorrectedRawPrefix;
    assert p[..9] == "corrected";
    assert name[..9] == p[..9];
    assert forall i :: 0 <= i < 9 ==> name[i] == name[..9][i];
  }

  /** When the two filters agree on every entry, that is, unless some
      corrected chunk file mentions `summary`, this tool and the corrector's
      own merge write the same text from the same files, whatever the reply. */
  lemma AgreesWithCorrectorMerge(entries: seq<FileEntry>, reply: string)
    requires AnyNamed(entries, GeminiCorrector.CorrectedChunkName)
    requires forall i :: 0 <= i < |entries| ==> PrimaryName(entries[i].name) == GeminiCorrector.CorrectedChunkName(entries[i].name)
    ensures var g := GeminiCorrector.MergeCorrectedChunks(Present(entries));
      && g.Merged?
      && MergeCorrectedChunks(Present(entries), reply) == Wrote(g.text, g.fileCount, |Pairs(g.text)|)
  {
    SelectAgree(entries, PrimaryName, GeminiCorrector.CorrectedChunkName);
    var i :| 0 <= i < |entries| && GeminiCorrector.CorrectedChunkName(entries[i].name);
    assert PrimaryName(entries[i].name);
    PrimaryMerge(entries, reply);
  }

  /** The reported pair count is the sum of the pair counts of the merged
      files: merging neither joins nor splits records. */
  lemma ManualPairCount(d: Dir, reply: string)
    requires MergeCorrectedChunks(d, reply).Wrote?
    ensures var files := SortByName(Chosen(d.entries, reply));
      MergeCorrectedChunks(d, reply).pairCount == SumPairs(StrippedContents(files))
  {
    MergePairCount(SortByName(Chosen(d.entries, reply)));
  }

  /** The tool reports success even when every merged file is blank: the
      written text is then empty, and only then. */
  lemma BlankFilesStillWritten(d: Dir, reply: string)
    requires MergeCorrectedChunks(d, reply).Wrote?
    ensures var files := SortByName(Chosen(d.entries, reply));
      MergeCorrectedChunks(d, reply).text == [] <==> AllBlank(files)
  {
    MergeContentsEmptyIff(SortByName(Chosen(d.entries, reply)));
  }

  /** The outcome does not depend on the order in which the directory lists
      its files. */
  lemma ManualMergeIgnoresListingOrder(a: seq<FileEntry>, b: seq<FileEntry>, reply: string)
    requires multiset(a) == multiset(b)
    requires UniqueNames(multiset(a))
    ensures MergeCorrectedChunks(Present(a), reply) == MergeCorrectedChunks(Present(b), reply)
  {
    SortedSelectionIgnoresListingOrder(a, b, PrimaryName);
    SortedSelectionIgnoresListingOrder(a, b, FallbackName);
    AnyNamedPermutes(a, b, PrimaryName);
    AnyNamedPermutes(a, b, FallbackName);
  }

  lemma AnyNamedPermutes(a: seq<FileEntry>, b: seq<FileEntry>, keep: string -> bool)
    requires multiset(a) == multiset(b)
    ensures AnyNamed(a, keep) <==> AnyNamed(b, keep)
  {
    if AnyNamed(a, keep) {
      var i :| 0 <= i < |a| && keep(a[i].name);
      assert a[i] in multiset(b);
      var j :| 0 <= j < |b| && b[j] == a[i];
    }
    if AnyNamed(b, keep) {
      var j :| 0 <= j < |b| && keep(b[j].name);
      assert b[j] in multiset(a);
      var i :| 0 <= i < |a| && a[i] == b[j];
    }
  }
}

=== FILE: placeholder_fix.dfy ===
/** `fix_placeholder_options`: rewrites the corpus without the option lines
    that carry a placeholder, keeping the answer mark on a surviving line. */
module PlaceholderFix {
  import opened Text
  import opened Files
  import opened AnswerChecker
  import opened AnswerParser

  /** A body line the fix removes: for a line holding `;;` the text before
      the mark is tested, otherwise the whole line. */
  predicate Removed(ck: Checker, line: string) {
    if Contains(line, AnswerMark) then HasPlaceholderOption(ck, Strip(SplitMarked(line)[0]))
    else HasPlaceholderOption(ck, line)
  }

  /** The body lines that survive, verbatim and in order. */
  function Kept(ck: Checker, body: seq<string>): (r: seq<string>)
    ensures |r| <= |body|
  {
    if |body| == 0 then []
    else (if Removed(ck, body[0]) then [] else [body[0]]) + Kept(ck, body[1..])
  }

  /** `fixed_count` for one block: one per removed line. */
  function RemovedCount(ck: Checker, body: seq<string>): nat {
    if |body| == 0 then 0
    else (if Removed(ck, body[0]) then 1 else 0) + RemovedCount(ck, body[1..])
  }

  /** The answer of the last line holding `;;`, removed or not. */
  function LastAnswer(body: seq<string>): Option<string> {
    if |body| == 0 then None
    else
      var n := |body| - 1;
      if Contains(body[n], AnswerMark) then Some(Strip(SplitMarked(body[n])[1]))
      else LastAnswer(body[..n])
  }

  predicate AnyMarked(lines: seq<string>) {
    exists i :: 0 <= i < |lines| && Contains(lines[i], AnswerMark)
  }

  /** The lines of a fixed block: the question line untouched, then the kept
      lines, with `;;answer` appended to the last one when the answer was
      carried by a removed line and no kept line holds the mark any more. */
  function FixedLines(ck: Checker, lines: seq<string>): (r: seq<string>)
    requires |lines| > 0
    ensures |r| >= 1 && r[0] == lines[0]
    ensures |r| == 1 + |Kept(ck, lines[1..])|
  {
    var kept := Kept(ck, lines[1..]);
    var answer := LastAnswer(lines[1..]);
    if answer.Some? && answer.value != [] && !AnyMarked(kept) && |kept| > 0 then
      [lines[0]] + kept[..|kept| - 1] + [kept[|kept| - 1] + AnswerMark + answer.value]
    else [lines[0]] + kept
  }

  /** One segment of the split corpus: `None` for a blank segment, otherwise
      the text written for it and the number of lines removed from it. */
  function FixBlock(ck: Checker, pair: string): (r: Option<(string, nat)>)
    ensures r.None? <==> Strip(pair) == []
    ensures r.Some? && |Split(Strip(pair), "\n")| < 5 ==> r.value == (pair, 0)
  {
    if Strip(pair) == [] then None
    else
      var lines := Split(Strip(pair), "\n");
      if |lines| < 5 then Some((pair, 0))
      else Some((Join(FixedLines(ck, lines), "\n"), RemovedCount(ck, lines[1..])))
  }

  /** The fixed texts of the segments and the total number of removed lines. */
  function FixPairs(ck: Checker, pairs: seq<string>): (r: (seq<string>, nat))
    ensures |r.0| <= |pairs|
  {
    if |pairs| == 0 then ([], 0)
    else
      var rest := FixPairs(ck, pairs[1..]);
      var b := FixBlock(ck, pairs[0]);
      if b.None? then rest else ([b.value.0] + rest.0, b.value.1 + rest.1)
  }

  /** `fix_placeholder_options` on the file's content: the text written and
      `fixed_count`. */
  function FixPlaceholderOptions(ck: Checker, content: string): (string, nat) {
    var r := FixPairs(ck, Split(Strip(content), BlankLine));
    (Join(r.0, BlankLine), r.1)
  }

  // ---------------------------------------------------------------------------
  // Properties
  // ---------------------------------------------------------------------------

  /** Every body line is either kept or counted as removed. */
  lemma {:induction false} KeptPlusRemoved(ck: Checker, body: seq<string>)
    ensures |Kept(ck, body)| + RemovedCount(ck, body) == |body|
  {
    if |body| > 0 {
      KeptPlusRemoved(ck, body[1..]);
    }
  }

  /** Keeping distributes over concatenation, so kept lines keep their order. */
  lemma {:induction false} KeptAppend(ck: Checker, a: seq<string>, b: seq<string>)
    ensures Kept(ck, a + b) == Kept(ck, a) + Kept(ck, b)
  {
    if |a| == 0 {
      assert a + b == b;
    } else {
      var ab := a + b;
      assert ab[0] == a[0] && ab[1..] == a[1..] + b;
      KeptAppend(ck, a[1..], b);
      var h := if Removed(ck, a[0]) then [] else [a[0]];
      assert Kept(ck, ab) == h + Kept(ck, ab[1..]);
      assert Kept(ck, a) == h + Kept(ck, a[1..]);
      ConcatAssoc(h, Kept(ck, a[1..]), Kept(ck, b));
    }
  }

  lemma ConcatAssoc(h: seq<string>, x: seq<string>, y: seq<string>)
    ensures h + (x + y) == (h + x) + y
  {
  }

  /** A line is kept exactly when it is not removed. */
  lemma {:induction false} KeptMembership(ck: Checker, body: seq<string>, i: nat)
    requires i < |body|
    ensures !Removed(ck, body[i]) ==> body[i] in Kept(ck, body)
    ensures forall x :: x in Kept(ck, body) ==> x in body && !Removed(ck, x)
  {
    if i > 0 {
      KeptMembership(ck, body[1..], i - 1);
    } else if |body| > 1 {
      KeptMembership(ck, body[1..], 0);
    }
  }

  /** The answer survives the fix: when the last marked line carried a
      non-empty answer and some line is left, a line of the fixed block
      still holds the mark. */
  lemma AnswerKept(ck: Checker, lines: seq<string>)
    requires |lines| > 0
    requires LastAnswer(lines[1..]).Some? && LastAnswer(lines[1..]).value != []
    requires |Kept(ck, lines[1..])| > 0
    ensures AnyMarked(FixedLines(ck, lines)[1..])
  {
    var kept := Kept(ck, lines[1..]);
    var r := FixedLines(ck, lines);
    var a := LastAnswer(lines[1..]).value;
    if !AnyMarked(kept) {
      var n := |kept| - 1;
      var last := kept[n] + AnswerMark + a;
      OccursInMiddle(kept[n], AnswerMark, a);
      ContainsAt(last, AnswerMark, |kept[n]|);
      assert r[1..][n] == last;
    } else {
      var i :| 0 <= i < |kept| && Contains(kept[i], AnswerMark);
      assert r[1..][i] == kept[i];
    }
  }

  /** A kept line is written unchanged, except the last one, which gains
      `;;answer` exactly when the block's last answer is non-empty and no
      kept line holds the mark any more. */
  lemma FixedLinesShape(ck: Checker, lines: seq<string>, i: nat)
    requires |lines| > 0 && i < |Kept(ck, lines[1..])|
    ensures var kept := Kept(ck, lines[1..]);
      var answer := LastAnswer(lines[1..]);
      var attach := i == |kept| - 1 && answer.Some? && answer.value != [] && !AnyMarked(kept);
      var r := FixedLines(ck, lines);
      && (r[i + 1] == kept[i] <==> !attach)
      && (attach ==> r[i + 1] == kept[i] + AnswerMark + answer.value)
  {
    var kept := Kept(ck, lines[1..]);
    var answer := LastAnswer(lines[1..]);
    var r := FixedLines(ck, lines);
    if answer.Some? && answer.value != [] && !AnyMarked(kept) && |kept| > 0 {
      var n := |kept| - 1;
      var init := [lines[0]] + kept[..n];
      assert r == init + [kept[n] + AnswerMark + answer.value];
      if i < n {
        assert r[i + 1] == init[i + 1];
      } else {
        assert |r[i + 1]| == |kept[i]| + 2 + |answer.value|;
      }
    } else {
      assert r == [lines[0]] + kept;
    }
  }

  /** The segments that are not blank, in order: the ones the fix writes. */
  function NonBlank(pairs: seq<string>): (r: seq<string>)
    ensures |r| <= |pairs|
    ensures forall k :: 0 <= k < |r| ==> Strip(r[k]) != []
  {
    if |pairs| == 0 then []
    else (if Strip(pairs[0]) == [] then [] else [pairs[0]]) + NonBlank(pairs[1..])
  }

  /** The text written for a non-blank segment. */
  function FixedText(ck: Checker, pair: string): string
    requires Strip(pair) != []
  {
    FixBlock(ck, pair).value.0
  }

  /** The number of lines that disappear from the segments the fix rewrites:
      a segment's line count minus the fixed block's line count. */
  function LinesDropped(ck: Checker, pairs: seq<string>): nat {
    if |pairs| == 0 then 0
    else
      var lines := Split(Strip(pairs[0]), "\n");
      (if Strip(pairs[0]) != [] && |lines| >= 5 then |lines| - |FixedLines(ck, lines)| else 0)
      + LinesDropped(ck, pairs[1..])
  }

  /** The segments written are the fixed texts of the non-blank segments, one
      each and in order, and `fixed_count` is the number of lines that
      disappear from them. */
  lemma FixPairsMeaning(ck: Checker, pairs: seq<string>)
    ensures var nb := NonBlank(pairs);
      && FixPairs(ck, pairs).0 == seq(|nb|, k requires 0 <= k < |nb| => FixedText(ck, nb[k]))
      && FixPairs(ck, pairs).1 == LinesDropped(ck, pairs)
  {
    FixPairsTexts(ck, pairs);
    FixPairsDropped(ck, pairs);
    var nb := NonBlank(pairs);
    assert FixPairs(ck, pairs).0 == seq(|nb|, k requires 0 <= k < |nb| => FixedText(ck, nb[k]));
  }

  /** One step of the segment loop: a blank segment adds nothing, any other
      adds its fixed text and count in front of the rest. Stated component
      by component, which the solver handles far more cheaply than an
      equation between pairs. */
  lemma FixPairsStep(ck: Checker, pairs: seq<string>)
    requires |pairs| > 0
    ensures var r := FixPairs(ck, pairs); var rest := FixPairs(ck, pairs[1..]);
      && (Strip(pairs[0]) == [] ==> r.0 == rest.0 && r.1 == rest.1)
      && (Strip(pairs[0]) != [] ==> r.0 == [FixedText(ck, pairs[0])] + rest.0)
      && (Strip(pairs[0]) != [] ==> r.1 == FixBlock(ck, pairs[0]).value.1 + rest.1)
  {
  }

  lemma {:induction false} FixPairsTexts(ck: Checker, pairs: seq<string>)
    ensures var nb := NonBlank(pairs); var r := FixPairs(ck, pairs).0;
      && |r| == |nb|
      && forall k :: 0 <= k < |nb| ==> r[k] == FixedText(ck, nb[k])
  {
    if |pairs| > 0 {
      FixPairsTexts(ck, pairs[1..]);
      FixPairsStep(ck, pairs);
      if Strip(pairs[0]) == [] {
        assert NonBlank(pairs) == NonBlank(pairs[1..]);
      } else {
        assert NonBlank(pairs) == [pairs[0]] + NonBlank(pairs[1..]);
        TextsCons(ck, pairs[0], NonBlank(pairs[1..]), FixPairs(ck, pairs[1..]).0);
      }
    }
  }

  /** Putting a non-blank segment in front of segments whose fixed texts are
      known puts its fixed text in front of those texts. */
  lemma TextsCons(ck: Checker, p: string, nb: seq<string>, texts: seq<string>)
    requires Strip(p) != [] && |texts| == |nb|
    requires forall k :: 0 <= k < |nb| ==> Strip(nb[k]) != [] && texts[k] == FixedText(ck, nb[k])
    ensures var nb' := [p] + nb; var r := [FixedText(ck, p)] + texts;
      && |r| == |nb'|
      && forall k :: 0 <= k < |nb'| ==> r[k] == FixedText(ck, nb'[k])
  {
    var nb' := [p] + nb;
    var r := [FixedText(ck, p)] + texts;
    forall k | 0 < k < |nb'|
      ensures r[k] == FixedText(ck, nb'[k])
    {
      assert r[k] == texts[k - 1] && nb'[k] == nb[k - 1];
    }
  }

  lemma {:induction false} FixPairsDropped(ck: Checker, pairs: seq<string>)
    ensures FixPairs(ck, pairs).1 == LinesDropped(ck, pairs)
  {
    if |pairs| > 0 {
      FixPairsDropped(ck, pairs[1..]);
      FixPairsStep(ck, pairs);
      var lines := Split(Strip(pairs[0]), "\n");
      if Strip(pairs[0]) != [] && |lines| >= 5 {
        KeptPlusRemoved(ck, lines[1..]);
      }
    }
  }

  /** `fix_placeholder_options` writes the fixed texts of the non-blank
      segments of the stripped content, separated by blank lines, and counts
      the lines that disappear. */
  lemma FixPlaceholderOptionsMeaning(ck: Checker, content: string)
    ensures var nb := NonBlank(Split(Strip(content), BlankLine));
      var r := FixPlaceholderOptions(ck, content);
      && r.0 == Join(seq(|nb|, k requires 0 <= k < |nb| => FixedText(ck, nb[k])), BlankLine)
      && r.1 == LinesDropped(ck, Split(Strip(content), BlankLine))
  {
    FixPairsMeaning(ck, Split(Strip(content), BlankLine));
  }
}

=== FILE: retrieve_html.dfy ===
/** `retrieve.py`: multiple-choice questions read from the paragraphs of a
    saved quiz page, cleaned, grouped under their question paragraphs, given
    an answer and written out as flashcards. The HTML parser is not part of
    this model: the input is the text of every `<p>` element in document
    order, and the texts of the elements the two answer selectors find. */
module RetrieveHtml {
  import opened Text
  import opened Files
  import Cards

  // ---------------------------------------------------------------------------
  // clean_text
  // ---------------------------------------------------------------------------

  /** `s` starts with `w`, letter case ignored (`re.IGNORECASE`). */
  predicate StartsWithCaseless(s: string, w: string) {
    |w| <= |s| && forall i :: 0 <= i < |w| ==> LowerChar(s[i]) == LowerChar(w[i])
  }

  /** The character on one side of a position is a word character; `None`
      stands for the edge of the text. */
  predicate WordSide(c: Option<char>) {
    c.Some? && IsWordChar(c.value)
  }

  /** `\b` holds between two neighbouring characters. */
  predicate Boundary(before: Option<char>, after: Option<char>) {
    WordSide(before) != WordSide(after)
  }

  /** `\bword\b` matches at the start of `s`, where `prev` is the character
      before `s` in the text being searched. */
  predicate WholeWordAt(s: string, word: string, prev: Option<char>)
    requires |word| > 0
  {
    && StartsWithCaseless(s, word)
    && Boundary(prev, Some(s[0]))
    && Boundary(Some(s[|word| - 1]), if |s| > |word| then Some(s[|word|]) else None)
  }

  /** `re.sub(r"\b" + re.escape(word) + r"\b", "", s, flags=re.IGNORECASE)`
      for a non-empty word: the scan goes left to right, a match is deleted
      and the scan resumes after it, otherwise one character is kept. */
  function RemoveWholeWord(s: string, word: string, prev: Option<char>): (r: string)
    requires |word| > 0
    ensures |r| <= |s|
    ensures forall c :: c in r ==> c in s
    decreases |s|
  {
    if |s| < |word| then s
    else if WholeWordAt(s, word, prev) then RemoveWholeWord(s[|word|..], word, Some(s[|word| - 1]))
    else [s[0]] + RemoveWholeWord(s[1..], word, Some(s[0]))
  }

  /** The word loop of `clean_text`: each word is removed from the result of
      the previous one. An empty word matches only empty strings, which
      `re.sub` replaces by nothing. */
  function RemoveWords(s: string, words: seq<string>): (r: string)
    ensures forall c :: c in r ==> c in s
    decreases |words|
  {
    if |words| == 0 then s
    else RemoveWords(if |words[0]| == 0 then s else RemoveWholeWord(s, words[0], None), words[1..])
  }

  /** `clean_text(text, words_to_remove, chars_to_remove)`, an empty list or
      string standing for `None`: the words, then the characters are removed,
      and whitespace runs become single spaces with none at either end. */
  function CleanText(text: string, words: seq<string>, chars: string): (r: string)
    ensures text == [] ==> r == []
    ensures r == [] || (!IsSpace(r[0]) && !IsSpace(r[|r| - 1]))
    ensures forall i :: 0 <= i < |r| && IsSpace(r[i]) ==> r[i] == ' '
    ensures forall i :: 0 <= i < |r| - 1 ==> !(IsSpace(r[i]) && IsSpace(r[i + 1]))
    ensures forall c :: c in chars && !IsSpace(c) ==> c !in r
    ensures forall c :: c in r && !IsSpace(c) ==> c in text
  {
    if text == [] then text
    else
      var s := DeleteChars(RemoveWords(text, words), chars);
      SquashShape(s);
      Squash(s)
  }

  /** Every whitespace character of a cleaned text is a plain space, so it
      holds no line break. */
  lemma CleanTextOneLine(text: string, words: seq<string>, chars: string)
    ensures '\n' !in CleanText(text, words, chars)
  {
  }

  /** A whole word at the head of the text, followed by its end or by a
      character that is not a word character, is removed. */
  lemma WholeWordAtHeadRemoved(word: string, rest: string)
    requires |word| > 0 && IsWordChar(word[0]) && IsWordChar(word[|word| - 1])
    requires rest == [] || !IsWordChar(rest[0])
    ensures RemoveWholeWord(word + rest, word, None) == RemoveWholeWord(rest, word, Some(word[|word| - 1]))
  {
    var s := word + rest;
    assert StartsWithCaseless(s, word);
    assert s[|word|..] == rest;
    assert s[0] == word[0] && s[|word| - 1] == word[|word| - 1];
  }

  /** A text that is exactly the word to remove cleans to nothing. */
  lemma SoleWordRemoved(word: string, chars: string)
    requires |word| > 0 && IsWordChar(word[0]) && IsWordChar(word[|word| - 1])
    ensures CleanText(word, [word], chars) == []
  {
    WholeWordAtHeadRemoved(word, []);
    assert word + [] == word;
    assert RemoveWholeWord(word, word, None) == [];
    assert RemoveWords(word, [word]) == [];
    assert DeleteChars([], chars) == [];
    assert Squash([]) == [];
  }

  /** A text with no occurrence of the word, in any letter case, is left as
      it is. */
  lemma {:induction false} AbsentWordKept(s: string, word: string, prev: Option<char>)
    requires |word| > 0
    requires forall k :: 0 <= k <= |s| ==> !StartsWithCaseless(s[k..], word)
    ensures RemoveWholeWord(s, word, prev) == s
    decreases |s|
  {
    if |s| >= |word| {
      assert s[0..] == s;
      forall k | 0 <= k <= |s| - 1 ensures !StartsWithCaseless(s[1..][k..], word) {
        assert s[1..][k..] == s[k + 1..];
      }
      AbsentWordKept(s[1..], word, Some(s[0]));
      assert [s[0]] + s[1..] == s;
    }
  }

  /** The scan keeps every character before the first position at which the
      word occurs, letter case ignored, and resumes there with the character
      before it as context. */
  lemma {:induction false} ScanPast(s: string, word: string, prev: Option<char>, n: nat)
    requires |word| > 0 && n <= |s|
    requires forall k :: 0 <= k < n ==> !StartsWithCaseless(s[k..], word)
    ensures RemoveWholeWord(s, word, prev)
      == s[..n] + RemoveWholeWord(s[n..], word, if n == 0 then prev else Some(s[n - 1]))
    decreases n
  {
    if n == 0 {
      assert s[..0] == [] && s[0..] == s;
    } else if |s| < |word| {
      assert RemoveWholeWord(s[n..], word, Some(s[n - 1])) == s[n..];
      assert s[..n] + s[n..] == s;
    } else {
      var t := s[1..];
      var p := Some(s[0]);
      assert s[0..] == s;
      ScanKeepsFirst(s, word, prev);
      ScanPastShift(s, word, n);
      ScanPast(t, word, p, n - 1);
      var q := if n - 1 == 0 then p else Some(t[n - 2]);
      assert q == Some(s[n - 1]);
      assert t[n - 1..] == s[n..];
      ScanPastRegroup(s, n, RemoveWholeWord(s[n..], word, q));
    }
  }

  /** Where the word does not start, the scan keeps the first character. */
  lemma ScanKeepsFirst(s: string, word: string, prev: Option<char>)
    requires 0 < |word| <= |s| && !StartsWithCaseless(s, word)
    ensures RemoveWholeWord(s, word, prev) == [s[0]] + RemoveWholeWord(s[1..], word, Some(s[0]))
  {
    assert !WholeWordAt(s, word, prev);
  }

  lemma ScanPastShift(s: string, word: string, n: nat)
    requires 0 < n <= |s|
    requires forall k :: 0 <= k < n ==> !StartsWithCaseless(s[k..], word)
    ensures forall k :: 0 <= k < n - 1 ==> !StartsWithCaseless(s[1..][k..], word)
  {
    forall k | 0 <= k < n - 1 ensures !StartsWithCaseless(s[1..][k..], word) {
      assert s[1..][k..] == s[k + 1..];
    }
  }

  lemma ScanPastRegroup(s: string, n: nat, rest: string)
    requires 0 < n <= |s|
    ensures [s[0]] + (s[1..][..n - 1] + rest) == s[..n] + rest
  {
    assert [s[0]] + s[1..][..n - 1] == s[..n];
  }

  /** A whole word in the middle of a text is removed: when the word does
      not occur earlier and stands between a character that is not a word
      character and the end of the text or another such character, the
      result keeps the text before it and goes on after it. */
  lemma WholeWordInTextRemoved(x: string, word: string, y: string, prev: Option<char>)
    requires |word| > 0 && IsWordChar(word[0]) && IsWordChar(word[|word| - 1])
    requires |x| > 0 && !IsWordChar(x[|x| - 1])
    requires y == [] || !IsWordChar(y[0])
    requires forall k :: 0 <= k < |x| ==> !StartsWithCaseless((x + word + y)[k..], word)
    ensures RemoveWholeWord(x + word + y, word, prev) == x + RemoveWholeWord(y, word, Some(word[|word| - 1]))
  {
    var s := x + word + y;
    ScanPast(s, word, prev, |x|);
    SplitAround(x, word, y);
    WholeWordAfterRemoved(word, y, x[|x| - 1]);
  }

  lemma SplitAround(x: string, word: string, y: string)
    requires |x| > 0
    ensures var s := x + word + y; s[..|x|] == x && s[|x|..] == word + y && s[|x| - 1] == x[|x| - 1]
  {
  }

  lemma WholeWordAfterRemoved(word: string, rest: string, c: char)
    requires |word| > 0 && IsWordChar(word[0]) && IsWordChar(word[|word| - 1])
    requires rest == [] || !IsWordChar(rest[0])
    requires !IsWordChar(c)
    ensures RemoveWholeWord(word + rest, word, Some(c)) == RemoveWholeWord(rest, word, Some(word[|word| - 1]))
  {
    var t := word + rest;
    assert StartsWithCaseless(t, word);
    assert t[|word|..] == rest && t[0] == word[0] && t[|word| - 1] == word[|word| - 1];
  }

  /** The words are removed one after the other: removing a list is
      removing its first part, then its second part from what is left. */
  lemma {:induction false} RemoveWordsInTurn(s: string, a: seq<string>, b: seq<string>)
    ensures RemoveWords(s, a + b) == RemoveWords(RemoveWords(s, a), b)
    decreases |a|
  {
    if |a| == 0 {
      assert a + b == b;
    } else {
      assert (a + b)[0] == a[0] && (a + b)[1..] == a[1..] + b;
      RemoveWordsInTurn(if |a[0]| == 0 then s else RemoveWholeWord(s, a[0], None), a[1..], b);
    }
  }

  /** One word: a non-empty word is removed wherever it stands whole, and an
      empty word changes nothing. */
  lemma RemoveOneWord(s: string, w: string)
    ensures RemoveWords(s, [w]) == if |w| == 0 then s else RemoveWholeWord(s, w, None)
  {
    assert [w][1..] == [];
  }

  // ---------------------------------------------------------------------------
  // Paragraphs
  // ---------------------------------------------------------------------------

  /** The author's name: it marks question paragraphs and is the default word
      to remove. */
  const NameTag: string := "NHUNG HO\U{00C0}NG"

  /** `words_to_remove` with `None` replaced by the default list. */
  function WordsOrDefault(words: Option<seq<string>>): (r: seq<string>)
    ensures words.Some? ==> r == words.value
    ensures words.None? ==> r == [NameTag]
  {
    if words.None? then [NameTag] else words.value
  }

  /** What one paragraph contributes: a question, an option, or nothing. */
  datatype Para =
    | Marker(question: string)
    | OptionPara(letter: char, text: string)
    | Ignored

  /** `re.match(r"^[A-E]\.\s", text) or re.match(r"^[A-E]\)\s", text)`. */
  predicate OptionParagraph(text: string) {
    |text| >= 3 && IsOptionLetter(text[0]) && (text[1] == '.' || text[1] == ')') && IsSpace(text[2])
  }

  /** `re.sub(r"^[A-E]\.?\s*", "", s)`: an option letter at the start, an
      optional dot after it and the whitespace after that are dropped. */
  function DropOptionLabel(s: string): (r: string)
    ensures |r| <= |s| && r == s[|s| - |r|..]
    ensures !(|s| > 0 && IsOptionLetter(s[0])) ==> r == s
    ensures |s| > 0 && IsOptionLetter(s[0]) ==> |r| < |s| && (r == [] || !IsSpace(r[0]))
  {
    if |s| > 0 && IsOptionLetter(s[0]) then
      var rest := if |s| > 1 && s[1] == '.' then s[2..] else s[1..];
      TrimLeftSuffix(rest);
      TrimLeft(rest)
    else s
  }

  /** One iteration of the paragraph loop: paragraphs empty before or after
      cleaning are skipped; a paragraph holding the author's name is a
      question; one that starts like an option is an option whose letter is
      the raw text's first character; anything else is ignored. */
  function Classify(p: string, words: seq<string>, chars: string): (r: Para)
    ensures var text := Strip(p);
      r.Ignored? <==> text == [] || CleanText(text, words, chars) == []
                      || (!Contains(text, NameTag) && !OptionParagraph(text))
    ensures r.Marker? <==> Strip(p) != [] && CleanText(Strip(p), words, chars) != [] && Contains(Strip(p), NameTag)
    ensures r.Marker? ==> r.question == CleanText(Strip(p), words, chars) && '\n' !in r.question
    ensures r.OptionPara? ==> IsOptionLetter(r.letter) && r.letter == Strip(p)[0] && !Contains(Strip(p), NameTag)
    ensures r.OptionPara? ==> r.text == DropOptionLabel(CleanText(Strip(p), words, chars))
  {
    var text := Strip(p);
    if text == [] then Ignored
    else
      var cleaned := CleanText(text, words, chars);
      if cleaned == [] then Ignored
      else if Contains(text, NameTag) then Marker(cleaned)
      else if OptionParagraph(text) then OptionPara(text[0], DropOptionLabel(cleaned))
      else Ignored
  }

  function Paras(paragraphs: seq<string>, words: seq<string>, chars: string): (r: seq<Para>)
    ensures |r| == |paragraphs|
  {
    seq(|paragraphs|, k requires 0 <= k < |paragraphs| => Classify(paragraphs[k], words, chars))
  }

  /** Each paragraph is classified on its own text alone: classifying two
      runs of paragraphs together gives the two classifications, one after
      the other. */
  lemma ParasConcat(a: seq<string>, b: seq<string>, words: seq<string>, chars: string)
    ensures Paras(a + b, words, chars) == Paras(a, words, chars) + Paras(b, words, chars)
  {
    var l := Paras(a + b, words, chars);
    var r := Paras(a, words, chars) + Paras(b, words, chars);
    forall k | 0 <= k < |l| ensures l[k] == r[k] {
      if k < |a| { assert (a + b)[k] == a[k]; } else { assert (a + b)[k] == b[k - |a|]; }
    }
  }

  /** A classified paragraph sequence as the loop produces it: questions are
      non-empty, option letters are `A`-`E`. */
  ghost predicate WellClassified(ps: seq<Para>) {
    forall k :: 0 <= k < |ps| ==>
      (ps[k].Marker? ==> ps[k].question != []) && (ps[k].OptionPara? ==> IsOptionLetter(ps[k].letter))
  }

  lemma ParasWellClassified(paragraphs: seq<string>, words: seq<string>, chars: string)
    ensures WellClassified(Paras(paragraphs, words, chars))
  {
  }

  // ---------------------------------------------------------------------------
  // Question blocks
  // ---------------------------------------------------------------------------

  datatype HtmlOption = HtmlOption(letter: char, text: string)

  datatype Block = Block(question: string, options: seq<HtmlOption>)

  /** Saving the block being collected: only with a non-empty question and at
      least one option. */
  function Flush(question: Option<string>, options: seq<HtmlOption>): (r: seq<Block>)
  {
    if question.Some? && question.value != [] && |options| > 0 then [Block(question.value, options)] else []
  }

  /** The paragraph loop from the current question (`None` before the first
      one) and the options collected under it: a question paragraph saves the
      current block and starts a new one, an option paragraph is collected. */
  function GroupParas(ps: seq<Para>, question: Option<string>, options: seq<HtmlOption>): (r: seq<Block>)
    ensures forall k :: 0 <= k < |r| ==> r[k].question != [] && |r[k].options| > 0
    decreases |ps|
  {
    if |ps| == 0 then Flush(question, options)
    else
      match ps[0]
      case Marker(q) => Flush(question, options) + GroupParas(ps[1..], Some(q), [])
      case OptionPara(l, t) => GroupParas(ps[1..], question, options + [HtmlOption(l, t)])
      case Ignored => GroupParas(ps[1..], question, options)
  }

  /** The options of the option paragraphs, in order. */
  function AllOptions(ps: seq<Para>): seq<HtmlOption>
  {
    if |ps| == 0 then []
    else if ps[0].OptionPara? then [HtmlOption(ps[0].letter, ps[0].text)] + AllOptions(ps[1..])
    else AllOptions(ps[1..])
  }

  /** The paragraphs after the first question paragraph; none without one. */
  function AfterFirstMarker(ps: seq<Para>): (r: seq<Para>)
    ensures |r| <= |ps|
  {
    if |ps| == 0 then []
    else if ps[0].Marker? then ps[1..]
    else AfterFirstMarker(ps[1..])
  }

  /** The options of the blocks, in order. */
  function OptionsOf(bs: seq<Block>): seq<HtmlOption>
  {
    if |bs| == 0 then [] else bs[0].options + OptionsOf(bs[1..])
  }

  lemma {:induction false} OptionsOfConcat(a: seq<Block>, b: seq<Block>)
    ensures OptionsOf(a + b) == OptionsOf(a) + OptionsOf(b)
    decreases |a|
  {
    if |a| > 0 {
      assert (a + b)[0] == a[0];
      assert (a + b)[1..] == a[1..] + b;
      OptionsOfConcat(a[1..], b);
    } else {
      assert a + b == b;
    }
  }

  /** Grouping loses no option that follows a question and keeps none that
      comes before the first question: the blocks' options are exactly the
      option paragraphs after the first question paragraph, in order. */
  lemma {:induction false} GroupKeepsOptions(ps: seq<Para>, question: Option<string>, options: seq<HtmlOption>)
    requires WellClassified(ps)
    requires question.Some? ==> question.value != []
    ensures OptionsOf(GroupParas(ps, question, options))
      == if question.Some? then options + AllOptions(ps) else AllOptions(AfterFirstMarker(ps))
    decreases |ps|
  {
    if |ps| == 0 {
    } else {
      var rest := ps[1..];
      assert WellClassified(rest) by {
        forall k | 0 <= k < |rest| ensures rest[k] == ps[k + 1] { }
      }
      match ps[0]
      case Marker(q) =>
        OptionsOfConcat(Flush(question, options), GroupParas(rest, Some(q), []));
        GroupKeepsOptions(rest, Some(q), []);
      case OptionPara(l, t) =>
        GroupKeepsOptions(rest, question, options + [HtmlOption(l, t)]);
      case Ignored =>
        GroupKeepsOptions(rest, question, options);
    }
  }

  /** Number of question paragraphs. */
  function MarkerCount(ps: seq<Para>): nat
  {
    if |ps| == 0 then 0 else (if ps[0].Marker? then 1 else 0) + MarkerCount(ps[1..])
  }

  /** At most one block per question paragraph, plus the one being
      collected; each block's question is that of a question paragraph or
      the one being collected. */
  lemma {:induction false} GroupQuestions(ps: seq<Para>, question: Option<string>, options: seq<HtmlOption>)
    ensures var r := GroupParas(ps, question, options);
      |r| <= MarkerCount(ps) + (if question.Some? then 1 else 0)
    ensures forall b :: b in GroupParas(ps, question, options) ==>
      (question.Some? && b.question == question.value) || Marker(b.question) in ps
    decreases |ps|
  {
    if |ps| > 0 {
      var rest := ps[1..];
      match ps[0]
      case Marker(q) =>
        GroupQuestions(rest, Some(q), []);
        forall b | b in GroupParas(ps, question, options)
          ensures (question.Some? && b.question == question.value) || Marker(b.question) in ps
        {
          if b !in Flush(question, options) {
            assert b in GroupParas(rest, Some(q), []);
            if b.question != q {
              assert Marker(b.question) in rest;
            }
          }
        }
      case OptionPara(l, t) =>
        GroupQuestions(rest, question, options + [HtmlOption(l, t)]);
      case Ignored =>
        GroupQuestions(rest, question, options);
    }
  }

  // ---------------------------------------------------------------------------
  // Answers
  // ---------------------------------------------------------------------------

  /** `re.search(r"\b([A-E])[.)]", t)` can match at `k`: an option letter at a
      word boundary, followed by a dot or a closing parenthesis. */
  predicate MarkAt(t: string, k: nat) {
    k + 1 < |t| && IsOptionLetter(t[k]) && (k == 0 || !IsWordChar(t[k - 1])) && (t[k + 1] == '.' || t[k + 1] == ')')
  }

  /** The letter of the leftmost match at or after `k`. */
  function FirstMark(t: string, k: nat): (r: Option<char>)
    requires k <= |t|
    ensures r.Some? ==> IsOptionLetter(r.value)
    ensures r.None? <==> forall j :: k <= j < |t| ==> !MarkAt(t, j)
    ensures r.Some? ==>
      exists j :: k <= j < |t| && MarkAt(t, j) && r.value == t[j] && (forall i :: k <= i < j ==> !MarkAt(t, i))
    decreases |t| - k
  {
    if k == |t| then None
    else if MarkAt(t, k) then Some(t[k])
    else
      var r := FirstMark(t, k + 1);
      assert !MarkAt(t, k);
      r
  }

  /** No text holds a match anywhere. */
  predicate NoMarkIn(texts: seq<string>) {
    forall i, j :: 0 <= i < |texts| && 0 <= j < |texts[i]| ==> !MarkAt(texts[i], j)
  }

  /** The letter of the first text holding a match. */
  function MarkedIn(texts: seq<string>): (r: Option<char>)
    ensures r.Some? ==> IsOptionLetter(r.value)
    ensures r.None? <==> NoMarkIn(texts)
  {
    if |texts| == 0 then None
    else
      var m := FirstMark(texts[0], 0);
      if m.Some? then m
      else
        var r := MarkedIn(texts[1..]);
        assert forall i :: 1 <= i < |texts| ==> texts[i] == texts[1..][i - 1];
        r
  }

  /** The letter `MarkedIn` returns is the leftmost mark of some text, and
      no earlier text holds a mark. */
  lemma {:induction false} MarkedInFirst(texts: seq<string>)
    ensures MarkedIn(texts).Some? ==>
      exists i :: 0 <= i < |texts| && MarkedIn(texts) == FirstMark(texts[i], 0)
        && (forall h :: 0 <= h < i ==> FirstMark(texts[h], 0).None?)
  {
    if |texts| == 0 {
    } else if FirstMark(texts[0], 0).Some? {
      assert MarkedIn(texts) == FirstMark(texts[0], 0);
    } else {
      var rest := texts[1..];
      MarkedInFirst(rest);
      assert MarkedIn(texts) == MarkedIn(rest);
      if MarkedIn(rest).Some? {
        var i :| 0 <= i < |rest| && MarkedIn(rest) == FirstMark(rest[i], 0)
          && (forall h :: 0 <= h < i ==> FirstMark(rest[h], 0).None?);
        assert texts[i + 1] == rest[i];
        forall h | 0 <= h < i + 1
          ensures FirstMark(texts[h], 0).None?
        {
          if h > 0 { assert texts[h] == rest[h - 1]; }
        }
      }
    }
  }

  /** The marked answer: first among the texts of the marked-answer spans,
      then among the stripped texts of the other marked elements. The page
      is searched, not the block, so every question gets the same one. */
  function MarkedAnswer(spans: seq<string>, elements: seq<string>): (r: Option<char>)
    ensures r.Some? ==> IsOptionLetter(r.value)
    ensures !NoMarkIn(spans) ==> r == MarkedIn(spans)
    ensures NoMarkIn(spans) ==> r == MarkedIn(StripAll(elements))
    ensures r.None? <==> NoMarkIn(spans) && NoMarkIn(StripAll(elements))
  {
    var m := MarkedIn(spans);
    if m.Some? then m else MarkedIn(StripAll(elements))
  }

  /** Every text stripped, in order. */
  function StripAll(texts: seq<string>): (r: seq<string>)
    ensures |r| == |texts| && forall i :: 0 <= i < |texts| ==> r[i] == Strip(texts[i])
  {
    seq(|texts|, i requires 0 <= i < |texts| => Strip(texts[i]))
  }

  datatype HtmlRecord = HtmlRecord(question: string, options: seq<string>, answer: Option<char>)

  /** A block with its answer: the marked answer, or else the letter of the
      block's first option. */
  function Answered(b: Block, marked: Option<char>): (r: HtmlRecord)
  {
    HtmlRecord(b.question, seq(|b.options|, i requires 0 <= i < |b.options| => b.options[i].text),
      if marked.Some? then marked else if |b.options| > 0 then Some(b.options[0].letter) else None)
  }

  /** `extract_qa_pairs` once the page has been parsed. */
  function ExtractQaPairs(paragraphs: seq<string>, words: Option<seq<string>>, chars: string,
                          spans: seq<string>, elements: seq<string>): (r: seq<HtmlRecord>)
  {
    var blocks := GroupParas(Paras(paragraphs, WordsOrDefault(words), chars), None, []);
    var marked := MarkedAnswer(spans, elements);
    seq(|blocks|, k requires 0 <= k < |blocks| => Answered(blocks[k], marked))
  }

  /** Every extracted question is non-empty and has an option; every answer
      is a letter `A`-`E`; with a marked answer on the page every question
      gets it, otherwise each gets its first option's letter. */
  lemma ExtractedAnswers(paragraphs: seq<string>, words: Option<seq<string>>, chars: string,
                         spans: seq<string>, elements: seq<string>)
    ensures var r := ExtractQaPairs(paragraphs, words, chars, spans, elements);
      var blocks := GroupParas(Paras(paragraphs, WordsOrDefault(words), chars), None, []);
      var marked := MarkedAnswer(spans, elements);
      && |r| == |blocks|
      && (forall k :: 0 <= k < |r| ==>
           && r[k].question != [] && |r[k].options| > 0
           && r[k].answer.Some? && IsOptionLetter(r[k].answer.value)
           && r[k].answer == (if marked.Some? then marked else Some(blocks[k].options[0].letter)))
  {
    var ps := Paras(paragraphs, WordsOrDefault(words), chars);
    var blocks := GroupParas(ps, None, []);
    ParasWellClassified(paragraphs, WordsOrDefault(words), chars);
    GroupOptionsSatisfy(ps, None, [], (o: HtmlOption) => IsOptionLetter(o.letter));
    forall k | 0 <= k < |blocks| ensures IsOptionLetter(blocks[k].options[0].letter) {
      OptionsOfMember(blocks, k, 0);
    }
  }

  lemma {:induction false} OptionsOfMember(bs: seq<Block>, k: nat, i: nat)
    requires k < |bs| && i < |bs[k].options|
    ensures bs[k].options[i] in OptionsOf(bs)
    decreases k
  {
    if k > 0 {
      OptionsOfMember(bs[1..], k - 1, i);
    }
  }

  /** A property every option paragraph's option and every collected option
      has is had by every option of every block. */
  lemma {:induction false} GroupOptionsSatisfy(ps: seq<Para>, question: Option<string>, options: seq<HtmlOption>,
                                               ok: HtmlOption -> bool)
    requires forall k :: 0 <= k < |ps| && ps[k].OptionPara? ==> ok(HtmlOption(ps[k].letter, ps[k].text))
    requires forall o :: o in options ==> ok(o)
    ensures forall o :: o in OptionsOf(GroupParas(ps, question, options)) ==> ok(o)
    decreases |ps|
  {
    if |ps| > 0 {
      var rest := ps[1..];
      assert forall k :: 0 <= k < |rest| ==> rest[k] == ps[k + 1];
      match ps[0]
      case Marker(q) =>
        OptionsOfConcat(Flush(question, options), GroupParas(rest, Some(q), []));
        GroupOptionsSatisfy(rest, Some(q), [], ok);
      case OptionPara(l, t) =>
        GroupOptionsSatisfy(rest, question, options + [HtmlOption(l, t)], ok);
      case Ignored =>
        GroupOptionsSatisfy(rest, question, options, ok);
    } else {
      assert OptionsOf(GroupParas(ps, question, options)) == OptionsOf(Flush(question, options));
    }
  }

  // ---------------------------------------------------------------------------
  // format_qa_pairs
  // ---------------------------------------------------------------------------

  /** Option `i` is written as `chr(65 + i) + ". " + text`, whatever letter
      the page gave it. */
  function Relabel(options: seq<string>): (r: seq<string>)
    requires |options| <= 0xD800 - 65
    ensures |r| == |options|
    ensures forall i :: 0 <= i < |r| ==> |r[i]| == |options[i]| + 3 && r[i][0] == (65 + i) as char && r[i][1..3] == ". " && r[i][3..] == options[i]
  {
    seq(|options|, i requires 0 <= i < |options| => [(65 + i) as char] + ". " + options[i])
  }

  /** `f"{answer}"`: a missing answer prints as `None`. */
  function AnswerText(answer: Option<char>): string
  {
    if answer.Some? then [answer.value] else "None"
  }

  ghost predicate Formattable(records: seq<HtmlRecord>) {
    forall k :: 0 <= k < |records| ==> |records[k].options| <= 0xD800 - 65
  }

  function HtmlCard(r: HtmlRecord, qaSep: string): string
    requires |r.options| <= 0xD800 - 65
  {
    Cards.Card(r.question, Relabel(r.options), qaSep + AnswerText(r.answer))
  }

  /** `format_qa_pairs(qa_pairs, qa_separator, card_separator)`. */
  function FormatQaPairs(records: seq<HtmlRecord>, qaSep: string, cardSep: string): (r: string)
    requires Formattable(records)
  {
    Join(seq(|records|, k requires 0 <= k < |records| => HtmlCard(records[k], qaSep)), cardSep)
  }

  /** With the blank-line card separator of `save_to_txt` and fields free of
      line breaks, the written text reads back card by card, and each card
      line by line: the question, the options relabelled `A.`, `B.`, ... by
      position, and the answer after the separator on the last line. */
  lemma FormatReadBack(records: seq<HtmlRecord>, qaSep: string)
    requires |records| > 0 && Formattable(records)
    requires '\n' !in qaSep
    requires forall k :: 0 <= k < |records| ==> '\n' !in records[k].question
    requires forall k, i :: 0 <= k < |records| && 0 <= i < |records[k].options| ==> '\n' !in records[k].options[i]
    requires forall k :: 0 <= k < |records| ==> records[k].answer != Some('\n')
    ensures var cards := Split(FormatQaPairs(records, qaSep, BlankLine), BlankLine);
      && |cards| == |records|
      && forall k :: 0 <= k < |records| ==>
           Split(cards[k], "\n")
             == Cards.CardLines(records[k].question, Relabel(records[k].options), qaSep + AnswerText(records[k].answer))
  {
    var cards := seq(|records|, k requires 0 <= k < |records| => HtmlCard(records[k], qaSep));
    forall k | 0 <= k < |records|
      ensures NoBlankLine(cards[k])
      ensures Split(cards[k], "\n")
        == Cards.CardLines(records[k].question, Relabel(records[k].options), qaSep + AnswerText(records[k].answer))
    {
      var r := records[k];
      var lines := Relabel(r.options);
      var tail := qaSep + AnswerText(r.answer);
      assert '\n' !in tail;
      forall i | 0 <= i < |lines| ensures '\n' !in lines[i] && lines[i] != [] {
        assert lines[i] == [(65 + i) as char] + ". " + r.options[i];
        assert '\n' !in r.options[i];
      }
      Cards.CardNoBlankLine(r.question, lines, tail);
      Cards.CardSplit(r.question, lines, tail);
    }
    Cards.CardsSplit(cards);
  }

  /** What the extractor produces can always be read back: its texts are
      cleaned, so none holds a line break. */
  lemma ExtractThenFormat(paragraphs: seq<string>, words: Option<seq<string>>, chars: string,
                          spans: seq<string>, elements: seq<string>, qaSep: string)
    requires '\n' !in qaSep
    requires |ExtractQaPairs(paragraphs, words, chars, spans, elements)| > 0
    requires Formattable(ExtractQaPairs(paragraphs, words, chars, spans, elements))
    ensures var r := ExtractQaPairs(paragraphs, words, chars, spans, elements);
      var cards := Split(FormatQaPairs(r, qaSep, BlankLine), BlankLine);
      && |cards| == |r|
      && forall k :: 0 <= k < |r| ==>
           Split(cards[k], "\n") == Cards.CardLines(r[k].question, Relabel(r[k].options), qaSep + AnswerText(r[k].answer))
  {
    var ws := WordsOrDefault(words);
    var ps := Paras(paragraphs, ws, chars);
    var blocks := GroupParas(ps, None, []);
    var r := ExtractQaPairs(paragraphs, words, chars, spans, elements);
    forall k | 0 <= k < |ps|
      ensures ps[k].Marker? ==> '\n' !in ps[k].question
      ensures ps[k].OptionPara? ==> '\n' !in ps[k].text
    {
      CleanTextOneLine(Strip(paragraphs[k]), ws, chars);
    }
    GroupQuestions(ps, None, []);
    GroupOptionsSatisfy(ps, None, [], (o: HtmlOption) => '\n' !in o.text);
    ExtractedAnswers(paragraphs, words, chars, spans, elements);
    forall k, i | 0 <= k < |r| && 0 <= i < |r[k].options| ensures '\n' !in r[k].options[i] {
      OptionsOfMember(blocks, k, i);
    }
    forall k | 0 <= k < |r| ensures '\n' !in r[k].question {
      assert blocks[k] in blocks;
      var j :| 0 <= j < |ps| && ps[j] == Marker(blocks[k].question);
    }
    FormatReadBack(r, qaSep);
  }
}

=== FILE: retrieve_pdf.dfy ===
/** The PDF extractor (`src/retrieve_pdf.py`) from the text lines of each
    page onwards: noise lines are dropped, the remaining lines are grouped
    into question blocks closed by an answer line, each block becomes a
    record with its question, assembled options and answer, and the records
    are written as flashcard text. Reading the PDF is not modelled: each
    page is the sequence of lines its text splits into. */
module RetrievePdf {
  import opened Text
  import opened Files
  import Cards
  import RetrieveHtml

  // ---------------------------------------------------------------------------
  // clean_text
  // ---------------------------------------------------------------------------

  /** `re.sub(re.escape(pat), "", s, flags=re.IGNORECASE)` for a literal
      pattern: the scan goes left to right and deletes each match, letter
      case ignored, without overlapping. */
  function RemoveCaseless(s: string, pat: string): (r: string)
    requires |pat| > 0
    ensures |r| <= |s|
    decreases |s|
  {
    if |s| == 0 then s
    else if RetrieveHtml.StartsWithCaseless(s, pat) then RemoveCaseless(s[|pat|..], pat)
    else [s[0]] + RemoveCaseless(s[1..], pat)
  }

  /** The pattern built for each word. The raw string `r"\\b"` is a
      backslash followed by `b`, not a word boundary, so the pattern matches
      the word only when it is written between two literal `\b`s. */
  function LiteralPattern(word: string): (r: string)
    ensures |r| == |word| + 4 && r[0] == '\\'
  {
    "\\b" + word + "\\b"
  }

  function RemoveLiteralWords(text: string, words: seq<string>): string
    decreases |words|
  {
    if |words| == 0 then text
    else RemoveLiteralWords(RemoveCaseless(text, LiteralPattern(words[0])), words[1..])
  }

  /** `clean_text(text, words_to_remove, chars_to_remove)` as written: the
      empty text is returned as it is; otherwise the word patterns are
      removed, every listed character is deleted, whitespace runs become one
      space and the ends are stripped. */
  function CleanTextAsWritten(text: string, words: seq<string>, chars: string): (r: string)
    ensures text == [] ==> r == []
    ensures r == [] || (!IsSpace(r[0]) && !IsSpace(r[|r| - 1]))
    ensures forall i :: 0 <= i < |r| && IsSpace(r[i]) ==> r[i] == ' '
    ensures forall i :: 0 <= i < |r| - 1 ==> !(IsSpace(r[i]) && IsSpace(r[i + 1]))
    ensures forall c :: c in chars && !IsSpace(c) ==> c !in r
  {
    if text == [] then text
    else
      var s := DeleteChars(RemoveLiteralWords(text, words), chars);
      SquashShape(s);
      Squash(s)
  }

  /** Every match of a pattern starting with a backslash starts at a
      backslash, since case folding maps no other character to one. */
  lemma {:induction false} NoBackslashNoMatch(s: string, pat: string)
    requires |pat| > 0 && pat[0] == '\\' && '\\' !in s
    ensures RemoveCaseless(s, pat) == s
    decreases |s|
  {
    if |s| > 0 {
      assert LowerChar(s[0]) != LowerChar(pat[0]);
      SuffixAvoids(s, 1, '\\');
      NoBackslashNoMatch(s[1..], pat);
      assert [s[0]] + s[1..] == s;
    }
  }

  lemma {:induction false} LiteralWordsNoEffect(text: string, words: seq<string>)
    requires '\\' !in text
    ensures RemoveLiteralWords(text, words) == text
    decreases |words|
  {
    if |words| > 0 {
      NoBackslashNoMatch(text, LiteralPattern(words[0]));
      LiteralWordsNoEffect(text, words[1..]);
    }
  }

  /** In a text without a backslash the words to remove change nothing:
      the cleaning is that of an empty word list. */
  lemma WordsIgnored(text: string, words: seq<string>, chars: string)
    requires '\\' !in text
    ensures CleanTextAsWritten(text, words, chars) == CleanTextAsWritten(text, [], chars)
  {
    LiteralWordsNoEffect(text, words);
  }

  /** The name tag, cleaned with itself as the word to remove, comes out
      unchanged here, while the whole-word cleaning of the HTML extractor,
      whose pattern uses a real word boundary, removes it. */
  lemma NameTagSurvives()
    ensures CleanTextAsWritten(RetrieveHtml.NameTag, [RetrieveHtml.NameTag], "") == RetrieveHtml.NameTag
    ensures RetrieveHtml.CleanText(RetrieveHtml.NameTag, [RetrieveHtml.NameTag], "") == []
  {
    var t := RetrieveHtml.NameTag;
    NameTagPlain();
    LiteralWordsNoEffect(t, [t]);
    assert DeleteChars(t, "") == t;
    RetrieveHtml.SoleWordRemoved(t, "");
  }

  /** The name tag has no backslash and is already in normal form. */
  lemma NameTagPlain()
    ensures '\\' !in RetrieveHtml.NameTag && Squash(RetrieveHtml.NameTag) == RetrieveHtml.NameTag
    ensures IsWordChar(RetrieveHtml.NameTag[0]) && IsWordChar(RetrieveHtml.NameTag[|RetrieveHtml.NameTag| - 1])
  {
    var t := RetrieveHtml.NameTag;
    assert t == ['N', 'H', 'U', 'N', 'G', ' ', 'H', 'O', '\U{00C0}', 'N', 'G'];
    assert forall i :: 0 <= i < |t| ==> t[i] != '\\' && (IsSpace(t[i]) ==> i == 5 && t[i] == ' ');
    SquashFixed(t);
  }

  // ---------------------------------------------------------------------------
  // Page lines and noise
  // ---------------------------------------------------------------------------

  /** `[line.strip() for line in page_text.splitlines() if line.strip()]`,
      given the page's lines. */
  function PageLines(raw: seq<string>): (r: seq<string>)
    ensures |r| <= |raw|
    ensures forall i :: 0 <= i < |r| ==> r[i] != [] && !IsSpace(r[i][0]) && !IsSpace(r[i][|r[i]| - 1])
    decreases |raw|
  {
    if |raw| == 0 then []
    else
      var line := Strip(raw[0]);
      (if line == [] then [] else [line]) + PageLines(raw[1..])
  }

  /** A single line gives its strip, or nothing when it is blank. */
  lemma PageLinesOne(line: string)
    ensures PageLines([line]) == if Strip(line) == [] then [] else [Strip(line)]
  {
    assert [line][1..] == [];
  }

  /** The lines of a page are taken one by one, in order: the lines of two
      runs of raw lines are those of the first run, then those of the
      second. With the one-line case this says that every non-blank line is
      kept, stripped, in its place. */
  lemma {:induction false} PageLinesConcat(a: seq<string>, b: seq<string>)
    ensures PageLines(a + b) == PageLines(a) + PageLines(b)
    decreases |a|
  {
    if |a| == 0 {
      assert a + b == b;
    } else {
      var line := Strip(a[0]);
      var h := if line == [] then [] else [line];
      assert (a + b)[0] == a[0] && (a + b)[1..] == a[1..] + b;
      PageLinesConcat(a[1..], b);
      assert PageLines(a + b) == h + PageLines(a[1..] + b);
      assert h + (PageLines(a[1..]) + PageLines(b)) == (h + PageLines(a[1..])) + PageLines(b);
    }
  }

  /** Taking the lines of a page's lines changes nothing: they are already
      stripped and none is blank. */
  lemma {:induction false} PageLinesIdempotent(raw: seq<string>)
    ensures PageLines(PageLines(raw)) == PageLines(raw)
    decreases |raw|
  {
    if |raw| > 0 {
      var line := Strip(raw[0]);
      var tail := PageLines(raw[1..]);
      PageLinesIdempotent(raw[1..]);
      if line == [] {
        assert PageLines(raw) == tail;
      } else {
        StripIdempotent(raw[0]);
        assert PageLines(raw) == [line] + tail;
        assert ([line] + tail)[1..] == tail;
      }
    }
  }

  predicate AllDigits(s: string) {
    forall i :: 0 <= i < |s| ==> IsDigit(s[i])
  }

  /** A date of `a` digits, a slash, `b` digits, a slash and two digits at
      the start of the line. */
  predicate DateAt(line: string, a: nat, b: nat) {
    && a + b + 4 <= |line|
    && AllDigits(line[..a]) && line[a] == '/'
    && AllDigits(line[a + 1..a + 1 + b]) && line[a + 1 + b] == '/'
    && AllDigits(line[a + b + 2..a + b + 4])
  }

  /** `re.match(r"^\d{1,2}/\d{1,2}/\d{2,4}", line)`: the match needs only a
      prefix, so two year digits suffice. */
  predicate DatePrefix(line: string) {
    DateAt(line, 1, 1) || DateAt(line, 1, 2) || DateAt(line, 2, 1) || DateAt(line, 2, 2)
  }

  /** `re.match(r"^\d+/\d+$", line)`: the whole line is a page counter such
      as `3/40`. */
  predicate FractionLine(line: string) {
    exists k :: 0 < k < |line| - 1 && line[k] == '/' && AllDigits(line[..k]) && AllDigits(line[k + 1..])
  }

  /** `is_noise(line)`: headers, footers, links, dates and page counters of
      the exported quiz pages. */
  predicate IsNoise(line: string) {
    || line == []
    || Contains(Lower(line), "mln111")
    || Contains(Lower(line), "terms in this set")
    || Contains(Lower(line), "review")
    || Contains(Lower(line), "save")
    || StartsWith(line, "http")
    || DatePrefix(line)
    || FractionLine(line)
    || Contains(Lower(line), "quizlet.com")
  }

  /** `len(line) == 1 and line in "ABCDE"`: the line giving a block's answer. */
  predicate IsAnswerLine(line: string) {
    |line| == 1 && IsOptionLetter(line[0])
  }

  /** An answer line is never noise, so every answer line closes a block. */
  lemma AnswerLineNotNoise(line: string)
    requires IsAnswerLine(line)
    ensures !IsNoise(line)
  {
  }

  // ---------------------------------------------------------------------------
  // Grouping lines into blocks
  // ---------------------------------------------------------------------------

  /** The grouping loop over the remaining `lines`, with the open `block`:
      noise is skipped, an answer line closes the block, any other line
      joins it, and a non-empty open block is kept at the end. */
  function Group(lines: seq<string>, block: seq<string>): (r: seq<seq<string>>)
    ensures forall k :: 0 <= k < |r| ==> |r[k]| > 0
    decreases |lines|
  {
    if |lines| == 0 then (if |block| > 0 then [block] else [])
    else if IsNoise(lines[0]) then Group(lines[1..], block)
    else if IsAnswerLine(lines[0]) then [block + [lines[0]]] + Group(lines[1..], [])
    else Group(lines[1..], block + [lines[0]])
  }

  /** The lines that are not noise, in order. */
  function Kept(lines: seq<string>): (r: seq<string>)
    ensures forall i :: 0 <= i < |r| ==> !IsNoise(r[i])
    decreases |lines|
  {
    if |lines| == 0 then []
    else (if IsNoise(lines[0]) then [] else [lines[0]]) + Kept(lines[1..])
  }

  function Flatten(blocks: seq<seq<string>>): seq<string>
    decreases |blocks|
  {
    if |blocks| == 0 then [] else blocks[0] + Flatten(blocks[1..])
  }

  /** Grouping loses no line but the noise and reorders nothing: the blocks,
      laid end to end, are the open block followed by the kept lines. */
  lemma {:induction false} GroupKeepsLines(lines: seq<string>, block: seq<string>)
    ensures Flatten(Group(lines, block)) == block + Kept(lines)
    decreases |lines|
  {
    if |lines| == 0 {
      assert block + [] == block;
    } else {
      var line := lines[0];
      var rest := lines[1..];
      if IsNoise(line) {
        assert Group(lines, block) == Group(rest, block);
        assert Kept(lines) == Kept(rest);
        GroupKeepsLines(rest, block);
      } else if IsAnswerLine(line) {
        var g := Group(rest, []);
        assert Group(lines, block) == [block + [line]] + g;
        assert Kept(lines) == [line] + Kept(rest);
        GroupKeepsLines(rest, []);
        assert ([block + [line]] + g)[1..] == g;
        assert Flatten([block + [line]] + g) == (block + [line]) + Flatten(g);
        RegroupLines(block, line, Kept(rest));
      } else {
        assert Group(lines, block) == Group(rest, block + [line]);
        assert Kept(lines) == [line] + Kept(rest);
        GroupKeepsLines(rest, block + [line]);
        RegroupLines(block, line, Kept(rest));
      }
    }
  }

  lemma RegroupLines(a: seq<string>, x: string, c: seq<string>)
    ensures (a + [x]) + c == a + ([x] + c)
    ensures [] + c == c
  {
  }


  /** Blocks as the grouping loop closes them: none is empty, an answer
      line only ever ends a block, and every block but the last ends with
      one. */
  ghost predicate WellGrouped(blocks: seq<seq<string>>) {
    && (forall k :: 0 <= k < |blocks| ==> |blocks[k]| > 0)
    && (forall k, i :: 0 <= k < |blocks| && 0 <= i < |blocks[k]| - 1 ==> !IsAnswerLine(blocks[k][i]))
    && (forall k :: 0 <= k < |blocks| - 1 ==> IsAnswerLine(blocks[k][|blocks[k]| - 1]))
  }

  lemma WellGroupedCons(b: seq<string>, g: seq<seq<string>>)
    requires |b| > 0 && IsAnswerLine(b[|b| - 1])
    requires forall i :: 0 <= i < |b| - 1 ==> !IsAnswerLine(b[i])
    requires WellGrouped(g)
    ensures WellGrouped([b] + g)
  {
    var r := [b] + g;
    forall k | 0 < k < |r| ensures r[k] == g[k - 1] {
    }
  }

  lemma {:induction false} GroupShape(lines: seq<string>, block: seq<string>)
    requires forall i :: 0 <= i < |block| ==> !IsAnswerLine(block[i])
    ensures WellGrouped(Group(lines, block))
    decreases |lines|
  {
    if |lines| > 0 {
      var line := lines[0];
      var rest := lines[1..];
      if IsNoise(line) {
        GroupShape(rest, block);
      } else if IsAnswerLine(line) {
        GroupShape(rest, []);
        WellGroupedCons(block + [line], Group(rest, []));
      } else {
        GroupShape(rest, block + [line]);
      }
    }
  }

  lemma {:induction false} GroupAvoids(lines: seq<string>, block: seq<string>, c: char)
    requires forall i :: 0 <= i < |lines| ==> c !in lines[i]
    requires forall i :: 0 <= i < |block| ==> c !in block[i]
    ensures forall k, i :: 0 <= k < |Group(lines, block)| && 0 <= i < |Group(lines, block)[k]| ==> c !in Group(lines, block)[k][i]
    decreases |lines|
  {
    if |lines| > 0 {
      var line := lines[0];
      var rest := lines[1..];
      if IsNoise(line) {
        GroupAvoids(rest, block, c);
        assert Group(lines, block) == Group(rest, block);
      } else if IsAnswerLine(line) {
        GroupAvoids(rest, [], c);
        var g := Group(rest, []);
        var r := [block + [line]] + g;
        assert Group(lines, block) == r;
        forall k, i | 0 <= k < |r| && 0 <= i < |r[k]| ensures c !in r[k][i] {
          if k == 0 {
            if i < |block| { assert r[k][i] == block[i]; }
          } else {
            assert r[k] == g[k - 1];
          }
        }
      } else {
        var b := block + [line];
        assert forall i :: 0 <= i < |b| ==> c !in b[i];
        GroupAvoids(rest, b, c);
        assert Group(lines, block) == Group(rest, b);
      }
    }
  }

  // ---------------------------------------------------------------------------
  // Options
  // ---------------------------------------------------------------------------

  /** `re.match(r"^[A-E][.)]?\s", line)`: the first option of a block. */
  predicate OptionStart(line: string) {
    && |line| >= 2 && IsOptionLetter(line[0])
    && (IsSpace(line[1]) || (|line| >= 3 && (line[1] == '.' || line[1] == ')') && IsSpace(line[2])))
  }

  /** The index of the first option start at or after `from`. */
  function FirstOptionStart(block: seq<string>, from: nat): (r: Option<nat>)
    ensures r.Some? ==> from <= r.value < |block| && OptionStart(block[r.value])
    ensures r.Some? ==> forall i :: from <= i < r.value ==> !OptionStart(block[i])
    ensures r.None? ==> forall i :: from <= i < |block| ==> !OptionStart(block[i])
    decreases |block| - from
  {
    if from >= |block| then None
    else if OptionStart(block[from]) then Some(from)
    else FirstOptionStart(block, from + 1)
  }

  /** `re.match(r"^([A-E])[.)]?\s*(.*)", line)` succeeds: inside the option
      lines, any line that begins with a letter A-E starts a new option,
      whatever follows the letter. */
  predicate LabelLine(line: string) {
    |line| > 0 && IsOptionLetter(line[0])
  }

  /** An option as the assembly loop builds it: its letter, then a full stop. */
  predicate Shaped(o: string) {
    |o| >= 2 && IsOptionLetter(o[0]) && o[1] == '.'
  }

  /** What follows the letter of a label line and an optional `.` or `)`. */
  function LabelRest(line: string): (r: string)
    requires LabelLine(line)
    ensures |r| < |line| && r == line[|line| - |r|..]
  {
    if |line| >= 2 && (line[1] == '.' || line[1] == ')') then line[2..] else line[1..]
  }

  /** `f"{m.group(1)}. {m.group(2).strip()}"`, where `group(2)` is the rest
      of the line after `\s*`: the letter, a full stop, a space and the
      stripped rest; the whitespace the pattern skips is what `strip()`
      would drop anyway. */
  function HeadOption(line: string): (r: string)
    requires LabelLine(line)
    ensures Shaped(r) && r[0] == line[0]
    ensures r == [line[0]] + ". " + Strip(LabelRest(line))
  {
    var after := LabelRest(line);
    assert TrimLeft(TrimLeft(after)) == TrimLeft(after);
    [line[0]] + ". " + Strip(TrimLeft(after))
  }

  /** `re.sub(r"^[.\s]+", "", s)`: the longest prefix of full stops and
      whitespace is dropped and the rest kept. */
  function DropDotsSpaces(s: string): (r: string)
    ensures |r| <= |s| && r == s[|s| - |r|..]
    ensures forall i :: 0 <= i < |s| - |r| ==> s[i] == '.' || IsSpace(s[i])
    ensures r == [] || (r[0] != '.' && !IsSpace(r[0]))
    decreases |s|
  {
    if |s| > 0 && (s[0] == '.' || IsSpace(s[0])) then DropDotsSpaces(s[1..]) else s
  }

  /** Closing the current option: when there is one, it is stripped and
      cleaned of leading dots and spaces, and kept unless it is empty or
      `nh` in any letter case. */
  function Flush(acc: seq<string>, cur: Option<string>): seq<string>
  {
    if cur.Some? && cur.value != [] then
      var c := DropDotsSpaces(Strip(cur.value));
      if Lower(c) != "nh" && c != [] then acc + [c] else acc
    else acc
  }

  /** The current option after one more line: a label line starts a new
      option, any other line is appended to the current one after a space,
      and a line before the first label is dropped. */
  function Advance(line: string, cur: Option<string>): (r: Option<string>)
    ensures r.Some? <==> LabelLine(line) || cur.Some?
  {
    if LabelLine(line) then Some(HeadOption(line))
    else if cur.Some? then Some(cur.value + " " + Strip(line))
    else cur
  }

  /** The option loop over the remaining `lines`, with the option being
      built in `cur` and the finished options in `acc`; a label line first
      closes the current option. */
  function AssembleOptions(lines: seq<string>, cur: Option<string>, acc: seq<string>): seq<string>
    decreases |lines|
  {
    if |lines| == 0 then Flush(acc, cur)
    else
      var acc' := if LabelLine(lines[0]) then Flush(acc, cur) else acc;
      AssembleOptions(lines[1..], Advance(lines[0], cur), acc')
  }

  /** The first letters of the label lines, in order. */
  function LabelLetters(lines: seq<string>): (r: seq<char>)
    ensures forall i :: 0 <= i < |r| ==> IsOptionLetter(r[i])
    decreases |lines|
  {
    if |lines| == 0 then []
    else (if LabelLine(lines[0]) then [lines[0][0]] else []) + LabelLetters(lines[1..])
  }

  /** The first letter of each option. */
  function Letters(options: seq<string>): (r: seq<char>)
    requires forall i :: 0 <= i < |options| ==> options[i] != []
    ensures |r| == |options|
  {
    seq(|options|, i requires 0 <= i < |options| && options[i] != [] => options[i][0])
  }

  /** The letter of the option being built, if any. */
  function CurrentLetter(cur: Option<string>): seq<char>
  {
    if cur.Some? && cur.value != [] then [cur.value[0]] else []
  }

  predicate AllShaped(options: seq<string>) {
    forall i :: 0 <= i < |options| ==> Shaped(options[i])
  }

  lemma LettersSnoc(options: seq<string>, o: string)
    requires AllShaped(options) && Shaped(o)
    ensures AllShaped(options + [o])
    ensures Letters(options + [o]) == Letters(options) + [o[0]]
  {
    var t := options + [o];
    assert forall i :: 0 <= i < |options| ==> t[i] == options[i];
  }

  /** A shaped option survives the flush as its strip: the `nh` and empty
      filters never remove it. */
  lemma FlushShaped(acc: seq<string>, v: string)
    requires Shaped(v)
    ensures Shaped(Strip(v)) && Strip(v)[0] == v[0]
    ensures Flush(acc, Some(v)) == acc + [Strip(v)]
  {
    assert TrimLeft(v) == v;
    TrimRightPrefix(v);
    var c := Strip(v);
    assert c[0] == v[0] && c[1] == v[1];
    assert DropDotsSpaces(c) == c;
    assert Lower(c)[1] == '.';
  }

  /** Flushing a shaped option appends exactly it. */
  lemma FlushLetters(acc: seq<string>, cur: Option<string>)
    requires AllShaped(acc) && (cur.Some? ==> Shaped(cur.value))
    ensures AllShaped(Flush(acc, cur))
    ensures Letters(Flush(acc, cur)) == Letters(acc) + CurrentLetter(cur)
  {
    if cur.Some? {
      FlushShaped(acc, cur.value);
      LettersSnoc(acc, Strip(cur.value));
    } else {
      assert acc + [] == acc;
    }
  }

  lemma AdvanceShaped(line: string, cur: Option<string>)
    requires cur.Some? ==> Shaped(cur.value)
    ensures Advance(line, cur).Some? ==> Shaped(Advance(line, cur).value)
    ensures CurrentLetter(Advance(line, cur)) == if LabelLine(line) then [line[0]] else CurrentLetter(cur)
  {
  }

  lemma RegroupLetters(a: seq<char>, b: seq<char>, x: char, c: seq<char>)
    ensures (a + b) + [x] + c == a + b + ([x] + c)
  {
  }

  /** The accounting of one step of the option loop: the letters of the
      finished options, the current one and the label lines still to come
      are the same before and after the step. */
  lemma StepLetters(lines: seq<string>, cur: Option<string>, acc: seq<string>)
    requires |lines| > 0
    requires cur.Some? ==> Shaped(cur.value)
    requires AllShaped(acc)
    ensures var acc' := if LabelLine(lines[0]) then Flush(acc, cur) else acc;
      && AllShaped(acc')
      && Letters(acc') + CurrentLetter(Advance(lines[0], cur)) + LabelLetters(lines[1..])
         == Letters(acc) + CurrentLetter(cur) + LabelLetters(lines)
  {
    var line := lines[0];
    var rest := LabelLetters(lines[1..]);
    AdvanceShaped(line, cur);
    if LabelLine(line) {
      FlushLetters(acc, cur);
      assert LabelLetters(lines) == [line[0]] + rest;
      RegroupLetters(Letters(acc), CurrentLetter(cur), line[0], rest);
    } else {
      assert LabelLetters(lines) == rest;
    }
  }

  /** Every option line is kept: the options are shaped, and their letters
      are those of the options already built, then of the current one, then
      of every label line, in order. */
  lemma {:induction false} AssembleLetters(lines: seq<string>, cur: Option<string>, acc: seq<string>)
    requires cur.Some? ==> Shaped(cur.value)
    requires AllShaped(acc)
    ensures AllShaped(AssembleOptions(lines, cur, acc))
    ensures Letters(AssembleOptions(lines, cur, acc)) == Letters(acc) + CurrentLetter(cur) + LabelLetters(lines)
    decreases |lines|
  {
    if |lines| == 0 {
      FlushLetters(acc, cur);
      assert Letters(acc) + CurrentLetter(cur) + [] == Letters(acc) + CurrentLetter(cur);
    } else {
      var next := Advance(lines[0], cur);
      var acc' := if LabelLine(lines[0]) then Flush(acc, cur) else acc;
      StepLetters(lines, cur, acc);
      AdvanceShaped(lines[0], cur);
      AssembleLetters(lines[1..], next, acc');
    }
  }

  // ---------------------------------------------------------------------------
  // Options group by group
  // ---------------------------------------------------------------------------

  /** The number of lines before the first label line. */
  function LeadingContinuations(lines: seq<string>): (n: nat)
    ensures n <= |lines|
    ensures forall i :: 0 <= i < n ==> !LabelLine(lines[i])
    ensures n < |lines| ==> LabelLine(lines[n])
    decreases |lines|
  {
    if |lines| == 0 || LabelLine(lines[0]) then 0 else 1 + LeadingContinuations(lines[1..])
  }

  /** A space and the stripped line, for each line in order. */
  function Spaced(lines: seq<string>): string
    decreases |lines|
  {
    if |lines| == 0 then [] else " " + Strip(lines[0]) + Spaced(lines[1..])
  }

  /** The options of lines that begin with a label line, one per group: a
      group is a label line and the lines after it up to the next label
      line, and its option is the head option followed by the group's other
      lines, each after a space, the whole stripped. */
  function GroupOptions(lines: seq<string>): seq<string>
    requires |lines| == 0 || LabelLine(lines[0])
    decreases |lines|
  {
    if |lines| == 0 then []
    else
      var rest := lines[1..];
      var t := LeadingContinuations(rest);
      [Strip(HeadOption(lines[0]) + Spaced(rest[..t]))] + GroupOptions(rest[t..])
  }

  /** The options of any run of lines: the lines before the first label
      line belong to no group. */
  function LabelOptions(lines: seq<string>): seq<string>
  {
    GroupOptions(lines[LeadingContinuations(lines)..])
  }

  /** The loop with an option under way: the option is finished with the
      lines up to the next label line, and the groups from there follow. */
  lemma {:induction false} AssembleCurrent(lines: seq<string>, c: string, acc: seq<string>)
    requires Shaped(c)
    ensures var t := LeadingContinuations(lines);
      AssembleOptions(lines, Some(c), acc) == acc + [Strip(c + Spaced(lines[..t]))] + GroupOptions(lines[t..])
    decreases |lines|
  {
    var t := LeadingContinuations(lines);
    if |lines| == 0 {
      FlushShaped(acc, c);
      assert c + Spaced(lines[..t]) == c;
    } else if LabelLine(lines[0]) {
      var h := HeadOption(lines[0]);
      var rest := lines[1..];
      var t' := LeadingContinuations(rest);
      var x := Strip(h + Spaced(rest[..t']));
      assert AssembleOptions(lines, Some(c), acc) == AssembleOptions(rest, Some(h), Flush(acc, Some(c)));
      FlushShaped(acc, c);
      AssembleCurrent(rest, h, acc + [Strip(c)]);
      assert t == 0 && lines[t..] == lines && c + Spaced(lines[..t]) == c;
      assert GroupOptions(lines) == [x] + GroupOptions(rest[t'..]);
      RegroupLines(acc + [Strip(c)], x, GroupOptions(rest[t'..]));
    } else {
      var rest := lines[1..];
      var c' := c + " " + Strip(lines[0]);
      assert Shaped(c');
      assert AssembleOptions(lines, Some(c), acc) == AssembleOptions(rest, Some(c'), acc);
      AssembleCurrent(rest, c', acc);
      var t' := LeadingContinuations(rest);
      assert t == 1 + t';
      SpacedStep(lines, t, c);
      assert rest[t'..] == lines[t..];
    }
  }

  /** Appending the first line to the option under way and the rest later
      gives the same text as appending them all at once. */
  lemma SpacedStep(lines: seq<string>, t: nat, c: string)
    requires 0 < t <= |lines|
    ensures (c + " " + Strip(lines[0])) + Spaced(lines[1..][..t - 1]) == c + Spaced(lines[..t])
  {
    var pre := lines[..t];
    assert pre[0] == lines[0] && pre[1..] == lines[1..][..t - 1];
    assert Spaced(pre) == " " + Strip(lines[0]) + Spaced(pre[1..]);
  }

  lemma {:induction false} AssembleFresh(lines: seq<string>, acc: seq<string>)
    ensures AssembleOptions(lines, None, acc) == acc + LabelOptions(lines)
    decreases |lines|
  {
    if |lines| == 0 {
      assert acc + [] == acc;
    } else if LabelLine(lines[0]) {
      var h := HeadOption(lines[0]);
      var rest := lines[1..];
      var t := LeadingContinuations(rest);
      var x := Strip(h + Spaced(rest[..t]));
      assert AssembleOptions(lines, None, acc) == AssembleOptions(rest, Some(h), acc);
      AssembleCurrent(rest, h, acc);
      assert LeadingContinuations(lines) == 0 && lines[0..] == lines;
      assert GroupOptions(lines) == [x] + GroupOptions(rest[t..]);
      assert LabelOptions(lines) == GroupOptions(lines);
      RegroupLines(acc, x, GroupOptions(rest[t..]));
    } else {
      AssembleFresh(lines[1..], acc);
      var t' := LeadingContinuations(lines[1..]);
      assert lines[1..][t'..] == lines[1 + t'..];
    }
  }

  /** The option loop gives one option per label line, in order: the label
      line as `X. text`, then a space and the stripped text of each
      following line up to the next label line, the whole stripped. Lines
      before the first label line are dropped, and the filters for an
      empty option and for `nh` never remove one, since every option
      starts with its letter and a full stop. */
  lemma AssembleOptionsGroups(lines: seq<string>)
    ensures AssembleOptions(lines, None, []) == LabelOptions(lines)
  {
    AssembleFresh(lines, []);
  }

  /** The current option and every finished one stay free of `c` when the
      lines are, provided `c` is not a full stop or a space. */
  lemma AdvanceAvoids(line: string, cur: Option<string>, c: char)
    requires c != '.' && c != ' ' && c !in line
    requires cur.Some? ==> c !in cur.value
    ensures Advance(line, cur).Some? ==> c !in Advance(line, cur).value
  {
    if LabelLine(line) {
      var after := if |line| >= 2 && (line[1] == '.' || line[1] == ')') then line[2..] else line[1..];
      SuffixAvoids(line, |line| - |after|, c);
      assert after == line[|line| - |after|..];
      TrimLeftSuffix(after);
      SuffixAvoids(after, |after| - |TrimLeft(after)|, c);
      StripAvoids(TrimLeft(after), c);
    } else if cur.Some? {
      StripAvoids(line, c);
    }
  }

  lemma FlushAvoids(acc: seq<string>, cur: Option<string>, c: char)
    requires forall i :: 0 <= i < |acc| ==> c !in acc[i]
    requires cur.Some? ==> Shaped(cur.value) && c !in cur.value
    ensures forall i :: 0 <= i < |Flush(acc, cur)| ==> c !in Flush(acc, cur)[i]
  {
    if cur.Some? {
      FlushShaped(acc, cur.value);
      StripAvoids(cur.value, c);
    }
  }

  lemma {:induction false} AssembleAvoids(lines: seq<string>, cur: Option<string>, acc: seq<string>, c: char)
    requires c != '.' && c != ' '
    requires cur.Some? ==> Shaped(cur.value) && c !in cur.value
    requires forall i :: 0 <= i < |acc| ==> c !in acc[i]
    requires forall i :: 0 <= i < |lines| ==> c !in lines[i]
    ensures forall i :: 0 <= i < |AssembleOptions(lines, cur, acc)| ==> c !in AssembleOptions(lines, cur, acc)[i]
    decreases |lines|
  {
    FlushAvoids(acc, cur, c);
    if |lines| > 0 {
      var line := lines[0];
      AdvanceShaped(line, cur);
      AdvanceAvoids(line, cur, c);
      AssembleAvoids(lines[1..], Advance(line, cur), if LabelLine(line) then Flush(acc, cur) else acc, c);
    }
  }

  // ---------------------------------------------------------------------------
  // Records
  // ---------------------------------------------------------------------------

  /** One extracted question: its text, its options as `X. text`, and its
      answer, `None` when the block does not end with one. */
  datatype PdfRecord = PdfRecord(question: string, options: seq<string>, answer: Option<string>)

  const NameInParens: string := "(NHUNG HO\U{00C0}NG)"

  /** `" ".join(lines).replace("(NHUNG HOÀNG)", "").strip()`. */
  function BlockQuestion(lines: seq<string>): string
  {
    Strip(Replace(Join(lines, " "), NameInParens, ""))
  }

  /** `block[-1] if block[-1] in "ABCDE" else None`, then the leading dots
      and spaces removed: the test is a substring test, so `AB` or `CDE`
      pass as well as a single letter. */
  function BlockAnswer(last: string): (r: Option<string>)
    ensures r.Some? <==> Contains("ABCDE", last)
  {
    if Contains("ABCDE", last) then Some(DropDotsSpaces(last)) else None
  }

  /** The record of one block, or `None` when the block is skipped. */
  function BlockRecord(block: seq<string>): (r: Option<PdfRecord>)
    ensures r.Some? <==> exists i :: 0 <= i < |block| - 1 && OptionStart(block[i])
  {
    var s := FirstOptionStart(block, 0);
    if s.None? || |block| < s.value + 2 then None
    else
      Some(PdfRecord(BlockQuestion(block[..s.value]),
                     AssembleOptions(block[s.value..|block| - 1], None, []),
                     BlockAnswer(block[|block| - 1])))
  }

  /** A kept answer is the block's last line unchanged: a piece of
      `ABCDE` has no dot or space to drop. */
  lemma AnswerIsLastLine(last: string)
    requires Contains("ABCDE", last)
    ensures BlockAnswer(last) == Some(last)
  {
    if |last| > 0 {
      var k :| 0 <= k <= 5 && OccursAt("ABCDE", last, k);
      assert last[0] == "ABCDE"[k..k + |last|][0] == "ABCDE"[k];
      assert 'A' <= last[0] <= 'E';
    }
    DropDotsSpacesKeeps(last);
  }

  /** A text that starts with a letter `A`-`E` has no leading dot or
      space to drop. */
  lemma DropDotsSpacesKeeps(s: string)
    requires s == [] || ('A' <= s[0] <= 'E')
    ensures DropDotsSpaces(s) == s
  {
    if s != [] {
      assert s[0] != '.' && !IsSpace(s[0]);
    }
  }

  /** An answer line is kept as the answer. */
  lemma AnswerLineKept(last: string)
    requires IsAnswerLine(last)
    ensures BlockAnswer(last) == Some(last)
  {
    var k := last[0] as int - 'A' as int;
    assert "ABCDE"[k..k + 1] == last;
    ContainsAt("ABCDE", last, k);
    AnswerIsLastLine(last);
  }

  /** What a kept block yields: the question is built from the lines before
      the first option start; every line from there up to, but not
      including, the last line that begins with a letter A-E gives one
      option with that letter, none is dropped, and the first is the option
      start's; a block closed by an answer line has that line as its
      answer. */
  lemma BlockContents(block: seq<string>)
    requires BlockRecord(block).Some?
    ensures var s := FirstOptionStart(block, 0).value;
      var rec := BlockRecord(block).value;
      && rec.question == BlockQuestion(block[..s])
      && AllShaped(rec.options)
      && Letters(rec.options) == LabelLetters(block[s..|block| - 1])
      && |rec.options| > 0 && rec.options[0][0] == block[s][0]
      && rec.options == GroupOptions(block[s..|block| - 1])
      && (IsAnswerLine(block[|block| - 1]) ==> rec.answer == Some(block[|block| - 1]))
  {
    var s := FirstOptionStart(block, 0).value;
    var body := block[s..|block| - 1];
    var last := block[|block| - 1];
    var opts := AssembleOptions(body, None, []);
    assert BlockRecord(block).value == PdfRecord(BlockQuestion(block[..s]), opts, BlockAnswer(last));
    AssembleOptionsGroups(body);
    assert LeadingContinuations(body) == 0 && body[0..] == body;
    AssembleLetters(body, None, []);
    assert Letters([]) + CurrentLetter(None) == [];
    assert Letters(opts) == LabelLetters(body);
    assert body[0] == block[s];
    assert LabelLetters(body) == [block[s][0]] + LabelLetters(body[1..]);
    assert Letters(opts)[0] == opts[0][0];
    if IsAnswerLine(last) {
      AnswerLineKept(last);
    }
  }

  /** The records of the kept blocks, in order. */
  function Records(blocks: seq<seq<string>>): (r: seq<PdfRecord>)
    ensures |r| <= |blocks|
    decreases |blocks|
  {
    if |blocks| == 0 then []
    else
      var rec := BlockRecord(blocks[0]);
      (if rec.Some? then [rec.value] else []) + Records(blocks[1..])
  }

  /** The records of one page: its lines grouped from an empty block. */
  function ExtractPage(raw: seq<string>): seq<PdfRecord>
  {
    Records(Group(PageLines(raw), []))
  }

  /** `extract_qa_pairs_from_pdf`: the pages' records, page after page. */
  function ExtractPdf(pages: seq<seq<string>>): (r: seq<PdfRecord>)
    decreases |pages|
  {
    if |pages| == 0 then [] else ExtractPage(pages[0]) + ExtractPdf(pages[1..])
  }

  /** Blocks never cross a page: extracting two runs of pages together gives
      the records of each run, one after the other. */
  lemma {:induction false} ExtractPdfConcat(a: seq<seq<string>>, b: seq<seq<string>>)
    ensures ExtractPdf(a + b) == ExtractPdf(a) + ExtractPdf(b)
    decreases |a|
  {
    if |a| == 0 {
      assert a + b == b;
    } else {
      assert (a + b)[0] == a[0];
      assert (a + b)[1..] == a[1..] + b;
      ExtractPdfConcat(a[1..], b);
    }
  }

  // ---------------------------------------------------------------------------
  // Formatting
  // ---------------------------------------------------------------------------

  /** `f"{answer}"`: a missing answer prints as `None`. */
  function AnswerText(answer: Option<string>): string
  {
    if answer.Some? then answer.value else "None"
  }

  function PdfCard(r: PdfRecord, qaSep: string): string
  {
    Cards.Card(r.question, r.options, qaSep + AnswerText(r.answer))
  }

  /** `format_qa_pairs(qa_pairs, qa_separator, card_separator)`. */
  function FormatQaPairs(records: seq<PdfRecord>, qaSep: string, cardSep: string): string
  {
    Join(seq(|records|, k requires 0 <= k < |records| => PdfCard(records[k], qaSep)), cardSep)
  }

  /** A record whose card can be read back: no field holds a line break and
      no option is empty. */
  ghost predicate Readable(r: PdfRecord) {
    && '\n' !in r.question
    && (forall i :: 0 <= i < |r.options| ==> '\n' !in r.options[i] && r.options[i] != [])
    && (r.answer.Some? ==> '\n' !in r.answer.value)
  }

  /** With the blank-line card separator of `save_to_txt`, readable records
      read back card by card, and each card line by line: the question,
      each option, and the answer after the separator on the last line. */
  lemma FormatReadBack(records: seq<PdfRecord>, qaSep: string)
    requires |records| > 0 && '\n' !in qaSep
    requires forall k :: 0 <= k < |records| ==> Readable(records[k])
    ensures var cards := Split(FormatQaPairs(records, qaSep, BlankLine), BlankLine);
      && |cards| == |records|
      && forall k :: 0 <= k < |records| ==>
           Split(cards[k], "\n") == Cards.CardLines(records[k].question, records[k].options, qaSep + AnswerText(records[k].answer))
  {
    var cards := seq(|records|, k requires 0 <= k < |records| => PdfCard(records[k], qaSep));
    forall k | 0 <= k < |records|
      ensures NoBlankLine(cards[k])
      ensures Split(cards[k], "\n") == Cards.CardLines(records[k].question, records[k].options, qaSep + AnswerText(records[k].answer))
    {
      var r := records[k];
      var tail := qaSep + AnswerText(r.answer);
      assert '\n' !in tail;
      Cards.CardNoBlankLine(r.question, r.options, tail);
      Cards.CardSplit(r.question, r.options, tail);
    }
    Cards.CardsSplit(cards);
  }

  lemma BlockReadable(block: seq<string>)
    requires forall i :: 0 <= i < |block| ==> '\n' !in block[i]
    requires BlockRecord(block).Some?
    ensures Readable(BlockRecord(block).value)
  {
    var s := FirstOptionStart(block, 0).value;
    var rec := BlockRecord(block).value;
    var pre := block[..s];
    JoinAvoids(pre, " ", '\n');
    ReplaceAvoids(Join(pre, " "), NameInParens, "", '\n');
    StripAvoids(Replace(Join(pre, " "), NameInParens, ""), '\n');
    AssembleLetters(block[s..|block| - 1], None, []);
    AssembleAvoids(block[s..|block| - 1], None, [], '\n');
    var last := block[|block| - 1];
    if Contains("ABCDE", last) {
      AnswerIsLastLine(last);
    }
  }

  lemma {:induction false} RecordsReadable(blocks: seq<seq<string>>)
    requires forall k, i :: 0 <= k < |blocks| && 0 <= i < |blocks[k]| ==> '\n' !in blocks[k][i]
    ensures forall k :: 0 <= k < |Records(blocks)| ==> Readable(Records(blocks)[k])
    decreases |blocks|
  {
    if |blocks| > 0 {
      RecordsReadable(blocks[1..]);
      if BlockRecord(blocks[0]).Some? {
        BlockReadable(blocks[0]);
      }
    }
  }

  lemma {:induction false} PageLinesAvoid(raw: seq<string>, c: char)
    requires forall i :: 0 <= i < |raw| ==> c !in raw[i]
    ensures forall i :: 0 <= i < |PageLines(raw)| ==> c !in PageLines(raw)[i]
    decreases |raw|
  {
    if |raw| > 0 {
      StripAvoids(raw[0], c);
      PageLinesAvoid(raw[1..], c);
    }
  }

  lemma {:induction false} ExtractReadable(pages: seq<seq<string>>)
    requires forall p, i :: 0 <= p < |pages| && 0 <= i < |pages[p]| ==> '\n' !in pages[p][i]
    ensures forall k :: 0 <= k < |ExtractPdf(pages)| ==> Readable(ExtractPdf(pages)[k])
    decreases |pages|
  {
    if |pages| > 0 {
      var lines := PageLines(pages[0]);
      PageLinesAvoid(pages[0], '\n');
      GroupAvoids(lines, [], '\n');
      RecordsReadable(Group(lines, []));
      ExtractReadable(pages[1..]);
    }
  }

  /** Whatever the extractor produces from lines without line breaks can be
      read back from the text it writes. */
  lemma ExtractThenFormat(pages: seq<seq<string>>, qaSep: string)
    requires forall p, i :: 0 <= p < |pages| && 0 <= i < |pages[p]| ==> '\n' !in pages[p][i]
    requires '\n' !in qaSep && |ExtractPdf(pages)| > 0
    ensures var r := ExtractPdf(pages);
      var cards := Split(FormatQaPairs(r, qaSep, BlankLine), BlankLine);
      && |cards| == |r|
      && forall k :: 0 <= k < |r| ==>
           Split(cards[k], "\n") == Cards.CardLines(r[k].question, r[k].options, qaSep + AnswerText(r[k].answer))
  {
    ExtractReadable(pages);
    FormatReadBack(ExtractPdf(pages), qaSep);
  }
}

=== FILE: split_chunks.dfy ===
/** `split_raw_text_data` and `merge_chunks`: the raw extracted text is cut
    into windows of whole lines, each window's stripped text becomes a
    numbered chunk file, and the chunk files can be merged back.

    A window starts where the previous one ended. Its nominal length is
    `lines_per_chunk`; when that does not reach the end of the text, the
    boundary moves to just after the last "good break" line found by scanning
    backwards from the first line past the window into its last fifth. */
module SplitChunks {
  import opened Text
  import opened Files

  function Max(a: int, b: int): int { if a >= b then a else b }

  function Min(a: int, b: int): int { if a <= b then a else b }

  // ---------------------------------------------------------------------------
  // Window sizes
  // ---------------------------------------------------------------------------

  /** `lines_per_question`: `total_lines // (chunk_size * 10)`, but at least 8. */
  function LinesPerQuestion(total: nat, chunkSize: nat): (r: nat)
    requires chunkSize > 0
    ensures r >= 8
    ensures r > 8 ==> r * (chunkSize * 10) <= total < (r + 1) * (chunkSize * 10)
    ensures r == 8 <==> total < 9 * (chunkSize * 10)
  {
    var d := chunkSize * 10;
    var q := total / d;
    DivBounds(total, d);
    if q <= 8 then
      MulMonotone(q + 1, 9, d);
      8
    else
      MulMonotone(9, q, d);
      q
  }

  /** Floor division brackets the dividend. */
  lemma DivBounds(n: nat, d: nat)
    requires d > 0
    ensures (n / d) * d <= n < (n / d + 1) * d
  {
  }

  lemma MulMonotone(a: nat, b: nat, d: nat)
    requires a <= b
    ensures a * d <= b * d
  {
  }

  /** `lines_per_chunk`: `chunk_size` questions of the estimated length. A
      window then holds at least eight lines per question, and about a tenth
      of the file: less than a tenth plus one line per question, and no
      more than a tenth unless the eight-line floor applies. */
  function LinesPerChunk(total: nat, chunkSize: nat): (r: nat)
    requires chunkSize > 0
    ensures r >= 8 * chunkSize
    ensures total < 10 * (r + chunkSize)
    ensures r > 8 * chunkSize ==> 10 * r <= total
  {
    var q := LinesPerQuestion(total, chunkSize);
    assert chunkSize * q >= chunkSize * 8;
    assert total < (q + 1) * (chunkSize * 10);
    assert (q + 1) * (chunkSize * 10) == 10 * (chunkSize * q + chunkSize);
    assert q * (chunkSize * 10) == 10 * (chunkSize * q);
    assert q == 8 ==> chunkSize * q == 8 * chunkSize;
    chunkSize * q
  }

  /** `max(start_idx + int(lines_per_chunk * 0.8), start_idx + 1)`: the
      lowest index the backward scan looks at. */
  function SearchStart(start: nat, lpc: nat): nat {
    Max(start + (lpc * 4) / 5, start + 1)
  }

  // ---------------------------------------------------------------------------
  // Good break lines
  // ---------------------------------------------------------------------------

  /** `re.match(r"^[A-Z].*\?$", line)` on a stripped line: an upper-case
      ASCII letter first, `?` last, and no newline in between. */
  predicate QuestionLine(line: string) {
    && |line| >= 2
    && IsUpperAscii(line[0])
    && line[|line| - 1] == '?'
    && forall i :: 0 < i < |line| - 1 ==> line[i] != '\n'
  }

  /** `re.match(r"^\d+\.", line)`: one or more digits, then a dot. */
  predicate NumberedLine(line: string)
    decreases |line|
  {
    |line| >= 2 && IsDigit(line[0]) && (line[1] == '.' || NumberedLine(line[1..]))
  }

  /** `len(line) > 50 and "?" in line`. */
  predicate LongQuestionLine(line: string) {
    |line| > 50 && '?' in line
  }

  /** A stripped line the window may end after. */
  predicate BreakLine(line: string) {
    line == [] || QuestionLine(line) || NumberedLine(line) || LongQuestionLine(line)
  }

  /** Line `i` exists (`i < len(lines)`) and is a good break once stripped. */
  predicate BreakAt(lines: seq<string>, i: int) {
    0 <= i < |lines| && BreakLine(Strip(lines[i]))
  }

  /** `for i in range(hi, lo - 1, -1)`: the first index met, scanning down
      from `hi` to `lo`, that is a good break. */
  function LastBreak(lines: seq<string>, lo: nat, hi: int): (r: Option<nat>)
    ensures r.Some? ==> lo <= r.value <= hi && BreakAt(lines, r.value)
    ensures r.Some? ==> forall i :: r.value < i <= hi ==> !BreakAt(lines, i)
    ensures r.None? ==> forall i :: lo <= i <= hi ==> !BreakAt(lines, i)
    decreases if hi < lo then 0 else hi - lo + 1
  {
    if hi < lo then None
    else if BreakAt(lines, hi) then Some(hi)
    else LastBreak(lines, lo, hi - 1)
  }

  /** `end_idx` after the search: the nominal end when it reaches the last
      line; otherwise one past the highest good break in
      `[search_start, start + lines_per_chunk]`, or the nominal end when
      there is none. The window may therefore hold `lines_per_chunk + 1`
      lines, and always holds at least one. */
  function WindowEnd(lines: seq<string>, start: nat, lpc: nat): (r: nat)
    requires start < |lines| && lpc > 0
    ensures start < r <= |lines|
    ensures r - start <= lpc + 1
    ensures start + lpc >= |lines| ==> r == |lines|
    ensures start + lpc < |lines| ==>
      || (r == start + lpc
          && forall i :: SearchStart(start, lpc) <= i <= start + lpc ==> !BreakAt(lines, i))
      || (SearchStart(start, lpc) < r <= start + lpc + 1
          && BreakAt(lines, r - 1)
          && forall i :: r <= i <= start + lpc ==> !BreakAt(lines, i))
  {
    var end := Min(start + lpc, |lines|);
    if end < |lines| then
      match LastBreak(lines, SearchStart(start, lpc), end)
      case Some(i) => i + 1
      case None => end
    else end
  }

  // ---------------------------------------------------------------------------
  // Windows and chunks
  // ---------------------------------------------------------------------------

  /** Half-open line ranges inside `lines`. */
  predicate ValidWindows(lines: seq<string>, ws: seq<(nat, nat)>) {
    forall k :: 0 <= k < |ws| ==> ws[k].0 <= ws[k].1 <= |lines|
  }

  /** Windows that tile the lines from `start` on: none exactly when
      nothing is left, the first starting at `start`, the last ending at the
      end of the text, each non-empty and at most `lpc + 1` lines long, and
      each starting where the previous one ended. */
  predicate Tiles(lines: seq<string>, lpc: nat, start: nat, ws: seq<(nat, nat)>) {
    && ValidWindows(lines, ws)
    && (ws == [] <==> start == |lines|)
    && (ws != [] ==> ws[0].0 == start && ws[|ws| - 1].1 == |lines|)
    && (forall k :: 0 <= k < |ws| ==> ws[k].0 < ws[k].1 <= ws[k].0 + lpc + 1)
    && (forall j, k :: 0 <= j < |ws| && 0 <= k < |ws| && k == j + 1 ==> ws[j].1 == ws[k].0)
  }

  /** A window in front of a tiling of the rest tiles from its start. */
  lemma TilesCons(lines: seq<string>, lpc: nat, start: nat, e: nat, rest: seq<(nat, nat)>)
    requires start < e <= |lines| && e <= start + lpc + 1
    requires Tiles(lines, lpc, e, rest)
    ensures Tiles(lines, lpc, start, [(start, e)] + rest)
  {
    var r := [(start, e)] + rest;
    assert r[0] == (start, e);
    assert forall k :: 1 <= k < |r| ==> r[k] == rest[k - 1];
  }

  /** The `(start_idx, end_idx)` pairs of the loop, from `start` on. */
  function Windows(lines: seq<string>, lpc: nat, start: nat): (r: seq<(nat, nat)>)
    requires start <= |lines| && lpc > 0
    ensures Tiles(lines, lpc, start, r)
    decreases |lines| - start
  {
    if start == |lines| then []
    else
      var e := WindowEnd(lines, start, lpc);
      var rest := Windows(lines, lpc, e);
      TilesCons(lines, lpc, start, e, rest);
      [(start, e)] + rest
  }

  /** The lines the windows cover, in order. */
  function LinesOf(lines: seq<string>, ws: seq<(nat, nat)>): seq<string>
    requires ValidWindows(lines, ws)
  {
    if |ws| == 0 then [] else lines[ws[0].0..ws[0].1] + LinesOf(lines, ws[1..])
  }

  /** The windows tile the text: their lines, put back together, are exactly
      the lines from `start` on, each once and in order. */
  lemma {:induction false} WindowsPartition(lines: seq<string>, lpc: nat, start: nat)
    requires start <= |lines| && lpc > 0
    ensures LinesOf(lines, Windows(lines, lpc, start)) == lines[start..]
    decreases |lines| - start
  {
    if start < |lines| {
      var e := WindowEnd(lines, start, lpc);
      WindowsPartition(lines, lpc, e);
      SliceSplit(lines, start, e);
    }
  }

  lemma SliceSplit(lines: seq<string>, i: nat, j: nat)
    requires i <= j <= |lines|
    ensures lines[i..j] + lines[j..] == lines[i..]
  {
  }

  /** `"\n".join(lines[start_idx:end_idx]).strip()`. */
  function ChunkText(lines: seq<string>, w: (nat, nat)): string
    requires w.0 <= w.1 <= |lines|
  {
    Strip(Join(lines[w.0..w.1], "\n"))
  }

  /** The chunks of the windows, dropping those whose text is blank. */
  function ChunksOf(lines: seq<string>, ws: seq<(nat, nat)>): (r: seq<string>)
    requires ValidWindows(lines, ws)
    ensures |r| <= |ws|
    ensures forall k :: 0 <= k < |r| ==> Trimmed(r[k])
  {
    if |ws| == 0 then []
    else
      var c := ChunkText(lines, ws[0]);
      (if c != [] then [c] else []) + ChunksOf(lines, ws[1..])
  }

  /** A chunk is emitted exactly for the windows whose stripped text is not
      empty, and nothing else is emitted. */
  lemma {:induction false} ChunksOfMembers(lines: seq<string>, ws: seq<(nat, nat)>, c: string)
    requires ValidWindows(lines, ws)
    ensures c in ChunksOf(lines, ws) <==>
      c != [] && exists k :: 0 <= k < |ws| && ChunkText(lines, ws[k]) == c
    decreases |ws|
  {
    if |ws| > 0 {
      ChunksOfMembers(lines, ws[1..], c);
      if exists k :: 0 <= k < |ws| && ChunkText(lines, ws[k]) == c {
        var k :| 0 <= k < |ws| && ChunkText(lines, ws[k]) == c;
        if k > 0 {
          assert ws[1..][k - 1] == ws[k];
        }
      }
      if exists k :: 0 <= k < |ws[1..]| && ChunkText(lines, ws[1..][k]) == c {
        var k :| 0 <= k < |ws[1..]| && ChunkText(lines, ws[1..][k]) == c;
        assert ws[k + 1] == ws[1..][k];
      }
    }
  }

  // ---------------------------------------------------------------------------
  // The loop
  // ---------------------------------------------------------------------------

  /** One turn of the loop: the first window's chunk, if not blank, then the
      chunks of the windows after it. */
  lemma ChunksStep(lines: seq<string>, lpc: nat, start: nat)
    requires start < |lines| && lpc > 0
    ensures var e := WindowEnd(lines, start, lpc);
      var c := ChunkText(lines, (start, e));
      ChunksOf(lines, Windows(lines, lpc, start))
        == (if c != [] then [c] else []) + ChunksOf(lines, Windows(lines, lpc, e))
  {
    var e := WindowEnd(lines, start, lpc);
    var ws := Windows(lines, lpc, start);
    assert ws[0] == (start, e);
    assert ws[1..] == Windows(lines, lpc, e);
  }

  /** The `while start_idx < total_lines` loop with its backward scan, as
      written: it visits exactly the windows of `Windows` and collects their
      non-blank chunks. */
  method SplitLines(lines: seq<string>, lpc: nat) returns (chunks: seq<string>)
    requires lpc > 0
    ensures chunks == ChunksOf(lines, Windows(lines, lpc, 0))
  {
    chunks := [];
    var start: nat := 0;
    while start < |lines|
      invariant start <= |lines|
      invariant chunks + ChunksOf(lines, Windows(lines, lpc, start)) == ChunksOf(lines, Windows(lines, lpc, 0))
      decreases |lines| - start
    {
      var end := FindEnd(lines, start, lpc);
      var chunk := Strip(Join(lines[start..end], "\n"));
      LoopStep(lines, lpc, start, chunks);
      if chunk != [] {
        chunks := chunks + [chunk];
      }
      start := end;
    }
  }

  /** What one turn of the loop keeps: the chunks collected so far, then
      those of the remaining windows, are all the chunks. */
  lemma LoopStep(lines: seq<string>, lpc: nat, start: nat, chunks: seq<string>)
    requires start < |lines| && lpc > 0
    requires chunks + ChunksOf(lines, Windows(lines, lpc, start)) == ChunksOf(lines, Windows(lines, lpc, 0))
    ensures var e := WindowEnd(lines, start, lpc);
      var c := Strip(Join(lines[start..e], "\n"));
      (if c != [] then chunks + [c] else chunks) + ChunksOf(lines, Windows(lines, lpc, e))
        == ChunksOf(lines, Windows(lines, lpc, 0))
  {
    var e := WindowEnd(lines, start, lpc);
    var c := Strip(Join(lines[start..e], "\n"));
    var emitted := if c != [] then [c] else [];
    var rest := ChunksOf(lines, Windows(lines, lpc, e));
    ChunksStep(lines, lpc, start);
    Regroup(chunks, emitted, rest);
    if c == [] {
      assert chunks + emitted == chunks;
    }
  }

  lemma Regroup(a: seq<string>, b: seq<string>, c: seq<string>)
    ensures a + (b + c) == (a + b) + c
  {
  }

  /** `end_idx` for the window at `start_idx`: the nominal end, moved by the
      backward scan when it does not reach the last line. */
  method FindEnd(lines: seq<string>, start: nat, lpc: nat) returns (end: nat)
    requires start < |lines| && lpc > 0
    ensures end == WindowEnd(lines, start, lpc)
  {
    end := Min(start + lpc, |lines|);
    if end < |lines| {
      var lo := SearchStart(start, lpc);
      var nominal := end;
      var i: int := end;
      while i >= lo
        invariant lo - 1 <= i <= nominal
        invariant end == nominal
        invariant LastBreak(lines, lo, i) == LastBreak(lines, lo, nominal)
        decreases i
      {
        if i < |lines| && BreakLine(Strip(lines[i])) {
          end := i + 1;
          break;
        }
        i := i - 1;
      }
    }
  }

  // ---------------------------------------------------------------------------
  // The whole split
  // ---------------------------------------------------------------------------

  /** What `split_raw_text_data` does with the text it read. */
  datatype SplitOutcome =
    | NoContent
      // the stripped text is empty: nothing is written
    | ChunkSizeZero
      // `total_lines // 0` raises, the error is reported and nothing is written
    | Written(totalLines: nat, linesPerChunk: nat, chunks: seq<string>)

  /** The split of the text read from the input file. */
  function SplitRawTextData(content: string, chunkSize: nat): (r: SplitOutcome)
    ensures r.NoContent? <==> Strip(content) == []
    ensures r.ChunkSizeZero? <==> Strip(content) != [] && chunkSize == 0
    ensures r.Written? ==>
      && r.totalLines == |Split(Strip(content), "\n")|
      && r.linesPerChunk == LinesPerChunk(r.totalLines, chunkSize)
      && forall k :: 0 <= k < |r.chunks| ==> Trimmed(r.chunks[k])
  {
    var text := Strip(content);
    if text == [] then NoContent
    else if chunkSize == 0 then ChunkSizeZero
    else
      var lines := Split(text, "\n");
      var lpc := LinesPerChunk(|lines|, chunkSize);
      Written(|lines|, lpc, ChunksOf(lines, Windows(lines, lpc, 0)))
  }

  /** The chunks of a split are the stripped texts of windows that tile the
      lines of the stripped input, each window at most one line longer than
      `lines_per_chunk`. */
  lemma SplitChunksTileInput(content: string, chunkSize: nat)
    requires SplitRawTextData(content, chunkSize).Written?
    ensures var r := SplitRawTextData(content, chunkSize);
      var lines := Split(Strip(content), "\n");
      var ws := Windows(lines, r.linesPerChunk, 0);
      && r.chunks == ChunksOf(lines, ws)
      && LinesOf(lines, ws) == lines
      && (forall k :: 0 <= k < |ws| ==> ws[k].1 - ws[k].0 <= r.linesPerChunk + 1)
  {
    var lines := Split(Strip(content), "\n");
    WindowsPartition(lines, LinesPerChunk(|lines|, chunkSize), 0);
  }

  // ---------------------------------------------------------------------------
  // Chunk files
  // ---------------------------------------------------------------------------

  const ChunkPrefix: string := "raw_chunk_"

  const SummaryName: string := "raw_chunk_summary.txt"

  /** `f"raw_chunk_{k + 1:03d}.txt"` for the chunk at 0-based position `k`. */
  function ChunkName(k: nat): (r: string)
    ensures RawChunkName(r) && |r| >= 17 && IsDigit(r[10])
    ensures k < 999 ==> |r| == 17
  {
    var d := ZeroPad3(k + 1);
    var r := ChunkPrefix + d + ".txt";
    assert r[..10] == ChunkPrefix;
    assert r[|r| - 4..] == ".txt";
    assert r[10] == d[0];
    r
  }

  /** The summary's name passes the `raw_chunk_*.txt` filter; its eleventh
      character is a letter where every chunk name has a digit. */
  lemma SummaryNameShape()
    ensures RawChunkName(SummaryName) && |SummaryName| == 21 && SummaryName[10] == 's'
  {
    assert SummaryName[..10] == ChunkPrefix;
    assert SummaryName[17..] == ".txt";
  }

  lemma ChunkNameNotSummary(k: nat)
    ensures ChunkFileName(ChunkName(k))
  {
    SummaryNameShape();
    assert ChunkName(k)[10] != SummaryName[10];
  }

  /** `len(text.split())`: the number of maximal runs of non-space characters. */
  function WordCount(s: string): nat {
    if |s| == 0 then 0
    else
      var n := |s| - 1;
      WordCount(s[..n]) + (if !IsSpace(s[n]) && (n == 0 || IsSpace(s[n - 1])) then 1 else 0)
  }

  /** `text.count("?")`. */
  function QuestionMarks(s: string): nat {
    multiset(s)['?']
  }

  /** `ch * n`. */
  function Repeat(ch: char, n: nat): (r: string)
    ensures |r| == n && forall i :: 0 <= i < n ==> r[i] == ch
  {
    seq(n, _ => ch)
  }

  /** The per-chunk lines of the summary, from chunk `k` on. */
  function ChunkDetails(chunks: seq<string>, k: nat): string
    requires k <= |chunks|
    decreases |chunks| - k
  {
    if k == |chunks| then ""
    else
      ChunkName(k) + ": ~" + NatToString(QuestionMarks(chunks[k])) + " questions, "
      + NatToString(WordCount(chunks[k])) + " words\n" + ChunkDetails(chunks, k + 1)
  }

  /** The text of `raw_chunk_summary.txt`. */
  function SummaryText(inputFile: string, totalLines: nat, chunkSize: nat, chunks: seq<string>): (r: string)
    ensures |r| > 0 && r[0] == 'R'
  {
    "Raw Text Split Summary\n" + Repeat('=', 25) + "\n\n"
    + "Original file: " + inputFile + "\n"
    + "Total lines: " + NatToString(totalLines) + "\n"
    + "Target chunk size: " + NatToString(chunkSize) + " questions\n"
    + "Total chunks created: " + NatToString(|chunks|) + "\n\n"
    + "Chunk Details:\n" + Repeat('-', 15) + "\n"
    + ChunkDetails(chunks, 0)
  }

  /** The chunk files, in writing order. */
  function ChunkFiles(chunks: seq<string>): (r: seq<FileEntry>)
    ensures |r| == |chunks|
    ensures forall k :: 0 <= k < |r| ==> r[k] == FileEntry(ChunkName(k), chunks[k])
  {
    seq(|chunks|, k requires 0 <= k < |chunks| => FileEntry(ChunkName(k), chunks[k]))
  }

  /** The output directory after `split_raw_text_data`: created when missing,
      then the chunk files and the summary written into it. */
  function SplitDir(d: Dir, inputFile: string, content: string, chunkSize: nat): (r: Dir)
    ensures r.Present?
  {
    var out := if d.Missing? then Present([]) else d;
    match SplitRawTextData(content, chunkSize)
    case Written(total, _, chunks) => WriteAll(out, SplitFiles(chunks, SummaryText(inputFile, total, chunkSize, chunks)))
    case _ => out
  }

  /** The files a split writes, in writing order: the chunks, then the
      summary. */
  function SplitFiles(chunks: seq<string>, summary: string): (r: seq<FileEntry>)
    ensures |r| == |chunks| + 1 && r[|chunks|] == FileEntry(SummaryName, summary)
  {
    ChunkFiles(chunks) + [FileEntry(SummaryName, summary)]
  }

  // ---------------------------------------------------------------------------
  // Merging chunk files
  // ---------------------------------------------------------------------------

  /** The name filter of `merge_chunks`: `raw_chunk_*.txt`. */
  predicate RawChunkName(name: string) {
    StartsWith(name, ChunkPrefix) && EndsWith(name, ".txt")
  }

  /** `merge_chunks` as written: every `raw_chunk_*.txt` file, which also
      takes in `raw_chunk_summary.txt`. */
  function MergeChunks(d: Dir): (r: MergeOutcome)
    ensures r.DirMissing? <==> d.Missing?
    ensures r.NoChunkFiles? <==> d.Present? && forall e :: e in d.entries ==> !RawChunkName(e.name)
    ensures r.Merged? ==> r.fileCount > 0
  {
    MergeSelected(d, RawChunkName)
  }

  /** The chunk files proper: `raw_chunk_*.txt` except the summary. */
  predicate ChunkFileName(name: string) {
    RawChunkName(name) && name != SummaryName
  }

  /** `merge_chunks` as evidently intended: the chunk files without the
      summary. */
  function MergeChunkFiles(d: Dir): (r: MergeOutcome)
    ensures r.DirMissing? <==> d.Missing?
    ensures r.NoChunkFiles? <==> d.Present? && forall e :: e in d.entries ==> !ChunkFileName(e.name)
    ensures r.Merged? ==> r.fileCount > 0
  {
    MergeSelected(d, ChunkFileName)
  }

  /** The two merges differ only on the summary file: without it they agree. */
  lemma MergesAgreeWithoutSummary(entries: seq<FileEntry>)
    requires forall i :: 0 <= i < |entries| ==> entries[i].name != SummaryName
    ensures MergeChunks(Present(entries)) == MergeChunkFiles(Present(entries))
  {
    SelectAgree(entries, RawChunkName, ChunkFileName);
  }

  // ---------------------------------------------------------------------------
  // Name order of the files a split writes
  // ---------------------------------------------------------------------------

  /** Two strings agreeing up to `i` and smaller at `i` are ordered. */
  lemma {:induction false} LexLessAt(a: string, b: string, i: nat)
    requires i < |a| && i < |b| && a[..i] == b[..i] && a[i] < b[i]
    ensures LexLess(a, b)
    decreases i
  {
    if i > 0 {
      assert a[0] == a[..i][0] == b[..i][0] == b[0];
      assert a[1..][..i - 1] == a[..i][1..] == b[..i][1..] == b[1..][..i - 1];
      LexLessAt(a[1..], b[1..], i - 1);
    }
  }

  lemma DigitCharMonotone(d: nat, e: nat)
    requires d < e < 10
    ensures DigitChar(d) < DigitChar(e)
  {
  }

  /** The first differing decimal digit of two three-digit numbers is
      smaller in the smaller number. */
  lemma DigitOrder(n: nat, m: nat)
    requires n < m < 1000
    ensures || n / 100 < m / 100
            || (n / 100 == m / 100 && (n / 10) % 10 < (m / 10) % 10)
            || (n / 100 == m / 100 && (n / 10) % 10 == (m / 10) % 10 && n % 10 < m % 10)
  {
    assert n == 100 * (n / 100) + 10 * ((n / 10) % 10) + n % 10;
    assert m == 100 * (m / 100) + 10 * ((m / 10) % 10) + m % 10;
  }

  /** Three-digit renderings sort in numeric order. */
  lemma ZeroPad3Ordered(n: nat, m: nat)
    requires n < m < 1000
    ensures LexLess(ZeroPad3(n), ZeroPad3(m))
  {
    var a := ZeroPad3(n);
    var b := ZeroPad3(m);
    ZeroPad3Digits(n);
    ZeroPad3Digits(m);
    DigitOrder(n, m);
    if n / 100 != m / 100 {
      LexLessAt(a, b, 0);
    } else if (n / 10) % 10 != (m / 10) % 10 {
      LexLessAt(a, b, 1);
    } else {
      LexLessAt(a, b, 2);
    }
  }

  /** Between strings of equal length, suffixes do not change the order. */
  lemma {:induction false} LexLessSuffix(x: string, y: string, s: string, t: string)
    requires |x| == |y| && LexLess(x, y)
    ensures LexLess(x + s, y + t)
    decreases |x|
  {
    assert (x + s)[0] == x[0] && (y + t)[0] == y[0];
    if x[0] == y[0] {
      assert (x + s)[1..] == x[1..] + s;
      assert (y + t)[1..] == y[1..] + t;
      LexLessSuffix(x[1..], y[1..], s, t);
    }
  }

  /** Chunk names sort in chunk order while the numbers have three digits. */
  lemma ChunkNamesOrdered(j: nat, k: nat)
    requires j < k < 999
    ensures LexLess(ChunkName(j), ChunkName(k))
  {
    ZeroPad3Ordered(j + 1, k + 1);
    LexLessSuffix(ZeroPad3(j + 1), ZeroPad3(k + 1), ".txt", ".txt");
    LexLessPrefix(ChunkPrefix, ZeroPad3(j + 1) + ".txt", ZeroPad3(k + 1) + ".txt");
    assert ChunkName(j) == ChunkPrefix + (ZeroPad3(j + 1) + ".txt");
    assert ChunkName(k) == ChunkPrefix + (ZeroPad3(k + 1) + ".txt");
  }

  /** Every chunk name sorts before the summary's: a digit comes before `s`. */
  lemma ChunkBeforeSummary(k: nat)
    ensures LexLess(ChunkName(k), SummaryName)
  {
    var a := ChunkName(k);
    var d := ZeroPad3(k + 1);
    assert a == ChunkPrefix + d + ".txt";
    assert a[10] == d[0];
    assert a[..10] == SummaryName[..10];
    LexLessAt(a, SummaryName, 10);
  }

  lemma LexLessDiffers(a: string, b: string)
    requires LexLess(a, b)
    ensures a != b
  {
    LexLessIrreflexive(a);
  }

  /** The chunk files, and the chunk files followed by the summary, are
      already in name order and have distinct names. */
  lemma SplitFilesSorted(chunks: seq<string>, summary: string)
    requires |chunks| <= 999
    ensures SortedByName(ChunkFiles(chunks)) && DistinctNames(ChunkFiles(chunks))
    ensures SortedByName(SplitFiles(chunks, summary)) && DistinctNames(SplitFiles(chunks, summary))
  {
    var fs := ChunkFiles(chunks);
    var all := SplitFiles(chunks, summary);
    forall i, j | 0 <= i < j < |all|
      ensures LexLess(all[i].name, all[j].name)
    {
      if j < |fs| {
        ChunkNamesOrdered(i, j);
      } else {
        ChunkBeforeSummary(i);
      }
    }
    forall i, j | 0 <= i < j < |all|
      ensures all[i].name != all[j].name
    {
      LexLessDiffers(all[i].name, all[j].name);
    }
    assert forall i :: 0 <= i < |fs| ==> all[i] == fs[i];
  }

  /** Every file a split writes passes the `raw_chunk_*.txt` filter, and only
      the summary is refused by the chunk-file filter. */
  lemma SplitFilesNamed(chunks: seq<string>, summary: string)
    ensures forall k :: 0 <= k < |chunks| + 1 ==> RawChunkName(SplitFiles(chunks, summary)[k].name)
    ensures forall k :: 0 <= k < |chunks| ==> ChunkFileName(ChunkFiles(chunks)[k].name)
    ensures !ChunkFileName(SummaryName)
  {
    var files := SplitFiles(chunks, summary);
    SummaryNameShape();
    forall k | 0 <= k < |files|
      ensures RawChunkName(files[k].name)
    {
      if k < |files| - 1 {
        assert files[k] == ChunkFiles(chunks)[k];
      }
    }
    forall k | 0 <= k < |chunks|
      ensures ChunkFileName(ChunkFiles(chunks)[k].name)
    {
      ChunkNameNotSummary(k);
    }
  }

  // ---------------------------------------------------------------------------
  // Split, then merge
  // ---------------------------------------------------------------------------

  /** An output directory that holds no `raw_chunk_*.txt` file yet. */
  predicate FreshOutput(d: Dir) {
    d.Present? ==> forall i :: 0 <= i < |d.entries| ==> !RawChunkName(d.entries[i].name)
  }

  /** Writing the split's files into a directory holding no `raw_chunk_*.txt`
      file appends them. */
  lemma WriteSplitFiles(prior: seq<FileEntry>, chunks: seq<string>, summary: string)
    requires forall i :: 0 <= i < |prior| ==> !RawChunkName(prior[i].name)
    requires |chunks| <= 999
    ensures WriteAll(Present(prior), SplitFiles(chunks, summary)) == Present(prior + SplitFiles(chunks, summary))
  {
    SplitFilesSorted(chunks, summary);
    SplitFilesNamed(chunks, summary);
    WriteAllFresh(prior, SplitFiles(chunks, summary));
  }

  /** The `raw_chunk_*.txt` filter selects exactly the split's files. */
  lemma SelectRawChunks(prior: seq<FileEntry>, chunks: seq<string>, summary: string)
    requires forall i :: 0 <= i < |prior| ==> !RawChunkName(prior[i].name)
    ensures Select(prior + SplitFiles(chunks, summary), RawChunkName) == SplitFiles(chunks, summary)
  {
    SelectConcat(prior, SplitFiles(chunks, summary), RawChunkName);
    SelectNone(prior, RawChunkName);
    SelectRawChunksOfSplit(chunks, summary);
  }

  lemma SelectRawChunksOfSplit(chunks: seq<string>, summary: string)
    ensures Select(SplitFiles(chunks, summary), RawChunkName) == SplitFiles(chunks, summary)
  {
    SplitFilesNamed(chunks, summary);
    SelectAll(SplitFiles(chunks, summary), RawChunkName);
  }

  /** The chunk-file filter selects exactly the chunk files. */
  lemma SelectChunkFiles(prior: seq<FileEntry>, chunks: seq<string>, summary: string)
    requires forall i :: 0 <= i < |prior| ==> !RawChunkName(prior[i].name)
    ensures Select(prior + SplitFiles(chunks, summary), ChunkFileName) == ChunkFiles(chunks)
  {
    SelectConcat(prior, SplitFiles(chunks, summary), ChunkFileName);
    SelectNone(prior, ChunkFileName);
    SelectChunkFilesOfSplit(chunks, summary);
  }

  lemma SelectChunkFilesOfSplit(chunks: seq<string>, summary: string)
    ensures Select(SplitFiles(chunks, summary), ChunkFileName) == ChunkFiles(chunks)
  {
    var fs := ChunkFiles(chunks);
    var e := FileEntry(SummaryName, summary);
    SelectConcat(fs, [e], ChunkFileName);
    SplitFilesNamed(chunks, summary);
    SelectAll(fs, ChunkFileName);
    assert Select([e], ChunkFileName) == [];
  }

  /** Chunk files hold the chunks, which the merge's `strip()` leaves alone. */
  lemma ChunkFilesStripped(chunks: seq<string>)
    requires forall k :: 0 <= k < |chunks| ==> Trimmed(chunks[k])
    ensures StrippedContents(ChunkFiles(chunks)) == chunks
  {
    StrippedTrimmed(ChunkFiles(chunks));
  }

  /** Merging the chunk files next to the split's files gives the chunks'
      join. */
  lemma MergeChunkFilesOfSplit(prior: seq<FileEntry>, chunks: seq<string>, summary: string)
    requires forall i :: 0 <= i < |prior| ==> !RawChunkName(prior[i].name)
    requires |chunks| <= 999
    requires forall k :: 0 <= k < |chunks| ==> Trimmed(chunks[k])
    ensures MergeChunkFiles(Present(prior + SplitFiles(chunks, summary)))
      == (if chunks == [] then NoChunkFiles else Merged(Join(chunks, BlankLine), |chunks|))
  {
    var fs := ChunkFiles(chunks);
    SelectChunkFiles(prior, chunks, summary);
    SplitFilesSorted(chunks, summary);
    SortSorted(fs);
    ChunkFilesStripped(chunks);
    if chunks != [] {
      MergeSelectedOf(prior + SplitFiles(chunks, summary), ChunkFileName, fs);
    }
  }

  /** Merging every `raw_chunk_*.txt` file next to the split's files gives
      the chunks and the stripped summary, joined. */
  lemma MergeChunksOfSplit(prior: seq<FileEntry>, chunks: seq<string>, summary: string)
    requires forall i :: 0 <= i < |prior| ==> !RawChunkName(prior[i].name)
    requires |chunks| <= 999
    requires forall k :: 0 <= k < |chunks| ==> Trimmed(chunks[k])
    requires Strip(summary) != []
    ensures MergeChunks(Present(prior + SplitFiles(chunks, summary)))
      == Merged(Join(chunks + [Strip(summary)], BlankLine), |chunks| + 1)
  {
    var all := SplitFiles(chunks, summary);
    SelectRawChunks(prior, chunks, summary);
    SplitFilesSorted(chunks, summary);
    SortSorted(all);
    StrippedSnoc(ChunkFiles(chunks), FileEntry(SummaryName, summary));
    ChunkFilesStripped(chunks);
    MergeSelectedOf(prior + all, RawChunkName, all);
  }

  /** The directory a split into a fresh directory leaves behind. */
  lemma SplitDirAppends(d: Dir, inputFile: string, content: string, chunkSize: nat)
    requires FreshOutput(d)
    requires SplitRawTextData(content, chunkSize).Written?
    requires |SplitRawTextData(content, chunkSize).chunks| <= 999
    ensures var r := SplitRawTextData(content, chunkSize);
      var prior := if d.Missing? then [] else d.entries;
      SplitDir(d, inputFile, content, chunkSize)
        == Present(prior + SplitFiles(r.chunks, SummaryText(inputFile, r.totalLines, chunkSize, r.chunks)))
  {
    var r := SplitRawTextData(content, chunkSize);
    var prior := if d.Missing? then [] else d.entries;
    WriteSplitFiles(prior, r.chunks, SummaryText(inputFile, r.totalLines, chunkSize, r.chunks));
  }

  /** Splitting into a fresh directory and merging the chunk files gives the
      chunks back, joined by blank lines. */
  lemma MergeAfterSplitRoundTrip(d: Dir, inputFile: string, content: string, chunkSize: nat)
    requires FreshOutput(d)
    requires SplitRawTextData(content, chunkSize).Written?
    requires |SplitRawTextData(content, chunkSize).chunks| <= 999
    ensures var chunks := SplitRawTextData(content, chunkSize).chunks;
      MergeChunkFiles(SplitDir(d, inputFile, content, chunkSize))
        == (if chunks == [] then NoChunkFiles else Merged(Join(chunks, BlankLine), |chunks|))
  {
    var r := SplitRawTextData(content, chunkSize);
    var prior := if d.Missing? then [] else d.entries;
    SplitDirAppends(d, inputFile, content, chunkSize);
    MergeChunkFilesOfSplit(prior, r.chunks, SummaryText(inputFile, r.totalLines, chunkSize, r.chunks));
  }

  /** As written, the same merge also takes in the summary file, which sorts
      after every chunk: the merged text gains a blank line and the stripped
      summary, so it is never the chunks' join. */
  lemma MergeAfterSplitAddsSummary(d: Dir, inputFile: string, content: string, chunkSize: nat)
    requires FreshOutput(d)
    requires SplitRawTextData(content, chunkSize).Written?
    requires |SplitRawTextData(content, chunkSize).chunks| <= 999
    ensures var r := SplitRawTextData(content, chunkSize);
      var summary := SummaryText(inputFile, r.totalLines, chunkSize, r.chunks);
      var m := MergeChunks(SplitDir(d, inputFile, content, chunkSize));
      && m == Merged(Join(r.chunks + [Strip(summary)], BlankLine), |r.chunks| + 1)
      && m.text != Join(r.chunks, BlankLine)
  {
    var r := SplitRawTextData(content, chunkSize);
    var prior := if d.Missing? then [] else d.entries;
    var text := SummaryText(inputFile, r.totalLines, chunkSize, r.chunks);
    SplitDirAppends(d, inputFile, content, chunkSize);
    NotBlank(text);
    MergeChunksOfSplit(prior, r.chunks, text);
    JoinGrows(r.chunks, Strip(text));
  }

  /** A text starting with a letter survives `strip()`. */
  lemma NotBlank(text: string)
    requires |text| > 0 && text[0] == 'R'
    ensures Strip(text) != []
  {
    StripEmptyIff(text);
    assert !IsSpace(text[0]);
  }

  /** Joining one more non-empty part changes the text. */
  lemma JoinGrows(parts: seq<string>, x: string)
    requires x != []
    ensures Join(parts + [x], BlankLine) != Join(parts, BlankLine)
  {
    if parts == [] {
      assert parts + [x] == [x];
    } else {
      JoinSnoc(parts, x, BlankLine);
    }
  }
}

=== FILE: text.dfy ===
/** String primitives shared by every stage of the pipeline.

    Strings are sequences of characters. The regular-expression classes the
    pipeline relies on (`\s`, `\w`, `\d`) and the case mappings are modelled over
    an ASCII-like character abstraction: whitespace is the six ASCII whitespace
    characters, digits are `0`-`9`, case mapping touches only `A`-`Z` / `a`-`z`,
    and every code point from U+00C0 upward counts as a word character (this
    covers the Vietnamese letters of the corpus). */
module Text {

  datatype Option<T> = None | Some(value: T)

  // ---------------------------------------------------------------------------
  // Character classes
  // ---------------------------------------------------------------------------

  /** `\s` and the characters `str.strip()` removes. */
  predicate IsSpace(c: char) {
    c == ' ' || c == '\t' || c == '\n' || c == '\r' || c == '\U{0B}' || c == '\U{0C}'
  }

  /** `\d`, restricted to the ASCII digits. */
  predicate IsDigit(c: char) { '0' <= c <= '9' }

  predicate IsUpperAscii(c: char) { 'A' <= c <= 'Z' }

  predicate IsLowerAscii(c: char) { 'a' <= c <= 'z' }

  /** `\w`: letters, digits and underscore. */
  predicate IsWordChar(c: char) {
    IsUpperAscii(c) || IsLowerAscii(c) || IsDigit(c) || c == '_' || c as int >= 0xC0
  }

  /** One of the option letters `A`-`E`. */
  predicate IsOptionLetter(c: char) { 'A' <= c <= 'E' }

  function LowerChar(c: char): (r: char)
    ensures !IsUpperAscii(r)
    ensures IsUpperAscii(c) ==> IsLowerAscii(r)
    ensures !IsUpperAscii(c) ==> r == c
  {
    if IsUpperAscii(c) then (c as int + 32) as char else c
  }

  function UpperChar(c: char): (r: char)
    ensures !IsLowerAscii(r)
    ensures IsLowerAscii(c) ==> IsUpperAscii(r)
    ensures !IsLowerAscii(c) ==> r == c
  {
    if IsLowerAscii(c) then (c as int - 32) as char else c
  }

  /** `str.lower()`. */
  function Lower(s: string): (r: string)
    ensures |r| == |s|
    ensures forall i :: 0 <= i < |s| ==> r[i] == LowerChar(s[i])
  {
    seq(|s|, i requires 0 <= i < |s| => LowerChar(s[i]))
  }

  /** `str.upper()`. */
  function Upper(s: string): (r: string)
    ensures |r| == |s|
    ensures forall i :: 0 <= i < |s| ==> r[i] == UpperChar(s[i])
  {
    seq(|s|, i requires 0 <= i < |s| => UpperChar(s[i]))
  }

  ghost predicate AllSpace(s: string) {
    forall i :: 0 <= i < |s| ==> IsSpace(s[i])
  }

  // ---------------------------------------------------------------------------
  // Prefixes, suffixes, substrings
  // ---------------------------------------------------------------------------

  predicate StartsWith(s: string, p: string) {
    |p| <= |s| && s[..|p|] == p
  }

  predicate EndsWith(s: string, p: string) {
    |p| <= |s| && s[|s| - |p|..] == p
  }

  /** `s[:n]`: the first `n` characters, or all of `s` when it is shorter. */
  function Take(s: string, n: nat): (r: string)
    ensures |r| <= n && StartsWith(s, r)
    ensures |s| <= n ==> r == s
    ensures |s| > n ==> |r| == n
  {
    if |s| <= n then s else s[..n]
  }

  /** `sub` occurs in `s` starting at index `k`. */
  predicate OccursAt(s: string, sub: string, k: int) {
    0 <= k && k + |sub| <= |s| && s[k..k + |sub|] == sub
  }

  /** Index of the first occurrence of `sub` in `s` at or after `from`. */
  function IndexFrom(s: string, sub: string, from: nat): (r: Option<nat>)
    ensures r.Some? ==> from <= r.value && OccursAt(s, sub, r.value)
    ensures r.Some? ==> forall k :: from <= k < r.value ==> !OccursAt(s, sub, k)
    ensures r.None? ==> forall k :: from <= k ==> !OccursAt(s, sub, k)
    decreases |s| - from
  {
    if from + |sub| > |s| then None
    else if s[from..from + |sub|] == sub then Some(from)
    else IndexFrom(s, sub, from + 1)
  }

  /** `s.find(sub)`, as an option: the first occurrence. */
  function IndexOf(s: string, sub: string): (r: Option<nat>)
    ensures r.Some? ==> OccursAt(s, sub, r.value)
    ensures r.Some? ==> forall k :: 0 <= k < r.value ==> !OccursAt(s, sub, k)
    ensures r.None? ==> forall k :: !OccursAt(s, sub, k)
  {
    IndexFrom(s, sub, 0)
  }

  /** `sub in s`. */
  predicate Contains(s: string, sub: string) {
    exists k :: 0 <= k <= |s| && OccursAt(s, sub, k)
  }

  /** `s.find(sub)` succeeds exactly when `sub in s`. */
  lemma IndexOfIffContains(s: string, sub: string)
    ensures IndexOf(s, sub).Some? <==> Contains(s, sub)
  {
  }

  lemma ContainsAt(s: string, sub: string, k: int)
    requires OccursAt(s, sub, k)
    ensures Contains(s, sub)
  {
  }

  /** A substring of a prefix or suffix is a substring of the whole. */
  lemma ContainsInfix(s: string, lo: int, hi: int, sub: string)
    requires 0 <= lo <= hi <= |s|
    requires Contains(s[lo..hi], sub)
    ensures Contains(s, sub)
  {
    var k :| 0 <= k <= |s[lo..hi]| && OccursAt(s[lo..hi], sub, k);
    var t := s[lo..hi];
    assert k + |sub| <= |t|;
    var w := t[k..k + |sub|];
    var v := s[lo + k..lo + k + |sub|];
    forall i | 0 <= i < |sub| ensures w[i] == v[i] {
      assert t[k + i] == s[lo + k + i];
    }
    assert w == v;
    ContainsAt(s, sub, lo + k);
  }

  /** A text lacking one of the characters of `sub` cannot contain `sub`. */
  lemma MissingCharNotContained(s: string, sub: string, i: nat)
    requires i < |sub| && sub[i] !in s
    ensures !Contains(s, sub)
  {
    forall k | 0 <= k <= |s|
      ensures !OccursAt(s, sub, k)
    {
      if k + |sub| <= |s| {
        assert s[k..k + |sub|][i] == s[k + i];
      }
    }
  }

  /** The middle part of a three-part concatenation occurs where it starts. */
  lemma OccursInMiddle(a: string, b: string, c: string)
    ensures OccursAt(a + b + c, b, |a|)
  {
    assert (a + b + c)[|a|..|a| + |b|] == b;
  }

  lemma ContainsConcatLeft(a: string, b: string, sub: string)
    requires Contains(a, sub)
    ensures Contains(a + b, sub)
  {
    assert (a + b)[0..|a|] == a;
    ContainsInfix(a + b, 0, |a|, sub);
  }

  lemma ContainsConcatRight(a: string, b: string, sub: string)
    requires Contains(b, sub)
    ensures Contains(a + b, sub)
  {
    assert (a + b)[|a|..|a| + |b|] == b;
    ContainsInfix(a + b, |a|, |a| + |b|, sub);
  }

  // ---------------------------------------------------------------------------
  // Stripping and whitespace
  // ---------------------------------------------------------------------------

  /** `str.lstrip()`: drops the leading whitespace run, keeps the rest. */
  function TrimLeft(s: string): (r: string)
    ensures |r| <= |s|
    ensures r == [] || !IsSpace(r[0])
  {
    if |s| > 0 && IsSpace(s[0]) then TrimLeft(s[1..]) else s
  }

  /** `lstrip` removes exactly a leading run of whitespace. */
  lemma {:induction false} TrimLeftSuffix(s: string)
    ensures TrimLeft(s) == s[|s| - |TrimLeft(s)|..]
    ensures forall i :: 0 <= i < |s| - |TrimLeft(s)| ==> IsSpace(s[i])
    decreases |s|
  {
    if |s| > 0 && IsSpace(s[0]) {
      TrimLeftSuffix(s[1..]);
      assert s[1..][|s| - 1 - |TrimLeft(s)|..] == s[|s| - |TrimLeft(s)|..];
      forall i | 0 <= i < |s| - |TrimLeft(s)| ensures IsSpace(s[i]) {
        if i > 0 { assert s[i] == s[1..][i - 1]; }
      }
    }
  }

  /** `str.rstrip()`: drops the trailing whitespace run, keeps the rest. */
  function TrimRight(s: string): (r: string)
    ensures |r| <= |s|
    ensures r == [] || !IsSpace(r[|r| - 1])
  {
    if |s| > 0 && IsSpace(s[|s| - 1]) then TrimRight(s[..|s| - 1]) else s
  }

  /** `rstrip` removes exactly a trailing run of whitespace. */
  lemma {:induction false} TrimRightPrefix(s: string)
    ensures TrimRight(s) == s[..|TrimRight(s)|]
    ensures forall i :: |TrimRight(s)| <= i < |s| ==> IsSpace(s[i])
    decreases |s|
  {
    if |s| > 0 && IsSpace(s[|s| - 1]) {
      TrimRightPrefix(s[..|s| - 1]);
      assert s[..|s| - 1][..|TrimRight(s)|] == s[..|TrimRight(s)|];
      forall i | |TrimRight(s)| <= i < |s| ensures IsSpace(s[i]) {
        if i < |s| - 1 { assert s[i] == s[..|s| - 1][i]; }
      }
    }
  }

  /** `str.strip()`. */
  function Strip(s: string): (r: string)
    ensures r == [] || (!IsSpace(r[0]) && !IsSpace(r[|r| - 1]))
    ensures |r| <= |s|
  {
    var l := TrimLeft(s);
    TrimRightPrefix(l);
    TrimRight(l)
  }

  /** The stripped text is the infix of `s` obtained by dropping a run of
      whitespace on each side. */
  lemma StripIsInfix(s: string) returns (lo: nat)
    ensures lo + |Strip(s)| <= |s|
    ensures Strip(s) == s[lo..lo + |Strip(s)|]
    ensures forall i :: 0 <= i < lo ==> IsSpace(s[i])
    ensures forall i :: lo + |Strip(s)| <= i < |s| ==> IsSpace(s[i])
  {
    var l := TrimLeft(s);
    lo := |s| - |l|;
    TrimLeftSuffix(s);
    TrimRightPrefix(l);
    assert l == s[lo..];
    var r := TrimRight(l);
    assert r == Strip(s);
    assert r == l[..|r|];
    assert l[..|r|] == s[lo..lo + |r|];
    forall i | lo + |r| <= i < |s|
      ensures IsSpace(s[i])
    {
      assert s[i] == l[i - lo];
      assert |r| <= i - lo < |l|;
    }
  }

  /** `strip()` returns the empty string exactly for all-whitespace input. */
  lemma StripEmptyIff(s: string)
    ensures Strip(s) == [] <==> AllSpace(s)
  {
    var lo := StripIsInfix(s);
    if !AllSpace(s) {
      var i :| 0 <= i < |s| && !IsSpace(s[i]);
      assert lo <= i < lo + |Strip(s)|;
    }
  }

  /** A string with no outer whitespace is its own strip. */
  lemma StripNoop(s: string)
    requires s == [] || (!IsSpace(s[0]) && !IsSpace(s[|s| - 1]))
    ensures Strip(s) == s
  {
  }

  lemma StripIdempotent(s: string)
    ensures Strip(Strip(s)) == Strip(s)
  {
    StripNoop(Strip(s));
  }

  /** A string starting with a non-space character keeps that start: the
      prefix `p` survives `strip()` when its first character is not a space. */
  lemma StripKeepsPrefix(s: string, p: string)
    requires StartsWith(s, p) && |p| > 0 && !IsSpace(p[0])
    ensures StartsWith(Strip(s), p) || (Strip(s) == TrimRight(s) && |TrimRight(s)| < |p|)
  {
    assert TrimLeft(s) == s;
    TrimRightPrefix(s);
  }

  /** A pattern with no whitespace at either end occurs in the stripped text
      exactly when it occurs in the text. */
  lemma ContainsStripped(s: string, p: string)
    requires |p| > 0 && !IsSpace(p[0]) && !IsSpace(p[|p| - 1])
    ensures Contains(Strip(s), p) <==> Contains(s, p)
  {
    var lo := StripIsInfix(s);
    if Contains(Strip(s), p) {
      ContainsInfix(s, lo, lo + |Strip(s)|, p);
    }
    if Contains(s, p) {
      var k :| 0 <= k <= |s| && OccursAt(s, p, k);
      OccurrenceInsideStrip(s, p, lo, k);
    }
  }

  lemma OccurrenceInsideStrip(s: string, p: string, lo: nat, k: nat)
    requires |p| > 0 && !IsSpace(p[0]) && !IsSpace(p[|p| - 1])
    requires lo + |Strip(s)| <= |s| && Strip(s) == s[lo..lo + |Strip(s)|]
    requires forall i :: 0 <= i < lo ==> IsSpace(s[i])
    requires forall i :: lo + |Strip(s)| <= i < |s| ==> IsSpace(s[i])
    requires OccursAt(s, p, k)
    ensures Contains(Strip(s), p)
  {
    var t := Strip(s);
    var w := s[k..k + |p|];
    assert w == p;
    assert s[k] == w[0];
    assert s[k + |p| - 1] == w[|p| - 1];
    assert lo <= k;
    assert k + |p| <= lo + |t|;
    var v := t[k - lo..k - lo + |p|];
    forall i | 0 <= i < |p| ensures v[i] == w[i] {
      assert v[i] == t[k - lo + i] == s[k + i];
    }
    assert v == w;
    ContainsAt(t, p, k - lo);
  }

  /** `re.sub(r"\s+", " ", s)`: every maximal whitespace run becomes one space. */
  function CollapseSpaces(s: string): (r: string)
    ensures |r| <= |s|
    ensures forall i :: 0 <= i < |r| && IsSpace(r[i]) ==> r[i] == ' '
    ensures forall i :: 0 <= i < |r| - 1 ==> !(IsSpace(r[i]) && IsSpace(r[i + 1]))
    ensures |s| > 0 ==> |r| > 0 && (IsSpace(r[0]) <==> IsSpace(s[0]))
    decreases |s|
  {
    if |s| == 0 then ""
    else if IsSpace(s[0]) then
      var rest := TrimLeft(s);
      var t := CollapseSpaces(rest);
      " " + t
    else [s[0]] + CollapseSpaces(s[1..])
  }

  /** `re.sub(r"\s+", " ", s).strip()`: the normal form used by the extractors. */
  function Squash(s: string): (r: string)
    ensures r == [] || (!IsSpace(r[0]) && !IsSpace(r[|r| - 1]))
  {
    Strip(CollapseSpaces(s))
  }

  /** Every character `CollapseSpaces` keeps that is not whitespace comes
      from its input. */
  lemma {:induction false} CollapseKeeps(s: string)
    ensures forall c :: c in CollapseSpaces(s) && !IsSpace(c) ==> c in s
    decreases |s|
  {
    if |s| > 0 {
      if IsSpace(s[0]) {
        var rest := TrimLeft(s);
        TrimLeftSuffix(s);
        CollapseKeeps(rest);
      } else {
        CollapseKeeps(s[1..]);
      }
    }
  }

  /** A text already in `Squash`'s normal form is left as it is. */
  lemma SquashFixed(s: string)
    requires s == [] || (!IsSpace(s[0]) && !IsSpace(s[|s| - 1]))
    requires forall i :: 0 <= i < |s| && IsSpace(s[i]) ==> s[i] == ' '
    requires forall i :: 0 <= i < |s| - 1 ==> !(IsSpace(s[i]) && IsSpace(s[i + 1]))
    ensures Squash(s) == s
  {
    CollapseFixed(s);
    StripNoop(s);
  }

  lemma {:induction false} CollapseFixed(s: string)
    requires forall i :: 0 <= i < |s| && IsSpace(s[i]) ==> s[i] == ' '
    requires forall i :: 0 <= i < |s| - 1 ==> !(IsSpace(s[i]) && IsSpace(s[i + 1]))
    ensures CollapseSpaces(s) == s
    decreases |s|
  {
    if |s| > 0 {
      var t := s[1..];
      assert forall i :: 0 <= i < |t| ==> t[i] == s[i + 1];
      CollapseFixed(t);
      if IsSpace(s[0]) {
        assert TrimLeft(s) == TrimLeft(t);
        assert TrimLeft(t) == t by {
          if |t| > 0 { assert !IsSpace(s[1]); }
        }
        assert s == " " + t;
      } else {
        assert s == [s[0]] + t;
      }
    }
  }

  /** A character absent from `s` is absent from its strip. */
  lemma StripAvoids(s: string, c: char)
    requires c !in s
    ensures c !in Strip(s)
  {
    var lo := StripIsInfix(s);
  }

  /** A character absent from `s` is absent from every suffix of it. */
  lemma SuffixAvoids(s: string, k: nat, c: char)
    requires c !in s && k <= |s|
    ensures c !in s[k..]
  {
  }

  /** After `Squash` the only whitespace is single spaces, and every other
      character comes from the input. */
  lemma SquashShape(s: string)
    ensures forall i :: 0 <= i < |Squash(s)| && IsSpace(Squash(s)[i]) ==> Squash(s)[i] == ' '
    ensures forall i :: 0 <= i < |Squash(s)| - 1 ==> !(IsSpace(Squash(s)[i]) && IsSpace(Squash(s)[i + 1]))
    ensures forall c :: c in Squash(s) && !IsSpace(c) ==> c in s
  {
    var t := CollapseSpaces(s);
    var lo := StripIsInfix(t);
    var r := Squash(s);
    forall i | 0 <= i < |r| ensures r[i] == t[lo + i] {
    }
    CollapseKeeps(s);
  }

  // ---------------------------------------------------------------------------
  // Splitting and joining
  // ---------------------------------------------------------------------------

  /** `sep.join(parts)`. */
  function Join(parts: seq<string>, sep: string): string
  {
    if |parts| == 0 then ""
    else if |parts| == 1 then parts[0]
    else parts[0] + sep + Join(parts[1..], sep)
  }

  /** `s.split(sep)` for a non-empty separator: the pieces between the
      leftmost non-overlapping occurrences, found by scanning left to right. */
  function Split(s: string, sep: string): (r: seq<string>)
    requires |sep| > 0
    ensures |r| >= 1
    decreases |s|
  {
    if |s| < |sep| then [s]
    else if s[..|sep|] == sep then [""] + Split(s[|sep|..], sep)
    else
      var rest := Split(s[1..], sep);
      [[s[0]] + rest[0]] + rest[1..]
  }

  /** Joining the pieces with the separator gives the text back. */
  lemma {:induction false} SplitJoin(s: string, sep: string)
    requires |sep| > 0
    ensures Join(Split(s, sep), sep) == s
    decreases |s|
  {
    if |s| < |sep| {
    } else if s[..|sep|] == sep {
      SplitJoin(s[|sep|..], sep);
      JoinCons("", Split(s[|sep|..], sep), sep);
      assert s == sep + s[|sep|..];
    } else {
      var rest := Split(s[1..], sep);
      SplitJoin(s[1..], sep);
      JoinHeadChar(s[0], rest, sep);
      assert s == [s[0]] + s[1..];
    }
  }

  /** Putting a character in front of the first part puts it in front of
      the join. */
  lemma JoinHeadChar(c: char, parts: seq<string>, sep: string)
    requires |parts| > 0
    ensures Join([[c] + parts[0]] + parts[1..], sep) == [c] + Join(parts, sep)
  {
    if |parts| > 1 {
      JoinCons(parts[0], parts[1..], sep);
      JoinCons([c] + parts[0], parts[1..], sep);
      assert [parts[0]] + parts[1..] == parts;
    }
  }

  /** The first piece is a prefix of the text. */
  lemma {:induction false} SplitHeadPrefix(s: string, sep: string)
    requires |sep| > 0
    ensures StartsWith(s, Split(s, sep)[0])
    decreases |s|
  {
    if |s| >= |sep| && s[..|sep|] != sep {
      SplitHeadPrefix(s[1..], sep);
      var h := Split(s[1..], sep)[0];
      assert s[..|h| + 1] == [s[0]] + s[1..][..|h|];
    }
  }

  /** No piece of a split contains the separator. */
  lemma {:induction false} SplitPiecesFree(s: string, sep: string)
    requires |sep| > 0
    ensures forall i, j :: 0 <= i < |Split(s, sep)| ==> !OccursAt(Split(s, sep)[i], sep, j)
    decreases |s|
  {
    if |s| < |sep| {
    } else if s[..|sep|] == sep {
      SplitPiecesFree(s[|sep|..], sep);
    } else {
      var rest := Split(s[1..], sep);
      var h := [s[0]] + rest[0];
      SplitPiecesFree(s[1..], sep);
      SplitHeadPrefix(s[1..], sep);
      forall j ensures !OccursAt(h, sep, j) {
        if j == 0 && |sep| <= |h| {
          assert h[..|sep|] == s[..|sep|];
        } else if 1 <= j && j + |sep| <= |h| {
          assert h[j..j + |sep|] == rest[0][j - 1..j - 1 + |sep|];
          assert !OccursAt(rest[0], sep, j - 1);
        }
      }
      var r := Split(s, sep);
      forall i | 1 <= i < |r| ensures r[i] == rest[i] {
      }
    }
  }

  /** No piece of a split contains the separator, as `sep in piece`. */
  lemma SplitPiecesFreeContains(s: string, sep: string, i: nat)
    requires |sep| > 0 && i < |Split(s, sep)|
    ensures !Contains(Split(s, sep)[i], sep)
  {
    SplitPiecesFree(s, sep);
  }

  /** A text holding the separator splits into at least two pieces. */
  lemma {:induction false} SplitAtOccurrence(s: string, sep: string, k: nat)
    requires |sep| > 0 && OccursAt(s, sep, k)
    ensures |Split(s, sep)| >= 2
    decreases |s|
  {
    if s[..|sep|] != sep {
      assert k > 0;
      assert s[1..][k - 1..k - 1 + |sep|] == s[k..k + |sep|];
      SplitAtOccurrence(s[1..], sep, k - 1);
    }
  }

  lemma SplitWhenContains(s: string, sep: string)
    requires |sep| > 0 && Contains(s, sep)
    ensures |Split(s, sep)| >= 2
  {
    var k :| 0 <= k <= |s| && OccursAt(s, sep, k);
    SplitAtOccurrence(s, sep, k);
  }

  /** A text that does not start with the separator gives its first
      character to the first piece. */
  lemma SplitFirstChar(s: string, sep: string)
    requires |sep| > 0 && |s| > 0 && !StartsWith(s, sep)
    ensures Split(s, sep) == [[s[0]] + Split(s[1..], sep)[0]] + Split(s[1..], sep)[1..]
  {
    if |s| < |sep| {
      assert [s[0]] + s[1..] == s;
    }
  }

  /** When none of the first `n` characters can start the separator, the first
      piece begins with those `n` characters. */
  lemma {:induction false} SplitHeadStart(s: string, sep: string, n: nat)
    requires |sep| > 0 && n <= |s|
    requires forall i :: 0 <= i < n ==> s[i] != sep[0]
    ensures StartsWith(Split(s, sep)[0], s[..n])
    decreases n
  {
    if n > 0 && |s| >= |sep| {
      assert s[..|sep|][0] != sep[0];
      SplitHeadStart(s[1..], sep, n - 1);
      var t := s[1..][..n - 1];
      assert forall i :: 0 <= i < n - 1 ==> t[i] == s[i + 1];
      assert s[..n] == [s[0]] + t;
    }
  }

  /** Appending `sep` to `p` creates the first occurrence of `sep`: none
      starts inside `p`. */
  predicate Isolated(p: string, sep: string) {
    forall k :: 0 <= k < |p| ==> !OccursAt(p + sep, sep, k)
  }

  lemma IsolatedTail(p: string, sep: string)
    requires |p| > 0 && Isolated(p, sep)
    ensures Isolated(p[1..], sep)
  {
    forall k | 0 <= k < |p| - 1 ensures !OccursAt(p[1..] + sep, sep, k) {
      assert (p + sep)[1..] == p[1..] + sep;
      if OccursAt(p[1..] + sep, sep, k) {
        assert (p + sep)[k + 1..k + 1 + |sep|] == (p[1..] + sep)[k..k + |sep|];
        assert OccursAt(p + sep, sep, k + 1);
      }
    }
  }

  /** A piece that holds no separator is split off whole. */
  lemma {:induction false} SplitBeforeSep(p: string, sep: string, rest: string)
    requires |sep| > 0 && Isolated(p, sep)
    ensures Split(p + sep + rest, sep) == [p] + Split(rest, sep)
    decreases |p|
  {
    var s := p + sep + rest;
    if |p| == 0 {
      assert s == sep + rest;
      assert s[..|sep|] == sep && s[|sep|..] == rest;
    } else {
      assert s[..|sep|] == (p + sep)[..|sep|];
      assert !OccursAt(p + sep, sep, 0);
      IsolatedTail(p, sep);
      SplitBeforeSep(p[1..], sep, rest);
      assert s[1..] == p[1..] + sep + rest;
      assert [s[0]] + p[1..] == p;
    }
  }

  /** A text that holds no separator is one piece. */
  lemma {:induction false} SplitWhole(p: string, sep: string)
    requires |sep| > 0 && Isolated(p, sep)
    ensures Split(p, sep) == [p]
    decreases |p|
  {
    if |p| >= |sep| {
      assert p[..|sep|] == (p + sep)[..|sep|];
      assert !OccursAt(p + sep, sep, 0);
      IsolatedTail(p, sep);
      SplitWhole(p[1..], sep);
      assert [p[0]] + p[1..] == p;
    }
  }

  /** Splitting undoes joining when no part produces a separator early. */
  lemma {:induction false} SplitOfJoin(parts: seq<string>, sep: string)
    requires |sep| > 0 && |parts| > 0
    requires forall i :: 0 <= i < |parts| ==> Isolated(parts[i], sep)
    ensures Split(Join(parts, sep), sep) == parts
    decreases |parts|
  {
    if |parts| == 1 {
      SplitWhole(parts[0], sep);
    } else {
      SplitOfJoin(parts[1..], sep);
      SplitBeforeSep(parts[0], sep, Join(parts[1..], sep));
      assert [parts[0]] + parts[1..] == parts;
    }
  }

  /** For a one-character separator, isolation is absence of the character. */
  lemma IsolatedChar(p: string, c: char)
    requires c !in p
    ensures Isolated(p, [c])
  {
    forall k | 0 <= k < |p| ensures !OccursAt(p + [c], [c], k) {
      assert (p + [c])[k] == p[k];
    }
  }

  /** `s.replace(pat, rep)` for a non-empty `pat`. */
  function Replace(s: string, pat: string, rep: string): (r: string)
    requires |pat| > 0
  {
    Join(Split(s, pat), rep)
  }

  /** A character in neither the text nor the separator is in no piece. */
  lemma {:induction false} SplitAvoids(s: string, sep: string, c: char)
    requires |sep| > 0 && c !in s
    ensures forall i :: 0 <= i < |Split(s, sep)| ==> c !in Split(s, sep)[i]
    decreases |s|
  {
    if |s| >= |sep| {
      if s[..|sep|] == sep {
        SuffixAvoids(s, |sep|, c);
        SplitAvoids(s[|sep|..], sep, c);
      } else {
        SuffixAvoids(s, 1, c);
        SplitAvoids(s[1..], sep, c);
        var rest := Split(s[1..], sep);
        assert Split(s, sep) == [[s[0]] + rest[0]] + rest[1..];
        forall i | 0 < i < |Split(s, sep)| ensures c !in Split(s, sep)[i] {
          assert Split(s, sep)[i] == rest[i];
        }
      }
    }
  }

  /** A character in no part and not in the separator is not in the join. */
  lemma {:induction false} JoinAvoids(parts: seq<string>, sep: string, c: char)
    requires c !in sep
    requires forall i :: 0 <= i < |parts| ==> c !in parts[i]
    ensures c !in Join(parts, sep)
    decreases |parts|
  {
    if |parts| > 1 {
      JoinAvoids(parts[1..], sep, c);
    }
  }

  lemma ReplaceAvoids(s: string, pat: string, rep: string, c: char)
    requires |pat| > 0 && c !in s && c !in rep
    ensures c !in Replace(s, pat, rep)
  {
    SplitAvoids(s, pat, c);
    JoinAvoids(Split(s, pat), rep, c);
  }

  /** Deletes every occurrence of `c`, i.e. `s.replace(c, "")` for one character. */
  function DeleteChar(s: string, c: char): (r: string)
    ensures c !in r
    ensures forall x :: x in r <==> x in s && x != c
    ensures |r| <= |s|
  {
    if |s| == 0 then ""
    else if s[0] == c then DeleteChar(s[1..], c)
    else [s[0]] + DeleteChar(s[1..], c)
  }

  /** Deletes every character of `chars`, one after the other (the extractors'
      `for char in chars_to_remove: text = text.replace(char, "")`). */
  function DeleteChars(s: string, chars: string): (r: string)
    ensures forall c :: c in chars ==> c !in r
    ensures forall x :: x in r ==> x in s
    ensures |r| <= |s|
    decreases |chars|
  {
    if |chars| == 0 then s else DeleteChars(DeleteChar(s, chars[0]), chars[1..])
  }

  lemma JoinSingleton(x: string, sep: string)
    ensures Join([x], sep) == x
  {
  }

  lemma JoinCons(x: string, rest: seq<string>, sep: string)
    requires |rest| > 0
    ensures Join([x] + rest, sep) == x + sep + Join(rest, sep)
  {
    assert ([x] + rest)[1..] == rest;
  }

  /** Appending one part at the end of a join. */
  lemma {:induction false} JoinSnoc(parts: seq<string>, x: string, sep: string)
    requires |parts| > 0
    ensures Join(parts + [x], sep) == Join(parts, sep) + sep + x
    decreases |parts|
  {
    if |parts| == 1 {
      assert parts + [x] == [parts[0]] + [x];
      JoinCons(parts[0], [x], sep);
    } else {
      assert (parts + [x])[1..] == parts[1..] + [x];
      JoinCons(parts[0], parts[1..] + [x], sep);
      JoinSnoc(parts[1..], x, sep);
      JoinCons(parts[0], parts[1..], sep);
      assert [parts[0]] + parts[1..] == parts;
    }
  }

  // ---------------------------------------------------------------------------
  // Decimal rendering
  // ---------------------------------------------------------------------------

  function DigitChar(d: nat): (c: char)
    requires d < 10
    ensures IsDigit(c)
  {
    ('0' as int + d) as char
  }

  /** `str(n)` for a natural number. */
  function NatToString(n: nat): (r: string)
    ensures |r| > 0
    ensures forall i :: 0 <= i < |r| ==> IsDigit(r[i])
    ensures n < 10 ==> |r| == 1
    ensures 10 <= n < 100 ==> |r| == 2
    ensures 100 <= n < 1000 ==> |r| == 3
    ensures n >= 1000 ==> |r| >= 4
  {
    if n < 10 then [DigitChar(n)] else NatToString(n / 10) + [DigitChar(n % 10)]
  }

  /** `f"{n:03d}"`: decimal, left-padded with zeros to at least three digits. */
  function ZeroPad3(n: nat): (r: string)
    ensures n < 1000 ==> |r| == 3
    ensures n >= 1000 ==> |r| >= 4
    ensures forall i :: 0 <= i < |r| ==> IsDigit(r[i])
  {
    var d := NatToString(n);
    if |d| >= 3 then d else seq(3 - |d|, _ => '0') + d
  }
  /** The three digits of `f"{n:03d}"` for `n < 1000`: hundreds, tens, units. */
  lemma ZeroPad3Digits(n: nat)
    requires n < 1000
    ensures ZeroPad3(n) == [DigitChar(n / 100), DigitChar((n / 10) % 10), DigitChar(n % 10)]
  {
    assert DigitChar(0) == '0';
    if n < 10 {
      assert ZeroPad3(n) == ['0', '0'] + [DigitChar(n)];
    } else if n < 100 {
      assert NatToString(n) == [DigitChar(n / 10)] + [DigitChar(n % 10)];
      assert ZeroPad3(n) == ['0'] + NatToString(n);
    } else {
      var t := n / 10;
      assert 10 <= t < 100;
      assert t / 10 == n / 100;
      assert NatToString(t) == [DigitChar(t / 10)] + [DigitChar(t % 10)];
      assert ZeroPad3(n) == NatToString(t) + [DigitChar(n % 10)];
    }
  }
}

=== FILE: workflow.dfy ===
/** `QuizProcessingWorkflow.run_full_workflow`: the steps run in a fixed
    order, the first step that fails ends the run with an empty path, and the
    last step returns the most processed version of the merged corpus that
    exists on disk. */
module Workflow {
  import opened Text
  import opened Files
  import opened AnswerChecker
  import opened AnswerParser
  import opened AnswerReport
  import opened PlaceholderFix
  import opened DuplicateChecker
  import GeminiCorrector
  import SplitChunks
  import ManualMerge

  /** The merged corpus step 4 writes and steps 5 and 6 read. */
  const MergedFile: string := "final_corrected_quiz_data.txt"
  const FixedPrefix: string := "fixed_placeholder_options_"
  const CleanedPrefix: string := "cleaned_"

  /** The pause between chunks that step 3 asks the corrector for. */
  const CorrectionDelay: nat := 2

  // ---------------------------------------------------------------------------
  // Step 7: the final file
  // ---------------------------------------------------------------------------

  /** The versions of `base` in order of preference. */
  function Candidates(base: string): (r: seq<string>)
    ensures |r| == 4 && r[3] == base
  {
    [CleanedPrefix + FixedPrefix + base, CleanedPrefix + base, FixedPrefix + base, base]
  }

  /** The index of the first candidate that exists. */
  function FirstExisting(cands: seq<string>, existing: set<string>, i: nat): (r: Option<nat>)
    requires i <= |cands|
    ensures r.Some? ==> i <= r.value < |cands| && cands[r.value] in existing
    ensures forall j :: i <= j < |cands| && (r.None? || j < r.value) ==> cands[j] !in existing
    decreases |cands| - i
  {
    if i == |cands| then None
    else if cands[i] in existing then Some(i)
    else FirstExisting(cands, existing, i + 1)
  }

  /** `step7_finalize(base)`: the first version of `base` that exists, or the
      empty path when none does. A found path is only returned when it is not
      empty, as the source tests `if final_file:`. */
  function Finalize(existing: set<string>, base: string): (r: string)
    ensures r != [] ==> r in existing
    ensures r != [] ==>
      exists i :: 0 <= i < 4 && r == Candidates(base)[i] && forall j :: 0 <= j < i ==> Candidates(base)[j] !in existing
    ensures r == [] <==> forall j :: 0 <= j < 4 ==> Candidates(base)[j] !in existing || Candidates(base)[j] == []
  {
    var cands := Candidates(base);
    match FirstExisting(cands, existing, 0)
    case None => []
    case Some(i) =>
      assert forall j :: 0 <= j < i ==> cands[j] !in existing;
      cands[i]
  }

  // ---------------------------------------------------------------------------
  // Steps 3 to 6
  // ---------------------------------------------------------------------------

  /** `step3_gemini_correction` once the corrector has returned its results:
      an API key and the input directory are needed, and the step succeeds
      when at least one chunk was corrected; an empty result dict fails. */
  predicate Step3(apiKey: string, input: Dir, results: GeminiCorrector.Results) {
    apiKey != [] && input.Present? && results.Finished? && results.tally.successful > 0
  }

  /** What step 5 and step 6 end with: a failure, or the files they wrote. */
  datatype StepResult = Failed | Done(written: seq<FileEntry>)

  /** `step5_answer_checking` on the merged corpus, `None` when the file does
      not exist. The step fails when the report is an error (no record
      parsed); otherwise, when some record has an issue and the
      `placeholder_options` count is positive, it writes the file with the
      placeholder options removed. */
  function Step5(ck: Checker, content: Option<string>): (r: StepResult)
    ensures WritesAtMost(r, FixedPrefix + MergedFile)
  {
    if content.None? then Failed
    else CheckAnswers(ParseQaFile(ck, content.value), FixPlaceholderOptions(ck, content.value).0)
  }

  /** Step 5's decision on the parsed records, with the text the auto-fix
      would write. */
  function CheckAnswers(records: seq<QaRecord>, fixedText: string): (r: StepResult)
    ensures WritesAtMost(r, FixedPrefix + MergedFile)
  {
    match GenerateReport(records)
    case NoRecords => Failed
    case Summary(_, _, withIssues, breakdown) =>
      // breakdown[3] is the `placeholder_options` entry.
      if withIssues > 0 && breakdown[3].count > 0 then Done([FileEntry(FixedPrefix + MergedFile, fixedText)])
      else Done([])
  }

  /** `step6_duplicate_checking` on the merged corpus, `None` when the file
      does not exist. The step fails when the report is an error (no record
      parsed); otherwise, when there is an exact-duplicate group, it writes
      the cleaned file. Similar groups only produce a warning. */
  function Step6(ratio: (string, string) -> real, threshold: real, content: Option<string>): (r: StepResult)
    ensures WritesAtMost(r, CleanedPrefix + MergedFile)
  {
    if content.None? then Failed
    else CheckDuplicates(ratio, threshold, DupParseQaFile(content.value), CreateCleanedFile(content.value, true).0)
  }

  /** Step 6's decision on the parsed records, with the text the cleaning
      would write. */
  function CheckDuplicates(ratio: (string, string) -> real, threshold: real, records: seq<DupRecord>,
                           cleanedText: string): (r: StepResult)
    ensures WritesAtMost(r, CleanedPrefix + MergedFile)
  {
    match GenerateDupReport(ratio, threshold, records)
    case NoPairs => Failed
    case DupSummary(_, _, exactGroups, _, _, _, _) =>
      if |exactGroups| > 0 then Done([FileEntry(CleanedPrefix + MergedFile, cleanedText)])
      else Done([])
  }

  // ---------------------------------------------------------------------------
  // The whole run
  // ---------------------------------------------------------------------------

  /** `run_full_workflow`, given whether steps 1 to 3 succeeded and what the
      merge of step 4 did. Steps 5 and 6 both read the merged file as step 4
      wrote it; step 7 looks among the files that exist by then. */
  function RunFullWorkflow(extracted: bool, split: bool, corrected: bool, merge: ManualMerge.ManualOutcome,
                           ck: Checker, ratio: (string, string) -> real, threshold: real,
                           existing: set<string>): (r: string)
  {
    if !extracted || !split || !corrected || !merge.Wrote? then []
    else Conclude(existing, Step5(ck, Some(merge.text)), Step6(ratio, threshold, Some(merge.text)))
  }

  /** Steps 5 to 7 once the merged file exists: a failed step ends the run,
      and step 7 chooses among the files on disk, the merged file and the
      files steps 5 and 6 wrote included. */
  function Conclude(existing: set<string>, fixed: StepResult, cleaned: StepResult): (r: string)
  {
    if fixed.Failed? || cleaned.Failed? then []
    else Finalize(existing + {MergedFile} + EntryNames(fixed.written) + EntryNames(cleaned.written), MergedFile)
  }

  /** The run from step 3 on: the corrector processes the raw chunk directory
      into the corrected directory with a two-second pause, and step 4 merges
      the corrected directory with the stand-alone merge tool. */
  function Pipeline(extracted: bool, split: bool, apiKey: string, rawChunks: Dir, correctedDir: Dir,
                    service: GeminiCorrector.Service, unreadable: set<string>,
                    render: GeminiCorrector.Tally -> string, reply: string,
                    ck: Checker, ratio: (string, string) -> real, threshold: real,
                    existing: set<string>): (r: string)
  {
    var p := GeminiCorrector.ProcessChunksDirectory(rawChunks, correctedDir, service, CorrectionDelay, unreadable, render);
    RunFullWorkflow(extracted, split, Step3(apiKey, rawChunks, p.results),
      ManualMerge.MergeCorrectedChunks(p.output, reply), ck, ratio, threshold, existing)
  }

  // ---------------------------------------------------------------------------
  // Properties
  // ---------------------------------------------------------------------------

  /** The run returns a path exactly when every step succeeds; the path is
      then one of the versions of the merged file, and it exists. */
  lemma Gating(extracted: bool, split: bool, corrected: bool, merge: ManualMerge.ManualOutcome,
               ck: Checker, ratio: (string, string) -> real, threshold: real, existing: set<string>)
    ensures var r := RunFullWorkflow(extracted, split, corrected, merge, ck, ratio, threshold, existing);
      r != [] <==>
        && extracted && split && corrected && merge.Wrote?
        && Step5(ck, Some(merge.text)).Done? && Step6(ratio, threshold, Some(merge.text)).Done?
    ensures var r := RunFullWorkflow(extracted, split, corrected, merge, ck, ratio, threshold, existing);
      r != [] ==> r in Candidates(MergedFile)
  {
    var r := RunFullWorkflow(extracted, split, corrected, merge, ck, ratio, threshold, existing);
    if r != [] {
      var i :| 0 <= i < 4 && r == Candidates(MergedFile)[i];
    }
  }

  /** Step 5 fails exactly when no record parses, and writes the fixed file
      exactly when the `placeholder_options` count is positive: a counted
      placeholder option is an issue, so the outer test adds nothing. */
  lemma Step5Writes(ck: Checker, content: string)
    ensures var records := ParseQaFile(ck, content);
      && (Step5(ck, Some(content)).Failed? <==> records == [])
      && (Step5(ck, Some(content)).Done? ==>
           (Step5(ck, Some(content)).written != [] <==> |Bucket(records, PlaceholderOptions)| > 0))
      && (Step5(ck, Some(content)).Done? && Step5(ck, Some(content)).written != [] ==>
           Step5(ck, Some(content)).written[0].content == FixPlaceholderOptions(ck, content).0)
  {
    CheckAnswersWrites(ParseQaFile(ck, content), FixPlaceholderOptions(ck, content).0);
  }

  lemma CheckAnswersWrites(records: seq<QaRecord>, fixedText: string)
    ensures CheckAnswers(records, fixedText).Failed? <==> records == []
    ensures CheckAnswers(records, fixedText).Done? ==>
      (CheckAnswers(records, fixedText).written != [] <==> |Bucket(records, PlaceholderOptions)| > 0)
    ensures CheckAnswers(records, fixedText).Done? && CheckAnswers(records, fixedText).written != [] ==>
      CheckAnswers(records, fixedText).written[0].content == fixedText
  {
    if records != [] {
      assert Categories[3] == PlaceholderOptions;
      if |Bucket(records, PlaceholderOptions)| > 0 {
        ListedHasIssues(records, PlaceholderOptions);
      }
    }
  }

  /** Step 6 fails exactly when no record parses, and writes the cleaned file
      exactly when there is an exact-duplicate group. */
  lemma Step6Writes(ratio: (string, string) -> real, threshold: real, content: string)
    ensures var records := DupParseQaFile(content);
      && (Step6(ratio, threshold, Some(content)).Failed? <==> records == [])
      && (Step6(ratio, threshold, Some(content)).Done? ==>
           (Step6(ratio, threshold, Some(content)).written != [] <==> FindExactDuplicates(records) != []))
      && (Step6(ratio, threshold, Some(content)).Done? && Step6(ratio, threshold, Some(content)).written != [] ==>
           Step6(ratio, threshold, Some(content)).written[0].content == CreateCleanedFile(content, true).0)
  {
    CheckDuplicatesWrites(ratio, threshold, DupParseQaFile(content), CreateCleanedFile(content, true).0);
  }

  lemma CheckDuplicatesWrites(ratio: (string, string) -> real, threshold: real, records: seq<DupRecord>,
                              cleanedText: string)
    ensures var r := CheckDuplicates(ratio, threshold, records, cleanedText);
      && (r.Failed? <==> records == [])
      && (r.Done? ==> (r.written != [] <==> FindExactDuplicates(records) != []))
      && (r.Done? && r.written != [] ==> r.written[0].content == cleanedText)
  {
  }

  /** The four versions of the merged file have four different names. */
  lemma CandidatesDistinct()
    ensures forall i, j :: 0 <= i < j < 4 ==> Candidates(MergedFile)[i] != Candidates(MergedFile)[j]
  {
    var c := Candidates(MergedFile);
    assert |c[0]| == 63 && |c[1]| == 37 && |c[2]| == 55 && |c[3]| == 29;
  }

  /** A step result that, if done, wrote at most the one file `name`. */
  predicate WritesAtMost(s: StepResult, name: string) {
    s.Done? ==> |s.written| <= 1 && forall e :: e in s.written ==> e.name == name
  }

  lemma ConcludeAvoidsFirst(existing: set<string>, fixed: StepResult, cleaned: StepResult)
    requires CleanedPrefix + FixedPrefix + MergedFile !in existing
    requires WritesAtMost(fixed, FixedPrefix + MergedFile) && WritesAtMost(cleaned, CleanedPrefix + MergedFile)
    ensures Conclude(existing, fixed, cleaned) != CleanedPrefix + FixedPrefix + MergedFile
  {
    CandidatesDistinct();
  }

  lemma ConcludeFresh(existing: set<string>, fixed: StepResult, cleaned: StepResult)
    requires forall j :: 0 <= j < 4 ==> Candidates(MergedFile)[j] !in existing
    requires fixed.Done? && cleaned.Done?
    requires WritesAtMost(fixed, FixedPrefix + MergedFile) && WritesAtMost(cleaned, CleanedPrefix + MergedFile)
    ensures Conclude(existing, fixed, cleaned)
      == if cleaned.written != [] then CleanedPrefix + MergedFile
         else if fixed.written != [] then FixedPrefix + MergedFile
         else MergedFile
  {
    var c := Candidates(MergedFile);
    var files := existing + {MergedFile} + EntryNames(fixed.written) + EntryNames(cleaned.written);
    CandidatesDistinct();
    assert c[0] !in files;
    assert c[1] in files <==> cleaned.written != [] by {
      if cleaned.written != [] {
        assert cleaned.written[0] in cleaned.written;
      }
    }
    assert c[2] in files <==> fixed.written != [] by {
      if fixed.written != [] {
        assert fixed.written[0] in fixed.written;
      }
    }
    assert c[3] in files;
  }

  /** Duplicate checking reads the merged file, not the fixed one, so the run
      never makes the first-preference file itself: it is returned only when
      it was already on disk before the run. */
  lemma NeverFirstPreference(extracted: bool, split: bool, corrected: bool, merge: ManualMerge.ManualOutcome,
                             ck: Checker, ratio: (string, string) -> real, threshold: real, existing: set<string>)
    requires CleanedPrefix + FixedPrefix + MergedFile !in existing
    ensures RunFullWorkflow(extracted, split, corrected, merge, ck, ratio, threshold, existing)
      != CleanedPrefix + FixedPrefix + MergedFile
  {
    if extracted && split && corrected && merge.Wrote? {
      ConcludeAvoidsFirst(existing, Step5(ck, Some(merge.text)), Step6(ratio, threshold, Some(merge.text)));
    }
  }

  /** On a clean disk a successful run returns the cleaned file when step 6
      wrote one, else the fixed file when step 5 wrote one, else the merged
      file. */
  lemma FreshRunChoice(merge: ManualMerge.ManualOutcome, ck: Checker, ratio: (string, string) -> real,
                       threshold: real, existing: set<string>)
    requires forall j :: 0 <= j < 4 ==> Candidates(MergedFile)[j] !in existing
    requires merge.Wrote?
    requires Step5(ck, Some(merge.text)).Done? && Step6(ratio, threshold, Some(merge.text)).Done?
    ensures var fixed := Step5(ck, Some(merge.text)).written;
      var cleaned := Step6(ratio, threshold, Some(merge.text)).written;
      RunFullWorkflow(true, true, true, merge, ck, ratio, threshold, existing)
        == if cleaned != [] then CleanedPrefix + MergedFile
           else if fixed != [] then FixedPrefix + MergedFile
           else MergedFile
  {
    ConcludeFresh(existing, Step5(ck, Some(merge.text)), Step6(ratio, threshold, Some(merge.text)));
  }

  /** Step 3 and the corrector's own merge agree: for a raw chunk listing with
      unique names and a corrected directory without corrected chunk files,
      step 3 succeeds exactly when, with a key and an input directory, the
      corrected directory afterwards holds a corrected chunk file to merge. */
  lemma Step3MeansMergeable(apiKey: string, rawChunks: Dir, correctedDir: Dir, service: GeminiCorrector.Service,
                            unreadable: set<string>, render: GeminiCorrector.Tally -> string)
    requires rawChunks.Present? ==> UniqueNames(multiset(rawChunks.entries))
    requires correctedDir.Present? ==> forall x :: x in correctedDir.entries ==> !GeminiCorrector.CorrectedChunkName(x.name)
    ensures var p := GeminiCorrector.ProcessChunksDirectory(rawChunks, correctedDir, service, CorrectionDelay, unreadable, render);
      (Step3(apiKey, rawChunks, p.results) <==>
       apiKey != [] && rawChunks.Present? && GeminiCorrector.MergeCorrectedChunks(p.output).Merged?)
  {
    if rawChunks.Present? && AnyNamed(rawChunks.entries, GeminiCorrector.InputChunkName) {
      GeminiCorrector.ProcessThenMerge(rawChunks.entries, correctedDir, service, CorrectionDelay, unreadable, render);
    } else if rawChunks.Present? {
      var p := GeminiCorrector.ProcessChunksDirectory(rawChunks, correctedDir, service, CorrectionDelay, unreadable, render);
      var out := if correctedDir.Missing? then [] else correctedDir.entries;
      assert p.output == Present(out);
      assert !GeminiCorrector.MergeCorrectedChunks(p.output).Merged? by {
        SelectNone(out, GeminiCorrector.CorrectedChunkName);
        SelectEmptyIff(out, GeminiCorrector.CorrectedChunkName);
      }
    }
  }

  /** Step 3 corrects every file a split writes, the summary included: the
      corrector takes every `raw_chunk_*.txt` name, so the summary file
      `raw_chunk_summary.txt` is sent to the service like a chunk, and its
      corrected copy is then merged with the corrected chunks. */
  lemma SplitFilesAllCorrected(chunks: seq<string>, summary: string)
    ensures var files := SplitChunks.SplitFiles(chunks, summary);
      && files[|chunks|].name == SplitChunks.SummaryName
      && (forall k :: 0 <= k < |files| ==> GeminiCorrector.InputChunkName(files[k].name))
      && (forall k :: 0 <= k < |files| ==>
            GeminiCorrector.CorrectedChunkName(GeminiCorrector.CorrectedPrefix + files[k].name))
  {
    var files := SplitChunks.SplitFiles(chunks, summary);
    SplitChunks.SplitFilesNamed(chunks, summary);
    forall k | 0 <= k < |files|
      ensures GeminiCorrector.CorrectedChunkName(GeminiCorrector.CorrectedPrefix + files[k].name)
    {
      GeminiCorrector.CorrectedNameOfInput(files[k].name);
    }
  }
}
